=== FILE: README.md ===
# Fox in Dafny

A model of the core of Fox, a small 32-bit stack machine, with proofs about it. The model covers:

- the interpreter (`fox-vm`): one 16 MiB byte memory that holds the program, the operand stack, the return stack and the locals frame; the fetch/decode/execute loop; and the RAM/MMIO routing of loads and stores;
- the memory-mapped devices: the device-routing table, the system, keyboard, mouse and screen devices, and direct memory access (DMA);
- the assembler (`fox-asm`): tokenizer, parser and emitter;
- the opcode table and memory map (`fox-bytecode`).

## How the model is laid out

Bytes and words are naturals bounded by 2^8 and 2^32 (`Bytes.Byte`, `Bytes.Word`). Every u32 wrap-around, truncating cast and overflow panic in the modelled crates, and in the two hosts' window-size products, is written out.

**Interpreter state.** The three stack cursors count words into the single memory block (`VmState.VM`), as in the program: the operand stack, the return stack and the locals frame are 1 KiB regions at the top of memory. `VmState.Stack`, `VmState.Returns` and `VmState.Locals` read them back out of memory. An SW into a stack region therefore changes that stack (`VmMemoryProps.SwIntoStack`).

**Faults.** Every operation that panics in the program, or runs outside its region, gives a `Fault` or `None` in the model:

- a `Result` for the interpreter and the assembler;
- an `Option` for the screen;
- `Abort` for a device access.

**Opcode bytes.** Fourteen of the interpreter's opcode bytes are not defined in the bytecode crate, so they are a parameter (`VmDecode.ExtOpcodes`); `VmDecode.ValidExt` says they are distinct bytes that no OP_ constant names. The same holds for the keyboard's register offsets and the screen's command-entry layout, which the interpreter imports from submodules of the memory map that the memory map itself does not define (see Left out).

**Devices.** The interpreter reaches the devices through a `VmExec.Machine`: four functions over an opaque device state.

**Run budget.** `VmExec.Run` is the program's `run` loop with a step budget. `VmExec.Loop` is that loop over any step function, so the lemmas about budgets (`VmFlowProps.LoopMonotone`, `VmFlowProps.LoopCompose`) hold for every step function.

## Model

| member | source | states |
|---|---|---|
| Bytes.FromLeOfLeBytes | crates/fox-vm/src/lib.rs:22-38 | decoding the little-endian bytes of a word gives the word back |
| Bytes.LeBytesOfFromLe | crates/fox-vm/src/lib.rs:22-38 | encoding the word that four bytes decode to gives the bytes back |
| Bytes.ZeroExtend | crates/fox-vm/src/lib.rs:77-79 | a byte widened to a word is below 256 and its low byte is the byte again |
| Bytes.LowByte | crates/fox-vm/src/lib.rs:267 | `(value & 0xFF) as u8` differs from the word by a multiple of 256 |
| Bytes.WriteWord | crates/fox-vm/src/lib.rs:428-435 | a word store puts the four little-endian bytes at a..a+3 and leaves every other byte alone |
| Bytes.ReadWriteSame | crates/fox-vm/src/lib.rs:414-435 | reading back the word just stored gives it |
| Bytes.ReadWriteOther | crates/fox-vm/src/lib.rs:414-435 | a word store does not disturb a word that does not overlap it |
| Bytes.ReadWordFrame | crates/fox-vm/src/lib.rs:414-422 | memories that agree on four bytes hold the same word there |
| Dma.ReadU8 | crates/fox-vm/src/lib.rs:14-16 | a DMA byte read succeeds exactly inside memory and yields that byte |
| Dma.WriteU8 | crates/fox-vm/src/lib.rs:18-20 | a DMA byte write succeeds exactly inside memory and changes that byte only |
| Dma.ReadU32 | crates/fox-vm/src/lib.rs:22-29 | a DMA word read succeeds exactly when all four bytes are in memory; its little-endian bytes are those bytes |
| Dma.WriteU32 | crates/fox-vm/src/lib.rs:31-38 | a DMA word write puts the word's little-endian bytes at addr..addr+3 and changes nothing else |
| Dma.Read | crates/fox-vm/src/lib.rs:58-63 | a buffer read succeeds exactly when it stays in memory and copies those bytes |
| Dma.Write | crates/fox-vm/src/lib.rs:65-70 | a buffer write succeeds exactly when it fits, places the buffer and changes nothing else |
| Dma.ReadStr | crates/fox-vm/src/lib.rs:40-50 | the string read is the NUL-free run of bytes up to the first NUL; it fails exactly when no NUL follows in memory |
| Dma.WriteStr | crates/fox-vm/src/lib.rs:52-56 | the string and one NUL are stored, and nothing else changes |
| Dma.ReadU32OfWriteU32 | crates/fox-vm/src/lib.rs:22-38 | a word written through DMA reads back |
| Dma.ReadOfWrite | crates/fox-vm/src/lib.rs:58-70 | a buffer written through DMA reads back |
| Dma.ReadStrOfWriteStr | crates/fox-vm/src/lib.rs:40-56 | a NUL-free string written with its terminator reads back unchanged |
| Dma.CStrOfTerminated | crates/fox-vm/src/lib.rs:41-46 | the C-string scan stops at the first NUL after a NUL-free run |
| MemoryMap.DevicePagesApart | crates/fox-bytecode/src/memory.rs:1-12 | the device pages are one 64 KiB page apart, in address order |
| MemoryMap.LayerWindowsAdjacent | crates/fox-bytecode/src/memory.rs:42-45 | the two 512 KiB layer windows are adjacent and disjoint |
| MemoryMap.ScreenRegistersInPage | crates/fox-bytecode/src/memory.rs:33-40 | the screen registers lie in the screen page, with the sixteen palette registers four bytes apart |
| MemoryMap.MmioAboveRam | crates/fox-bytecode/src/memory.rs:4-12 | every device page and layer window lies above the 16 MiB of RAM; code starts at 0x100 |
| Bytecode.FromStr | crates/fox-bytecode/src/lib.rs:85-132 | `from_str` lower-cases and then matches; its result is the match on the lower-cased text |
| Bytecode.OpcodeOfDiscriminant | crates/fox-bytecode/src/lib.rs:3-83 | every opcode's discriminant decodes back to that opcode |
| Bytecode.DiscriminantOfOpcodeOf | crates/fox-bytecode/src/lib.rs:3-83 | a byte decodes to an opcode only if it is that opcode's discriminant |
| VmDecode.UndefinedOf | crates/fox-bytecode/src/lib.rs:3-83 | a byte decodes to no opcode exactly when it differs from all 32 OP_ constants |
| Bytecode.DiscriminantInjective | crates/fox-bytecode/src/lib.rs:3-40 | the OP_* constants are pairwise distinct |
| Bytecode.AllOpcodesListed | crates/fox-bytecode/src/lib.rs:44-83 | the list of all opcodes holds every variant |
| Bytecode.LowerIdempotent | crates/fox-bytecode/src/lib.rs:88 | lower-casing twice is lower-casing once |
| Bytecode.FromStrCaseInsensitive | crates/fox-bytecode/src/lib.rs:88-131 | `from_str` gives the same answer for a string and its lower-case form |
| Bytecode.FromStrMnemonic | crates/fox-bytecode/src/lib.rs:88-131 | every mnemonic parses to its own opcode |
| Bytecode.MnemonicInjective | crates/fox-bytecode/src/lib.rs:89-127 | no two opcodes share a mnemonic, so no arm shadows another |
| Bytecode.MatchMnemonicComplete | crates/fox-bytecode/src/lib.rs:89-129 | each mnemonic reaches its own arm |
| Bytecode.LowerOfMnemonic | crates/fox-bytecode/src/lib.rs:89-127 | the mnemonics are already lower case |
| Bytecode.FromStrExact | crates/fox-bytecode/src/lib.rs:85-132 | `from_str` yields op exactly on the strings whose lower-case form is op's mnemonic |
| Alu.ApplyBin | crates/fox-vm/src/lib.rs:190-234 | a binary operation panics exactly on a zero divisor or an oversized shift, and says which; a comparison never fails and yields 1 exactly when it holds |
| Alu.Flag | crates/fox-vm/src/lib.rs:278 | a comparison flag is 0 or 1, and 1 exactly when the condition holds |
| Alu.Quotient | crates/fox-vm/src/lib.rs:205-209 | unsigned division never makes a word larger |
| Alu.SignFill | crates/fox-vm/src/lib.rs:243-248 | the sign fill of an i32 shifted right by b is a word whose top b bits are set and whose other bits are clear |
| Alu.BitwiseBits | crates/fox-vm/src/lib.rs:210-224 | every bit of AND, OR and XOR is the operation on the operands' bits |
| Alu.BitwiseSelf | crates/fox-vm/src/lib.rs:210-224 | a XOR a is 0, and a AND a and a OR a are a |
| Alu.ShiftRightBits | crates/fox-vm/src/lib.rs:230-234 | bit i of a logical right shift by b is bit i + b of the operand |
| Alu.ShiftRightArithDivides | crates/fox-vm/src/lib.rs:243-248 | SAR is floor division of the i32 value by 2^b |
| Alu.ShiftRightArithNegative | crates/fox-vm/src/lib.rs:243-248 | for a negative i32, SAR is floor division of a - 2^32 by 2^b |
| Alu.IncDecInverse | crates/fox-vm/src/lib.rs:235-242 | INC and DEC undo each other, wrapping at 0 and 2^32 - 1 |
| Alu.NotFlipsBits | crates/fox-vm/src/lib.rs:249-252 | NOT flips each of the 32 bits and is its own inverse |
| Alu.ComparisonsMirror | crates/fox-vm/src/lib.rs:281-304 | LT and LTE are GT and GTE with the operands swapped |
| Alu.ComparisonsNegate | crates/fox-vm/src/lib.rs:275-310 | GTE, LTE and NEQ are the negations of LT, GT and EQU |
| Alu.WordOr | crates/fox-vm/src/device/mouse.rs:52-72 | each bit of u32 OR is set exactly when it is set in either operand |
| Alu.WordAnd | crates/fox-vm/src/device/keyboard.rs:39-45 | each bit of u32 AND is set exactly when it is set in both operands |
| Alu.WordBits | crates/fox-vm/src/device/keyboard.rs:39-45 | words with the same 32 bits are equal |
| VmState.New | crates/fox-vm/src/lib.rs:105-119 | a new machine has zeroed memory, all three stacks empty, and ip at RESET_VECTOR |
| VmState.Load | crates/fox-vm/src/lib.rs:127-131 | loading succeeds exactly when the data fits from RESET_VECTOR on; it places the data there and changes nothing else |
| VmState.Push | crates/fox-vm/src/lib.rs:470-476 | push succeeds exactly below 256 words; the operand stack gains the word on top, and only its slot in memory changes |
| VmState.Pop | crates/fox-vm/src/lib.rs:478-484 | pop fails exactly on an empty stack, yields the top word and leaves the rest |
| VmState.Peek | crates/fox-vm/src/lib.rs:486-491 | peek yields the top word, or underflows on an empty stack |
| VmState.PeekN | crates/fox-vm/src/lib.rs:494-501 | peekn(n) yields the word n below the top exactly when the stack has more than n words |
| VmState.RPush | crates/fox-vm/src/lib.rs:503-509 | rpush succeeds exactly below 256 words and appends to the return stack; the other stacks are kept |
| VmState.RPop | crates/fox-vm/src/lib.rs:511-517 | rpop yields and removes the top of the return stack, or underflows |
| VmState.RPeek | crates/fox-vm/src/lib.rs:519-524 | rpeek yields the top of the return stack, or underflows |
| VmState.LBegin | crates/fox-vm/src/lib.rs:527-531 | lbegin(n) reserves n more locals, which hold whatever their slots held, while the frame stays within 256 words |
| VmState.LEnd | crates/fox-vm/src/lib.rs:533-538 | lend(n) releases the last n locals; it fails when fewer are reserved |
| VmState.LGet | crates/fox-vm/src/lib.rs:540-545 | lget(i) is local i counted down from the newest, when there are more than i |
| VmState.LSet | crates/fox-vm/src/lib.rs:547-552 | lset(i, v) replaces that local only, in memory, and keeps both stacks |
| VmState.WordsPush | crates/fox-vm/src/lib.rs:470-476 | storing the slot just above n words extends them by that word |
| VmState.WordsUpdate | crates/fox-vm/src/lib.rs:547-552 | storing slot i replaces word i and no other |
| VmExec.WithDefaultBytes | crates/fox-vm/src/lib.rs:73-83 | a machine built from word accesses keeps those word accesses |
| VmExec.DefaultByteAccess | crates/fox-vm/src/lib.rs:77-82 | the default byte write is a word write of the zero-extended byte; the default byte read is the low byte of a word read |
| VmExec.LoadWord | crates/fox-vm/src/lib.rs:414-426 | below MEM_SIZE, LW reads RAM little-endian; above it, the machine; a device abort is a fault |
| VmExec.StoreWord | crates/fox-vm/src/lib.rs:428-439 | below MEM_SIZE, SW writes RAM little-endian; above it, the machine |
| VmExec.LoadByte | crates/fox-vm/src/lib.rs:450-456 | below MEM_SIZE, LB reads one RAM byte; above it, the machine |
| VmExec.StoreByte | crates/fox-vm/src/lib.rs:441-448 | below MEM_SIZE, SB writes one RAM byte; above it, the machine |
| VmExec.FetchByte | crates/fox-vm/src/lib.rs:462-468 | a fetch yields the byte at ip and advances ip by one, and faults when ip is past memory |
| VmExec.FetchWord | crates/fox-vm/src/lib.rs:458-460 | a word fetch yields the little-endian word at ip..ip+3 and advances ip by four |
| VmExec.ExecLitW | crates/fox-vm/src/lib.rs:149-152 | LITW keeps every cursor in its region, moves ip past the literal, and leaves the return stack and locals |
| VmExec.ExecLitB | crates/fox-vm/src/lib.rs:180-183 | LITB keeps every cursor in its region and moves ip past the literal byte |
| VmExec.ExecSwap | crates/fox-vm/src/lib.rs:160-165 | SWAP keeps the cursors valid and ip, rp and the locals unchanged |
| VmExec.ExecDup | crates/fox-vm/src/lib.rs:153-156 | DUP keeps the cursors valid and ip, rp and the locals unchanged |
| VmExec.ExecDrop | crates/fox-vm/src/lib.rs:157-159 | DROP keeps the cursors valid and ip, rp and the locals unchanged |
| VmExec.ExecOver | crates/fox-vm/src/lib.rs:166-171 | OVER keeps the cursors valid and ip, rp and the locals unchanged |
| VmExec.ExecRot | crates/fox-vm/src/lib.rs:172-179 | ROT keeps the cursors valid and ip, rp and the locals unchanged |
| VmExec.ExecPick | crates/fox-vm/src/lib.rs:184-188 | PICK keeps the cursors valid and ip, rp and the locals unchanged |
| VmExec.ExecStack | crates/fox-vm/src/lib.rs:145-188 | the data-stack instructions never touch the return stack or the locals frame |
| VmExec.ExecBin | crates/fox-vm/src/lib.rs:190-310 | binary and comparison instructions keep the cursors valid and ip, rp and the locals unchanged |
| VmExec.ExecUn | crates/fox-vm/src/lib.rs:235-252 | INC, DEC and NOT keep the cursors valid and ip, rp and the locals unchanged |
| VmExec.ExecLw | crates/fox-vm/src/lib.rs:254-258 | LW keeps the cursors valid and ip, rp and the locals unchanged |
| VmExec.ExecLb | crates/fox-vm/src/lib.rs:269-273 | LB keeps the cursors valid and ip, rp and the locals unchanged |
| VmExec.ExecSw | crates/fox-vm/src/lib.rs:259-263 | SW keeps the cursors valid and ip, rp and the locals cursor unchanged |
| VmExec.ExecSb | crates/fox-vm/src/lib.rs:264-268 | SB keeps the cursors valid and ip, rp and the locals cursor unchanged |
| VmExec.ExecMem | crates/fox-vm/src/lib.rs:254-273 | the memory instructions never move ip, rp or the locals cursor |
| VmExec.ReturnAddress | crates/fox-vm/src/lib.rs:338-339 | the saved return address is ip itself while ip fits in a u32 |
| VmExec.ExecBranch | crates/fox-vm/src/lib.rs:318-335 | JZ and JNZ keep the cursors valid and leave the return stack and locals |
| VmExec.ExecCall | crates/fox-vm/src/lib.rs:336-343 | CALL keeps the cursors valid and leaves the locals |
| VmExec.ExecControl | crates/fox-vm/src/lib.rs:312-349 | jumps, calls and returns keep the cursors valid and never move the locals cursor |
| VmExec.ExecRPush | crates/fox-vm/src/lib.rs:350-353 | RPUSH keeps the cursors valid, ip and the locals cursor |
| VmExec.ExecRPop | crates/fox-vm/src/lib.rs:354-357 | RPOP keeps the cursors valid, ip and the locals cursor |
| VmExec.ExecRPeek | crates/fox-vm/src/lib.rs:358-361 | RPEEK keeps the cursors valid, ip and the locals cursor |
| VmExec.ExecRDrop | crates/fox-vm/src/lib.rs:362-364 | RDROP keeps the cursors valid, ip and the locals cursor |
| VmExec.ExecBegin | crates/fox-vm/src/lib.rs:365-368 | BEGIN keeps the cursors valid and ip |
| VmExec.ExecEnd | crates/fox-vm/src/lib.rs:369-372 | END keeps the cursors valid and ip |
| VmExec.ExecGet | crates/fox-vm/src/lib.rs:373-376 | GET keeps the cursors valid and ip, rp and the locals cursor |
| VmExec.ExecSet | crates/fox-vm/src/lib.rs:377-381 | SET keeps the cursors valid and ip, rp and the locals cursor |
| VmExec.ExecFrame | crates/fox-vm/src/lib.rs:350-381 | the return-stack and locals instructions never move ip |
| VmExec.Execute | crates/fox-vm/src/lib.rs:141-382 | every instruction keeps the cursors valid; only loads and stores can change the device state |
| VmExec.Step | crates/fox-vm/src/lib.rs:140-384 | HALT stops with ip past it and nothing else changed; an unassigned byte is the `unimplemented!` crash; a fetch past memory faults |
| VmExec.LoopInvariant | crates/fox-vm/src/lib.rs:140-384 | a property that every pass of the loop keeps holds of the state the loop ends in |
| VmExec.LoopKeepsValid | crates/fox-vm/src/lib.rs:140-384 | the interpreter loop keeps every cursor inside its region |
| VmExec.Run | crates/fox-vm/src/lib.rs:133-144 | `run` with entry 0 returns at once with nothing changed; any run that stops leaves the cursors valid |
| VmFlowProps.JmpEffect | crates/fox-vm/src/lib.rs:312-317 | JMP pops the target and continues there; the other stacks are kept |
| VmFlowProps.BranchEffect | crates/fox-vm/src/lib.rs:318-335 | JZ/JNZ pop the target, then the condition, and jump exactly when the condition is zero (JZ) or nonzero (JNZ) |
| VmFlowProps.CallEffect | crates/fox-vm/src/lib.rs:336-343 | CALL pops the target, pushes the address after the CALL on the return stack and jumps; it fails on an empty stack or a full return stack |
| VmFlowProps.RetEffect | crates/fox-vm/src/lib.rs:344-349 | RET pops the return stack and continues at that address |
| VmFlowProps.CallThenRet | crates/fox-vm/src/lib.rs:336-349 | a RET right after a CALL comes back after the CALL with the return stack as it was |
| VmFlowProps.RPushEffect | crates/fox-vm/src/lib.rs:350-353 | RPUSH moves the top word from the operand stack to the return stack |
| VmFlowProps.RPopEffect | crates/fox-vm/src/lib.rs:354-357 | RPOP moves the top word from the return stack to the operand stack |
| VmFlowProps.RPeekEffect | crates/fox-vm/src/lib.rs:358-361 | RPEEK copies the top of the return stack onto the operand stack |
| VmFlowProps.RDropEffect | crates/fox-vm/src/lib.rs:362-364 | RDROP discards the top of the return stack |
| VmFlowProps.RPushThenRPop | crates/fox-vm/src/lib.rs:350-357 | RPUSH followed by RPOP leaves both stacks as they were |
| VmFlowProps.BeginEffect | crates/fox-vm/src/lib.rs:365-368 | BEGIN pops n and opens n more locals |
| VmFlowProps.EndEffect | crates/fox-vm/src/lib.rs:369-372 | END pops n and closes the last n locals |
| VmFlowProps.BeginThenEnd | crates/fox-vm/src/lib.rs:527-538 | releasing the n locals just reserved gives back the same machine |
| VmFlowProps.GetEffect | crates/fox-vm/src/lib.rs:373-376 | GET replaces the index i on top with local i; it fails on an empty stack or a missing local |
| VmFlowProps.GetHit | crates/fox-vm/src/lib.rs:373-376 | with an index below the number of locals, GET pushes that local where the index was |
| VmFlowProps.SetEffect | crates/fox-vm/src/lib.rs:377-381 | SET pops the index, then the value, and stores the value in that local |
| VmFlowProps.SetThenGet | crates/fox-vm/src/lib.rs:540-552 | a local reads back the word last stored in it, and a store leaves the other locals alone |
| VmFlowProps.StepHalts | crates/fox-vm/src/lib.rs:141-144 | the HALT byte ends the loop with ip just past it |
| VmFlowProps.StepUnknown | crates/fox-vm/src/lib.rs:382 | a byte no arm matches crashes the interpreter |
| VmFlowProps.LoopMonotone | crates/fox-vm/src/lib.rs:140-384 | a loop that ends within a budget ends the same way with any larger budget |
| VmFlowProps.LoopCompose | crates/fox-vm/src/lib.rs:140-384 | running f steps and then g more is running f + g steps |
| VmFlowProps.RunMonotone | crates/fox-vm/src/lib.rs:133-144 | a run's result does not depend on the budget once the budget is enough |
| VmFlowProps.RunResume | crates/fox-vm/src/lib.rs:133-144 | a run cut short by the budget can be resumed from the state it reached |
| VmFlowProps.RunHaltsAtEntry | crates/fox-vm/src/lib.rs:133-144 | a run whose entry byte is HALT returns at once with ip just past it |
| VmProps.DupEffect | crates/fox-vm/src/lib.rs:153-156 | DUP copies the top word; it needs one word and one free slot |
| VmProps.DropEffect | crates/fox-vm/src/lib.rs:157-159 | DROP discards the top word |
| VmProps.SwapEffect | crates/fox-vm/src/lib.rs:160-165 | SWAP exchanges the top two words |
| VmProps.OverEffect | crates/fox-vm/src/lib.rs:166-171 | OVER pushes a copy of the second word |
| VmProps.OverFull | crates/fox-vm/src/lib.rs:166-171 | OVER on a full stack overflows |
| VmProps.RotEffect | crates/fox-vm/src/lib.rs:172-179 | ROT turns a b c into b c a |
| VmProps.PickFails | crates/fox-vm/src/lib.rs:184-188 | PICK fails exactly when the stack is empty or the index reaches past its bottom |
| VmProps.PickEffect | crates/fox-vm/src/lib.rs:184-188 | PICK replaces the index k on top with a copy of the word k places below it |
| VmProps.PickZeroIsDup | crates/fox-vm/src/lib.rs:184-188 | PICK with index 0 is DUP of the stack below the index |
| VmProps.LitWEffect | crates/fox-vm/src/lib.rs:149-152 | LITW pushes the little-endian word after the opcode and skips it |
| VmProps.LitBEffect | crates/fox-vm/src/lib.rs:180-183 | LITB pushes the byte after the opcode, zero-extended, and skips it |
| VmProps.BinFails | crates/fox-vm/src/lib.rs:190-234 | a binary instruction fails exactly on a short stack or an operand it panics on, with that fault |
| VmProps.BinEffect | crates/fox-vm/src/lib.rs:190-234 | otherwise it replaces the top two words a and b with a op b |
| VmProps.DivByZeroFaults | crates/fox-vm/src/lib.rs:205-209 | DIV by a zero word faults |
| VmProps.CompareEffect | crates/fox-vm/src/lib.rs:275-310 | a comparison replaces the top two words with 1 when it holds and 0 otherwise |
| VmProps.UnEffect | crates/fox-vm/src/lib.rs:235-252 | INC, DEC and NOT replace the top word with its image |
| VmMemoryProps.LwRamEffect | crates/fox-vm/src/lib.rs:254-258 | LW from RAM replaces the address on top with the little-endian word stored there |
| VmMemoryProps.SwRamEffect | crates/fox-vm/src/lib.rs:259-263 | SW to RAM pops address and value and writes the value's bytes there; a stack region it does not touch is kept |
| VmMemoryProps.SwIntoStack | crates/fox-vm/src/lib.rs:259-263 | the stacks live in memory: an SW aimed at operand-stack slot j overwrites that stack word |
| VmMemoryProps.StoreThenLoad | crates/fox-vm/src/lib.rs:254-263 | a word stored to RAM below the stack regions loads back |
| VmDecode.DecodeSound | crates/fox-vm/src/lib.rs:141-382 | a byte decodes only to the instruction whose opcode byte it is |
| VmDecode.DecodeComplete | crates/fox-vm/src/lib.rs:141-382 | with distinct extra opcodes, every instruction's byte decodes to that instruction |
| VmDecode.DecodeNoneIffUnassigned | crates/fox-vm/src/lib.rs:382 | a byte falls through to `unimplemented!` exactly when no arm is assigned to it |
| VmDecode.OpcodeByteInjective | crates/fox-vm/src/lib.rs:141-381 | distinct instructions have distinct bytes |
| VmDecode.OpcodeByteOfInstrOf | crates/fox-bytecode/src/lib.rs:44-83 | the interpreter's arm for an assembler opcode uses that opcode's discriminant |
| VmDecode.DecodeAssembled | crates/fox-bytecode/src/lib.rs:44-83 | the byte the assembler emits for an opcode decodes to the instruction of that opcode |
| Device.MatchDevice | crates/fox-vm/src/device/mod.rs:23-37 | the device number is a table index or u32::MAX |
| Device.ScanFirst | crates/fox-vm/src/device/mod.rs:24-34 | the scan from i finds the first range at or after i that holds the address |
| Device.MatchIsFirst | crates/fox-vm/src/device/mod.rs:23-37 | a returned index names a range holding the address, and no earlier range holds it |
| Device.NoDeviceIffUnmapped | crates/fox-vm/src/device/mod.rs:36 | u32::MAX comes back exactly when no range holds the address |
| Device.MatchUnique | crates/fox-vm/src/device/mod.rs:23-37 | in a table of disjoint ranges, the range holding the address is the one returned |
| System.Join | crates/fox-vm/src/device/system.rs:5-15 | the joined stream starts with the first argument followed by a NUL |
| System.New | crates/fox-vm/src/device/system.rs:23-28 | a new device has no exit code and streams the arguments after the first two |
| System.NulIndex | crates/fox-vm/src/device/system.rs:5-15 | the position of the first NUL, or the length when there is none |
| System.SplitJoin | crates/fox-vm/src/device/system.rs:5-15 | splitting the stream at its NULs gives back NUL-free arguments |
| System.Next | crates/fox-vm/src/device/system.rs:32-56 | the next byte is the head of the stream, or 0 once it is used up |
| System.ReadByte | crates/fox-vm/src/device/system.rs:32-39 | a byte read of READ takes the next byte; any other address panics |
| System.ReadWord | crates/fox-vm/src/device/system.rs:49-56 | a word read of READ takes the next byte zero-extended; any other address panics |
| System.WriteByte | crates/fox-vm/src/device/system.rs:41-47 | every byte write panics |
| System.WriteWord | crates/fox-vm/src/device/system.rs:58-65 | a write to EXIT records the exit code; any other address panics |
| System.ReadBytes | crates/fox-vm/src/device/system.rs:32-39 | n byte reads give n bytes |
| System.ReadBytesStream | crates/fox-vm/src/device/system.rs:32-39 | n byte reads give the first n bytes of the stream, padded with zeros |
| System.ReadArguments | crates/fox-vm/src/device/system.rs:5-39 | a program reading READ byte by byte gets each argument followed by a NUL, then zeros |
| System.SharedCursor | crates/fox-vm/src/device/system.rs:32-56 | word and byte reads of READ share one cursor |
| System.ExitLastWriteWins | crates/fox-vm/src/device/system.rs:58-65 | the last write to EXIT decides the exit code |
| Keyboard.New | crates/fox-vm/src/device/keyboard.rs:30-36 | a new keyboard has all registers zero |
| Keyboard.OnKey | crates/fox-vm/src/device/keyboard.rs:38-46 | a key event sets or clears exactly the key's bit of BUTTONS and nothing else |
| Keyboard.OnChar | crates/fox-vm/src/device/keyboard.rs:48-50 | a character event stores the character's scalar value in CODEPOINT |
| Keyboard.OnKeyIdempotent | crates/fox-vm/src/device/keyboard.rs:38-46 | pressing (or releasing) a key twice is doing it once |
| Keyboard.ReleaseAfterPress | crates/fox-vm/src/device/keyboard.rs:38-46 | pressing and then releasing a key is releasing it |
| Keyboard.OnKeySingleBit | crates/fox-vm/src/device/keyboard.rs:38-46 | a key whose flag is a single bit changes that bit only |
| Keyboard.ReadWord | crates/fox-vm/src/device/keyboard.rs:70-79 | word reads of VECTOR, CODEPOINT and BUTTONS succeed and change nothing; anything else panics |
| Keyboard.WriteWord | crates/fox-vm/src/device/keyboard.rs:81-90 | word writes to the three registers succeed, but only VECTOR stores its value; anything else panics |
| Keyboard.ReadByte | crates/fox-vm/src/device/keyboard.rs:54-60 | every byte read panics |
| Keyboard.WriteByte | crates/fox-vm/src/device/keyboard.rs:62-68 | every byte write panics |
| Keyboard.RegistersReadBack | crates/fox-vm/src/device/keyboard.rs:38-90 | VECTOR reads back what was written, CODEPOINT the last character, BUTTONS the key state; writes to CODEPOINT and BUTTONS are ignored |
| Mouse.New | crates/fox-vm/src/device/mouse.rs:15-25 | a new mouse is at (0, 0), outside the window, with no button down |
| Mouse.SetPosition | crates/fox-vm/src/device/mouse.rs:27-30 | sets x and y and nothing else |
| Mouse.SetEntered | crates/fox-vm/src/device/mouse.rs:32-34 | sets the focus flag and nothing else |
| Mouse.SetLeft | crates/fox-vm/src/device/mouse.rs:36-38 | sets the left button and nothing else |
| Mouse.SetRight | crates/fox-vm/src/device/mouse.rs:40-42 | sets the right button and nothing else |
| Mouse.SetMiddle | crates/fox-vm/src/device/mouse.rs:44-46 | sets the middle button and nothing else |
| Mouse.ConstantBits | crates/fox-bytecode/src/memory.rs:80-84 | the button constants are the single bits 0, 1 and 2, and the focus flag is bit 0 |
| Mouse.ButtonBits | crates/fox-vm/src/device/mouse.rs:58-75 | BUTTON has bit 0 exactly when left is down, bit 1 for middle, bit 2 for right, and no other bit |
| Mouse.ButtonValue | crates/fox-vm/src/device/mouse.rs:58-75 | BUTTON is 1 for left plus 2 for middle plus 4 for right |
| Mouse.FlagsValue | crates/fox-vm/src/device/mouse.rs:48-56 | FLAGS is 1 while the mouse is inside the window and 0 otherwise |
| Mouse.ReadWord | crates/fox-vm/src/device/mouse.rs:95-106 | word reads of the five registers succeed and change nothing; anything else panics |
| Mouse.WriteWord | crates/fox-vm/src/device/mouse.rs:108-115 | only VECTOR is writable, and the write changes nothing else |
| Mouse.ReadByte | crates/fox-vm/src/device/mouse.rs:79-85 | every byte read panics |
| Mouse.WriteByte | crates/fox-vm/src/device/mouse.rs:87-93 | every byte write panics |
| Mouse.RegistersReadBack | crates/fox-vm/src/device/mouse.rs:27-115 | X and Y read the position set, VECTOR reads back, BUTTON and FLAGS read the packed button and focus bits |
| ScreenState.Fit | crates/fox-vm/src/device/screen.rs:153-155 | `Vec::resize(n, 0)` keeps the leading bytes and pads with zeros to length n |
| ScreenState.LayerSize | crates/fox-vm/src/device/screen.rs:119-152 | the layer size is half of width * height, defined exactly when the product fits in a u32 |
| ScreenState.New | crates/fox-vm/src/device/screen.rs:101-126 | a new screen is 512 by 320 at zoom 1 with the default palette and blank layers |
| ScreenState.Clamp | crates/fox/src/main.rs:57-59 | the display clamps width and height to at least 8 and the zoom to at least 1, and keeps larger values |
| ScreenState.HostResize | crates/fox/src/main.rs:56-76 | the display answers with the clamped size and zoom, and panics exactly when width * zoom or height * zoom overflows a u32 |
| ScreenState.Resize | crates/fox-vm/src/device/screen.rs:148-157 | a resize takes the display's answer and refits every layer, keeping leading bytes; it panics exactly when the display's window products or the new width * height overflow |
| ScreenState.SetNibble | crates/fox-vm/src/device/screen.rs:162-171 | the column's nibble becomes the colour's low four bits and the other nibble is kept |
| ScreenState.PixelIndexInLayer | crates/fox-vm/src/device/screen.rs:163 | every on-screen pixel's byte index lies inside the layer |
| ScreenState.SetPixel | crates/fox-vm/src/device/screen.rs:159-173 | off-screen pixels are ignored; an on-screen pixel gets the colour's low nibble; a bad layer panics; the registers are kept |
| ScreenState.SetPixelOthers | crates/fox-vm/src/device/screen.rs:159-173 | on a screen of even width, setting one pixel leaves every other pixel alone |
| ScreenState.EvenWidthNoSharing | crates/fox-vm/src/device/screen.rs:163 | with an even width, distinct pixels never share a nibble |
| ScreenState.OddWidthSharing | crates/fox-vm/src/device/screen.rs:163 | with an odd width, the last pixel of a row shares its byte with the first of the next row |
| ScreenState.Render | crates/fox-vm/src/device/screen.rs:132-146 | the composited byte is layer 1's where that byte is nonzero and layer 0's otherwise; nothing else changes |
| ScreenState.RenderIdempotent | crates/fox-vm/src/device/screen.rs:132-146 | rendering twice is rendering once |
| ScreenState.RenderBlankForeground | crates/fox-vm/src/device/screen.rs:132-146 | with layer 1 blank, the composited layer is layer 0 |
| ScreenState.RenderHidesTransparentPixel | crates/fox-vm/src/device/screen.rs:137-143 | composition goes by whole bytes: a transparent foreground pixel whose byte-mate is opaque hides the background pixel |
| ScreenSprite.Read1bpp | crates/fox-vm/src/device/screen.rs:16-36 | a 1-bit sprite reads 8 bytes, most significant bit first; pixel i is fg exactly when its bit is set and bg otherwise |
| ScreenSprite.Read4bpp | crates/fox-vm/src/device/screen.rs:38-49 | a 4-bit sprite reads 32 bytes, high nibble first; every pixel is below 16 |
| ScreenSprite.Read1bppOfPack | crates/fox-vm/src/device/screen.rs:16-36 | reading packed 1-bit pixels gives fg exactly where the mask is set |
| ScreenSprite.Pack1bppOfRead | crates/fox-vm/src/device/screen.rs:16-36 | packing the fg pixels of a sprite read from memory gives back the 8 bytes in memory |
| ScreenSprite.Read4bppOfPack | crates/fox-vm/src/device/screen.rs:38-49 | reading packed 4-bit pixels gives the pixels back |
| ScreenSprite.Pack4bppOfRead | crates/fox-vm/src/device/screen.rs:38-49 | packing the pixels of a 4-bit sprite gives back the 32 bytes in memory |
| ScreenSprite.DrawFrom | crates/fox-vm/src/device/screen.rs:51-59 | drawing pixels k.. keeps the registers, and panics exactly when some later pixel's coordinate overflows or its layer is bad |
| ScreenSprite.Draw | crates/fox-vm/src/device/screen.rs:51-59 | drawing a tile keeps the screen valid and its registers |
| ScreenSprite.DrawFails | crates/fox-vm/src/device/screen.rs:51-59 | a draw panics exactly when x + sx or y + sy overflows a u32 or an on-screen pixel names a bad layer |
| ScreenSprite.DrawFromPaints | crates/fox-vm/src/device/screen.rs:52-58 | on an even-width screen the row-by-row loop paints every pixel of the tile and leaves every other pixel |
| ScreenSprite.DrawEffect | crates/fox-vm/src/device/screen.rs:51-59 | after a draw, each on-screen pixel of the tile holds the sprite's colour and every other pixel is unchanged |
| ScreenDevice.AddU32 | crates/fox-vm/src/device/screen.rs:201-205 | a checked u32 addition succeeds exactly when the sum fits |
| ScreenDevice.ReadSprite | crates/fox-vm/src/device/screen.rs:198-224 | reading a tile's sprite succeeds exactly when its bytes lie in memory and gives 64 pixels |
| ScreenDevice.DrawTile | crates/fox-vm/src/device/screen.rs:197-199 | one tile panics exactly when its sprite runs past memory, its last column or row overflows a u32, or its layer is not 0 or 1 while its corner is on the display; otherwise only the layers change |
| ScreenDevice.DrawTileEffect | crates/fox-vm/src/device/screen.rs:197-199 | on an even-width screen, each on-screen pixel of the tile in its layer takes the colour of the sprite read from memory, and every other pixel keeps its colour |
| ScreenDevice.RowFitsFinal | crates/fox-vm/src/device/screen.rs:196-203 | the inner loop does not overflow exactly when its final x and source fit in a u32 |
| ScreenDevice.RowTilePosition | crates/fox-vm/src/device/screen.rs:196-203 | tile k of a row is drawn at x + 8k and read from source + stride * k |
| ScreenDevice.FitsFinal | crates/fox-vm/src/device/screen.rs:195-206 | the loops do not overflow exactly when the final x, y and source fit in a u32 |
| ScreenDevice.TilePosition | crates/fox-vm/src/device/screen.rs:195-206 | tile (r, c) is drawn at x + 8(rw + c), y + 8r, and read from source + stride (rw + c): x is not reset between rows |
| ScreenDevice.DrawTilesAppend | crates/fox-vm/src/device/screen.rs:195-206 | drawing a + b is drawing a, then b |
| ScreenDevice.TileRowDraws | crates/fox-vm/src/device/screen.rs:196-203 | the inner loop draws the row's tiles in order, unless an addition overflows |
| ScreenDevice.TileRowsDraw | crates/fox-vm/src/device/screen.rs:195-206 | the two loops draw exactly the command's tiles in order when nothing overflows, and panic otherwise |
| ScreenDevice.EntryWord | crates/fox-vm/src/device/screen.rs:181-183 | an entry's u32 field reads exactly when it is in memory, little-endian |
| ScreenDevice.EntryByte | crates/fox-vm/src/device/screen.rs:185-188 | an entry's byte field reads exactly when it is in memory |
| ScreenDevice.LowNibble | crates/fox-vm/src/device/screen.rs:176 | the low nibble of the command word is the low nibble of the command byte |
| ScreenDevice.CmdClear | crates/fox-vm/src/device/screen.rs:175-178 | the clear command zeroes the layer named by the command's low nibble and keeps the rest; a layer other than 0 or 1 panics |
| ScreenDevice.ReadSpriteCommand | crates/fox-vm/src/device/screen.rs:181-193 | the decoded fields: layer from the low nibble, fg and bg from the colour nibbles, 1 + each repeat nibble tiles |
| ScreenDevice.CmdSpriteTiles | crates/fox-vm/src/device/screen.rs:180-233 | a sprite command draws exactly its columns * rows tiles, row by row, and panics when x, y or source overflows |
| ScreenDevice.CmdSpriteKeepsRegisters | crates/fox-vm/src/device/screen.rs:180-233 | a sprite command changes the layers only |
| ScreenDevice.RunCommand | crates/fox-vm/src/device/screen.rs:237-242 | only commands 0, 1 and 2 run, and they change the layers only |
| ScreenDevice.ProcessCommandAsWritten | crates/fox-vm/src/device/screen.rs:235-243 | the dispatch as written reads the whole command word (see Findings) |
| ScreenDevice.ProcessCommand | crates/fox-vm/src/device/screen.rs:235-243 | the corrected dispatch runs only commands 0 to 2 and changes the layers only |
| ScreenDevice.CommandByteSelects | crates/fox-vm/src/device/screen.rs:237-242 | the command byte's high nibble 0 clears, 1 draws a 1-bit sprite, 2 a 4-bit one, and anything else panics |
| ScreenDevice.AsWrittenRejectsAttributes | crates/fox-vm/src/device/screen.rs:236 | as written, an entry with a nonzero flags, colour or repeat byte always panics |
| ScreenDevice.ColouredSpriteDispatch | crates/fox-vm/src/device/screen.rs:235-243 | a white-on-black sprite four tiles wide is drawn by the corrected dispatch and panics as written |
| ScreenDevice.CommandsKeepRegisters | crates/fox-vm/src/device/screen.rs:264-266 | a command list whose every step changes the layers only changes the layers only |
| ScreenDevice.CommandsInBounds | crates/fox-vm/src/device/screen.rs:264-266 | a list that runs to the end processed each entry at base + 16k, a u32 |
| ScreenDevice.CommandListEffect | crates/fox-vm/src/device/screen.rs:263-266 | a CMD_ADDR write that runs to the end changes the layers only, and every entry held command 0, 1 or 2 |
| ScreenDevice.RegisterAt | crates/fox-vm/src/device/screen.rs:248-277 | the first matching arm names the register; the palette range maps to one entry per 4-byte register |
| ScreenDevice.FlatRegistersWellPlaced | crates/fox-bytecode/src/memory.rs:33-45 | the flat memory map's screen registers are distinct, with the palette four bytes apart |
| ScreenDevice.PaletteRegister | crates/fox-vm/src/device/screen.rs:272-275 | the register at PALETTE0 + 4i is palette entry i |
| ScreenDevice.Resized | crates/fox-vm/src/device/screen.rs:148-157 | a WIDTH, HEIGHT or ZOOM write succeeds exactly when the resize does |
| ScreenDevice.RunList | crates/fox-vm/src/device/screen.rs:263-266 | a command list changes the layers only |
| ScreenDevice.WriteWord | crates/fox-vm/src/device/screen.rs:247-278 | a register write never touches memory; an unmapped address panics |
| ScreenDevice.RegisterValue | crates/fox-vm/src/device/screen.rs:280-303 | a register read fails exactly for CMD_ADDR, an unmapped address, or a palette slot past 16 |
| ScreenDevice.ReadWord | crates/fox-vm/src/device/screen.rs:280-303 | a register read changes nothing and yields that register's value |
| ScreenDevice.WindowIndex | crates/fox-vm/src/device/screen.rs:307-314 | an address in a layer window names that layer and the offset into it |
| ScreenDevice.WriteByte | crates/fox-vm/src/device/screen.rs:305-317 | a byte write succeeds exactly inside a window and within the layer's size, and keeps the registers |
| ScreenDevice.ReadByte | crates/fox-vm/src/device/screen.rs:319-331 | a byte read succeeds exactly inside a window and within the layer's size, and changes nothing |
| ScreenDevice.ReadWordSeesRegisters | crates/fox-vm/src/device/screen.rs:280-303 | screens that differ only in their layers read alike |
| ScreenDevice.StoredRegisterReadBack | crates/fox-vm/src/device/screen.rs:247-303 | VECTOR, CMD_LENGTH and each palette register read back the value last written, and a write changes no other register |
| ScreenDevice.PaletteWrite | crates/fox-vm/src/device/screen.rs:272-275 | palette register i sets palette entry i and nothing else |
| ScreenDevice.ResizeWrite | crates/fox-vm/src/device/screen.rs:252-271 | WIDTH, HEIGHT and ZOOM read back the clamped value; the write panics exactly when width * zoom, height * zoom or width * height overflows a u32 |
| ScreenDevice.ZoomOverflowPanics | crates/fox/src/main.rs:66 | a ZOOM write of 2^24 on a 512-pixel-wide screen panics in the host, although width * height fits |
| ScreenDevice.CmdAddrWrite | crates/fox-vm/src/device/screen.rs:263-267 | a CMD_ADDR write runs the list, panics exactly when a command does, and changes no register |
| ScreenDevice.WritePaletteAsWritten | crates/fox-vm/src/device/screen.rs:272-275 | the palette write as written indexes by byte offset (see Findings) |
| ScreenDevice.ReadPaletteAsWritten | crates/fox-vm/src/device/screen.rs:297-300 | the palette read as written indexes by byte offset (see Findings) |
| ScreenDevice.PaletteAsWrittenMisplaced | crates/fox-vm/src/device/screen.rs:272-300 | as written, PALETTE1 sets entry 4, and PALETTE4 to PALETTE15 panic |
| ScreenDevice.LayerByteReadBack | crates/fox-vm/src/device/screen.rs:305-331 | a byte written into a layer window reads back, and no other window byte changes |
| ScreenDevice.WindowShowsPixel | crates/fox-vm/src/device/screen.rs:159-173 | the window byte of pixel (x, y) holds its colour in the high nibble for an even column and the low one for an odd column |
| Tokenizer.SigilRoundTrip | crates/fox-asm/src/tokenizer.rs:70-79 | a character lexes to a sigil token exactly when that token is written with that character |
| Tokenizer.SpanWhile | crates/fox-asm/src/tokenizer.rs:41-55 | `consume_while` takes the longest prefix of matching characters |
| Tokenizer.SpanWhileExact | crates/fox-asm/src/tokenizer.rs:41-55 | a run of matching characters ended by a non-matching one is exactly what is consumed |
| Tokenizer.CommentEnd | crates/fox-asm/src/tokenizer.rs:84-99 | a comment consumes no more than the input |
| Tokenizer.CommentEndDepth | crates/fox-asm/src/tokenizer.rs:84-99 | a comment ends exactly where the parenthesis depth first drops to zero, or runs to the end of the input |
| Tokenizer.MatchToken | crates/fox-asm/src/tokenizer.rs:69-111 | `match_token` consumes no more than the rest of the input |
| Tokenizer.TokenizeLexed | crates/fox-asm/src/tokenizer.rs:129-150 | every token has its lexed shape, and an unterminated string can only be the last token |
| Tokenizer.TokenizeSpace | crates/fox-asm/src/tokenizer.rs:80-83 | white space produces no token |
| Tokenizer.TokenizeComment | crates/fox-asm/src/tokenizer.rs:84-99 | a comment produces no token, and lexing resumes after its closing parenthesis |
| Tokenizer.TokenizeUnterminated | crates/fox-asm/src/tokenizer.rs:100-107 | a quote with no closing quote gives UnterminatedString as the last token |
| Tokenizer.TokenizeSingle | crates/fox-asm/src/tokenizer.rs:70-109 | a sigil or unknown character is a token of its own |
| Tokenizer.TokenizeIdentifier | crates/fox-asm/src/tokenizer.rs:108-127 | an identifier followed by a space is one token |
| Tokenizer.TokenizeStr | crates/fox-asm/src/tokenizer.rs:100-107 | a string literal is one token, up to the closing quote |
| Tokenizer.TokenizeRender | crates/fox-asm/src/tokenizer.rs:129-150 | lexing the rendering of printable tokens gives the tokens back |
| Parser.ParseHexOfToHex | crates/fox-asm/src/parser.rs:28-31 | every word written in hex parses back to itself |
| Parser.HexValueLower | crates/fox-asm/src/parser.rs:28-31 | hex digits are read case-insensitively |
| Parser.HexValueLeadingZero | crates/fox-asm/src/parser.rs:28-31 | leading zeros do not change a number |
| Parser.ParseIdentifier | crates/fox-asm/src/parser.rs:20-26 | the next token must be an identifier; otherwise "Invalid value" |
| Parser.ParseHex | crates/fox-asm/src/parser.rs:30 | `u32::from_str_radix(s, 16)` accepts an optional `+` and then one or more hex digits of either case whose value is below 2^32, and yields that value |
| Parser.ParseNumber | crates/fox-asm/src/parser.rs:28-31 | the next token must be an identifier that is a base-16 u32 |
| Parser.ParseNumberSpelled | crates/fox-asm/src/parser.rs:28-31 | a number token spelled in hex parses to that number |
| Parser.ParseOne | crates/fox-asm/src/parser.rs:37-84 | one arm of the parse loop consumes at most the tokens that follow it |
| Parser.ParseOneCases | crates/fox-asm/src/parser.rs:37-84 | a sigil consumes exactly the next token, which must be an identifier and, after a number sigil, a base-16 u32; a mnemonic must be known; a string always succeeds; `&`, an unterminated string and an unknown character stop at `todo!()` |
| Parser.ParseOneNumber | crates/fox-asm/src/parser.rs:51-81 | each number sigil (`#`, pipe, `.`, `=`, `$`) followed by a hex number makes its statement and consumes one token |
| Parser.ParseOneLabel | crates/fox-asm/src/parser.rs:39-50 | each label sigil followed by an identifier makes its statement with that name and consumes one token |
| Parser.ParseOneSpell | crates/fox-asm/src/parser.rs:37-84 | every statement's own token spelling parses back to it, consuming exactly its operand tokens |
| Parser.ParseErrors | crates/fox-asm/src/parser.rs:37-84 | parsing stops on a sigil without an identifier, a bad number, an unknown mnemonic, and on `&`, an unterminated string or an unknown character |
| Parser.PeriodTruncates | crates/fox-asm/src/parser.rs:60-63 | `.` keeps only the low byte of its number |
| Parser.ParseUnparse | crates/fox-asm/src/parser.rs:33-88 | parsing the token spelling of any statements gives them back |
| Parser.MnemonicIdentifier | crates/fox-bytecode/src/lib.rs:88-131 | every mnemonic is an identifier the lexer keeps in one token |
| Parser.SourceRoundTrip | crates/fox-asm/src/parser.rs:33-88 | lexing and parsing the source text of writable statements gives them back |
| Assembler.New | crates/fox-asm/src/asm.rs:20-28 | a new assembler has nothing emitted and its cursor at RESET_VECTOR |
| Assembler.PushU8 | crates/fox-asm/src/asm.rs:94-101 | push_u8 writes the byte at the cursor (growing the buffer with zeros), advances the cursor and keeps the labels; it panics exactly when `index + 1 - RESET_VECTOR` underflows |
| Assembler.PushBytes | crates/fox-asm/src/asm.rs:74-76 | pushing bytes in order places them at the cursor |
| Assembler.PushU32 | crates/fox-asm/src/asm.rs:103-109 | push_u32 places the four little-endian bytes at the cursor |
| Assembler.Utf8Char | crates/fox-asm/src/asm.rs:73-77 | a character's bytes are one to four long by scalar range; a lead byte lies in C2-DF, E0-EF or F0-F4 for two, three or four bytes, and every later byte in 80-BF |
| Assembler.Utf8CharDecodes | crates/fox-asm/src/asm.rs:73-77 | decoding a character's UTF-8 bytes gives back its scalar value |
| Assembler.Utf8Append | crates/fox-asm/src/asm.rs:73-77 | the bytes of a concatenated string are the bytes of its parts, in order |
| Assembler.Utf8Ascii | crates/fox-asm/src/asm.rs:73-77 | an ASCII string is emitted as its character codes, with no terminator |
| Assembler.OpByte | crates/fox-asm/src/asm.rs:70-72 | an operation emits its discriminant, a byte that decodes back to that operation |
| Assembler.Emit | crates/fox-asm/src/asm.rs:47-86 | RawWord and RawReferenceAbsolute are exactly the statements with no arm; origins only move the cursor, and a label only binds the cursor as a u32 |
| Assembler.Patch | crates/fox-asm/src/asm.rs:34-42 | the patch pass fails exactly when some reference names an undefined label |
| Assembler.Assemble | crates/fox-asm/src/asm.rs:30-45 | `assemble` fails exactly when layout fails or a label is missing; on success only the bytes change |
| Assembler.Data | crates/fox-asm/src/asm.rs:88-92 | `data` is the length bytes from RESET_VECTOR, and panics when the buffer is shorter |
| Assembler.PatchSlots | crates/fox-asm/src/asm.rs:34-42 | every slot that no later slot overlaps holds its label's little-endian address |
| Assembler.PatchOutside | crates/fox-asm/src/asm.rs:34-42 | the patch pass leaves every byte outside the slots as emitted |
| Assembler.AssembledSlots | crates/fox-asm/src/asm.rs:30-45 | after assembling, unshadowed slots hold their label's address and every other byte is as laid out |
| Assembler.LastDefinitionWins | crates/fox-asm/src/asm.rs:57-59 | a redefined label is bound to the cursor at its last definition |
| Assembler.EmitStraight | crates/fox-asm/src/asm.rs:47-86 | a program without origins lays out its code from RESET_VECTOR on, and records exactly its slots |
| Assembler.RefsOrdered | crates/fox-asm/src/asm.rs:60-69 | the slots of such a program are in order and do not overlap |
| Assembler.AssembleStraight | crates/fox-asm/src/asm.rs:30-92 | assembling a program without origins succeeds exactly when every referenced label is defined, and `data` is its code with every slot patched |

## Left out

- Assembler.PushU8: LengthUnderflow is the debug build's panic on the usize subtraction `index - RESET_VECTOR` (crates/fox-asm/src/asm.rs:100). A release build wraps it to a huge length instead, which the model does not follow.
- Alu.ApplyBin: SHL, SHR and SAR with a shift amount of 32 or more are the debug build's "shift with overflow" panic. A release build masks the amount to its low five bits instead. The rest is exact: ADD, SUB, MUL, INC and DEC wrap (`wrapping_*`), and DIV by zero panics in both builds.
- VmState.Push: the program has no overflow check (TODO at lib.rs:471). A 257th push writes past the end of memory. The model faults with StackOverflow instead.
- VmState.RPush: a return-stack overflow would overwrite the operand stack's first slot (TODO at lib.rs:504). The model faults with ReturnStackOverflow.
- VmState.LBegin: opening locals past 256 words runs into the return stack. The model faults with LocalsOutOfRange.
- VmState.Pop: an underflow would read the region below. Pop, Peek, PeekN, RPop, RPeek, LEnd, LGet and LSet all fault instead (the TODOs at lib.rs:479-524 say these checks are missing).
- VmExec.FetchByte: an ip past the end of memory is undefined behaviour in the program. The model faults with IpOutsideMemory.
- VmExec.Run: the program loops until HALT (lib.rs:140-384). The model takes a step budget (`fuel`) and reports `Exhausted` when the budget runs out first. RunMonotone and RunResume show the budget only cuts a run short.
- VmExec.ExecStack: DBG is a no-op. `dump` only prints to stderr, and so does the `dbg!` inside peekn.
- VmDecode.ExtOpcodes: the interpreter matches on OP_ROT, OP_LITB, OP_PICK, OP_DEC, OP_SAR, OP_NOT, OP_GTE, OP_LTE, OP_RPEEK, OP_RDROP, OP_BEGIN, OP_END, OP_GET and OP_SET. The bytecode crate does not define these, so their bytes are a parameter.
- VmMemoryProps.StoreThenLoad: stated only for addresses below the stack regions. For an address inside a stack region, the popped words themselves overlap the store; SwIntoStack covers that case.
- Device.WellFormed: excludes routing tables whose `start + length` overflows a u32. The program's addition would panic there.
- Dma.ReadStr: yields the bytes. The program's UTF-8 check (`expect` on invalid UTF-8) is not modelled.
- System.New: the command-line arguments are a parameter rather than read from the process environment.
- Keyboard.ReadWord: the keyboard's base address, register offsets and key flags come from a `keyboard` submodule that the memory map does not define. They are a parameter (`Keyboard.Layout`) with a well-placedness condition.
- ScreenDevice.WriteWord: the screen's register addresses and command-entry layout come from `screen` and `screen::command` submodules that the memory map does not define.
  - The register addresses are a parameter; FLAT_REGISTERS uses the flat SCREEN_* constants.
  - ENTRY_LAYOUT puts x, y and source at 0x0, 0x4 and 0x8 and the command, flags, colour and repeat bytes at 0xC to 0xF. This is inferred from the 16-byte entry stride and the u32/u8 reads; the flat SCREEN_CMD_* constants (memory.rs:47-58) agree on x, y and source and put a flags field at 0xC.
  - The screen is wired to the corrected dispatch and palette index described under Findings.
- ScreenState.HostResize: the screen calls an abstract `Display`. The model fixes the clamp and the u32 window-size products that both front ends implement (crates/fox/src/main.rs:56-76, crates/fox-sw/src/main.rs:62-80). The `unwrap()` of the pixel buffer's own resize, drawing to the window and `Display::render` are foreign calls or output only.
- Bytecode.FromStr: lower-cases ASCII letters only, where `str::to_lowercase` is full Unicode. The two agree on whether a string is a mnemonic: the only character that full lower-casing turns into a lone ASCII letter is the Kelvin sign, which becomes `k`, a letter no mnemonic contains. Besides, the tokenizer only passes ASCII identifiers to it.
- Assembler.Emit: RawWord and RawReferenceAbsolute (made by `=` and `:`) have no arm in `Assembler::parse`. Rust rejects a non-exhaustive match at compile time (error E0004), so asm.rs as it stands does not build. NoArm stands in for that compile error, not for a run-time panic.
- The console and file devices, the command-line front ends, the event loops of the windowed front ends and `ScreenDevice::size` are not part of this model.

## Findings

| source | as written | input that shows it | evidently intended | confidence | as-written member | corrected member |
|---|---|---|---|---|---|---|
| crates/fox-vm/src/device/screen.rs:236 | the command number is the whole u32 at the command field shifted right by 4, which takes in the flags, colour and repeat bytes | an entry with command byte 0x10, colour 0xF0, repeat 0x30 (a white-on-black 1-bit sprite, four tiles wide): the word is 0x30F00010, the number 0x030F0001, and `unimplemented!()` panics | the high nibble of the command byte alone, whose low nibble is the layer (read with `& 0xF` at lines 185 and 214) | medium; not executed | ScreenDevice.ProcessCommandAsWritten, shown by ScreenDevice.AsWrittenRejectsAttributes and ScreenDevice.ColouredSpriteDispatch | ScreenDevice.ProcessCommand, proved by ScreenDevice.CommandByteSelects |
| crates/fox-vm/src/device/screen.rs:272-300 | the palette index is `addr - PALETTE0`, a byte offset, while the registers are four bytes apart | a write to PALETTE1 (0x1002001C) sets entry 4; a write or read of PALETTE4 (0x10020028) indexes entry 16, past the 16 entries, and panics, as do PALETTE5 to PALETTE15 | the index `(addr - PALETTE0) / 4` | high; not executed | ScreenDevice.WritePaletteAsWritten and ScreenDevice.ReadPaletteAsWritten, shown by ScreenDevice.PaletteAsWrittenMisplaced | ScreenDevice.WriteWord and ScreenDevice.ReadWord through ScreenDevice.RegisterAt, proved by ScreenDevice.PaletteRegister and ScreenDevice.PaletteWrite |

=== FILE: alu.dfy ===
/**
 * The arithmetic and comparison instructions on u32 words. Addition,
 * subtraction and multiplication wrap; division by zero panics; a shift by
 * 32 or more panics in a debug build. SAR reinterprets both operands as
 * i32, so its count, read as i32, is out of range exactly when it is 32 or
 * more as a u32.
 *
 * Words are bounded naturals, so the bitwise operations are defined bit by
 * bit from the least significant end, and the shifts by powers of two.
 */
module Alu {
  import opened Wrappers
  import opened Bytes

  datatype ArithOp = Add | Sub | Mul | Div | And | Or | Xor | Shl | Shr | Sar
  datatype CmpOp = Equ | Gt | Lt | Gte | Lte | Neq
  datatype BinOp = Arith(arith: ArithOp) | Cmp(cmp: CmpOp)
  datatype UnOp = Inc | Dec | Not

  datatype AluError = DivideByZero | ShiftOverflow

  /** 2^n. */
  function Pow2(n: nat): (r: nat)
    ensures r >= 1
  {
    if n == 0 then 1 else 2 * Pow2(n - 1)
  }

  /** Bit i of a; bit 0 is the least significant. */
  predicate Bit(a: nat, i: nat) {
    (a / Pow2(i)) % 2 == 1
  }

  /** The i32 that the bits of a u32 stand for (`as i32`). */
  function Signed(a: Word): int {
    if a >= 0x8000_0000 then a - WORD_LIMIT else a
  }

  predicate IsBitwise(op: ArithOp) {
    op == And || op == Or || op == Xor
  }

  /** What AND, OR and XOR do to one pair of bits. */
  predicate Combine(op: ArithOp, x: bool, y: bool)
    requires IsBitwise(op)
  {
    match op
    case And => x && y
    case Or => x || y
    case _ => x != y
  }

  /** AND, OR or XOR of the low n bits of a and b. */
  function Bitwise(op: ArithOp, a: nat, b: nat, n: nat): (r: nat)
    requires IsBitwise(op)
    ensures r < Pow2(n)
    decreases n
  {
    if n == 0 then 0
    else (if Combine(op, a % 2 == 1, b % 2 == 1) then 1 else 0) + 2 * Bitwise(op, a / 2, b / 2, n - 1)
  }

  /** The operations that panic for this right-hand operand. */
  predicate Faults(op: BinOp, b: Word) {
    (op == Arith(Div) && b == 0) || (op in {Arith(Shl), Arith(Shr), Arith(Sar)} && b >= 32)
  }

  /** u32 shift left: the bits shifted past bit 31 are lost. */
  function ShiftLeft(a: Word, b: Word): Word
    requires b < 32
  {
    (a * Pow2(b)) % WORD_LIMIT
  }

  /** u32 shift right: the vacated high bits are zero. */
  function ShiftRight(a: Word, b: Word): (r: Word)
    requires b < 32
  {
    Quotient(a, Pow2(b))
  }

  /** a / d, which is no larger than a. */
  function Quotient(a: Word, d: nat): (r: Word)
    requires d >= 1
    ensures r <= a
  {
    DivLe(a, d);
    a / d
  }

  /** The high b bits set, as the sign fill of an i32 shifted right by b. */
  function SignFill(b: nat): (r: nat)
    requires b < 32
    ensures r == WORD_LIMIT - Pow2(32 - b)
    ensures r < WORD_LIMIT
    ensures forall i :: 0 <= i < 32 ==> (Bit(r, i) <==> 32 - b <= i)
  {
    Pow2Word();
    Pow2Monotone(32 - b, 32);
    var fill := WORD_LIMIT - Pow2(32 - b);
    forall i | 0 <= i < 32
      ensures Bit(fill, i) <==> 32 - b <= i
    {
      assert fill == Pow2(32) - 1 - (Pow2(32 - b) - 1);
      ComplementBits(Pow2(32 - b) - 1, 32, i);
      LowOnes(32 - b, i);
    }
    fill
  }

  /** i32 shift right: the vacated high bits copy the sign bit. */
  function ShiftRightArith(a: Word, b: Word): (r: Word)
    requires b < 32
  {
    DivBound(a, b);
    ShiftRight(a, b) + (if a >= 0x8000_0000 then SignFill(b) else 0)
  }

  function Flag(c: bool): (r: Word)
    ensures r == 0 || r == 1
    ensures r == 1 <==> c
  {
    if c then 1 else 0
  }

  /** The value of `a op b` for an arithmetic operation that does not panic. */
  function Arithmetic(op: ArithOp, a: Word, b: Word): Word
    requires !Faults(Arith(op), b)
  {
    match op
    case Add => (a + b) % WORD_LIMIT
    case Sub => (a - b) % WORD_LIMIT
    case Mul => (a * b) % WORD_LIMIT
    case Div => Quotient(a, b)
    case Shl => ShiftLeft(a, b)
    case Shr => ShiftRight(a, b)
    case Sar => ShiftRightArith(a, b)
    case _ =>
      Pow2Word();
      Bitwise(op, a, b, 32)
  }

  /** The unsigned comparison `a op b`. */
  predicate Compare(op: CmpOp, a: Word, b: Word) {
    match op
    case Equ => a == b
    case Gt => a > b
    case Lt => a < b
    case Gte => a >= b
    case Lte => a <= b
    case Neq => a != b
  }

  /**
   * The result of `a op b`, where b was the top of the stack and a the word
   * below it; a comparison yields 1 when it holds and 0 otherwise.
   */
  function ApplyBin(op: BinOp, a: Word, b: Word): (r: Result<Word, AluError>)
    ensures r.Failure? <==> Faults(op, b)
    ensures r.Failure? ==> r.error == if op == Arith(Div) then DivideByZero else ShiftOverflow
    ensures op.Cmp? ==> r.Success? && (r.value == 1 <==> Compare(op.cmp, a, b)) && (r.value == 0 <==> !Compare(op.cmp, a, b))
  {
    if op == Arith(Div) && b == 0 then Failure(DivideByZero)
    else if Faults(op, b) then Failure(ShiftOverflow)
    else
      match op
      case Arith(x) => Success(Arithmetic(x, a, b))
      case Cmp(c) => Success(Flag(Compare(c, a, b)))
  }

  function ApplyUn(op: UnOp, a: Word): Word {
    match op
    case Inc => (a + 1) % WORD_LIMIT
    case Dec => (a - 1) % WORD_LIMIT
    case Not => 0xFFFF_FFFF - a
  }

  /** 2^32 is the word limit, and 2^31 the sign bit. */
  lemma Pow2Word()
    ensures Pow2(32) == WORD_LIMIT && Pow2(31) == 0x8000_0000
  {
    assert Pow2(4) == 16;
    Pow2Add(4, 4);
    Pow2Add(8, 8);
    Pow2Add(16, 15);
    assert Pow2(32) == 2 * Pow2(31);
  }

  lemma {:induction false} Pow2Add(m: nat, n: nat)
    ensures Pow2(m + n) == Pow2(m) * Pow2(n)
    decreases m
  {
    if m > 0 {
      Pow2Add(m - 1, n);
    }
  }

  lemma Pow2Monotone(m: nat, n: nat)
    requires m <= n
    ensures Pow2(m) <= Pow2(n)
  {
    Pow2Add(m, n - m);
  }

  lemma {:induction false} MulNonneg(x: nat, y: nat)
    ensures x * y >= 0
    decreases x
  {
    if x > 0 {
      MulNonneg(x - 1, y);
      assert x * y == (x - 1) * y + y;
    }
  }

  lemma MulMonotone(b: nat, x: nat, y: nat)
    requires x <= y
    ensures b * x <= b * y
  {
    MulNonneg(b, y - x);
    assert b * y == b * x + b * (y - x);
  }

  /** The arithmetic behind DivDiv, with no division in sight. */
  lemma MixedRadix(a: nat, b: nat, c: nat, q: nat, m1: nat, q2: nat, m2: nat)
    requires a == b * q + m1 && m1 < b && q == c * q2 + m2 && m2 < c
    ensures a == (b * c) * q2 + (b * m2 + m1) && b * m2 + m1 < b * c
  {
    assert b * q == (b * c) * q2 + b * m2;
    MulMonotone(b, m2, c - 1);
    assert b * (c - 1) == b * c - b;
  }

  /** Dividing by b and then by c is dividing by b * c. */
  lemma DivDiv(a: nat, b: nat, c: nat)
    requires b > 0 && c > 0
    ensures a / (b * c) == (a / b) / c
  {
    DivModSplit(a, b);
    DivModSplit(a / b, c);
    MixedRadix(a, b, c, a / b, a % b, (a / b) / c, (a / b) % c);
    MulNonneg(b, (a / b) % c);
    MulNonneg(b, c);
    DivUnique(a, b * c, (a / b) / c, b * ((a / b) % c) + a % b);
  }

  lemma DivUnique(a: nat, d: nat, q: nat, r: nat)
    requires d > 0 && 0 <= r < d && a == d * q + r
    ensures a / d == q
  {
    FloorDivUnique(a, d, q, r);
  }

  /** Division by a positive number never makes a natural larger. */
  lemma DivLe(a: nat, d: nat)
    requires d >= 1
    ensures a / d <= a
  {
    DivModSplit(a, d);
    MulMonotone(a / d, 1, d);
    assert (a / d) * 1 == a / d;
    assert (a / d) * d == d * (a / d);
  }

  /** A word shifted right by b fits in 32 - b bits. */
  lemma DivBound(a: Word, b: nat)
    requires b <= 32
    ensures a / Pow2(b) < Pow2(32 - b)
  {
    var p := Pow2(b);
    var q := Pow2(32 - b);
    Pow2Split(b);
    DivUnique(a, p * q, 0, a);
    DivDiv(a, p, q);
    DivModSplit(a / p, q);
    assert q * ((a / p) / q) == 0;
  }

  /** Bit i + 1 of a is bit i of a / 2. */
  lemma BitHalf(a: nat, i: nat)
    ensures Bit(a, i + 1) == Bit(a / 2, i)
  {
    DivDiv(a, 2, Pow2(i));
  }

  /** The low bit of AND, OR or XOR combines the low bits, and the rest is the operation on the halves. */
  lemma BitwiseStep(op: ArithOp, a: nat, b: nat, n: nat)
    requires IsBitwise(op) && n > 0
    ensures Bitwise(op, a, b, n) % 2 == 1 <==> Combine(op, a % 2 == 1, b % 2 == 1)
    ensures Bitwise(op, a, b, n) / 2 == Bitwise(op, a / 2, b / 2, n - 1)
  {
    var low := if Combine(op, a % 2 == 1, b % 2 == 1) then 1 else 0;
    var r := Bitwise(op, a, b, n);
    var rest := Bitwise(op, a / 2, b / 2, n - 1);
    assert r == 2 * rest + low;
    ModUnique(r, 2, rest, low);
    FloorDivUnique(r, 2, rest, low);
  }

  /** Each bit of AND, OR and XOR is the bitwise combination of the operands' bits. */
  lemma {:induction false} BitwiseBits(op: ArithOp, a: nat, b: nat, n: nat, i: nat)
    requires IsBitwise(op) && i < n
    ensures Bit(Bitwise(op, a, b, n), i) == Combine(op, Bit(a, i), Bit(b, i))
    decreases n
  {
    var r := Bitwise(op, a, b, n);
    BitwiseStep(op, a, b, n);
    if i == 0 {
      BitZero(r);
      BitZero(a);
      BitZero(b);
    } else {
      BitwiseBits(op, a / 2, b / 2, n - 1, i - 1);
      BitHalf(r, i - 1);
      BitHalf(a, i - 1);
      BitHalf(b, i - 1);
    }
  }

  /** Bit 0 is the parity. */
  lemma BitZero(a: nat)
    ensures Bit(a, 0) <==> a % 2 == 1
  {
    assert Pow2(0) == 1;
  }

  /** XOR of a word with itself is zero; AND and OR of a word with itself give it back. */
  lemma {:induction false} BitwiseSelf(a: nat, n: nat)
    requires a < Pow2(n)
    ensures Bitwise(Xor, a, a, n) == 0
    ensures Bitwise(And, a, a, n) == a && Bitwise(Or, a, a, n) == a
    decreases n
  {
    if n > 0 {
      BitwiseSelf(a / 2, n - 1);
    }
  }

  /** Each bit of a logical right shift is the bit b places higher. */
  lemma ShiftRightBits(a: Word, b: Word, i: nat)
    requires b < 32
    ensures Bit(ShiftRight(a, b), i) == Bit(a, i + b)
  {
    DivDiv(a, Pow2(b), Pow2(i));
    Pow2Add(b, i);
  }

  /**
   * SAR is floor division of the i32 value by 2^b (Rust's `>>` on i32);
   * Dafny's division by a positive number rounds toward minus infinity.
   */
  lemma ShiftRightArithDivides(a: Word, b: Word)
    requires b < 32
    ensures Signed(ShiftRightArith(a, b)) == Signed(a) / Pow2(b)
  {
    if a >= 0x8000_0000 {
      ShiftRightArithNegative(a, b);
    } else {
      assert ShiftRightArith(a, b) == ShiftRight(a, b) <= a;
    }
  }

  lemma ShiftRightArithNegative(a: Word, b: Word)
    requires b < 32 && a >= 0x8000_0000
    ensures Signed(ShiftRightArith(a, b)) == (a - WORD_LIMIT) / Pow2(b)
  {
    SignedFill(a, b);
    Pow2Split(b);
    QuotientShiftBy(a, Pow2(b), Pow2(32 - b), WORD_LIMIT);
  }

  lemma Pow2Split(b: nat)
    requires b <= 32
    ensures Pow2(b) * Pow2(32 - b) == WORD_LIMIT
  {
    Pow2Word();
    Pow2Add(b, 32 - b);
  }

  lemma QuotientShiftBy(a: int, p: nat, q: int, n: int)
    requires p >= 1 && p * q == n
    ensures (a - n) / p == a / p - q
  {
    QuotientShift(a, p, q);
  }

  /** The i32 value of a negative word shifted right by b, in terms of the unsigned quotient. */
  lemma SignedFill(a: Word, b: Word)
    requires b < 32 && a >= 0x8000_0000
    ensures Signed(ShiftRightArith(a, b)) == a / Pow2(b) - Pow2(32 - b)
  {
    var p := Pow2(b);
    var q := Pow2(32 - b);
    Pow2Word();
    DivBound(a, b);
    if b > 0 {
      Pow2Monotone(32 - b, 31);
    }
    var r := ShiftRightArith(a, b);
    assert r == a / p + WORD_LIMIT - q;
  }

  /** Taking p * q off the dividend takes q off the quotient. */
  lemma QuotientShift(a: int, p: nat, q: int)
    requires p >= 1
    ensures (a - p * q) / p == a / p - q
  {
    var m := a % p;
    DivModSplit(a, p);
    assert a - p * q == p * (a / p - q) + m;
    FloorDivUnique(a - p * q, p, a / p - q, m);
  }

  lemma DivModSplit(a: int, d: nat)
    requires d >= 1
    ensures a == d * (a / d) + a % d && 0 <= a % d < d
  {
  }

  /** The remainder is the r with a = d * q + r and 0 <= r < d. */
  lemma ModUnique(a: int, d: nat, q: int, r: nat)
    requires d > 0 && r < d && a == d * q + r
    ensures a % d == r
  {
    FloorDivUnique(a, d, q, r);
    DivModSplit(a, d);
  }

  /** INC then DEC, and DEC then INC, give the word back, wrapping at both ends. */
  lemma IncDecInverse(a: Word)
    ensures ApplyUn(Dec, ApplyUn(Inc, a)) == a && ApplyUn(Inc, ApplyUn(Dec, a)) == a
    ensures ApplyUn(Inc, 0xFFFF_FFFF) == 0 && ApplyUn(Dec, 0) == 0xFFFF_FFFF
  {
  }

  /** NOT is its own inverse, and it flips every one of the 32 bits. */
  lemma NotFlipsBits(a: Word, i: nat)
    requires i < 32
    ensures ApplyUn(Not, ApplyUn(Not, a)) == a
    ensures Bit(ApplyUn(Not, a), i) == !Bit(a, i)
  {
    Pow2Word();
    ComplementBits(a, 32, i);
  }

  /** Below 2^k, subtracting from 2^k - 1 flips each of the k low bits. */
  lemma {:induction false} ComplementBits(x: nat, k: nat, i: nat)
    requires x < Pow2(k) && i < k
    ensures Bit(Pow2(k) - 1 - x, i) == !Bit(x, i)
    decreases i
  {
    var c := Pow2(k) - 1 - x;
    var h := Pow2(k - 1) - 1 - x / 2;
    assert c == 2 * h + (1 - x % 2);
    if i > 0 {
      assert c / 2 == h;
      BitHalf(c, i - 1);
      BitHalf(x, i - 1);
      ComplementBits(x / 2, k - 1, i - 1);
    }
  }

  /** 2^k - 1 has exactly its k low bits set. */
  lemma LowOnes(k: nat, i: nat)
    ensures Bit(Pow2(k) - 1, i) <==> i < k
  {
    if i < k {
      ComplementBits(0, k, i);
      assert 0 / Pow2(i) == 0;
    } else {
      Pow2Monotone(k, i);
      DivUnique(Pow2(k) - 1, Pow2(i), 0, Pow2(k) - 1);
    }
  }

  /** LT and LTE are GT and GTE with the operands swapped. */
  lemma ComparisonsMirror(a: Word, b: Word)
    ensures Compare(Lt, a, b) == Compare(Gt, b, a)
    ensures Compare(Lte, a, b) == Compare(Gte, b, a)
  {
  }

  /** GTE, LTE and NEQ are the negations of LT, GT and EQU. */
  lemma ComparisonsNegate(a: Word, b: Word)
    ensures Compare(Gte, a, b) == !Compare(Lt, a, b)
    ensures Compare(Lte, a, b) == !Compare(Gt, a, b)
    ensures Compare(Neq, a, b) == !Compare(Equ, a, b)
  {
  }

  /** Two numbers below 2^n with the same n low bits are equal. */
  lemma {:induction false} BitsDetermine(a: nat, b: nat, n: nat)
    requires a < Pow2(n) && b < Pow2(n)
    requires forall i :: 0 <= i < n ==> Bit(a, i) == Bit(b, i)
    ensures a == b
    decreases n
  {
    if n > 0 {
      assert Bit(a, 0) == Bit(b, 0);
      forall i | 0 <= i < n - 1
        ensures Bit(a / 2, i) == Bit(b / 2, i)
      {
        BitHalf(a, i);
        BitHalf(b, i);
      }
      BitsDetermine(a / 2, b / 2, n - 1);
    }
  }

  /** 2^j has bit j set and no other. */
  lemma {:induction false} SingleBit(j: nat, i: nat)
    ensures Bit(Pow2(j), i) <==> i == j
    decreases j
  {
    assert Pow2(0) == 1;
    if j == 0 {
      if i > 0 {
        Pow2Monotone(1, i);
        assert Pow2(1) == 2;
        DivUnique(1, Pow2(i), 0, 1);
      }
    } else if i == 0 {
      assert Pow2(j) == 2 * Pow2(j - 1);
    } else {
      BitHalf(Pow2(j), i - 1);
      assert Pow2(j) / 2 == Pow2(j - 1);
      SingleBit(j - 1, i - 1);
    }
  }

  /** u32 OR, bit by bit over the 32 bits. */
  function WordOr(a: Word, b: Word): (r: Word)
    ensures forall i :: 0 <= i < 32 ==> (Bit(r, i) <==> Bit(a, i) || Bit(b, i))
  {
    Pow2Word();
    forall i | 0 <= i < 32 ensures Bit(Bitwise(Or, a, b, 32), i) <==> Bit(a, i) || Bit(b, i) {
      BitwiseBits(Or, a, b, 32, i);
    }
    Bitwise(Or, a, b, 32)
  }

  /** u32 AND, bit by bit over the 32 bits. */
  function WordAnd(a: Word, b: Word): (r: Word)
    ensures forall i :: 0 <= i < 32 ==> (Bit(r, i) <==> Bit(a, i) && Bit(b, i))
  {
    Pow2Word();
    forall i | 0 <= i < 32 ensures Bit(Bitwise(And, a, b, 32), i) <==> Bit(a, i) && Bit(b, i) {
      BitwiseBits(And, a, b, 32, i);
    }
    Bitwise(And, a, b, 32)
  }

  /** Two words with the same 32 bits are the same word. */
  lemma WordBits(a: Word, b: Word)
    requires forall i :: 0 <= i < 32 ==> Bit(a, i) == Bit(b, i)
    ensures a == b
  {
    Pow2Word();
    BitsDetermine(a, b, 32);
  }
}

=== FILE: asm_emit.dfy ===
/**
 * The assembler's emitter: statements are laid out as bytes from
 * RESET_VECTOR on, labels bind to the current index, and every reference
 * leaves a LITW with a four-byte slot that `assemble` fills with the
 * little-endian address of its label once all statements are placed.
 */
module Assembler {
  import opened Wrappers
  import opened Bytes
  import opened Bytecode
  import opened MemoryMap
  import opened Parser
  import Alu

  /** A slot to patch: the label it refers to and the index of its first byte. */
  datatype Reference = Reference(name: string, index: nat)

  /** `Assembler`: the output buffer, the write cursor, the length of the program, the labels and the slots to patch. */
  datatype Asm = Asm(data: seq<Byte>, index: nat, length: nat, labels: map<string, Word>, references: seq<Reference>)

  /**
   * Why `assemble` stops: a byte emitted below RESET_VECTOR - 1 makes
   * `index - RESET_VECTOR` underflow, a reference names a label that was
   * never defined, or a statement has no arm in `Assembler::parse`.
   */
  datatype AsmError = LengthUnderflow | UndefinedLabel(name: string) | NoArm(stmt: Stmt)

  function Max(a: int, b: int): int {
    if a < b then b else a
  }

  /**
   * r is d with bs written from index i on: grown with zeros to cover the
   * write, bs in place, and every other byte as it was.
   */
  predicate Placed(d: seq<Byte>, r: seq<Byte>, i: nat, bs: seq<Byte>) {
    && |r| == Max(|d|, i + |bs|)
    && forall k :: 0 <= k < |r| ==> r[k] == (if i <= k < i + |bs| then bs[k - i] else if k < |d| then d[k] else 0)
  }

  /** `Assembler::new`: nothing emitted, the cursor at RESET_VECTOR. */
  function New(): (a: Asm)
    ensures a.data == [] && a.index == RESET_VECTOR && a.length == 0
    ensures a.labels == map[] && a.references == []
  {
    Asm([], RESET_VECTOR, 0, map[], [])
  }

  /**
   * `push_u8`: grow the buffer with zeros up to the cursor, write the byte
   * there, advance the cursor, and set the length to the cursor's distance
   * from RESET_VECTOR, which fails when the cursor is below it.
   */
  function PushU8(a: Asm, v: Byte): (r: Result<Asm, AsmError>)
    ensures r.Success? <==> a.index + 1 >= RESET_VECTOR
    ensures r.Success? ==> Placed(a.data, r.value.data, a.index, [v])
    ensures r.Success? ==> r.value.index == a.index + 1 && r.value.length == a.index + 1 - RESET_VECTOR
    ensures r.Success? ==> r.value.labels == a.labels && r.value.references == a.references
  {
    var grown := if |a.data| < a.index + 1 then a.data + Zeros(a.index + 1 - |a.data|) else a.data;
    if a.index + 1 < RESET_VECTOR then Failure(LengthUnderflow)
    else Success(a.(data := grown[a.index := v], index := a.index + 1, length := a.index + 1 - RESET_VECTOR))
  }

  /** Writing [x] at i and then rest at i + 1 is writing [x] + rest at i. */
  lemma PlacedCompose(d: seq<Byte>, d1: seq<Byte>, d2: seq<Byte>, i: nat, x: Byte, rest: seq<Byte>)
    requires Placed(d, d1, i, [x]) && Placed(d1, d2, i + 1, rest) && rest != []
    ensures Placed(d, d2, i, [x] + rest)
  {
    var bs := [x] + rest;
    forall k | 0 <= k < |d2|
      ensures d2[k] == (if i <= k < i + |bs| then bs[k - i] else if k < |d| then d[k] else 0)
    {
      if i + 1 <= k < i + 1 + |rest| {
        assert bs[k - i] == rest[k - (i + 1)];
      }
    }
  }

  /** `push_u8` for each byte in order. */
  function PushBytes(a: Asm, bs: seq<Byte>): (r: Result<Asm, AsmError>)
    ensures bs == [] ==> r == Success(a)
    ensures bs != [] ==> (r.Success? <==> a.index + 1 >= RESET_VECTOR)
    ensures bs != [] && r.Success? ==> Placed(a.data, r.value.data, a.index, bs)
    ensures bs != [] && r.Success? ==> r.value.index == a.index + |bs| && r.value.length == a.index + |bs| - RESET_VECTOR
    ensures r.Success? ==> r.value.labels == a.labels && r.value.references == a.references
    decreases |bs|
  {
    if bs == [] then Success(a)
    else
      var b :- PushU8(a, bs[0]);
      var c := PushBytes(b, bs[1..]);
      assert bs[1..] != [] && c.Success? ==> Placed(a.data, c.value.data, a.index, bs) by {
        if bs[1..] != [] && c.Success? {
          PlacedCompose(a.data, b.data, c.value.data, a.index, bs[0], bs[1..]);
          assert [bs[0]] + bs[1..] == bs;
        }
      }
      c
  }

  /** `push_u32`: the four little-endian bytes of the word. */
  function PushU32(a: Asm, w: Word): (r: Result<Asm, AsmError>)
    ensures r.Success? <==> a.index + 1 >= RESET_VECTOR
    ensures r.Success? ==> Placed(a.data, r.value.data, a.index, LeBytes(w)) && r.value.index == a.index + 4
  {
    PushBytes(a, LeBytes(w))
  }

  /** The UTF-8 encoding of one Unicode scalar value (`str::bytes`). */
  function Utf8Char(c: char): (r: seq<Byte>)
    ensures 1 <= |r| <= 4
    ensures c as int < 0x80 <==> r == [c as int]
    ensures |r| == 2 <==> 0x80 <= c as int < 0x800
    ensures |r| == 3 <==> 0x800 <= c as int < 0x1_0000
    ensures |r| == 4 <==> 0x1_0000 <= c as int
    ensures |r| == 2 ==> 0xC2 <= r[0] <= 0xDF
    ensures |r| == 3 ==> 0xE0 <= r[0] <= 0xEF
    ensures |r| == 4 ==> 0xF0 <= r[0] <= 0xF4
    ensures forall i :: 1 <= i < |r| ==> 0x80 <= r[i] <= 0xBF
  {
    var n := c as int;
    if n < 0x80 then [n]
    else if n < 0x800 then [0xC0 + n / 0x40, 0x80 + n % 0x40]
    else if n < 0x1_0000 then [0xE0 + n / 0x1000, 0x80 + (n / 0x40) % 0x40, 0x80 + n % 0x40]
    else [0xF0 + n / 0x4_0000, 0x80 + (n / 0x1000) % 0x40, 0x80 + (n / 0x40) % 0x40, 0x80 + n % 0x40]
  }

  /** A UTF-8 continuation byte: 10xxxxxx. */
  predicate Continuation(b: Byte) {
    0x80 <= b <= 0xBF
  }

  /**
   * The scalar value that one UTF-8 sequence stands for, read from its lead
   * byte and continuation bytes; None for a malformed sequence.
   */
  function DecodeScalar(bs: seq<Byte>): Option<int> {
    if |bs| == 1 && bs[0] < 0x80 then Some(bs[0] as int)
    else if |bs| == 2 && 0xC0 <= bs[0] < 0xE0 && Continuation(bs[1]) then
      Some((bs[0] as int - 0xC0) * 0x40 + (bs[1] as int - 0x80))
    else if |bs| == 3 && 0xE0 <= bs[0] < 0xF0 && Continuation(bs[1]) && Continuation(bs[2]) then
      Some(((bs[0] as int - 0xE0) * 0x40 + (bs[1] as int - 0x80)) * 0x40 + (bs[2] as int - 0x80))
    else if |bs| == 4 && 0xF0 <= bs[0] < 0xF8 && Continuation(bs[1]) && Continuation(bs[2]) && Continuation(bs[3]) then
      Some((((bs[0] as int - 0xF0) * 0x40 + (bs[1] as int - 0x80)) * 0x40 + (bs[2] as int - 0x80)) * 0x40 + (bs[3] as int - 0x80))
    else None
  }

  /** Six bits at a time: the digits of n in base 0x40. */
  lemma Radix64(n: nat)
    ensures n == (n / 0x40) * 0x40 + n % 0x40
    ensures n / 0x1000 == (n / 0x40) / 0x40
    ensures n / 0x4_0000 == (n / 0x1000) / 0x40
  {
    Alu.DivDiv(n, 0x40, 0x40);
    Alu.DivDiv(n, 0x1000, 0x40);
  }

  /** Decoding the bytes of a character gives back its scalar value. */
  lemma Utf8CharDecodes(c: char)
    ensures DecodeScalar(Utf8Char(c)) == Some(c as int)
  {
    var n := c as int;
    Radix64(n);
    Radix64(n / 0x40);
    Radix64(n / 0x1000);
  }

  /** `str::bytes`: the UTF-8 encodings of the characters, one after the other. */
  function Utf8(s: string): (r: seq<Byte>)
    ensures |s| <= |r| <= 4 * |s|
  {
    if s == [] then []
    else
      var head, rest := Utf8Char(s[0]), Utf8(s[1..]);
      assert |s[1..]| == |s| - 1;
      head + rest
  }

  /** The bytes of a concatenation are the bytes of its parts. */
  lemma {:induction false} Utf8Append(s: string, t: string)
    ensures Utf8(s + t) == Utf8(s) + Utf8(t)
    decreases |s|
  {
    if s != [] {
      assert (s + t)[0] == s[0] && (s + t)[1..] == s[1..] + t;
      Utf8Append(s[1..], t);
    } else {
      assert s + t == t;
    }
  }

  /** A string of ASCII characters is emitted as its character codes, one byte each, with no terminator. */
  lemma {:induction false} Utf8Ascii(s: string)
    requires forall i :: 0 <= i < |s| ==> s[i] as int < 0x80
    ensures |Utf8(s)| == |s| && forall i :: 0 <= i < |s| ==> Utf8(s)[i] == s[i] as int
  {
    if s != [] {
      Utf8Ascii(s[1..]);
    }
  }

  /** The opcode byte of an operation (`*value as u8`). */
  function OpByte(op: Opcode): (b: Byte)
    ensures b == Discriminant(op)
    ensures OpcodeOf(b) == Some(op)
  {
    OpcodeOfDiscriminant(op);
    Discriminant(op)
  }

  /** One arm of `Assembler::parse`. */
  function Emit(a: Asm, s: Stmt): (r: Result<Asm, AsmError>)
    ensures (s.RawWord? || s.RawReferenceAbsolute?) <==> r == Failure(NoArm(s))
    ensures r.Success? ==> r.value.labels == if s.LabelAbsolute? then a.labels[s.name := a.index % WORD_LIMIT] else a.labels
    ensures s.OriginAbsolute? || s.OriginRelative? || s.LabelAbsolute? ==>
      r.Success? && r.value.data == a.data && r.value.length == a.length && r.value.references == a.references
    ensures s.OriginAbsolute? ==> r.value.index == s.origin
    ensures s.OriginRelative? ==> r.value.index == a.index + s.offset
  {
    match s
    case OriginAbsolute(v) => Success(a.(index := v))
    case LiteralWord(v) =>
      var b :- PushU8(a, OP_LITW);
      PushU32(b, v)
    case LabelAbsolute(l) => Success(a.(labels := a.labels[l := a.index % WORD_LIMIT]))
    case ReferenceAbsolute(l) =>
      var b :- PushU8(a, OP_LITW);
      var c := b.(references := b.references + [Reference(l, b.index)]);
      PushU32(c, 0)
    case Operation(op) => PushU8(a, OpByte(op))
    case StringLit(v) => PushBytes(a, Utf8(v))
    case RawByte(b) => PushU8(a, b)
    case OriginRelative(v) => Success(a.(index := a.index + v))
    case RawWord(_) => Failure(NoArm(s))
    case RawReferenceAbsolute(_) => Failure(NoArm(s))
  }

  /** The loop of `Assembler::parse`: every statement in order; the first error stops it. */
  function EmitAll(a: Asm, ss: seq<Stmt>): Result<Asm, AsmError>
    decreases |ss|
  {
    if ss == [] then Success(a)
    else
      var b :- Emit(a, ss[0]);
      EmitAll(b, ss[1..])
  }

  /** Every slot lies inside the buffer. */
  predicate SlotsInBuffer(data: seq<Byte>, refs: seq<Reference>) {
    forall j :: 0 <= j < |refs| ==> refs[j].index + 4 <= |data|
  }

  /**
   * The loop of `assemble` that resolves references, in order: each slot
   * gets the little-endian bytes of its label's address; a missing label
   * panics.
   */
  function Patch(data: seq<Byte>, labels: map<string, Word>, refs: seq<Reference>): (r: Result<seq<Byte>, AsmError>)
    requires SlotsInBuffer(data, refs)
    ensures r.Success? <==> forall j :: 0 <= j < |refs| ==> refs[j].name in labels
    ensures r.Success? ==> |r.value| == |data|
    decreases |refs|
  {
    if refs == [] then Success(data)
    else
      var ref := refs[0];
      if ref.name !in labels then Failure(UndefinedLabel(ref.name))
      else
        var d := WriteWord(data, ref.index, labels[ref.name]);
        assert forall j :: 0 <= j < |refs[1..]| ==> refs[1..][j] == refs[j + 1];
        Patch(d, labels, refs[1..])
  }

  /**
   * `assemble`: lay out every statement, then resolve the references. It
   * fails exactly when the layout fails or some reference names a label
   * that no statement defines; on success only the bytes change.
   */
  function Assemble(ss: seq<Stmt>): (r: Result<Asm, AsmError>)
    ensures var e := EmitAll(New(), ss);
      r.Success? <==> e.Success? && forall j :: 0 <= j < |e.value.references| ==> e.value.references[j].name in e.value.labels
    ensures r.Success? ==> var a := EmitAll(New(), ss).value;
      && r.value == a.(data := r.value.data) && |r.value.data| == |a.data| && SlotsInBuffer(a.data, a.references)
  {
    var a :- EmitAll(New(), ss);
    EmitAllSlots(New(), ss);
    var d :- Patch(a.data, a.labels, a.references);
    Success(a.(data := d))
  }

  /** `data`: the program from RESET_VECTOR on, `length` bytes; the slice panics when the buffer is shorter. */
  function Data(a: Asm): (r: Option<seq<Byte>>)
    ensures r.Some? <==> RESET_VECTOR + a.length <= |a.data|
    ensures r.Some? ==> |r.value| == a.length && forall i :: 0 <= i < a.length ==> r.value[i] == a.data[RESET_VECTOR + i]
  {
    if RESET_VECTOR + a.length <= |a.data| then Some(a.data[RESET_VECTOR..RESET_VECTOR + a.length]) else None
  }

  // ---- slots ----

  /** Emitting a statement keeps every slot inside the (only growing) buffer, and adds at most one new one. */
  lemma EmitSlots(a: Asm, s: Stmt)
    requires SlotsInBuffer(a.data, a.references)
    requires Emit(a, s).Success?
    ensures SlotsInBuffer(Emit(a, s).value.data, Emit(a, s).value.references)
  {
    if s.ReferenceAbsolute? {
      ReferenceSlots(a, s.name);
    } else if s.LiteralWord? {
      var b1 := PushU8(a, OP_LITW).value;
      assert Emit(a, s) == PushU32(b1, s.word);
    }
  }

  /** A reference's slot is the four bytes after its LITW, inside the grown buffer. */
  lemma ReferenceSlots(a: Asm, l: string)
    requires SlotsInBuffer(a.data, a.references)
    requires Emit(a, ReferenceAbsolute(l)).Success?
    ensures SlotsInBuffer(Emit(a, ReferenceAbsolute(l)).value.data, Emit(a, ReferenceAbsolute(l)).value.references)
  {
    var b1 := PushU8(a, OP_LITW).value;
    var c := b1.(references := b1.references + [Reference(l, b1.index)]);
    var b := PushU32(c, 0).value;
    assert Emit(a, ReferenceAbsolute(l)).value == b;
    assert b.references == a.references + [Reference(l, a.index + 1)];
    assert |b.data| >= a.index + 5;
  }

  lemma {:induction false} EmitAllSlots(a: Asm, ss: seq<Stmt>)
    requires SlotsInBuffer(a.data, a.references)
    ensures EmitAll(a, ss).Success? ==> SlotsInBuffer(EmitAll(a, ss).value.data, EmitAll(a, ss).value.references)
    decreases |ss|
  {
    if ss != [] && Emit(a, ss[0]).Success? {
      EmitSlots(a, ss[0]);
      EmitAllSlots(Emit(a, ss[0]).value, ss[1..]);
    }
  }

  /** Two slots share a byte. */
  predicate Overlap(x: Reference, y: Reference) {
    x.index < y.index + 4 && y.index < x.index + 4
  }

  /** No later slot shares a byte with slot j, so nothing overwrites its patch. */
  predicate Unshadowed(refs: seq<Reference>, j: nat)
    requires j < |refs|
  {
    forall m :: j < m < |refs| ==> !Overlap(refs[j], refs[m])
  }

  /** Byte k lies in some slot. */
  predicate InSlot(refs: seq<Reference>, k: nat) {
    exists j :: 0 <= j < |refs| && refs[j].index <= k < refs[j].index + 4
  }

  /** The patch pass writes the little-endian address of its label into every slot that no later slot overlaps. */
  lemma {:induction false} PatchSlots(data: seq<Byte>, labels: map<string, Word>, refs: seq<Reference>)
    requires SlotsInBuffer(data, refs)
    requires Patch(data, labels, refs).Success?
    ensures forall j, i :: 0 <= j < |refs| && Unshadowed(refs, j) && 0 <= i < 4 ==>
      Patch(data, labels, refs).value[refs[j].index + i] == LeBytes(labels[refs[j].name])[i]
    decreases |refs|
  {
    if refs != [] {
      var d := WriteWord(data, refs[0].index, labels[refs[0].name]);
      var tail := refs[1..];
      assert forall j :: 0 <= j < |tail| ==> tail[j] == refs[j + 1];
      PatchSlots(d, labels, tail);
      assert Patch(data, labels, refs) == Patch(d, labels, tail);
      forall j, i | 0 <= j < |refs| && Unshadowed(refs, j) && 0 <= i < 4
        ensures Patch(data, labels, refs).value[refs[j].index + i] == LeBytes(labels[refs[j].name])[i]
      {
        if j == 0 {
          FirstSlotPatched(data, labels, refs, i);
        } else {
          UnshadowedTail(refs, j);
        }
      }
    }
  }

  /** The first slot keeps its patch when no later slot overlaps it. */
  lemma FirstSlotPatched(data: seq<Byte>, labels: map<string, Word>, refs: seq<Reference>, i: nat)
    requires SlotsInBuffer(data, refs) && Patch(data, labels, refs).Success?
    requires refs != [] && Unshadowed(refs, 0) && i < 4
    ensures Patch(data, labels, refs).value[refs[0].index + i] == LeBytes(labels[refs[0].name])[i]
  {
    var d := WriteWord(data, refs[0].index, labels[refs[0].name]);
    var tail := refs[1..];
    var k := refs[0].index + i;
    assert forall j :: 0 <= j < |tail| ==> tail[j] == refs[j + 1];
    PatchOutside(d, labels, tail);
    assert Patch(data, labels, refs) == Patch(d, labels, tail);
    assert !InSlot(tail, k) by {
      forall m | 0 <= m < |tail| ensures !(tail[m].index <= k < tail[m].index + 4) {
        assert !Overlap(refs[0], refs[m + 1]);
      }
    }
    assert d[refs[0].index..refs[0].index + 4][i] == d[k];
  }

  lemma UnshadowedTail(refs: seq<Reference>, j: nat)
    requires 0 < j < |refs| && Unshadowed(refs, j)
    ensures Unshadowed(refs[1..], j - 1)
  {
    var tail := refs[1..];
    forall m | j - 1 < m < |tail| ensures !Overlap(tail[j - 1], tail[m]) {
      assert !Overlap(refs[j], refs[m + 1]);
    }
  }

  /** The patch pass leaves every byte outside all slots as it was emitted. */
  lemma {:induction false} PatchOutside(data: seq<Byte>, labels: map<string, Word>, refs: seq<Reference>)
    requires SlotsInBuffer(data, refs)
    requires Patch(data, labels, refs).Success?
    ensures forall k :: 0 <= k < |data| && !InSlot(refs, k) ==> Patch(data, labels, refs).value[k] == data[k]
    decreases |refs|
  {
    if refs != [] {
      var ref := refs[0];
      var d := WriteWord(data, ref.index, labels[ref.name]);
      var tail := refs[1..];
      assert forall j :: 0 <= j < |tail| ==> tail[j] == refs[j + 1];
      PatchOutside(d, labels, tail);
      var r := Patch(data, labels, refs).value;
      assert r == Patch(d, labels, tail).value;
      forall k | 0 <= k < |data| && !InSlot(refs, k) ensures r[k] == data[k] {
        assert !InSlot(tail, k) by {
          forall m | 0 <= m < |tail| ensures !(tail[m].index <= k < tail[m].index + 4) {
            assert tail[m] == refs[m + 1];
          }
        }
        assert !(refs[0].index <= k < refs[0].index + 4);
      }
    }
  }

  /**
   * The key property of `assemble`: every slot that no later slot
   * overlaps holds the little-endian bytes of its label's address, and
   * every other byte is as the statements laid it out.
   */
  lemma AssembledSlots(ss: seq<Stmt>, a: Asm, r: Asm)
    requires Assemble(ss).Success? && a == EmitAll(New(), ss).value && r == Assemble(ss).value
    ensures r.labels == a.labels && r.references == a.references && r.index == a.index && r.length == a.length
    ensures |r.data| == |a.data|
    ensures forall j, i :: 0 <= j < |a.references| && Unshadowed(a.references, j) && 0 <= i < 4 ==>
      r.data[a.references[j].index + i] == LeBytes(a.labels[a.references[j].name])[i]
    ensures forall k :: 0 <= k < |a.data| && !InSlot(a.references, k) ==> r.data[k] == a.data[k]
  {
    EmitAllSlots(New(), ss);
    PatchSlots(a.data, a.labels, a.references);
    PatchOutside(a.data, a.labels, a.references);
  }

  // ---- labels ----

  lemma {:induction false} EmitAllAppend(a: Asm, p: seq<Stmt>, q: seq<Stmt>)
    ensures EmitAll(a, p + q) == match EmitAll(a, p) case Success(b) => EmitAll(b, q) case Failure(e) => Failure(e)
    decreases |p|
  {
    if p == [] {
      assert p + q == q;
    } else {
      assert (p + q)[0] == p[0] && (p + q)[1..] == p[1..] + q;
      var e := Emit(a, p[0]);
      if e.Success? {
        EmitAllAppend(e.value, p[1..], q);
        assert EmitAll(a, p + q) == EmitAll(e.value, p[1..] + q);
        assert EmitAll(a, p) == EmitAll(e.value, p[1..]);
      } else {
        assert EmitAll(a, p + q) == Failure(e.error);
        assert EmitAll(a, p) == Failure(e.error);
      }
    }
  }

  /** Statements that do not define l leave its binding alone. */
  lemma {:induction false} EmitAllKeepsLabel(a: Asm, q: seq<Stmt>, l: string)
    requires forall i :: 0 <= i < |q| ==> q[i] != LabelAbsolute(l)
    requires EmitAll(a, q).Success?
    ensures l in a.labels ==> l in EmitAll(a, q).value.labels && EmitAll(a, q).value.labels[l] == a.labels[l]
    decreases |q|
  {
    if q != [] {
      EmitAllKeepsLabel(Emit(a, q[0]).value, q[1..], l);
    }
  }

  /**
   * A label is bound to the cursor (as a u32) where it is defined, and a
   * redefinition overwrites the binding: after a program whose last
   * definition of l follows the statements p, l is the cursor after p.
   */
  lemma LastDefinitionWins(p: seq<Stmt>, l: string, q: seq<Stmt>)
    requires forall i :: 0 <= i < |q| ==> q[i] != LabelAbsolute(l)
    requires EmitAll(New(), p + [LabelAbsolute(l)] + q).Success?
    ensures EmitAll(New(), p).Success?
    ensures var a := EmitAll(New(), p + [LabelAbsolute(l)] + q).value;
      l in a.labels && a.labels[l] == EmitAll(New(), p).value.index % WORD_LIMIT
  {
    EmitAllAppend(New(), p, [LabelAbsolute(l)] + q);
    assert p + [LabelAbsolute(l)] + q == p + ([LabelAbsolute(l)] + q);
    var b := EmitAll(New(), p).value;
    assert ([LabelAbsolute(l)] + q)[1..] == q;
    var c := Emit(b, LabelAbsolute(l)).value;
    EmitAllKeepsLabel(c, q, l);
  }

  // ---- programs without origins ----

  /** A statement that only appends at the cursor: no origin, and an arm in `parse`. */
  predicate Straight(s: Stmt) {
    s.LiteralWord? || s.LabelAbsolute? || s.ReferenceAbsolute? || s.Operation? || s.StringLit? || s.RawByte?
  }

  predicate AllStraight(ss: seq<Stmt>) {
    forall i :: 0 <= i < |ss| ==> Straight(ss[i])
  }

  /** The bytes a straight statement appends; a reference's slot is still zero. */
  function StmtBytes(s: Stmt): seq<Byte>
    requires Straight(s)
  {
    match s
    case LiteralWord(v) => [OP_LITW] + LeBytes(v)
    case ReferenceAbsolute(_) => [OP_LITW] + LeBytes(0)
    case Operation(op) => [OpByte(op)]
    case StringLit(v) => Utf8(v)
    case RawByte(b) => [b]
    case LabelAbsolute(_) => []
  }

  /** The bytes of a straight program, one statement after the other. */
  function Code(ss: seq<Stmt>): seq<Byte>
    requires AllStraight(ss)
  {
    if ss == [] then [] else StmtBytes(ss[0]) + Code(ss[1..])
  }

  /** How many bytes a straight statement appends. */
  function Width(s: Stmt): nat
    requires Straight(s)
  {
    if s.LiteralWord? || s.ReferenceAbsolute? then 5
    else if s.StringLit? then |Utf8(s.value)|
    else if s.LabelAbsolute? then 0
    else 1
  }

  lemma WidthBytes(s: Stmt)
    requires Straight(s)
    ensures |StmtBytes(s)| == Width(s)
  {
  }

  /** How many bytes a straight program appends. */
  function Len(ss: seq<Stmt>): nat
    requires AllStraight(ss)
  {
    if ss == [] then 0 else Width(ss[0]) + Len(ss[1..])
  }

  lemma {:induction false} CodeLength(ss: seq<Stmt>)
    requires AllStraight(ss)
    ensures |Code(ss)| == Len(ss)
  {
    if ss != [] {
      AllStraightTail(ss);
      CodeLength(ss[1..]);
      WidthBytes(ss[0]);
    }
  }

  /** The slots a straight program records when its first statement is laid out at `at`: one just after each reference's LITW. */
  function Refs(at: nat, ss: seq<Stmt>): seq<Reference>
    requires AllStraight(ss)
    decreases |ss|
  {
    if ss == [] then []
    else (if ss[0].ReferenceAbsolute? then [Reference(ss[0].name, at + 1)] else []) + Refs(at + Width(ss[0]), ss[1..])
  }

  /** The assembler has laid out c from RESET_VECTOR on, and nothing else. */
  predicate Laid(a: Asm, c: seq<Byte>) {
    && a.index == RESET_VECTOR + |c| && a.length == |c|
    && a.data == (if c == [] then [] else Zeros(RESET_VECTOR) + c)
  }

  lemma AllStraightTail(ss: seq<Stmt>)
    requires AllStraight(ss) && ss != []
    ensures AllStraight(ss[1..])
  {
    forall i | 0 <= i < |ss[1..]| ensures Straight(ss[1..][i]) {
      assert ss[1..][i] == ss[i + 1];
    }
  }

  lemma PushBytesLaid(a: Asm, c: seq<Byte>, bs: seq<Byte>)
    requires Laid(a, c)
    ensures PushBytes(a, bs).Success?
    ensures Laid(PushBytes(a, bs).value, c + bs)
  {
    if bs == [] {
      assert c + bs == c;
    } else {
      var r := PushBytes(a, bs).value;
      var want := Zeros(RESET_VECTOR) + (c + bs);
      forall k | 0 <= k < |r.data| ensures r.data[k] == want[k] {
        if k >= RESET_VECTOR + |c| {
          assert want[k] == bs[k - (RESET_VECTOR + |c|)];
        } else if k >= RESET_VECTOR {
          assert want[k] == c[k - RESET_VECTOR];
          assert a.data[k] == c[k - RESET_VECTOR];
        } else {
          assert want[k] == 0;
        }
      }
      assert r.data == want;
    }
  }

  lemma PushU8Laid(a: Asm, c: seq<Byte>, v: Byte)
    requires Laid(a, c)
    ensures PushU8(a, v).Success? && Laid(PushU8(a, v).value, c + [v])
  {
    PushBytesLaid(a, c, [v]);
    assert PushBytes(a, [v]) == PushU8(a, v);
  }

  /** What a straight statement does to a laid-out assembler: append its bytes, and record its slot if it is a reference. */
  predicate Appends(b: Asm, a: Asm, c: seq<Byte>, s: Stmt)
    requires Straight(s)
  {
    && Laid(b, c + StmtBytes(s))
    && b.references == a.references + if s.ReferenceAbsolute? then [Reference(s.name, a.index + 1)] else []
  }

  lemma EmitLiteral(a: Asm, c: seq<Byte>, s: Stmt)
    requires Laid(a, c) && s.LiteralWord?
    ensures Emit(a, s).Success? && Appends(Emit(a, s).value, a, c, s)
  {
    PushU8Laid(a, c, OP_LITW);
    var b := PushU8(a, OP_LITW).value;
    PushBytesLaid(b, c + [OP_LITW], LeBytes(s.word));
    assert Emit(a, s) == PushU32(b, s.word);
    assert c + [OP_LITW] + LeBytes(s.word) == c + StmtBytes(s);
  }

  lemma EmitReference(a: Asm, c: seq<Byte>, s: Stmt)
    requires Laid(a, c) && s.ReferenceAbsolute?
    ensures Emit(a, s).Success? && Appends(Emit(a, s).value, a, c, s)
  {
    PushU8Laid(a, c, OP_LITW);
    var b := PushU8(a, OP_LITW).value;
    var b1 := b.(references := b.references + [Reference(s.name, b.index)]);
    PushBytesLaid(b1, c + [OP_LITW], LeBytes(0));
    assert Emit(a, s) == PushU32(b1, 0);
    assert c + [OP_LITW] + LeBytes(0) == c + StmtBytes(s);
  }

  lemma EmitByte(a: Asm, c: seq<Byte>, s: Stmt)
    requires Laid(a, c) && (s.Operation? || s.RawByte?)
    ensures Emit(a, s).Success? && Appends(Emit(a, s).value, a, c, s)
  {
    var v := if s.Operation? then OpByte(s.op) else s.byte;
    PushU8Laid(a, c, v);
    assert Emit(a, s) == PushU8(a, v);
  }

  lemma EmitString(a: Asm, c: seq<Byte>, s: Stmt)
    requires Laid(a, c) && s.StringLit?
    ensures Emit(a, s).Success? && Appends(Emit(a, s).value, a, c, s)
  {
    PushBytesLaid(a, c, Utf8(s.value));
  }

  lemma EmitLabel(a: Asm, c: seq<Byte>, s: Stmt)
    requires Laid(a, c) && s.LabelAbsolute?
    ensures Emit(a, s).Success? && Appends(Emit(a, s).value, a, c, s)
  {
    assert c + [] == c;
    assert a.references + [] == a.references;
  }

  lemma Associative<T>(x: seq<T>, y: seq<T>, z: seq<T>)
    ensures x + y + z == x + (y + z)
  {
  }

  /** One step of the loop in `parse`. */
  type Step = (Asm, Stmt) -> Result<Asm, AsmError>

  /** The loop in `parse` over any step; `EmitAll` is this loop over `Emit`. */
  function Run(step: Step, a: Asm, ss: seq<Stmt>): Result<Asm, AsmError>
    decreases |ss|
  {
    if ss == [] then Success(a)
    else
      var b :- step(a, ss[0]);
      Run(step, b, ss[1..])
  }

  lemma {:induction false} EmitAllRun(a: Asm, ss: seq<Stmt>)
    ensures EmitAll(a, ss) == Run(Emit, a, ss)
    decreases |ss|
  {
    if ss != [] && Emit(a, ss[0]).Success? {
      EmitAllRun(Emit(a, ss[0]).value, ss[1..]);
    }
  }

  /** A step that appends every straight statement at the cursor. */
  ghost predicate LaysOut(step: Step) {
    forall a, c, s :: Laid(a, c) && Straight(s) ==> step(a, s).Success? && Appends(step(a, s).value, a, c, s)
  }

  /** `Emit` appends every straight statement at the cursor. */
  lemma EmitLaysOut()
    ensures LaysOut(Emit)
  {
    forall a, c, s | Laid(a, c) && Straight(s)
      ensures Emit(a, s).Success? && Appends(Emit(a, s).value, a, c, s)
    {
      if s.LiteralWord? {
        EmitLiteral(a, c, s);
      } else if s.ReferenceAbsolute? {
        EmitReference(a, c, s);
      } else if s.StringLit? {
        EmitString(a, c, s);
      } else if s.LabelAbsolute? {
        EmitLabel(a, c, s);
      } else {
        EmitByte(a, c, s);
      }
    }
  }

  /** A straight program appends its code at the cursor. */
  lemma {:induction false} RunLaid(step: Step, a: Asm, c: seq<Byte>, ss: seq<Stmt>)
    requires LaysOut(step) && Laid(a, c) && AllStraight(ss)
    ensures Run(step, a, ss).Success?
    ensures Laid(Run(step, a, ss).value, c + Code(ss))
    decreases |ss|
  {
    if ss == [] {
      assert c + [] == c;
    } else {
      assert step(a, ss[0]).Success? && Appends(step(a, ss[0]).value, a, c, ss[0]);
      var b := step(a, ss[0]).value;
      AllStraightTail(ss);
      RunLaid(step, b, c + StmtBytes(ss[0]), ss[1..]);
      assert Code(ss) == StmtBytes(ss[0]) + Code(ss[1..]);
      Associative(c, StmtBytes(ss[0]), Code(ss[1..]));
    }
  }

  /** A straight program records exactly its slots. */
  lemma {:induction false} RunRefs(step: Step, a: Asm, c: seq<Byte>, ss: seq<Stmt>)
    requires LaysOut(step) && Laid(a, c) && AllStraight(ss)
    ensures Run(step, a, ss).Success?
    ensures Run(step, a, ss).value.references == a.references + Refs(a.index, ss)
    decreases |ss|
  {
    if ss == [] {
      assert a.references + [] == a.references;
    } else {
      assert step(a, ss[0]).Success? && Appends(step(a, ss[0]).value, a, c, ss[0]);
      var b := step(a, ss[0]).value;
      AllStraightTail(ss);
      RunRefs(step, b, c + StmtBytes(ss[0]), ss[1..]);
      WidthBytes(ss[0]);
      var head := if ss[0].ReferenceAbsolute? then [Reference(ss[0].name, a.index + 1)] else [];
      assert b.index == a.index + Width(ss[0]);
      assert Refs(a.index, ss) == head + Refs(b.index, ss[1..]);
      Associative(a.references, head, Refs(b.index, ss[1..]));
    }
  }

  /** Laying out a straight program from the start: its code from RESET_VECTOR on, and exactly its slots. */
  lemma EmitStraight(ss: seq<Stmt>)
    requires AllStraight(ss)
    ensures EmitAll(New(), ss).Success?
    ensures Laid(EmitAll(New(), ss).value, Code(ss))
    ensures EmitAll(New(), ss).value.references == Refs(RESET_VECTOR, ss)
  {
    EmitLaysOut();
    RunLaid(Emit, New(), [], ss);
    RunRefs(Emit, New(), [], ss);
    EmitAllRun(New(), ss);
    assert [] + Code(ss) == Code(ss);
    assert New().references + Refs(RESET_VECTOR, ss) == Refs(RESET_VECTOR, ss);
  }

  /** The slots of a straight program lie inside its code. */
  lemma {:induction false} RefsInside(at: nat, ss: seq<Stmt>)
    requires AllStraight(ss)
    ensures forall j :: 0 <= j < |Refs(at, ss)| ==> at < Refs(at, ss)[j].index && Refs(at, ss)[j].index + 4 <= at + Len(ss)
    decreases |ss|
  {
    if ss != [] {
      AllStraightTail(ss);
      var n := Width(ss[0]);
      RefsInside(at + n, ss[1..]);
      var head := if ss[0].ReferenceAbsolute? then [Reference(ss[0].name, at + 1)] else [];
      var tail := Refs(at + n, ss[1..]);
      var refs := Refs(at, ss);
      assert refs == head + tail;
      forall j | 0 <= j < |refs| ensures at < refs[j].index && refs[j].index + 4 <= at + Len(ss) {
        if j < |head| {
          assert refs[j] == head[j];
        } else {
          assert refs[j] == tail[j - |head|];
        }
      }
    }
  }

  /** The slots of a straight program are in order, each at least four bytes after the one before, so no two overlap. */
  lemma {:induction false} RefsOrdered(at: nat, ss: seq<Stmt>)
    requires AllStraight(ss)
    ensures forall j, m :: 0 <= j < m < |Refs(at, ss)| ==> Refs(at, ss)[j].index + 4 <= Refs(at, ss)[m].index
    decreases |ss|
  {
    if ss != [] {
      AllStraightTail(ss);
      var n := Width(ss[0]);
      RefsOrdered(at + n, ss[1..]);
      RefsInside(at + n, ss[1..]);
      var head := if ss[0].ReferenceAbsolute? then [Reference(ss[0].name, at + 1)] else [];
      var tail := Refs(at + n, ss[1..]);
      var refs := Refs(at, ss);
      assert refs == head + tail;
      forall j, m | 0 <= j < m < |refs| ensures refs[j].index + 4 <= refs[m].index {
        assert refs[m] == tail[m - |head|];
        if j < |head| {
          assert refs[j] == head[j];
        } else {
          assert refs[j] == tail[j - |head|];
        }
      }
    }
  }

  /** The bytes `data` returns after `assemble`: the code, each slot holding the little-endian address of its label. */
  predicate Image(img: seq<Byte>, code: seq<Byte>, labels: map<string, Word>, refs: seq<Reference>)
    requires forall j :: 0 <= j < |refs| ==> refs[j].name in labels
  {
    && |img| == |code|
    && (forall j, i :: 0 <= j < |refs| && 0 <= i < 4 && RESET_VECTOR <= refs[j].index && refs[j].index - RESET_VECTOR + i < |img| ==>
          img[refs[j].index - RESET_VECTOR + i] == LeBytes(labels[refs[j].name])[i])
    && (forall k :: 0 <= k < |code| && !InSlot(refs, RESET_VECTOR + k) ==> img[k] == code[k])
  }

  /** With disjoint slots laid inside the code, the patched buffer's program part is the image of the code. */
  lemma ImageOfPatched(data: seq<Byte>, code: seq<Byte>, patched: seq<Byte>, labels: map<string, Word>, refs: seq<Reference>)
    requires forall j :: 0 <= j < |refs| ==> refs[j].name in labels
    requires data == Zeros(RESET_VECTOR) + code && |patched| == |data|
    requires forall j :: 0 <= j < |refs| ==> RESET_VECTOR < refs[j].index && refs[j].index + 4 <= RESET_VECTOR + |code|
    requires forall j, m :: 0 <= j < m < |refs| ==> refs[j].index + 4 <= refs[m].index
    requires forall j, i :: 0 <= j < |refs| && Unshadowed(refs, j) && 0 <= i < 4 ==>
      patched[refs[j].index + i] == LeBytes(labels[refs[j].name])[i]
    requires forall k :: 0 <= k < |data| && !InSlot(refs, k) ==> patched[k] == data[k]
    ensures Image(patched[RESET_VECTOR..], code, labels, refs)
  {
    var img := patched[RESET_VECTOR..];
    forall j, i | 0 <= j < |refs| && 0 <= i < 4 && RESET_VECTOR <= refs[j].index && refs[j].index - RESET_VECTOR + i < |img|
      ensures img[refs[j].index - RESET_VECTOR + i] == LeBytes(labels[refs[j].name])[i]
    {
      assert Unshadowed(refs, j);
    }
    forall k | 0 <= k < |code| && !InSlot(refs, RESET_VECTOR + k) ensures img[k] == code[k] {
      assert data[RESET_VECTOR + k] == code[k];
    }
  }

  /**
   * Assembling a program without origin statements: it succeeds exactly
   * when every referenced label is defined, and `data` is then the
   * program's code with every slot patched — or panics when the program
   * emits no byte at all, since the buffer never grew to RESET_VECTOR.
   */
  lemma AssembleStraight(ss: seq<Stmt>)
    requires AllStraight(ss)
    ensures EmitAll(New(), ss).Success?
    ensures var a := EmitAll(New(), ss).value;
      Assemble(ss).Success? <==> forall j :: 0 <= j < |a.references| ==> a.references[j].name in a.labels
    ensures Assemble(ss).Success? ==> var a := EmitAll(New(), ss).value;
      && a.references == Refs(RESET_VECTOR, ss)
      && (Code(ss) == [] <==> Data(Assemble(ss).value).None?)
      && (Code(ss) != [] ==> Image(Data(Assemble(ss).value).value, Code(ss), a.labels, a.references))
  {
    EmitStraight(ss);
    if Assemble(ss).Success? && Code(ss) != [] {
      StraightImage(ss);
    }
  }

  /** The image half of AssembleStraight, for a program that emits some code. */
  lemma StraightImage(ss: seq<Stmt>)
    requires AllStraight(ss) && Assemble(ss).Success? && Code(ss) != []
    ensures Data(Assemble(ss).value).Some?
    ensures Image(Data(Assemble(ss).value).value, Code(ss), EmitAll(New(), ss).value.labels, EmitAll(New(), ss).value.references)
  {
    StraightLayout(ss);
    var a := EmitAll(New(), ss).value;
    var r := Assemble(ss).value;
    AssembledSlots(ss, a, r);
    assert PatchedOf(a, r);
    PatchedImage(a, r, Code(ss));
  }

  /**
   * A program without origin statements lays out as RESET_VECTOR zeros
   * then its code, with its slots in order, each inside the code.
   */
  predicate LaidStraight(a: Asm, code: seq<Byte>) {
    && a.data == Zeros(RESET_VECTOR) + code && a.length == |code|
    && (forall j :: 0 <= j < |a.references| ==>
          RESET_VECTOR < a.references[j].index && a.references[j].index + 4 <= RESET_VECTOR + |code|)
    && (forall j, m :: 0 <= j < m < |a.references| ==> a.references[j].index + 4 <= a.references[m].index)
  }

  /** r is a with its unshadowed slots patched and every other byte kept, as AssembledSlots states. */
  predicate PatchedOf(a: Asm, r: Asm)
    requires forall j :: 0 <= j < |a.references| ==> a.references[j].name in a.labels
    requires SlotsInBuffer(a.data, a.references)
  {
    && r.labels == a.labels && r.references == a.references && r.length == a.length
    && |r.data| == |a.data|
    && (forall j, i :: 0 <= j < |a.references| && Unshadowed(a.references, j) && 0 <= i < 4 ==>
          r.data[a.references[j].index + i] == LeBytes(a.labels[a.references[j].name])[i])
    && (forall k :: 0 <= k < |a.data| && !InSlot(a.references, k) ==> r.data[k] == a.data[k])
  }

  lemma StraightLayout(ss: seq<Stmt>)
    requires AllStraight(ss) && Code(ss) != []
    ensures EmitAll(New(), ss).Success?
    ensures LaidStraight(EmitAll(New(), ss).value, Code(ss))
  {
    EmitStraight(ss);
    RefsInside(RESET_VECTOR, ss);
    RefsOrdered(RESET_VECTOR, ss);
    CodeLength(ss);
  }

  /** The data of a straight layout with its slots patched is the image of the code. */
  lemma PatchedImage(a: Asm, r: Asm, code: seq<Byte>)
    requires forall j :: 0 <= j < |a.references| ==> a.references[j].name in a.labels
    requires LaidStraight(a, code) && PatchedOf(a, r)
    ensures Data(r).Some?
    ensures Image(Data(r).value, code, a.labels, a.references)
  {
    ImageOfPatched(a.data, code, r.data, a.labels, a.references);
    assert Data(r).value == r.data[RESET_VECTOR..];
  }
}

=== FILE: asm_parser.dfy ===
/**
 * The assembler's parser: each sigil takes the identifier token after it
 * as a label name or as a base-16 number, a bare identifier is a mnemonic,
 * and a string literal stands for its bytes.
 */
module Parser {
  import opened Wrappers
  import opened Bytes
  import opened Bytecode
  import opened Tokenizer

  datatype Stmt =
    | OriginAbsolute(origin: Word)
    | OriginRelative(offset: Word)
    | LiteralWord(word: Word)
    | LabelAbsolute(name: string)
    | ReferenceAbsolute(name: string)
    | Operation(op: Opcode)
    | StringLit(value: string)
    | RawByte(byte: Byte)
    | RawWord(word: Word)
    | RawReferenceAbsolute(name: string)

  /**
   * Why `parse` stops: a sigil without an identifier after it ("Invalid
   * value"), a number `from_str_radix` rejects, a mnemonic `from_str`
   * rejects, or a token whose arm is `todo!()`.
   */
  datatype ParseError = InvalidValue | BadNumber(text: string) | UnknownMnemonic(text: string) | Todo(token: Token)

  // ---- base-16 numbers (`u32::from_str_radix(s, 16)`) ----

  function HexDigit(c: char): (r: Option<nat>)
    ensures r.Some? ==> r.value < 16
  {
    if '0' <= c <= '9' then Some(c as int - '0' as int)
    else if 'a' <= c <= 'f' then Some(c as int - 'a' as int + 10)
    else if 'A' <= c <= 'F' then Some(c as int - 'A' as int + 10)
    else None
  }

  /** The value of a string of hex digits, most significant first; None if any character is not a digit. */
  function HexValue(s: string): (r: Option<nat>)
    ensures r.Some? <==> forall i :: 0 <= i < |s| ==> HexDigit(s[i]).Some?
    decreases |s|
  {
    if s == [] then Some(0)
    else
      var hi :- HexValue(s[..|s| - 1]);
      var d :- HexDigit(s[|s| - 1]);
      Some(16 * hi + d)
  }

  /**
   * `u32::from_str_radix(s, 16)`: an optional `+`, then at least one hex
   * digit of either case, and a value below 2^32. The lexer never puts a
   * `+` in an identifier, so only the digits matter to the assembler.
   */
  function ParseHex(s: string): (r: Option<Word>)
    ensures r.Some? ==> |s| > 0
    ensures var d := if |s| > 0 && s[0] == '+' then s[1..] else s;
      r.Some? <==> d != [] && (forall i :: 0 <= i < |d| ==> HexDigit(d[i]).Some?) && HexValue(d).value < WORD_LIMIT
    ensures var d := if |s| > 0 && s[0] == '+' then s[1..] else s;
      r.Some? ==> Some(r.value) == HexValue(d)
  {
    var digits := if |s| > 0 && s[0] == '+' then s[1..] else s;
    if digits == [] then None
    else
      var v :- HexValue(digits);
      if v < WORD_LIMIT then Some(v) else None
  }

  function HexChar(d: nat): (c: char)
    requires d < 16
  {
    if d < 10 then ('0' as int + d) as char else ('a' as int + d - 10) as char
  }

  /** The lower-case hex digits of n, without leading zeros. */
  function ToHex(n: nat): (s: string)
    ensures |s| > 0
    decreases n
  {
    if n < 16 then [HexChar(n)] else ToHex(n / 16) + [HexChar(n % 16)]
  }

  /** Reading back the digits of a number gives the number. */
  lemma {:induction false} HexValueOfToHex(n: nat)
    ensures HexValue(ToHex(n)) == Some(n)
    decreases n
  {
    var s := ToHex(n);
    if n < 16 {
      assert s[..0] == [];
    } else {
      assert s[..|s| - 1] == ToHex(n / 16);
      HexValueOfToHex(n / 16);
    }
  }

  /** Every word written in hex parses back to itself. */
  lemma ParseHexOfToHex(w: Word)
    ensures ParseHex(ToHex(w)) == Some(w)
  {
    HexValueOfToHex(w);
    ToHexIdentifier(w);
    assert ToHex(w)[0] != '+';
  }

  /** A number sigil's operand written in hex reads back as the word. */
  lemma ParseNumberSpelled(w: Word, rest: seq<Token>)
    ensures ParseNumber([IdentifierOrNumber(ToHex(w))] + rest) == Success(w)
  {
    ParseHexOfToHex(w);
  }

  /** The hex digits of a number form an identifier, so the lexer keeps them in one token. */
  lemma {:induction false} ToHexIdentifier(n: nat)
    ensures Identifier(ToHex(n))
    decreases n
  {
    if n >= 16 {
      ToHexIdentifier(n / 16);
    }
  }

  /** Hex digits are read case-insensitively. */
  lemma {:induction false} HexValueLower(s: string)
    ensures HexValue(Lower(s)) == HexValue(s)
    decreases |s|
  {
    if s != [] {
      assert Lower(s)[..|s| - 1] == Lower(s[..|s| - 1]);
      HexValueLower(s[..|s| - 1]);
    }
  }

  /** Leading zeros do not change a number, so they never push it past 2^32. */
  lemma {:induction false} HexValueLeadingZero(s: string)
    ensures HexValue(['0'] + s) == HexValue(s)
    decreases |s|
  {
    if s != [] {
      assert (['0'] + s)[..|s|] == ['0'] + s[..|s| - 1];
      HexValueLeadingZero(s[..|s| - 1]);
    }
  }

  // ---- `parse` ----

  /** `parse_identifier`: the next token must be an identifier. */
  function ParseIdentifier(next: seq<Token>): (r: Result<string, ParseError>)
    ensures r.Success? <==> next != [] && next[0].IdentifierOrNumber?
    ensures r.Success? ==> r.value == next[0].text
  {
    if next != [] && next[0].IdentifierOrNumber? then Success(next[0].text) else Failure(InvalidValue)
  }

  /** `parse_number`: the next token must be an identifier that is a base-16 u32. */
  function ParseNumber(next: seq<Token>): (r: Result<Word, ParseError>)
    ensures r.Success? <==> next != [] && next[0].IdentifierOrNumber? && ParseHex(next[0].text).Some?
    ensures r.Success? ==> Some(r.value) == ParseHex(next[0].text)
  {
    var x :- ParseIdentifier(next);
    match ParseHex(x)
    case Some(v) => Success(v)
    case None => Failure(BadNumber(x))
  }

  /** How a bare identifier becomes an opcode: `Opcode::from_str` (FromStr) in `parse`. */
  type Lookup = string -> Result<Opcode, ()>

  /**
   * One arm of the loop in `parse`: the statement for token t, and how
   * many of the following tokens it used.
   */
  function ParseOne(lookup: Lookup, t: Token, next: seq<Token>): (r: Result<(Stmt, nat), ParseError>)
    ensures r.Success? ==> r.value.1 <= |next|
  {
    match t
    case At =>
      var x :- ParseIdentifier(next);
      Success((LabelAbsolute(x), 1))
    case Semicolon =>
      var x :- ParseIdentifier(next);
      Success((ReferenceAbsolute(x), 1))
    case Colon =>
      var x :- ParseIdentifier(next);
      Success((RawReferenceAbsolute(x), 1))
    case Pound =>
      var n :- ParseNumber(next);
      Success((LiteralWord(n), 1))
    case Pipe =>
      var n :- ParseNumber(next);
      Success((OriginAbsolute(n), 1))
    case Ampersand => Failure(Todo(t))
    case Period =>
      var n :- ParseNumber(next);
      Success((RawByte(LowByte(n)), 1))
    case Equal =>
      var n :- ParseNumber(next);
      Success((RawWord(n), 1))
    case IdentifierOrNumber(x) =>
      var op := lookup(x);
      if op.Success? then Success((Operation(op.value), 0)) else Failure(UnknownMnemonic(x))
    case Str(v) => Success((StringLit(v), 0))
    case Dollar =>
      var n :- ParseNumber(next);
      Success((OriginRelative(n), 1))
    case UnterminatedString => Failure(Todo(t))
    case Unknown(_) => Failure(Todo(t))
  }

  /** The loop of `parse` with the given mnemonic lookup. */
  function ParseWith(lookup: Lookup, ts: seq<Token>): Result<seq<Stmt>, ParseError>
    decreases |ts|
  {
    if ts == [] then Success([])
    else
      var one :- ParseOne(lookup, ts[0], ts[1..]);
      var rest :- ParseWith(lookup, ts[1 + one.1..]);
      Success([one.0] + rest)
  }

  /** `parse`: the statements of a token list, in order; the first error stops it. */
  function Parse(ts: seq<Token>): Result<seq<Stmt>, ParseError> {
    ParseWith(FromStr, ts)
  }

  /** The sigils that take a number after them. */
  predicate NumberSigil(t: Token) {
    t == Pound || t == Pipe || t == Period || t == Equal || t == Dollar
  }

  /** The sigils that take a label name after them. */
  predicate LabelSigil(t: Token) {
    t == At || t == Semicolon || t == Colon
  }

  /**
   * How parsing stops: a sigil with no identifier after it, a number sigil
   * with a bad number, an unknown mnemonic, and `&`, an unterminated
   * string or an unknown character each abort.
   */
  lemma ParseErrors(t: Token, rest: seq<Token>)
    ensures (NumberSigil(t) || LabelSigil(t)) && (rest == [] || !rest[0].IdentifierOrNumber?) ==>
      Parse([t] + rest) == Failure(InvalidValue)
    ensures NumberSigil(t) && rest != [] && rest[0].IdentifierOrNumber? && ParseHex(rest[0].text).None? ==>
      Parse([t] + rest) == Failure(BadNumber(rest[0].text))
    ensures t.IdentifierOrNumber? && FromStr(t.text).Failure? ==> Parse([t] + rest) == Failure(UnknownMnemonic(t.text))
    ensures t == Ampersand || t == UnterminatedString || t.Unknown? ==> Parse([t] + rest) == Failure(Todo(t))
  {
    assert ([t] + rest)[1..] == rest;
  }

  /**
   * Every arm of the loop at a glance: a sigil consumes exactly the one
   * token after it, which must be an identifier (and, after a number sigil,
   * a base-16 u32); a mnemonic must be known; a string literal always
   * succeeds; and `&`, an unterminated string or an unknown character stop
   * at `todo!()`.
   */
  lemma ParseOneCases(lookup: Lookup, t: Token, next: seq<Token>)
    ensures var r := ParseOne(lookup, t, next);
      && (r.Success? ==> r.value.1 == if NumberSigil(t) || LabelSigil(t) then 1 else 0)
      && (LabelSigil(t) ==> (r.Success? <==> next != [] && next[0].IdentifierOrNumber?))
      && (NumberSigil(t) ==> (r.Success? <==> next != [] && next[0].IdentifierOrNumber? && ParseHex(next[0].text).Some?))
      && (t.IdentifierOrNumber? ==> (r.Success? <==> lookup(t.text).Success?))
      && (t.Str? ==> r == Success((StringLit(t.text), 0)))
      && (t == Ampersand || t == UnterminatedString || t.Unknown? ==> r == Failure(Todo(t)))
  {
  }

  /** `.` keeps only the low byte of its number: `.1234` is the byte 0x34. */
  lemma PeriodTruncates(x: string, rest: seq<Token>)
    requires ParseHex(x).Some?
    ensures var v := ParseHex(x).value;
      ParseOne(FromStr, Period, [IdentifierOrNumber(x)] + rest) == Success((RawByte(v % 256), 1))
  {
  }

  // ---- writing statements back as tokens ----

  /** The statement a number sigil makes of its number. */
  function NumberStmt(t: Token, w: Word): Stmt
    requires NumberSigil(t)
  {
    match t
    case Pound => LiteralWord(w)
    case Pipe => OriginAbsolute(w)
    case Period => RawByte(LowByte(w))
    case Equal => RawWord(w)
    case Dollar => OriginRelative(w)
  }

  /** The statement a label sigil makes of its name. */
  function LabelStmt(t: Token, l: string): Stmt
    requires LabelSigil(t)
  {
    match t
    case At => LabelAbsolute(l)
    case Semicolon => ReferenceAbsolute(l)
    case Colon => RawReferenceAbsolute(l)
  }

  lemma ParseOneNumber(lookup: Lookup, t: Token, w: Word, rest: seq<Token>)
    requires NumberSigil(t)
    ensures ParseOne(lookup, t, [IdentifierOrNumber(ToHex(w))] + rest) == Success((NumberStmt(t, w), 1))
  {
    ParseNumberSpelled(w, rest);
  }

  lemma ParseOneLabel(lookup: Lookup, t: Token, l: string, rest: seq<Token>)
    requires LabelSigil(t)
    ensures ParseOne(lookup, t, [IdentifierOrNumber(l)] + rest) == Success((LabelStmt(t, l), 1))
  {
  }

  /** The token that starts a statement's spelling. */
  function Head(s: Stmt): Token {
    match s
    case OriginAbsolute(_) => Pipe
    case OriginRelative(_) => Dollar
    case LiteralWord(_) => Pound
    case LabelAbsolute(_) => At
    case ReferenceAbsolute(_) => Semicolon
    case Operation(op) => IdentifierOrNumber(Mnemonic(op))
    case StringLit(v) => Str(v)
    case RawByte(_) => Period
    case RawWord(_) => Equal
    case RawReferenceAbsolute(_) => Colon
  }

  /** The identifier after a sigil: a number in lower-case hex, or a label name. */
  function Operand(s: Stmt): seq<Token> {
    match s
    case OriginAbsolute(w) => [IdentifierOrNumber(ToHex(w))]
    case OriginRelative(w) => [IdentifierOrNumber(ToHex(w))]
    case LiteralWord(w) => [IdentifierOrNumber(ToHex(w))]
    case LabelAbsolute(l) => [IdentifierOrNumber(l)]
    case ReferenceAbsolute(l) => [IdentifierOrNumber(l)]
    case Operation(_) => []
    case StringLit(_) => []
    case RawByte(b) => [IdentifierOrNumber(ToHex(b))]
    case RawWord(w) => [IdentifierOrNumber(ToHex(w))]
    case RawReferenceAbsolute(l) => [IdentifierOrNumber(l)]
  }

  /** The tokens that spell a statement. */
  function Spell(s: Stmt): seq<Token> {
    [Head(s)] + Operand(s)
  }

  function Unparse(ss: seq<Stmt>): seq<Token> {
    if ss == [] then [] else Spell(ss[0]) + Unparse(ss[1..])
  }

  /** The first statement of a spelling parses back, using exactly its operand. */
  lemma ParseOneSpell(lookup: Lookup, s: Stmt, rest: seq<Token>)
    requires s.Operation? ==> lookup(Mnemonic(s.op)) == Success(s.op)
    ensures ParseOne(lookup, Head(s), Operand(s) + rest) == Success((s, |Operand(s)|))
  {
    if s.Operation? || s.StringLit? {
      ParseOneSpellBare(lookup, s, rest);
    } else if s.LabelAbsolute? || s.ReferenceAbsolute? || s.RawReferenceAbsolute? {
      ParseOneSpellLabel(lookup, s, rest);
    } else {
      ParseOneSpellNumber(lookup, s, rest);
    }
  }

  lemma ParseOneSpellBare(lookup: Lookup, s: Stmt, rest: seq<Token>)
    requires s.Operation? ==> lookup(Mnemonic(s.op)) == Success(s.op)
    requires s.Operation? || s.StringLit?
    ensures ParseOne(lookup, Head(s), Operand(s) + rest) == Success((s, |Operand(s)|))
  {
  }

  lemma ParseOneSpellLabel(lookup: Lookup, s: Stmt, rest: seq<Token>)
    requires s.LabelAbsolute? || s.ReferenceAbsolute? || s.RawReferenceAbsolute?
    ensures ParseOne(lookup, Head(s), Operand(s) + rest) == Success((s, |Operand(s)|))
  {
    ParseOneLabel(lookup, Head(s), s.name, rest);
  }

  lemma ParseOneSpellNumber(lookup: Lookup, s: Stmt, rest: seq<Token>)
    requires s.OriginAbsolute? || s.OriginRelative? || s.LiteralWord? || s.RawByte? || s.RawWord?
    ensures ParseOne(lookup, Head(s), Operand(s) + rest) == Success((s, |Operand(s)|))
  {
    match s
    case RawByte(b) => ParseOneNumber(lookup, Period, b, rest);
    case OriginAbsolute(w) => ParseOneNumber(lookup, Pipe, w, rest);
    case OriginRelative(w) => ParseOneNumber(lookup, Dollar, w, rest);
    case LiteralWord(w) => ParseOneNumber(lookup, Pound, w, rest);
    case RawWord(w) => ParseOneNumber(lookup, Equal, w, rest);
  }

  /** With a lookup that knows every mnemonic, parsing the spelling of any statements gives them back. */
  lemma {:induction false} ParseWithUnparse(lookup: Lookup, ss: seq<Stmt>)
    requires forall op: Opcode :: lookup(Mnemonic(op)) == Success(op)
    ensures ParseWith(lookup, Unparse(ss)) == Success(ss)
  {
    if ss != [] {
      var ts := Unparse(ss);
      var tail := Unparse(ss[1..]);
      assert ts == [Head(ss[0])] + (Operand(ss[0]) + tail);
      assert ts[0] == Head(ss[0]) && ts[1..] == Operand(ss[0]) + tail;
      ParseOneSpell(lookup, ss[0], tail);
      assert ts[1 + |Operand(ss[0])|..] == tail;
      ParseWithUnparse(lookup, ss[1..]);
      ParseWithStep(lookup, ts, ss[0], |Operand(ss[0])|, ss[1..]);
      assert [ss[0]] + ss[1..] == ss;
    }
  }

  /** One statement parsed at the front, and the rest parsed after its operand, is the whole parse. */
  lemma ParseWithStep(lookup: Lookup, ts: seq<Token>, s: Stmt, n: nat, rest: seq<Stmt>)
    requires ts != [] && ParseOne(lookup, ts[0], ts[1..]) == Success((s, n))
    requires ParseWith(lookup, ts[1 + n..]) == Success(rest)
    ensures ParseWith(lookup, ts) == Success([s] + rest)
  {
    var one := ParseOne(lookup, ts[0], ts[1..]);
    assert one.value == (s, n);
  }

  /** Parsing the spelling of any statements gives them back. */
  lemma ParseUnparse(ss: seq<Stmt>)
    ensures Parse(Unparse(ss)) == Success(ss)
  {
    forall op: Opcode ensures FromStr(Mnemonic(op)) == Success(op) {
      FromStrMnemonic(op);
    }
    ParseWithUnparse(FromStr, ss);
  }

  /** Label names that are identifiers and string literals without a quote: what a source file can spell. */
  predicate Writable(s: Stmt) {
    match s
    case LabelAbsolute(l) => Identifier(l)
    case ReferenceAbsolute(l) => Identifier(l)
    case RawReferenceAbsolute(l) => Identifier(l)
    case StringLit(v) => forall i :: 0 <= i < |v| ==> v[i] != '"'
    case _ => true
  }

  /** Every mnemonic is an identifier. */
  lemma MnemonicIdentifier(op: Opcode)
    ensures Identifier(Mnemonic(op))
  {
    var m := Mnemonic(op);
    assert |m| >= 2 && m[0] != ' ' && m[1] != ' ' && m[|m| - 1] != ' ';
  }

  lemma {:induction false} UnparsePrintable(ss: seq<Stmt>)
    requires forall i :: 0 <= i < |ss| ==> Writable(ss[i])
    ensures forall i :: 0 <= i < |Unparse(ss)| ==> Printable(Unparse(ss)[i])
  {
    if ss != [] {
      UnparsePrintable(ss[1..]);
      var s := ss[0];
      assert Writable(s);
      match s
      case Operation(op) => MnemonicIdentifier(op);
      case OriginAbsolute(w) => ToHexIdentifier(w);
      case OriginRelative(w) => ToHexIdentifier(w);
      case LiteralWord(w) => ToHexIdentifier(w);
      case RawByte(b) => ToHexIdentifier(b);
      case RawWord(w) => ToHexIdentifier(w);
      case _ =>
    }
  }

  /** The source text of statements: their tokens, each followed by a space. */
  function Source(ss: seq<Stmt>): string {
    Render(Unparse(ss))
  }

  /** Lexing and parsing the source text of writable statements gives them back. */
  lemma SourceRoundTrip(ss: seq<Stmt>)
    requires forall i :: 0 <= i < |ss| ==> Writable(ss[i])
    ensures Parse(Tokenize(Source(ss))) == Success(ss)
  {
    UnparsePrintable(ss);
    TokenizeRender(Unparse(ss));
    ParseUnparse(ss);
  }
}

=== FILE: asm_tokenizer.dfy ===
/**
 * The assembler's lexer: one pass over the characters of the source that
 * turns sigils into single-character tokens, skips white space and nested
 * `( ... )` comments, and collects identifiers and string literals.
 */
module Tokenizer {
  import opened Wrappers

  datatype Token =
    | At | Semicolon | Pound | Pipe | Ampersand | Period | Dollar | Equal | Colon
    | IdentifierOrNumber(text: string)
    | Str(text: string)
    | UnterminatedString
    | Unknown(c: char)

  predicate IsAlnum(c: char) {
    'a' <= c <= 'z' || 'A' <= c <= 'Z' || '0' <= c <= '9'
  }

  /** The characters an identifier continues with. */
  predicate IsIdentChar(c: char) {
    IsAlnum(c) || c == '_' || c == '-' || c == '/'
  }

  predicate IsSpace(c: char) {
    c == ' ' || c == '\n' || c == '\r' || c == '\t'
  }

  predicate NotQuote(c: char) {
    c != '"'
  }

  /** The single-character arms of `match_token`. */
  function Sigil(c: char): Option<Token> {
    match c
    case '|' => Some(Pipe)
    case '@' => Some(At)
    case '&' => Some(Ampersand)
    case ';' => Some(Semicolon)
    case '#' => Some(Pound)
    case '$' => Some(Dollar)
    case '=' => Some(Equal)
    case ':' => Some(Colon)
    case '.' => Some(Period)
    case _ => None
  }

  /** The text of a sigil token. */
  function SigilChar(t: Token): Option<char> {
    match t
    case Pipe => Some('|')
    case At => Some('@')
    case Ampersand => Some('&')
    case Semicolon => Some(';')
    case Pound => Some('#')
    case Dollar => Some('$')
    case Equal => Some('=')
    case Colon => Some(':')
    case Period => Some('.')
    case _ => None
  }

  /** Each sigil character gives its token, and only sigil tokens come from a single character this way. */
  lemma SigilRoundTrip(c: char, t: Token)
    ensures Sigil(c) == Some(t) <==> SigilChar(t) == Some(c)
  {
  }

  /** `Scanner::consume_while`: the length of the longest prefix of s whose characters all satisfy p. */
  function SpanWhile(p: char -> bool, s: string): (n: nat)
    ensures n <= |s|
    ensures forall i :: 0 <= i < n ==> p(s[i])
    ensures n < |s| ==> !p(s[n])
  {
    if s == [] || !p(s[0]) then 0 else 1 + SpanWhile(p, s[1..])
  }

  /** The longest prefix is unique: a run of p-characters ended by a non-p character is exactly what is consumed. */
  lemma SpanWhileExact(p: char -> bool, a: string, b: string)
    requires forall i :: 0 <= i < |a| ==> p(a[i])
    requires b != [] && !p(b[0])
    ensures SpanWhile(p, a + b) == |a|
  {
    assert (a + b)[|a|] == b[0];
    assert forall i :: 0 <= i < |a| ==> (a + b)[i] == a[i];
  }

  /** How a character moves the comment depth. */
  function Delta(c: char): int {
    if c == '(' then 1 else if c == ')' then -1 else 0
  }

  /** The opening minus the closing parentheses in s. */
  function Depth(s: string): int {
    if s == [] then 0 else Delta(s[0]) + Depth(s[1..])
  }

  lemma DepthPrefix(s: string, k: nat)
    requires 1 <= k <= |s|
    ensures Depth(s[..k]) == Delta(s[0]) + Depth(s[1..][..k - 1])
  {
    assert s[..k][1..] == s[1..][..k - 1];
  }

  /**
   * The loop of the `(` arm: how many characters of s it consumes when
   * `level` comments are open. It stops after the `)` that closes the
   * outermost one, or at the end of the input.
   */
  function CommentEnd(s: string, level: nat): (n: nat)
    requires level >= 1
    ensures n <= |s|
    decreases |s|
  {
    if s == [] then 0
    else if s[0] == ')' then (if level == 1 then 1 else 1 + CommentEnd(s[1..], level - 1))
    else if s[0] == '(' then 1 + CommentEnd(s[1..], level + 1)
    else 1 + CommentEnd(s[1..], level)
  }

  /**
   * A comment ends exactly where the count of open parentheses first
   * drops to zero; when it never does, it runs to the end of the input.
   */
  lemma {:induction false} CommentEndDepth(s: string, level: nat)
    requires level >= 1
    ensures var n := CommentEnd(s, level);
      && (forall k :: 0 <= k < n ==> level + Depth(s[..k]) > 0)
      && (level + Depth(s[..n]) == 0 || (n == |s| && level + Depth(s) > 0))
    decreases |s|
  {
    var n := CommentEnd(s, level);
    if s != [] {
      DepthPrefix(s, 1);
      assert s[1..][..0] == [];
      if s[0] == ')' && level == 1 {
        assert n == 1;
        forall k | 0 <= k < n ensures level + Depth(s[..k]) > 0 {
          assert s[..k] == [];
        }
      } else {
        var level' := level + Delta(s[0]);
        var m := CommentEnd(s[1..], level');
        assert n == 1 + m;
        CommentEndDepth(s[1..], level');
        forall k | 0 <= k < n ensures level + Depth(s[..k]) > 0 {
          if k == 0 {
            assert s[..k] == [];
          } else {
            DepthPrefix(s, k);
          }
        }
        DepthPrefix(s, n);
        assert s[1..][..m] == s[1..][..|s[1..]|] || m < |s[1..]|;
        if m == |s[1..]| {
          assert s[1..][..m] == s[1..];
          assert s[..n] == s;
        }
      }
    }
  }

  /**
   * `match_token` after `tokenize` took c from the front of the input: the
   * token, if any, and how many more characters of rest the arm consumed.
   */
  function MatchToken(c: char, rest: string): (r: (Option<Token>, nat))
    ensures r.1 <= |rest|
  {
    match Sigil(c)
    case Some(t) => (Some(t), 0)
    case None =>
      if IsSpace(c) then (None, 0)
      else if c == '(' then (None, CommentEnd(rest, 1))
      else if c == '"' then
        var n := SpanWhile(NotQuote, rest);
        if n == |rest| then (Some(UnterminatedString), n) else (Some(Str(rest[..n])), n + 1)
      else if IsAlnum(c) then
        var n := SpanWhile(IsIdentChar, rest);
        (Some(IdentifierOrNumber([c] + rest[..n])), n)
      else (Some(Unknown(c)), 0)
  }

  /** `tokenize`: repeat `match_token` until the input is used up. */
  function Tokenize(s: string): seq<Token>
    decreases |s|
  {
    if s == [] then []
    else
      var (t, n) := MatchToken(s[0], s[1..]);
      var tail := Tokenize(s[1 + n..]);
      match t
      case Some(tok) => [tok] + tail
      case None => tail
  }

  /** A well-formed identifier: an alphanumeric followed by identifier characters. */
  predicate Identifier(x: string) {
    |x| > 0 && IsAlnum(x[0]) && forall i :: 0 <= i < |x| ==> IsIdentChar(x[i])
  }

  /** The shapes of the tokens the lexer produces. */
  predicate Lexed(t: Token) {
    match t
    case IdentifierOrNumber(x) => Identifier(x)
    case Str(x) => forall i :: 0 <= i < |x| ==> x[i] != '"'
    case Unknown(c) => Sigil(c).None? && !IsSpace(c) && c != '(' && c != '"' && !IsAlnum(c)
    case _ => true
  }

  lemma MatchTokenLexed(c: char, rest: string)
    ensures MatchToken(c, rest).0.Some? ==> Lexed(MatchToken(c, rest).0.value)
  {
  }

  /**
   * Every token of `tokenize` has its lexed shape: identifiers start with
   * an alphanumeric and continue with identifier characters, string
   * literals contain no quote, and Unknown holds only a character no arm
   * accepts. An unterminated string can only be the last token.
   */
  lemma {:induction false} TokenizeLexed(s: string)
    ensures forall i :: 0 <= i < |Tokenize(s)| ==> Lexed(Tokenize(s)[i])
    ensures forall i :: 0 <= i < |Tokenize(s)| - 1 ==> Tokenize(s)[i] != UnterminatedString
    decreases |s|
  {
    if s != [] {
      var (t, n) := MatchToken(s[0], s[1..]);
      TokenizeLexed(s[1 + n..]);
      MatchTokenLexed(s[0], s[1..]);
      if t == Some(UnterminatedString) {
        assert s[1 + n..] == [];
      }
    }
  }

  /** The text of a token the lexer gives back unchanged. */
  function Text(t: Token): string {
    match t
    case IdentifierOrNumber(x) => x
    case Str(x) => ['"'] + x + ['"']
    case Unknown(c) => [c]
    case UnterminatedString => ['"']
    case _ => [SigilChar(t).value]
  }

  /** The source text of a token list: every token followed by one space. */
  function Render(ts: seq<Token>): string {
    if ts == [] then [] else Text(ts[0]) + [' '] + Render(ts[1..])
  }

  /** The tokens a rendering gives back: lexed shapes, and no unterminated string. */
  predicate Printable(t: Token) {
    Lexed(t) && t != UnterminatedString
  }

  /** White space between tokens produces nothing. */
  lemma TokenizeSpace(c: char, rest: string)
    requires IsSpace(c)
    ensures Tokenize([c] + rest) == Tokenize(rest)
  {
    assert ([c] + rest)[1..] == rest;
  }

  /**
   * A comment produces nothing either: lexing resumes right after the `)`
   * that brings the depth back to zero (CommentEndDepth), or stops at the
   * end of the input.
   */
  lemma TokenizeComment(rest: string)
    ensures Tokenize(['('] + rest) == Tokenize(rest[CommentEnd(rest, 1)..])
  {
    assert (['('] + rest)[1..] == rest;
  }

  /** A quote with no closing quote after it is the last token, UnterminatedString, and takes the rest of the input. */
  lemma TokenizeUnterminated(rest: string)
    requires forall i :: 0 <= i < |rest| ==> rest[i] != '"'
    ensures Tokenize(['"'] + rest) == [UnterminatedString]
  {
    MatchUnterminated(rest);
    assert (['"'] + rest)[1..] == rest;
    assert (['"'] + rest)[1 + |rest|..] == [];
  }

  lemma MatchUnterminated(rest: string)
    requires forall i :: 0 <= i < |rest| ==> rest[i] != '"'
    ensures MatchToken('"', rest) == (Some(UnterminatedString), |rest|)
  {
  }

  /** One printable token followed by a space lexes to itself, and lexing resumes after it. */
  lemma TokenizeOne(t: Token, rest: string)
    requires Printable(t)
    ensures Tokenize(Text(t) + [' '] + rest) == [t] + Tokenize([' '] + rest)
  {
    match t
    case IdentifierOrNumber(x) => TokenizeIdentifier(x, rest);
    case Str(x) => TokenizeStr(x, rest);
    case Unknown(c) => TokenizeSingle(t, c, rest);
    case UnterminatedString =>
    case _ => TokenizeSingle(t, SigilChar(t).value, rest);
  }

  /** A sigil or an unknown character is a token of its own. */
  lemma TokenizeSingle(t: Token, c: char, rest: string)
    requires Printable(t) && Text(t) == [c]
    requires SigilChar(t) == Some(c) || t == Unknown(c)
    ensures Tokenize([c] + [' '] + rest) == [t] + Tokenize([' '] + rest)
  {
    assert MatchToken(c, [' '] + rest) == (Some(t), 0);
    assert ([c] + [' '] + rest)[1..] == [' '] + rest;
  }

  /** The identifier arm consumes exactly the rest of a well-formed identifier when a space follows it. */
  lemma MatchIdentifier(x: string, rest: string)
    requires Identifier(x)
    ensures MatchToken(x[0], x[1..] + rest) == (Some(IdentifierOrNumber(x)), |x| - 1)
    requires rest != [] && rest[0] == ' '
  {
    SpanWhileExact(IsIdentChar, x[1..], rest);
    assert (x[1..] + rest)[..|x| - 1] == x[1..];
    assert [x[0]] + x[1..] == x;
  }

  lemma TokenizeIdentifier(x: string, rest: string)
    requires Identifier(x)
    ensures Tokenize(x + [' '] + rest) == [IdentifierOrNumber(x)] + Tokenize([' '] + rest)
  {
    var s := x + [' '] + rest;
    assert s[0] == x[0];
    assert s[1..] == x[1..] + ([' '] + rest);
    MatchIdentifier(x, [' '] + rest);
    assert s[1 + (|x| - 1)..] == [' '] + rest;
  }

  /** The string arm takes everything up to the closing quote, and the quote. */
  lemma MatchStr(x: string, rest: string)
    requires forall i :: 0 <= i < |x| ==> x[i] != '"'
    ensures MatchToken('"', x + ['"'] + rest) == (Some(Str(x)), |x| + 1)
  {
    SpanWhileExact(NotQuote, x, ['"'] + rest);
    assert x + ['"'] + rest == x + (['"'] + rest);
    assert (x + ['"'] + rest)[..|x|] == x;
  }

  lemma TokenizeStr(x: string, rest: string)
    requires forall i :: 0 <= i < |x| ==> x[i] != '"'
    ensures Tokenize(['"'] + x + ['"'] + [' '] + rest) == [Str(x)] + Tokenize([' '] + rest)
  {
    var s := ['"'] + x + ['"'] + [' '] + rest;
    assert s[0] == '"';
    assert s[1..] == x + ['"'] + ([' '] + rest);
    MatchStr(x, [' '] + rest);
    assert s[1 + (|x| + 1)..] == [' '] + rest;
  }

  /** Lexing the rendering of printable tokens gives the tokens back. */
  lemma {:induction false} TokenizeRender(ts: seq<Token>)
    requires forall i :: 0 <= i < |ts| ==> Printable(ts[i])
    ensures Tokenize(Render(ts)) == ts
  {
    if ts != [] {
      var rest := Render(ts[1..]);
      assert Render(ts) == Text(ts[0]) + [' '] + rest;
      TokenizeOne(ts[0], rest);
      TokenizeSpace(' ', rest);
      TokenizeRender(ts[1..]);
    }
  }
}

=== FILE: bytecode.dfy ===
/**
 * The opcode byte values shared by the assembler and the interpreter, the
 * `Opcode` enumeration whose discriminants are those bytes, and the
 * case-insensitive mnemonic parser (`Opcode::from_str`).
 */
module Bytecode {
  import opened Wrappers

  // The opcode bytes (u8 values).
  const OP_HALT: int := 0x00
  const OP_DBG: int := 0x01
  const OP_LITW: int := 0x10
  const OP_DUP: int := 0x11
  const OP_DROP: int := 0x12
  const OP_SWAP: int := 0x13
  const OP_OVER: int := 0x14
  const OP_ADD: int := 0x20
  const OP_SUB: int := 0x21
  const OP_MUL: int := 0x22
  const OP_DIV: int := 0x23
  const OP_AND: int := 0x24
  const OP_OR: int := 0x25
  const OP_XOR: int := 0x26
  const OP_SHL: int := 0x27
  const OP_SHR: int := 0x28
  const OP_INC: int := 0x29
  const OP_SW: int := 0x30
  const OP_LW: int := 0x31
  const OP_SB: int := 0x32
  const OP_LB: int := 0x33
  const OP_EQU: int := 0x40
  const OP_NEQ: int := 0x41
  const OP_LT: int := 0x42
  const OP_GT: int := 0x43
  const OP_JMP: int := 0x50
  const OP_JZ: int := 0x51
  const OP_CALL: int := 0x52
  const OP_RET: int := 0x53
  const OP_JNZ: int := 0x54
  const OP_RPUSH: int := 0x60
  const OP_RPOP: int := 0x61

  /** The mnemonics the assembler knows, one per opcode constant. */
  datatype Opcode =
    Halt | Dbg | LitW | Dup | Drop | Swap | Over | Add
    | Sub | Mul | Div | And | Or | Xor | Shl | Shr
    | Inc | Sw | Lw | Sb | Lb | Equ | Neq | Lt
    | Gt | Jmp | Jz | Call | Ret | Jnz | Rpush | Rpop

  /** Every opcode, in declaration order. */
  const ALL_OPCODES: seq<Opcode> := [
    Halt, Dbg, LitW, Dup, Drop, Swap, Over, Add,
    Sub, Mul, Div, And, Or, Xor, Shl, Shr,
    Inc, Sw, Lw, Sb, Lb, Equ, Neq, Lt,
    Gt, Jmp, Jz, Call, Ret, Jnz, Rpush, Rpop
  ]

  /** The `#[repr(u8)]` discriminant of an opcode: its OP_* constant. */
  function Discriminant(op: Opcode): int {
    match op
    case Halt => OP_HALT
    case Dbg => OP_DBG
    case LitW => OP_LITW
    case Dup => OP_DUP
    case Drop => OP_DROP
    case Swap => OP_SWAP
    case Over => OP_OVER
    case Add => OP_ADD
    case Sub => OP_SUB
    case Mul => OP_MUL
    case Div => OP_DIV
    case And => OP_AND
    case Or => OP_OR
    case Xor => OP_XOR
    case Shl => OP_SHL
    case Shr => OP_SHR
    case Inc => OP_INC
    case Sw => OP_SW
    case Lw => OP_LW
    case Sb => OP_SB
    case Lb => OP_LB
    case Equ => OP_EQU
    case Neq => OP_NEQ
    case Lt => OP_LT
    case Gt => OP_GT
    case Jmp => OP_JMP
    case Jz => OP_JZ
    case Call => OP_CALL
    case Ret => OP_RET
    case Jnz => OP_JNZ
    case Rpush => OP_RPUSH
    case Rpop => OP_RPOP
  }

  /** The lower-case mnemonic `from_str` accepts for an opcode. */
  function Mnemonic(op: Opcode): string {
    match op
    case Halt => "halt"
    case Dbg => "dbg"
    case LitW => "litw"
    case Dup => "dup"
    case Drop => "drop"
    case Swap => "swap"
    case Over => "over"
    case Add => "add"
    case Sub => "sub"
    case Mul => "mul"
    case Div => "div"
    case And => "and"
    case Or => "or"
    case Xor => "xor"
    case Shl => "shl"
    case Shr => "shr"
    case Inc => "inc"
    case Sw => "sw"
    case Lw => "lw"
    case Sb => "sb"
    case Lb => "lb"
    case Equ => "equ"
    case Neq => "neq"
    case Lt => "lt"
    case Gt => "gt"
    case Jmp => "jmp"
    case Jz => "jz"
    case Call => "call"
    case Ret => "ret"
    case Jnz => "jnz"
    case Rpush => "rpush"
    case Rpop => "rpop"
  }

  /** The opcode a byte is the discriminant of, if any. */
  function OpcodeOf(b: int): Option<Opcode> {
    if b == OP_HALT then Some(Halt)
    else if b == OP_DBG then Some(Dbg)
    else if b == OP_LITW then Some(LitW)
    else if b == OP_DUP then Some(Dup)
    else if b == OP_DROP then Some(Drop)
    else if b == OP_SWAP then Some(Swap)
    else if b == OP_OVER then Some(Over)
    else if b == OP_ADD then Some(Add)
    else if b == OP_SUB then Some(Sub)
    else if b == OP_MUL then Some(Mul)
    else if b == OP_DIV then Some(Div)
    else if b == OP_AND then Some(And)
    else if b == OP_OR then Some(Or)
    else if b == OP_XOR then Some(Xor)
    else if b == OP_SHL then Some(Shl)
    else if b == OP_SHR then Some(Shr)
    else if b == OP_INC then Some(Inc)
    else if b == OP_SW then Some(Sw)
    else if b == OP_LW then Some(Lw)
    else if b == OP_SB then Some(Sb)
    else if b == OP_LB then Some(Lb)
    else if b == OP_EQU then Some(Equ)
    else if b == OP_NEQ then Some(Neq)
    else if b == OP_LT then Some(Lt)
    else if b == OP_GT then Some(Gt)
    else if b == OP_JMP then Some(Jmp)
    else if b == OP_JZ then Some(Jz)
    else if b == OP_CALL then Some(Call)
    else if b == OP_RET then Some(Ret)
    else if b == OP_JNZ then Some(Jnz)
    else if b == OP_RPUSH then Some(Rpush)
    else if b == OP_RPOP then Some(Rpop)
    else None
  }

  /**
   * Lower-casing of one character, for ASCII letters only. Full Unicode
   * lower-casing also turns the Kelvin sign into `k`, a letter no mnemonic
   * contains, and the tokenizer only hands ASCII identifiers to `FromStr`.
   */
  function ToLower(c: char): (r: char)
    ensures 'A' <= c <= 'Z' ==> r as int == c as int + 32
    ensures !('A' <= c <= 'Z') ==> r == c
  {
    if 'A' <= c <= 'Z' then (c as int + 32) as char else c
  }

  /** `str::to_lowercase`, restricted to ASCII letters as `ToLower` is. */
  function Lower(s: string): (r: string)
    ensures |r| == |s|
    ensures forall i :: 0 <= i < |s| ==> r[i] == ToLower(s[i])
  {
    if s == [] then [] else [ToLower(s[0])] + Lower(s[1..])
  }

  /** `Opcode::from_str`: lower-case the text, then match it against the mnemonics. */
  function FromStr(s: string): (r: Result<Opcode, ()>)
    ensures r.Success? ==> Mnemonic(r.value) == Lower(s)
    ensures r.Failure? <==> forall op: Opcode :: Mnemonic(op) != Lower(s)
  {
    MatchMnemonic(Lower(s))
  }

  /** The match arms of `from_str` on the lower-cased text. */
  function MatchMnemonic(l: string): (r: Result<Opcode, ()>)
    ensures r.Success? ==> Mnemonic(r.value) == l
    ensures r.Failure? <==> forall op: Opcode :: Mnemonic(op) != l
  {
    AllOpcodesListed();
    MatchIn(l, ALL_OPCODES)
  }

  /** ALL_OPCODES lists every opcode. */
  lemma AllOpcodesListed()
    ensures forall op: Opcode :: op in ALL_OPCODES
  {
    forall op: Opcode
      ensures op in ALL_OPCODES
    {
      OpcodeListed(op);
    }
  }

  lemma OpcodeListed(op: Opcode)
    ensures op in ALL_OPCODES
  {
  }

  /** The arms for ops, tried in order: the first opcode whose mnemonic is l. */
  function MatchIn(l: string, ops: seq<Opcode>): (r: Result<Opcode, ()>)
    ensures r.Success? ==> r.value in ops && Mnemonic(r.value) == l
    ensures r.Failure? <==> forall op :: op in ops ==> Mnemonic(op) != l
  {
    if ops == [] then Failure(())
    else if l == Mnemonic(ops[0]) then Success(ops[0])
    else MatchIn(l, ops[1..])
  }

  /** Decoding a discriminant gives its opcode back, so the OP_* constants are pairwise distinct. */
  lemma OpcodeOfDiscriminant(op: Opcode)
    ensures OpcodeOf(Discriminant(op)) == Some(op)
  {
  }

  /** A byte decodes to an opcode only if it is that opcode's discriminant. */
  lemma DiscriminantOfOpcodeOf(b: int)
    ensures OpcodeOf(b).Some? ==> Discriminant(OpcodeOf(b).value) == b
  {
  }

  /** Distinct opcodes have distinct discriminants. */
  lemma DiscriminantInjective(a: Opcode, b: Opcode)
    ensures Discriminant(a) == Discriminant(b) <==> a == b
  {
    OpcodeOfDiscriminant(a);
    OpcodeOfDiscriminant(b);
  }

  lemma LowerIdempotent(s: string)
    ensures Lower(Lower(s)) == Lower(s)
  {
  }

  /** `from_str` ignores case. */
  lemma FromStrCaseInsensitive(s: string)
    ensures FromStr(s) == FromStr(Lower(s))
  {
    LowerIdempotent(s);
  }

  /** Every mnemonic parses to its opcode. */
  lemma FromStrMnemonic(op: Opcode)
    ensures FromStr(Mnemonic(op)) == Success(op)
  {
    LowerOfMnemonic(op);
    MatchMnemonicComplete(op);
  }

  /** No two opcodes share a mnemonic, so no arm shadows another. */
  lemma MnemonicInjective(a: Opcode, b: Opcode)
    requires Mnemonic(a) == Mnemonic(b)
    ensures a == b
  {
    var m := Mnemonic(a);
    assert |m| >= 2 && m[0] != ' ' && m[1] != ' ' && m[|m| - 1] != ' ';
  }

  /** Each mnemonic reaches its own arm. */
  lemma MatchMnemonicComplete(op: Opcode)
    ensures MatchMnemonic(Mnemonic(op)) == Success(op)
  {
    var r := MatchMnemonic(Mnemonic(op));
    MnemonicInjective(r.value, op);
  }

  /** No ASCII capital letter occurs in s. */
  predicate NoUpper(s: string) {
    forall i :: 0 <= i < |s| ==> !('A' <= s[i] <= 'Z')
  }

  lemma LowerOfNoUpper(s: string)
    requires NoUpper(s)
    ensures Lower(s) == s
  {
  }

  lemma MnemonicNoUpper(op: Opcode)
    ensures NoUpper(Mnemonic(op))
  {
    var m := Mnemonic(op);
    assert |m| >= 2 && m[0] != ' ' && m[1] != ' ' && m[|m| - 1] != ' ';
  }

  /** The mnemonics are already lower case. */
  lemma LowerOfMnemonic(op: Opcode)
    ensures Lower(Mnemonic(op)) == Mnemonic(op)
  {
    MnemonicNoUpper(op);
    LowerOfNoUpper(Mnemonic(op));
  }

  /** `from_str` succeeds exactly on the strings whose lower-case form is a mnemonic. */
  lemma FromStrExact(s: string, op: Opcode)
    ensures FromStr(s) == Success(op) <==> Lower(s) == Mnemonic(op)
  {
    if Lower(s) == Mnemonic(op) {
      FromStrCaseInsensitive(s);
      FromStrMnemonic(op);
    }
  }
}

=== FILE: bytes.dfy ===
/**
 * Bytes and 32-bit words as the Fox machine sees them: u8 and u32 values,
 * written as bounded naturals, and little-endian words stored in a flat byte
 * memory. Every wrap-around and truncation of the program's integer types is
 * spelled out with `%` and `/` on these naturals.
 */
module Bytes {

  /** 2^8: a u8 holds 0..BYTE_LIMIT-1. */
  const BYTE_LIMIT: int := 0x100

  /** 2^32: u32 arithmetic wraps (or, in a debug build, panics) at this bound. */
  const WORD_LIMIT: int := 0x1_0000_0000

  type Byte = x: int | 0 <= x < BYTE_LIMIT

  type Word = x: int | 0 <= x < WORD_LIMIT

  /** n zero bytes, as `Vec::resize` pads with. */
  function Zeros(n: nat): (r: seq<Byte>)
    ensures |r| == n && forall i :: 0 <= i < n ==> r[i] == 0
  {
    seq(n, _ => 0)
  }

  /** The four little-endian bytes of a word (u32::to_le_bytes). */
  function LeBytes(w: Word): (r: seq<Byte>)
    ensures |r| == 4
  {
    [w % 0x100, (w / 0x100) % 0x100, (w / 0x1_0000) % 0x100, w / 0x100_0000]
  }

  /** The word whose little-endian bytes are b (u32::from_le_bytes). */
  function FromLe(b: seq<Byte>): Word
    requires |b| == 4
  {
    b[0] as int + 0x100 * (b[1] as int) + 0x1_0000 * (b[2] as int) + 0x100_0000 * (b[3] as int)
  }

  /** Decoding the encoding of a word gives the word back. */
  lemma FromLeOfLeBytes(w: Word)
    ensures FromLe(LeBytes(w)) == w
  {
    var q1 := w / 0x100;
    var q2 := q1 / 0x100;
    assert q2 == w / 0x1_0000;
    assert q2 / 0x100 == w / 0x100_0000;
    assert w == w % 0x100 + 0x100 * q1;
    assert q1 == q1 % 0x100 + 0x100 * q2;
    assert q2 == q2 % 0x100 + 0x100 * (q2 / 0x100);
  }

  /** Encoding the decoding of four bytes gives the bytes back. */
  lemma LeBytesOfFromLe(b: seq<Byte>)
    requires |b| == 4
    ensures LeBytes(FromLe(b)) == b
  {
    var w := FromLe(b);
    var b0, b1, b2, b3 := b[0] as int, b[1] as int, b[2] as int, b[3] as int;
    var q2 := b2 + 0x100 * b3;
    var q1 := b1 + 0x100 * q2;
    assert w == 0x100 * q1 + b0;
    FloorDivUnique(w, 0x100, q1, b0);
    FloorDivUnique(q1, 0x100, q2, b1);
    FloorDivUnique(q2, 0x100, b3, b2);
    FloorDivUnique(w, 0x1_0000, q2, b0 + 0x100 * b1);
    FloorDivUnique(w, 0x100_0000, b3, b0 + 0x100 * b1 + 0x1_0000 * b2);
  }

  /** The quotient is the q with a = d * q + r and 0 <= r < d. */
  lemma FloorDivUnique(a: int, d: nat, q: int, r: nat)
    requires d > 0 && r < d && a == d * q + r
    ensures a / d == q
  {
    var q0 := a / d;
    var r0 := a % d;
    assert d * q0 + r0 == d * q + r;
    if q0 < q {
      MulAtLeast(d, q - q0);
    } else if q0 > q {
      MulAtLeast(d, q0 - q);
    }
  }

  lemma MulAtLeast(d: nat, k: int)
    requires k >= 1
    ensures d * k >= d
  {
    assert d * k == d * (k - 1) + d;
  }

  /** A byte zero-extended to a word (`as u32`): the same number. */
  function ZeroExtend(b: Byte): (r: Word)
    ensures r < BYTE_LIMIT
    ensures LowByte(r) == b
  {
    b
  }

  /** The low byte of a word (`as u8`, `& 0xFF`): the word modulo 256. */
  function LowByte(w: Word): (r: Byte)
    ensures w - r == 0x100 * (w / 0x100)
  {
    w % 0x100
  }

  /** The word stored little-endian at byte address a. */
  function ReadWord(mem: seq<Byte>, a: nat): Word
    requires a + 4 <= |mem|
  {
    FromLe(mem[a..a + 4])
  }

  /** Stores the little-endian bytes of v at a..a+3. */
  function WriteWord(mem: seq<Byte>, a: nat, v: Word): (r: seq<Byte>)
    requires a + 4 <= |mem|
    ensures |r| == |mem|
    ensures r[a..a + 4] == LeBytes(v)
    ensures forall i :: 0 <= i < |mem| && !(a <= i < a + 4) ==> r[i] == mem[i]
  {
    var b := LeBytes(v);
    mem[a := b[0]][a + 1 := b[1]][a + 2 := b[2]][a + 3 := b[3]]
  }

  /** Reading the word just written gives it back. */
  lemma ReadWriteSame(mem: seq<Byte>, a: nat, v: Word)
    requires a + 4 <= |mem|
    ensures ReadWord(WriteWord(mem, a, v), a) == v
  {
    FromLeOfLeBytes(v);
  }

  /** A word write does not disturb a word that does not overlap it. */
  lemma ReadWriteOther(mem: seq<Byte>, a: nat, v: Word, b: nat)
    requires a + 4 <= |mem| && b + 4 <= |mem|
    requires a + 4 <= b || b + 4 <= a
    ensures ReadWord(WriteWord(mem, a, v), b) == ReadWord(mem, b)
  {
    var r := WriteWord(mem, a, v);
    assert r[b..b + 4] == mem[b..b + 4];
  }

  /** Two memories that agree on a..a+3 hold the same word there. */
  lemma ReadWordFrame(m1: seq<Byte>, m2: seq<Byte>, a: nat)
    requires a + 4 <= |m1| && a + 4 <= |m2|
    requires forall i :: a <= i < a + 4 ==> m1[i] == m2[i]
    ensures ReadWord(m1, a) == ReadWord(m2, a)
  {
    assert m1[a..a + 4] == m2[a..a + 4];
  }
}

=== FILE: device.dfy ===
/**
 * The device side of memory-mapped I/O: the shape of one device access, and
 * routing an address to a device. The routing table of (start, length)
 * ranges is scanned in order, and the index of the first range holding the
 * address is the device number; u32::MAX means no device.
 */
module Device {
  import opened Dma

  /**
   * The result of one access to a device (the `Device` trait's four
   * methods): the device state and memory after it, and the value read. A
   * device that panics or never returns gives `Abort`.
   */
  datatype Access<+D, +T> = Done(dev: D, mem: Ram, value: T) | Abort

  const NO_DEVICE: nat := 0xFFFF_FFFF

  /** A (start, length) pair; both are u32 values. */
  datatype Range = Range(start: nat, length: nat)

  /**
   * Every start and length is a u32 and every end start + length fits in a
   * u32 (the end is computed with a checked u32 addition).
   */
  predicate WellFormed(ranges: seq<Range>) {
    && |ranges| < NO_DEVICE
    && forall i :: 0 <= i < |ranges| ==> ranges[i].start + ranges[i].length <= NO_DEVICE
  }

  predicate Holds(r: Range, addr: nat) {
    r.start <= addr < r.start + r.length
  }

  /** No address lies in two ranges of the table. */
  ghost predicate Disjoint(ranges: seq<Range>) {
    forall i, j, a :: 0 <= i < |ranges| && 0 <= j < |ranges| && i != j && Holds(ranges[i], a) ==> !Holds(ranges[j], a)
  }

  /** The scan from entry i on, as the while loop performs it. */
  function Scan(ranges: seq<Range>, addr: nat, i: nat): nat
    requires i <= |ranges|
    decreases |ranges| - i
  {
    if i == |ranges| then NO_DEVICE
    else if addr >= ranges[i].start && addr < ranges[i].start + ranges[i].length then i
    else Scan(ranges, addr, i + 1)
  }

  /** The device number of addr: the first range holding it, or u32::MAX. */
  function MatchDevice(ranges: seq<Range>, addr: nat): (r: nat)
    requires WellFormed(ranges)
    ensures r < |ranges| || r == NO_DEVICE
  {
    ScanBounded(ranges, addr, 0);
    Scan(ranges, addr, 0)
  }

  lemma {:induction false} ScanBounded(ranges: seq<Range>, addr: nat, i: nat)
    requires i <= |ranges| < NO_DEVICE
    ensures Scan(ranges, addr, i) == NO_DEVICE || i <= Scan(ranges, addr, i) < |ranges|
    decreases |ranges| - i
  {
    if i < |ranges| && !Holds(ranges[i], addr) {
      ScanBounded(ranges, addr, i + 1);
    }
  }

  /** The scan from i finds the first range at or after i that holds addr. */
  lemma {:induction false} ScanFirst(ranges: seq<Range>, addr: nat, i: nat)
    requires i <= |ranges| < NO_DEVICE
    ensures var r := Scan(ranges, addr, i);
      && (r < |ranges| ==> i <= r && Holds(ranges[r], addr) && forall j :: i <= j < r ==> !Holds(ranges[j], addr))
      && (r == NO_DEVICE <==> forall j :: i <= j < |ranges| ==> !Holds(ranges[j], addr))
    decreases |ranges| - i
  {
    ScanBounded(ranges, addr, i);
    if i < |ranges| && !Holds(ranges[i], addr) {
      ScanFirst(ranges, addr, i + 1);
    }
  }

  /** A returned index names a range holding addr, and no earlier range holds it. */
  lemma MatchIsFirst(ranges: seq<Range>, addr: nat)
    requires WellFormed(ranges)
    ensures var r := MatchDevice(ranges, addr);
      r < |ranges| ==> Holds(ranges[r], addr) && forall j :: 0 <= j < r ==> !Holds(ranges[j], addr)
  {
    ScanFirst(ranges, addr, 0);
  }

  /** u32::MAX comes back exactly when no range holds addr. */
  lemma NoDeviceIffUnmapped(ranges: seq<Range>, addr: nat)
    requires WellFormed(ranges)
    ensures MatchDevice(ranges, addr) == NO_DEVICE <==> forall j :: 0 <= j < |ranges| ==> !Holds(ranges[j], addr)
  {
    ScanFirst(ranges, addr, 0);
  }

  /** In a table of disjoint ranges, the device holding addr is the one returned. */
  lemma MatchUnique(ranges: seq<Range>, addr: nat, k: nat)
    requires WellFormed(ranges) && Disjoint(ranges)
    requires k < |ranges| && Holds(ranges[k], addr)
    ensures MatchDevice(ranges, addr) == k
  {
    ScanFirst(ranges, addr, 0);
  }
}

=== FILE: dma.dfy ===
/**
 * The machine's linear memory and direct memory access to it: the byte,
 * word, buffer and NUL-terminated string accessors that devices use. Each
 * accessor that would index outside the 16 MiB block (a slice-index panic in
 * the program) returns None.
 */
module Dma {
  import opened Wrappers
  import opened Bytes

  const MEM_SIZE: nat := 16 * 1024 * 1024

  // Addresses are u32 values; they are taken here as naturals.

  /** The machine's memory block: exactly MEM_SIZE bytes. */
  type Ram = m: seq<Byte> | |m| == MEM_SIZE witness seq(MEM_SIZE, _ => 0 as Byte)

  /** Every byte outside lo..hi-1 is the same in m1 and m2. */
  predicate ChangedOnly(m1: Ram, m2: Ram, lo: int, hi: int) {
    forall i :: 0 <= i < MEM_SIZE && !(lo <= i < hi) ==> m2[i] == m1[i]
  }

  /** The bytes of s are stored at a, a+1, ... */
  predicate HoldsAt(m: Ram, a: nat, s: seq<Byte>) {
    forall i :: 0 <= i < |s| ==> a + i < MEM_SIZE && m[a + i] == s[i]
  }

  function ReadU8(mem: Ram, addr: nat): (r: Option<Byte>)
    ensures r.Some? <==> addr < MEM_SIZE
    ensures r.Some? ==> r.value == mem[addr]
  {
    if addr < MEM_SIZE then Some(mem[addr]) else None
  }

  /** The memory with the byte at addr replaced by value. */
  function SetByte(mem: Ram, addr: nat, value: Byte): (r: Ram)
    requires addr < MEM_SIZE
    ensures r[addr] == value && ChangedOnly(mem, r, addr, addr + 1)
  {
    mem[addr := value]
  }

  function WriteU8(mem: Ram, addr: nat, value: Byte): (r: Option<Ram>)
    ensures r.Some? <==> addr < MEM_SIZE
    ensures r.Some? ==> r.value[addr] == value && ChangedOnly(mem, r.value, addr, addr + 1)
  {
    if addr < MEM_SIZE then Some(SetByte(mem, addr, value)) else None
  }

  /** The little-endian word at addr..addr+3; None when any of the four bytes is outside memory. */
  function ReadU32(mem: Ram, addr: nat): (r: Option<Word>)
    ensures r.Some? <==> addr + 4 <= MEM_SIZE
    ensures r.Some? ==> LeBytes(r.value) == mem[addr..addr + 4]
  {
    if addr + 4 <= MEM_SIZE then
      LeBytesOfFromLe(mem[addr..addr + 4]);
      Some(ReadWord(mem, addr))
    else
      None
  }

  /** Stores the little-endian bytes of value at addr..addr+3. */
  function WriteU32(mem: Ram, addr: nat, value: Word): (r: Option<Ram>)
    ensures r.Some? <==> addr + 4 <= MEM_SIZE
    ensures r.Some? ==> r.value[addr..addr + 4] == LeBytes(value)
    ensures r.Some? ==> ChangedOnly(mem, r.value, addr, addr + 4)
  {
    if addr + 4 <= MEM_SIZE then Some(WriteWord(mem, addr, value)) else None
  }

  /** The len bytes starting at addr (the `read` into a buffer of length len). */
  function Read(mem: Ram, addr: nat, len: nat): (r: Option<seq<Byte>>)
    ensures r.Some? <==> addr + len <= MEM_SIZE
    ensures r.Some? ==> |r.value| == len && forall i :: 0 <= i < len ==> r.value[i] == mem[addr + i]
  {
    if addr + len <= MEM_SIZE then Some(mem[addr..addr + len]) else None
  }

  /** Copies buf into memory at addr. */
  function Write(mem: Ram, addr: nat, buf: seq<Byte>): (r: Option<Ram>)
    ensures r.Some? <==> addr + |buf| <= MEM_SIZE
    ensures r.Some? ==> HoldsAt(r.value, addr, buf)
    ensures r.Some? ==> ChangedOnly(mem, r.value, addr, addr + |buf|)
  {
    if addr + |buf| <= MEM_SIZE then
      Some(mem[..addr] + buf + mem[addr + |buf|..])
    else
      None
  }

  /**
   * The bytes from addr up to (not including) the first NUL. None when no NUL
   * follows addr inside memory: the program would read past the block.
   */
  function ReadStr(mem: Ram, addr: nat): (r: Option<seq<Byte>>)
    ensures r.Some? ==> addr + |r.value| < MEM_SIZE
    ensures r.Some? ==> mem[addr + |r.value|] == 0
    ensures r.Some? ==> forall i :: 0 <= i < |r.value| ==> r.value[i] == mem[addr + i] && r.value[i] != 0
    ensures r.None? <==> forall k :: addr <= k < MEM_SIZE ==> mem[k] != 0
  {
    CStr(mem, addr)
  }

  function CStr(mem: Ram, a: nat): (r: Option<seq<Byte>>)
    ensures r.Some? ==> a + |r.value| < MEM_SIZE && mem[a + |r.value|] == 0
    ensures r.Some? ==> forall i :: 0 <= i < |r.value| ==> r.value[i] == mem[a + i] && r.value[i] != 0
    ensures r.None? <==> forall k :: a <= k < MEM_SIZE ==> mem[k] != 0
    decreases MEM_SIZE - a
  {
    if a >= MEM_SIZE then None
    else if mem[a] == 0 then Some([])
    else
      match CStr(mem, a + 1)
      case None => None
      case Some(rest) => Some([mem[a]] + rest)
  }

  /** Writes the bytes of s followed by a NUL terminator. */
  function WriteStr(mem: Ram, addr: nat, s: seq<Byte>): (r: Option<Ram>)
    ensures r.Some? <==> addr + |s| < MEM_SIZE
    ensures r.Some? ==> HoldsAt(r.value, addr, s + [0])
    ensures r.Some? ==> ChangedOnly(mem, r.value, addr, addr + |s| + 1)
  {
    var a := addr;
    if a + |s| < MEM_SIZE then
      var m1 := Write(mem, addr, s).value;
      var m2 := m1[a + |s| := 0];
      WriteTerminator(mem, m1, m2, a, s);
      Some(m2)
    else
      None
  }

  lemma WriteTerminator(mem: Ram, m1: Ram, m2: Ram, a: nat, s: seq<Byte>)
    requires a + |s| < MEM_SIZE
    requires HoldsAt(m1, a, s)
    requires ChangedOnly(mem, m1, a, a + |s|)
    requires m2 == m1[a + |s| := 0]
    ensures HoldsAt(m2, a, s + [0])
    ensures ChangedOnly(mem, m2, a, a + |s| + 1)
  {
  }

  /** Reading back a word just written through DMA gives the word. */
  lemma ReadU32OfWriteU32(mem: Ram, addr: nat, value: Word)
    requires addr + 4 <= MEM_SIZE
    ensures WriteU32(mem, addr, value).Some?
    ensures ReadU32(WriteU32(mem, addr, value).value, addr) == Some(value)
  {
    ReadWriteSame(mem, addr, value);
  }

  /** Reading back a buffer just written gives the buffer. */
  lemma ReadOfWrite(mem: Ram, addr: nat, buf: seq<Byte>)
    requires addr + |buf| <= MEM_SIZE
    ensures Write(mem, addr, buf).Some?
    ensures Read(Write(mem, addr, buf).value, addr, |buf|) == Some(buf)
  {
    var m := Write(mem, addr, buf).value;
    var got := m[addr..addr + |buf|];
    assert |got| == |buf|;
    forall i | 0 <= i < |buf|
      ensures got[i] == buf[i]
    {
      assert got[i] == m[addr + i];
    }
    assert got == buf;
  }

  /** A NUL-free string written with its terminator reads back unchanged. */
  lemma {:induction false} ReadStrOfWriteStr(mem: Ram, addr: nat, s: seq<Byte>)
    requires addr + |s| < MEM_SIZE
    requires forall i :: 0 <= i < |s| ==> s[i] != 0
    ensures WriteStr(mem, addr, s).Some?
    ensures ReadStr(WriteStr(mem, addr, s).value, addr) == Some(s)
  {
    var m := WriteStr(mem, addr, s).value;
    CStrOfTerminated(m, addr, s);
  }

  lemma {:induction false} CStrOfTerminated(m: Ram, a: nat, s: seq<Byte>)
    requires HoldsAt(m, a, s + [0])
    requires forall i :: 0 <= i < |s| ==> s[i] != 0
    ensures CStr(m, a) == Some(s)
    decreases |s|
  {
    var t := s + [0];
    assert t[|s|] == 0;
    assert a + |s| < MEM_SIZE && m[a + |s|] == 0;
    if s != [] {
      assert m[a] == (s + [0])[0] == s[0];
      assert HoldsAt(m, a + 1, s[1..] + [0]) by {
        forall i | 0 <= i < |s[1..] + [0]|
          ensures a + 1 + i < MEM_SIZE && m[a + 1 + i] == (s[1..] + [0])[i]
        {
          assert (s[1..] + [0])[i] == (s + [0])[i + 1];
        }
      }
      CStrOfTerminated(m, a + 1, s[1..]);
      assert [s[0]] + s[1..] == s;
    }
  }
}

=== FILE: keyboard.dfy ===
/**
 * The keyboard device: a vector register, a word of flag bits for the four
 * arrow keys, and the code point of the last character typed. The host
 * reports key and character events; a program reads the registers with
 * word accesses. The device's base address, its register offsets and the
 * key flags are parameters (`Layout`).
 */
module Keyboard {
  import opened Wrappers
  import opened Bytes
  import opened Alu
  import opened Dma
  import opened Device

  datatype Key = Left | Right | Up | Down

  /** The base address, the three register offsets and the four key flags. */
  datatype Layout = Layout(
    base: Word, vector: Word, codepoint: Word, buttons: Word,
    left: Word, right: Word, up: Word, down: Word)

  datatype Keyboard = Keyboard(vector: Word, buttons: Word, codepoint: Word)

  /** Three different registers, each at a u32 address above the base. */
  predicate WellPlaced(l: Layout) {
    && l.vector != l.codepoint && l.vector != l.buttons && l.codepoint != l.buttons
    && l.base + l.vector < WORD_LIMIT && l.base + l.codepoint < WORD_LIMIT && l.base + l.buttons < WORD_LIMIT
  }

  function New(): (kb: Keyboard)
    ensures kb.vector == 0 && kb.buttons == 0 && kb.codepoint == 0
  {
    Keyboard(0, 0, 0)
  }

  /** `Key::flag`: the bit of the buttons word that belongs to the key. */
  function Flag(l: Layout, k: Key): Word {
    match k
    case Left => l.left
    case Right => l.right
    case Up => l.up
    case Down => l.down
  }

  /**
   * `on_key`: a press ORs the key's flag into the buttons word, a release
   * ANDs the word with the flag's complement. Bit by bit: a press sets
   * the flag's bits, a release clears them, and every other bit stays.
   */
  function OnKey(l: Layout, kb: Keyboard, k: Key, pressed: bool): (r: Keyboard)
    ensures r.vector == kb.vector && r.codepoint == kb.codepoint
    ensures forall i :: 0 <= i < 32 ==>
      (Bit(r.buttons, i) <==> if Bit(Flag(l, k), i) then pressed else Bit(kb.buttons, i))
  {
    var mask := ApplyUn(Not, Flag(l, k));
    forall i | 0 <= i < 32 ensures Bit(mask, i) == !Bit(Flag(l, k), i) {
      NotFlipsBits(Flag(l, k), i);
    }
    kb.(buttons := if pressed then WordOr(kb.buttons, Flag(l, k)) else WordAnd(kb.buttons, mask))
  }

  /** `on_char`: the code point register takes the character's scalar value. */
  function OnChar(kb: Keyboard, c: char): (r: Keyboard)
    ensures r.codepoint == c as int && r.vector == kb.vector && r.buttons == kb.buttons
  {
    kb.(codepoint := c as int)
  }

  /** Pressing a key twice is pressing it once, and so is releasing it twice. */
  lemma OnKeyIdempotent(l: Layout, kb: Keyboard, k: Key, pressed: bool)
    ensures OnKey(l, OnKey(l, kb, k, pressed), k, pressed) == OnKey(l, kb, k, pressed)
  {
    var once := OnKey(l, kb, k, pressed);
    var twice := OnKey(l, once, k, pressed);
    WordBits(twice.buttons, once.buttons);
  }

  /** A release undoes a press: pressing and then releasing is releasing. */
  lemma ReleaseAfterPress(l: Layout, kb: Keyboard, k: Key)
    ensures OnKey(l, OnKey(l, kb, k, true), k, false) == OnKey(l, kb, k, false)
  {
    var a := OnKey(l, OnKey(l, kb, k, true), k, false);
    var b := OnKey(l, kb, k, false);
    WordBits(a.buttons, b.buttons);
  }

  /**
   * With the key's flag a single bit j, a press sets bit j, a release
   * clears it, and every other bit, among them the other keys' flags,
   * stays as it was.
   */
  lemma OnKeySingleBit(l: Layout, kb: Keyboard, k: Key, pressed: bool, j: nat, i: nat)
    requires Flag(l, k) == Pow2(j) && j < 32 && i < 32
    ensures Bit(OnKey(l, kb, k, pressed).buttons, i) == if i == j then pressed else Bit(kb.buttons, i)
  {
    SingleBit(j, i);
  }

  // The `Device` implementation. Every access subtracts the base first,
  // which panics below it.

  /** `read_u32`: VECTOR, CODEPOINT and BUTTONS read their registers; anything else panics. */
  function ReadWord(l: Layout, kb: Keyboard, mem: Ram, addr: Word): (r: Access<Keyboard, Word>)
    ensures r.Done? ==> r.dev == kb && r.mem == mem
    ensures r.Done? <==> addr >= l.base && addr - l.base in {l.vector, l.codepoint, l.buttons}
  {
    if addr < l.base then Abort
    else
      var off := addr - l.base;
      if off == l.vector then Done(kb, mem, kb.vector)
      else if off == l.codepoint then Done(kb, mem, kb.codepoint)
      else if off == l.buttons then Done(kb, mem, kb.buttons)
      else Abort
  }

  /** `write_u32`: VECTOR is stored; writes to CODEPOINT and BUTTONS are ignored; anything else panics. */
  function WriteWord(l: Layout, kb: Keyboard, mem: Ram, addr: Word, value: Word): (r: Access<Keyboard, ()>)
    ensures r.Done? ==> r.mem == mem && r.dev.buttons == kb.buttons && r.dev.codepoint == kb.codepoint
    ensures r.Done? <==> addr >= l.base && addr - l.base in {l.vector, l.codepoint, l.buttons}
  {
    if addr < l.base then Abort
    else
      var off := addr - l.base;
      if off == l.vector then Done(kb.(vector := value), mem, ())
      else if off == l.codepoint || off == l.buttons then Done(kb, mem, ())
      else Abort
  }

  /** `read_u8`: the keyboard has no byte registers; every byte read panics. */
  function ReadByte(l: Layout, kb: Keyboard, mem: Ram, addr: Word): (r: Access<Keyboard, Byte>)
    ensures r.Abort?
  {
    Abort
  }

  /** `write_u8`: every byte write panics. */
  function WriteByte(l: Layout, kb: Keyboard, mem: Ram, addr: Word, value: Byte): (r: Access<Keyboard, ()>)
    ensures r.Abort?
  {
    Abort
  }

  /**
   * What a program reads back: the vector it wrote last, the code point of
   * the last character, and the buttons word the key events left. Writes
   * to CODEPOINT and BUTTONS change nothing.
   */
  lemma RegistersReadBack(l: Layout, kb: Keyboard, mem: Ram, value: Word, c: char, k: Key, pressed: bool)
    requires WellPlaced(l)
    ensures var w := WriteWord(l, kb, mem, l.base + l.vector, value);
      w.Done? && ReadWord(l, w.dev, mem, l.base + l.vector).value == value
    ensures ReadWord(l, OnChar(kb, c), mem, l.base + l.codepoint).value == c as int
    ensures ReadWord(l, OnKey(l, kb, k, pressed), mem, l.base + l.buttons).value == OnKey(l, kb, k, pressed).buttons
    ensures WriteWord(l, kb, mem, l.base + l.codepoint, value).dev == kb
    ensures WriteWord(l, kb, mem, l.base + l.buttons, value).dev == kb
  {
  }
}

=== FILE: memory_map.dfy ===
/**
 * The fixed memory map shared by the interpreter, the devices and the
 * assembler: device pages, screen registers, layer windows, register offsets
 * and bit masks. Addresses are u32 values, written here as naturals.
 */
module MemoryMap {

  const DEVICE_LENGTH: nat := 0x10000
  const SCREEN_LAYER_LENGTH: nat := 0x80000

  const RESET_VECTOR: nat := 0x100

  const CONSOLE_BASE: nat := 0x1000_0000
  const SYSTEM_BASE: nat := 0x1001_0000
  const SCREEN_BASE: nat := 0x1002_0000
  const FILE0_BASE: nat := 0x1003_0000
  const FILE1_BASE: nat := 0x1004_0000
  const MOUSE_BASE: nat := 0x1005_0000

  // System device, relative to SYSTEM_BASE.
  const SYSTEM_VECTOR: nat := 0x0
  const SYSTEM_EXIT: nat := 0x4
  const SYSTEM_READ: nat := 0x8

  // Screen device, absolute.
  const SCREEN_VECTOR: nat := 0x1002_0000
  const SCREEN_WIDTH: nat := 0x1002_0004
  const SCREEN_HEIGHT: nat := 0x1002_0008
  const SCREEN_CMD_LENGTH: nat := 0x1002_000C
  const SCREEN_CMD_ADDR: nat := 0x1002_0010
  const SCREEN_ZOOM: nat := 0x1002_0014
  const SCREEN_PALETTE0: nat := 0x1002_0018
  const SCREEN_PALETTE15: nat := 0x1002_0054

  const SCREEN_LAYER0: nat := 0x2000_0000
  const SCREEN_LAYER0_TOP: nat := SCREEN_LAYER0 + SCREEN_LAYER_LENGTH - 1
  const SCREEN_LAYER1: nat := 0x2008_0000
  const SCREEN_LAYER1_TOP: nat := SCREEN_LAYER1 + SCREEN_LAYER_LENGTH - 1

  // Mouse device, relative to MOUSE_BASE.
  const MOUSE_VECTOR: nat := 0x0
  const MOUSE_X: nat := 0x4
  const MOUSE_Y: nat := 0x8
  const MOUSE_FLAGS: nat := 0xC
  const MOUSE_BUTTON: nat := 0x10

  const MOUSE_BUTTON_LEFT: nat := 0x1
  const MOUSE_BUTTON_MIDDLE: nat := 0x2
  const MOUSE_BUTTON_RIGHT: nat := 0x4
  const MOUSE_FLAG_FOCUS: nat := 0x1

  /** The device pages in address order: console, system, screen, file0, file1, mouse. */
  const DEVICE_BASES: seq<nat> := [CONSOLE_BASE, SYSTEM_BASE, SCREEN_BASE, FILE0_BASE, FILE1_BASE, MOUSE_BASE]

  const SCREEN_REGISTERS: seq<nat> := [SCREEN_VECTOR, SCREEN_WIDTH, SCREEN_HEIGHT, SCREEN_CMD_LENGTH, SCREEN_CMD_ADDR, SCREEN_ZOOM, SCREEN_PALETTE0, SCREEN_PALETTE15]

  /** The 16 MiB window of linear memory; everything at or above it is MMIO. */
  const RAM_SIZE: nat := 16 * 1024 * 1024

  /** Device page n starts n pages above the console page, so the pages do not overlap. */
  lemma DevicePagesApart()
    ensures forall n :: 0 <= n < |DEVICE_BASES| ==> DEVICE_BASES[n] == CONSOLE_BASE + n * DEVICE_LENGTH
    ensures forall i, j :: 0 <= i < j < |DEVICE_BASES| ==> DEVICE_BASES[i] + DEVICE_LENGTH <= DEVICE_BASES[j]
  {
  }

  /** The two layer windows are adjacent and do not overlap. */
  lemma LayerWindowsAdjacent()
    ensures SCREEN_LAYER0_TOP + 1 == SCREEN_LAYER1
    ensures SCREEN_LAYER1 == SCREEN_LAYER0 + SCREEN_LAYER_LENGTH
    ensures SCREEN_LAYER0 <= SCREEN_LAYER0_TOP < SCREEN_LAYER1 <= SCREEN_LAYER1_TOP
  {
  }

  /** The screen registers lie in the screen page, and the palette is 16 words 4 bytes apart. */
  lemma ScreenRegistersInPage()
    ensures forall r :: r in SCREEN_REGISTERS ==> SCREEN_BASE <= r < SCREEN_BASE + DEVICE_LENGTH
    ensures SCREEN_PALETTE15 == SCREEN_PALETTE0 + 15 * 4
    ensures SCREEN_ZOOM + 4 == SCREEN_PALETTE0
  {
  }

  /** Every device page and layer window lies above linear memory; code starts at 0x100. */
  lemma MmioAboveRam()
    ensures forall b :: b in DEVICE_BASES ==> RAM_SIZE < b
    ensures RAM_SIZE < SCREEN_LAYER0 && RAM_SIZE < SCREEN_LAYER1
    ensures CONSOLE_BASE == 0x1000_0000 && RESET_VECTOR == 0x100
  {
  }
}

=== FILE: mouse.dfy ===
/**
 * The mouse device: the host reports the pointer's position, whether it is
 * inside the window, and the three buttons; a program reads them through
 * word registers at MOUSE_BASE, where FLAGS and BUTTON pack the booleans
 * into bits.
 */
module Mouse {
  import opened Wrappers
  import opened Bytes
  import opened Alu
  import opened Dma
  import opened Device
  import opened MemoryMap

  datatype Mouse = Mouse(vector: Word, focus: bool, x: Word, y: Word, left: bool, right: bool, middle: bool)

  function New(): (m: Mouse)
    ensures m.vector == 0 && m.x == 0 && m.y == 0
    ensures !m.focus && !m.left && !m.right && !m.middle
  {
    Mouse(0, false, 0, 0, false, false, false)
  }

  function SetPosition(m: Mouse, x: Word, y: Word): (r: Mouse)
    ensures r.x == x && r.y == y
    ensures r.(x := m.x, y := m.y) == m
  {
    m.(x := x, y := y)
  }

  function SetEntered(m: Mouse, value: bool): (r: Mouse)
    ensures r.focus == value && r.(focus := m.focus) == m
  {
    m.(focus := value)
  }

  function SetLeft(m: Mouse, pressed: bool): (r: Mouse)
    ensures r.left == pressed && r.(left := m.left) == m
  {
    m.(left := pressed)
  }

  function SetRight(m: Mouse, pressed: bool): (r: Mouse)
    ensures r.right == pressed && r.(right := m.right) == m
  {
    m.(right := pressed)
  }

  function SetMiddle(m: Mouse, pressed: bool): (r: Mouse)
    ensures r.middle == pressed && r.(middle := m.middle) == m
  {
    m.(middle := pressed)
  }

  /** `flags`: MOUSE_FLAG_FOCUS ORed into 0 while the pointer is inside. */
  function Flags(m: Mouse): Word {
    if m.focus then WordOr(0, MOUSE_FLAG_FOCUS) else 0
  }

  /** `button`: the flags of the pressed buttons ORed together, left, then middle, then right. */
  function Button(m: Mouse): Word {
    var b0: Word := 0;
    var b1 := if m.left then WordOr(b0, MOUSE_BUTTON_LEFT) else b0;
    var b2 := if m.middle then WordOr(b1, MOUSE_BUTTON_MIDDLE) else b1;
    if m.right then WordOr(b2, MOUSE_BUTTON_RIGHT) else b2
  }

  /** The button and focus constants are the single bits 0, 1 and 2, and 0. */
  lemma ConstantBits(i: nat)
    ensures Bit(MOUSE_BUTTON_LEFT, i) <==> i == 0
    ensures Bit(MOUSE_BUTTON_MIDDLE, i) <==> i == 1
    ensures Bit(MOUSE_BUTTON_RIGHT, i) <==> i == 2
    ensures Bit(MOUSE_FLAG_FOCUS, i) <==> i == 0
  {
    assert Pow2(0) == 1 && Pow2(1) == 2 && Pow2(2) == 4;
    SingleBit(0, i);
    SingleBit(1, i);
    SingleBit(2, i);
  }

  /** Zero has no bits set. */
  lemma ZeroBits(i: nat)
    ensures !Bit(0, i)
  {
  }

  /** BUTTON has bit 0 exactly when the left button is down, bit 1 for the middle one, bit 2 for the right one, and no other bit. */
  lemma ButtonBits(m: Mouse, i: nat)
    requires i < 32
    ensures Bit(Button(m), i) <==> (i == 0 && m.left) || (i == 1 && m.middle) || (i == 2 && m.right)
  {
    ConstantBits(i);
    ZeroBits(i);
  }

  /** BUTTON is the sum of 1 for left, 2 for middle and 4 for right. */
  lemma ButtonValue(m: Mouse)
    ensures Button(m) == (if m.left then 1 else 0) + (if m.middle then 2 else 0) + (if m.right then 4 else 0)
  {
    forall i | 0 <= i < 32
      ensures Bit(Button(m), i) <==> (i == 0 && m.left) || (i == 1 && m.middle) || (i == 2 && m.right)
    {
      ButtonBits(m, i);
    }
    BitsOfSum(Button(m), m.left, m.middle, m.right);
  }

  /** A word whose only bits are l, m and r at positions 0, 1 and 2 is l + 2m + 4r. */
  lemma BitsOfSum(w: Word, l: bool, m: bool, r: bool)
    requires forall i :: 0 <= i < 32 ==> (Bit(w, i) <==> (i == 0 && l) || (i == 1 && m) || (i == 2 && r))
    ensures w == (if l then 1 else 0) + (if m then 2 else 0) + (if r then 4 else 0)
  {
    var v: Word := (if l then 1 else 0) + (if m then 2 else 0) + (if r then 4 else 0);
    forall i | 0 <= i < 32 ensures Bit(w, i) == Bit(v, i) {
      SumBits(l, m, r, i);
    }
    WordBits(w, v);
  }

  /** The bits of l + 2m + 4r are l, m and r. */
  lemma SumBits(l: bool, m: bool, r: bool, i: nat)
    ensures var v := (if l then 1 else 0) + (if m then 2 else 0) + (if r then 4 else 0);
      Bit(v, i) <==> (i == 0 && l) || (i == 1 && m) || (i == 2 && r)
  {
    var lb, mb, rb := (if l then 1 else 0), (if m then 1 else 0), (if r then 1 else 0);
    var v := lb + 2 * mb + 4 * rb;
    assert v == (if l then 1 else 0) + (if m then 2 else 0) + (if r then 4 else 0);
    if i >= 3 {
      Pow2Monotone(3, i);
      assert Pow2(3) == 8;
      DivUnique(v, Pow2(i), 0, v);
    } else if i == 0 {
      assert Pow2(0) == 1;
      ModUnique(v, 2, mb + 2 * rb, lb);
    } else if i == 1 {
      assert Pow2(1) == 2;
      DivUnique(v, 2, mb + 2 * rb, lb);
      ModUnique(mb + 2 * rb, 2, rb, mb);
    } else {
      assert Pow2(2) == 4;
      DivUnique(v, 4, rb, lb + 2 * mb);
    }
  }

  /** FLAGS is 1 while the pointer is inside the window and 0 otherwise. */
  lemma FlagsValue(m: Mouse)
    ensures Flags(m) == if m.focus then 1 else 0
  {
    if m.focus {
      forall i | 0 <= i < 32 ensures Bit(Flags(m), i) == Bit(1, i) {
        ConstantBits(i);
        ZeroBits(i);
      }
      WordBits(Flags(m), 1);
    }
  }

  // The `Device` implementation. Every access subtracts MOUSE_BASE first,
  // which panics below it.

  /** `read_u32`: VECTOR, X, Y, FLAGS and BUTTON; anything else panics. */
  function ReadWord(m: Mouse, mem: Ram, addr: Word): (r: Access<Mouse, Word>)
    ensures r.Done? ==> r.dev == m && r.mem == mem
    ensures r.Done? <==> addr >= MOUSE_BASE && addr - MOUSE_BASE in {MOUSE_VECTOR, MOUSE_X, MOUSE_Y, MOUSE_FLAGS, MOUSE_BUTTON}
  {
    if addr < MOUSE_BASE then Abort
    else
      var off := addr - MOUSE_BASE;
      if off == MOUSE_VECTOR then Done(m, mem, m.vector)
      else if off == MOUSE_X then Done(m, mem, m.x)
      else if off == MOUSE_Y then Done(m, mem, m.y)
      else if off == MOUSE_FLAGS then Done(m, mem, Flags(m))
      else if off == MOUSE_BUTTON then Done(m, mem, Button(m))
      else Abort
  }

  /** `write_u32`: only VECTOR is writable; anything else panics. */
  function WriteWord(m: Mouse, mem: Ram, addr: Word, value: Word): (r: Access<Mouse, ()>)
    ensures r.Done? <==> addr == MOUSE_BASE + MOUSE_VECTOR
    ensures r.Done? ==> r.dev.vector == value && r.dev.(vector := m.vector) == m && r.mem == mem
  {
    if addr < MOUSE_BASE then Abort
    else if addr - MOUSE_BASE == MOUSE_VECTOR then Done(m.(vector := value), mem, ())
    else Abort
  }

  /** `read_u8`: the mouse has no byte registers; every byte read panics. */
  function ReadByte(m: Mouse, mem: Ram, addr: Word): (r: Access<Mouse, Byte>)
    ensures r.Abort?
  {
    Abort
  }

  /** `write_u8`: every byte write panics. */
  function WriteByte(m: Mouse, mem: Ram, addr: Word, value: Byte): (r: Access<Mouse, ()>)
    ensures r.Abort?
  {
    Abort
  }

  /**
   * What a program reads back: X and Y the last position the host set,
   * VECTOR the last value written, BUTTON and FLAGS the packed booleans.
   */
  lemma RegistersReadBack(m: Mouse, mem: Ram, x: Word, y: Word, value: Word)
    ensures ReadWord(SetPosition(m, x, y), mem, MOUSE_BASE + MOUSE_X).value == x
    ensures ReadWord(SetPosition(m, x, y), mem, MOUSE_BASE + MOUSE_Y).value == y
    ensures var w := WriteWord(m, mem, MOUSE_BASE + MOUSE_VECTOR, value);
      w.Done? && ReadWord(w.dev, mem, MOUSE_BASE + MOUSE_VECTOR).value == value
    ensures ReadWord(m, mem, MOUSE_BASE + MOUSE_BUTTON).value ==
      (if m.left then 1 else 0) + (if m.middle then 2 else 0) + (if m.right then 4 else 0)
    ensures ReadWord(m, mem, MOUSE_BASE + MOUSE_FLAGS).value == if m.focus then 1 else 0
  {
    ButtonValue(m);
    FlagsValue(m);
  }
}

=== FILE: screen_device.dfy ===
/**
 * The screen as a device: its register file, the sprite and clear commands
 * a program lists in memory, and the byte windows onto the two layers.
 *
 * The register addresses and the layout of a command entry are parameters
 * (`Registers`, `Entry`); FLAT_REGISTERS and ENTRY_LAYOUT are the concrete
 * choices. Every panic of the program (an unimplemented register, a u32
 * overflow, an index out of range, a DMA access past memory) is `Abort`.
 */
module ScreenDevice {
  import opened Wrappers
  import opened Bytes
  import opened Alu
  import opened Dma
  import opened Device
  import MemoryMap
  import opened ScreenState
  import opened ScreenSprite

  /** The addresses the screen answers to. */
  datatype Registers = Registers(
    vector: Word, width: Word, height: Word, cmdLength: Word, cmdAddr: Word, zoom: Word,
    palette0: Word, palette15: Word,
    layer0: Word, layer0Top: Word, layer1: Word, layer1Top: Word)

  /** Byte offsets of the fields of a 16-byte command entry. */
  datatype Entry = Entry(x: Word, y: Word, source: Word, command: Word, flags: Word, color: Word, repeat: Word)

  datatype Config = Config(regs: Registers, entry: Entry)

  /** The absolute register addresses of the flat memory map. */
  const FLAT_REGISTERS: Registers := Registers(
    MemoryMap.SCREEN_VECTOR, MemoryMap.SCREEN_WIDTH, MemoryMap.SCREEN_HEIGHT,
    MemoryMap.SCREEN_CMD_LENGTH, MemoryMap.SCREEN_CMD_ADDR, MemoryMap.SCREEN_ZOOM,
    MemoryMap.SCREEN_PALETTE0, MemoryMap.SCREEN_PALETTE15,
    MemoryMap.SCREEN_LAYER0, MemoryMap.SCREEN_LAYER0_TOP, MemoryMap.SCREEN_LAYER1, MemoryMap.SCREEN_LAYER1_TOP)

  /**
   * A command entry: x, y and source are u32 fields at 0x0, 0x4 and 0x8;
   * the command byte (command number in the high nibble, layer in the low
   * nibble), flags, colour and repeat bytes follow at 0xC..0xF.
   */
  const ENTRY_LAYOUT: Entry := Entry(0x0, 0x4, 0x8, 0xC, 0xD, 0xE, 0xF)

  const ENTRY_SIZE: nat := 16

  const CMD_CLEAR: nat := 0
  const CMD_SPRITE1: nat := 1
  const CMD_SPRITE4: nat := 2

  /** A u32 addition; None where it overflows, which panics. */
  function AddU32(a: Word, b: Word): (r: Option<Word>)
    ensures r.Some? <==> a + b < WORD_LIMIT
    ensures r.Some? ==> r.value == a + b
  {
    if a + b < WORD_LIMIT then Some(a + b) else None
  }

  // ---------------------------------------------------------------------
  // Sprite commands
  // ---------------------------------------------------------------------

  /** A sprite format: 1 bit per pixel with its two colours, or 4 bits per pixel. */
  datatype Format = OneBit(fg: Byte, bg: Byte) | FourBit

  /** Bytes of memory one sprite of the format occupies, and so the step of the source address. */
  function Stride(f: Format): (r: nat)
    ensures r == if f.OneBit? then BYTES_1BPP else BYTES_4BPP
  {
    match f
    case OneBit(_, _) => BYTES_1BPP
    case FourBit => BYTES_4BPP
  }

  function ReadSprite(mem: Ram, f: Format, source: Word): (r: Option<seq<Byte>>)
    ensures r.Some? <==> source + Stride(f) <= MEM_SIZE
    ensures r.Some? ==> |r.value| == SPRITE_PIXELS
  {
    match f
    case OneBit(fg, bg) => Read1bpp(mem, source, fg, bg)
    case FourBit => Read4bpp(mem, source)
  }

  /** One tile of a sprite command: where it is drawn and where its pixels are read from. */
  datatype Tile = Tile(x: Word, y: Word, source: Word)

  /** A screen that keeps its invariant. */
  type ValidScreen = s: Screen | Valid(s) witness New()

  /**
   * What drawing one tile does to a screen of type S: the new screen, or
   * None when the program stops. The loops below are stated for any S.
   */
  type TileDraw<!S> = (S, Tile) -> Option<S>

  /**
   * Reads the tile's sprite and draws it. The program stops when the sprite
   * runs past memory, when the tile's last column or row overflows a u32,
   * or when the layer is not 0 or 1 and the tile's corner is on the display;
   * otherwise only the layers change (DrawTileEffect says how).
   */
  function DrawTile(mem: Ram, f: Format, layer: Byte, s: ValidScreen, t: Tile): (r: Option<ValidScreen>)
    ensures r.Some? <==> ReadSprite(mem, f, t.source).Some? && Draw(s, layer, t.x, t.y, ReadSprite(mem, f, t.source).value).Some?
    ensures r.Some? ==> r.value == Draw(s, layer, t.x, t.y, ReadSprite(mem, f, t.source).value).value
    ensures r.None? <==>
      || t.source + Stride(f) > MEM_SIZE
      || t.x + 7 >= WORD_LIMIT || t.y + 7 >= WORD_LIMIT
      || (layer >= LAYER_COUNT && t.x < s.width && t.y < s.height)
    ensures r.Some? ==> SameRegisters(s, r.value)
  {
    match ReadSprite(mem, f, t.source)
    case None => None
    case Some(pixels) =>
      DrawFails(s, layer, t.x, t.y, pixels);
      match Draw(s, layer, t.x, t.y, pixels)
      case None => None
      case Some(s1) => Some(s1)
  }

  /**
   * The effect of one tile on an even-width screen: every on-screen pixel
   * of the tile in its layer takes the colour the sprite read from memory
   * gives it, and every other pixel keeps its colour.
   */
  lemma DrawTileEffect(mem: Ram, f: Format, layer: Byte, s: ValidScreen, t: Tile, l: nat, qx: nat, qy: nat)
    requires s.width % 2 == 0 && DrawTile(mem, f, layer, s, t).Some?
    requires l < LAYER_COUNT && qx < s.width && qy < s.height
    ensures var r := DrawTile(mem, f, layer, s, t).value;
      var sprite := ReadSprite(mem, f, t.source).value;
      Pixel(r, l, qx, qy) ==
        if l == layer && t.x <= qx < t.x + SPRITE_SIDE && t.y <= qy < t.y + SPRITE_SIDE
        then sprite[(qy - t.y) * SPRITE_SIDE + (qx - t.x)] % 16
        else Pixel(s, l, qx, qy)
  {
    DrawEffect(s, layer, t.x, t.y, ReadSprite(mem, f, t.source).value, l, qx, qy);
  }

  /** Draws the tiles one after the other; None as soon as one stops the program. */
  function DrawTiles<S>(draw: TileDraw<S>, s: S, tiles: seq<Tile>): (r: Option<S>)
    decreases |tiles|
  {
    if tiles == [] then Some(s)
    else
      match draw(s, tiles[0])
      case None => None
      case Some(s1) => DrawTiles(draw, s1, tiles[1..])
  }

  /** Where the loops of a sprite command have got to: the screen, x and the source address. */
  datatype Cursor<S> = Cursor(screen: S, x: Word, source: Word)

  /**
   * The inner loop of `cmd_sprite1` and `cmd_sprite4`, with n tiles left in
   * the row: draw the tile at (x, y) read from source, then advance x by 8
   * and source by stride, the size of one sprite, both checked u32 additions.
   */
  function TileRow<S>(draw: TileDraw<S>, s: S, x: Word, y: Word, source: Word, stride: nat, n: nat): (r: Option<Cursor<S>>)
    decreases n
  {
    if n == 0 then Some(Cursor(s, x, source))
    else
      match draw(s, Tile(x, y, source))
      case None => None
      case Some(s1) =>
        if x + SPRITE_SIDE >= WORD_LIMIT || source + stride >= WORD_LIMIT then None
        else TileRow(draw, s1, x + SPRITE_SIDE, y, source + stride, stride, n - 1)
  }

  /**
   * The outer loop, with h rows of w tiles left: each row continues from
   * the x and source the previous row ended at (x is not reset), and y
   * advances by 8, a checked u32 addition, after every row.
   */
  function TileRows<S>(draw: TileDraw<S>, s: S, x: Word, y: Word, source: Word, stride: nat, w: nat, h: nat): (r: Option<S>)
    decreases h
  {
    if h == 0 then Some(s)
    else
      match TileRow(draw, s, x, y, source, stride, w)
      case None => None
      case Some(c) =>
        if y + SPRITE_SIDE >= WORD_LIMIT then None
        else TileRows(draw, c.screen, c.x, y + SPRITE_SIDE, c.source, stride, w, h - 1)
  }

  /**
   * A row of n tiles starting at x and source runs without overflow: every
   * `x += 8` and every `source += stride` of the inner loop stays a u32.
   */
  predicate RowFits(x: Word, source: Word, stride: nat, n: nat)
    decreases n
  {
    n == 0 || (x + SPRITE_SIDE < WORD_LIMIT && source + stride < WORD_LIMIT && RowFits(x + SPRITE_SIDE, source + stride, stride, n - 1))
  }

  /** A row fits exactly when its final x and source are u32 values. */
  lemma {:induction false} RowFitsFinal(x: Word, source: Word, stride: nat, n: nat)
    ensures RowFits(x, source, stride, n) <==> x + SPRITE_SIDE * n < WORD_LIMIT && source + stride * n < WORD_LIMIT
    decreases n
  {
    if n > 0 {
      StrideSplit(stride, 1, n);
      if x + SPRITE_SIDE < WORD_LIMIT && source + stride < WORD_LIMIT {
        RowFitsFinal(x + SPRITE_SIDE, source + stride, stride, n - 1);
      }
    }
  }

  /** The tiles of one row of n tiles, the first at (x, y) and read from source. */
  function RowTiles(x: Word, y: Word, source: Word, stride: nat, n: nat): (r: seq<Tile>)
    requires RowFits(x, source, stride, n)
    ensures |r| == n
    decreases n
  {
    if n == 0 then []
    else [Tile(x, y, source)] + RowTiles(x + SPRITE_SIDE, y, source + stride, stride, n - 1)
  }

  /** Tile k of a row is drawn at x + 8k and read from source + stride * k. */
  lemma {:induction false} RowTilePosition(x: Word, y: Word, source: Word, stride: nat, n: nat, k: nat)
    requires RowFits(x, source, stride, n) && k < n
    ensures var t := RowTiles(x, y, source, stride, n)[k];
      t.x == x + SPRITE_SIDE * k && t.y == y && t.source == source + stride * k
    decreases n
  {
    if k > 0 {
      RowTilePosition(x + SPRITE_SIDE, y, source + stride, stride, n - 1, k - 1);
      MulAdd(1, k - 1, stride);
    }
  }

  /** The outer loop's h rows of w tiles run without overflow, `y += 8` included. */
  predicate Fits(x: Word, y: Word, source: Word, stride: nat, w: nat, h: nat)
    decreases h
  {
    if h == 0 then true
    else
      && RowFits(x, source, stride, w)
      && y + SPRITE_SIDE < WORD_LIMIT
      && (RowFitsFinal(x, source, stride, w);
          Fits(x + SPRITE_SIDE * w, y + SPRITE_SIDE, source + stride * w, stride, w, h - 1))
  }

  /**
   * The tiles of a sprite command in drawing order: the w tiles of the first
   * row, then the tiles of the h - 1 rows below, which start where the first
   * row's x and source ended.
   */
  function Tiles(x: Word, y: Word, source: Word, stride: nat, w: nat, h: nat): (r: seq<Tile>)
    requires Fits(x, y, source, stride, w, h)
    ensures |r| == w * h
    decreases h
  {
    if h == 0 then []
    else
      RowFitsFinal(x, source, stride, w);
      MulSplit(w, h, stride);
      RowTiles(x, y, source, stride, w) + Tiles(x + SPRITE_SIDE * w, y + SPRITE_SIDE, source + stride * w, stride, w, h - 1)
  }

  /**
   * A sprite command's loops run without overflow exactly when the final
   * x, y and source are u32 values: x + 8 * w * h, y + 8 * h and
   * source + stride * w * h.
   */
  lemma {:induction false} FitsFinal(x: Word, y: Word, source: Word, stride: nat, w: nat, h: nat)
    ensures Fits(x, y, source, stride, w, h) <==>
      x + SPRITE_SIDE * (w * h) < WORD_LIMIT && y + SPRITE_SIDE * h < WORD_LIMIT && source + stride * (w * h) < WORD_LIMIT
    decreases h
  {
    if h > 0 {
      MulSplit(w, h, stride);
      MulSplit(w, h, SPRITE_SIDE);
      assert SPRITE_SIDE * h == SPRITE_SIDE + SPRITE_SIDE * (h - 1);
      RowFitsFinal(x, source, stride, w);
      if x + SPRITE_SIDE * w < WORD_LIMIT && source + stride * w < WORD_LIMIT && y + SPRITE_SIDE < WORD_LIMIT {
        FitsFinal(x + SPRITE_SIDE * w, y + SPRITE_SIDE, source + stride * w, stride, w, h - 1);
      }
    }
  }

  /** w * h = w + w * (h - 1), and so for stride times each. */
  lemma MulSplit(w: nat, h: nat, stride: nat)
    requires 1 <= h
    ensures w * h == w + w * (h - 1)
    ensures stride * (w * h) == stride * w + stride * (w * (h - 1))
  {
    MulAdd(1, h - 1, w);
    MulAdd(w, w * (h - 1), stride);
  }

  /**
   * Tile c of row r, which is tile i = r * w + c of the sequence, is drawn
   * at x + 8 * i and y + 8 * r and read from source + stride * i: x and
   * source advance once per tile drawn before it, y once per row above it.
   */
  lemma {:induction false} TilePosition(x: Word, y: Word, source: Word, stride: nat, w: nat, h: nat, r: nat, c: nat, i: nat)
    requires Fits(x, y, source, stride, w, h) && r < h && c < w && i == r * w + c
    ensures i < |Tiles(x, y, source, stride, w, h)|
    ensures Tiles(x, y, source, stride, w, h)[i].x == x + SPRITE_SIDE * i
    ensures Tiles(x, y, source, stride, w, h)[i].y == y + SPRITE_SIDE * r
    ensures Tiles(x, y, source, stride, w, h)[i].source == source + stride * i
    decreases h
  {
    if r == 0 {
      assert i == c;
      FirstRowTile(x, y, source, stride, w, h, c);
    } else {
      RowFitsFinal(x, source, stride, w);
      NextRowIndex(w, r, c, i);
      TilePosition(x + SPRITE_SIDE * w, y + SPRITE_SIDE, source + stride * w, stride, w, h - 1, r - 1, c, i - w);
      LaterRowTile(x, y, source, stride, w, h, i - w);
      StrideSplit(stride, w, i);
    }
  }

  /** Reading stride * i bytes on is reading stride * w bytes on and then stride * (i - w) more. */
  lemma StrideSplit(stride: nat, w: nat, i: nat)
    requires w <= i
    ensures stride * w + stride * (i - w) == stride * i
  {
    MulAdd(w, i - w, stride);
    assert w + (i - w) == i;
  }

  /** Tile c of row r comes w tiles after tile c of row r - 1. */
  lemma NextRowIndex(w: nat, r: nat, c: nat, i: nat)
    requires r >= 1 && i == r * w + c
    ensures w <= i && i - w == (r - 1) * w + c
  {
    MulAdd(1, r - 1, w);
  }

  /** The first row of tiles is the row the inner loop draws. */
  lemma FirstRowTile(x: Word, y: Word, source: Word, stride: nat, w: nat, h: nat, c: nat)
    requires Fits(x, y, source, stride, w, h) && 0 < h && c < w
    ensures c < |Tiles(x, y, source, stride, w, h)|
    ensures Tiles(x, y, source, stride, w, h)[c].x == x + SPRITE_SIDE * c
    ensures Tiles(x, y, source, stride, w, h)[c].y == y
    ensures Tiles(x, y, source, stride, w, h)[c].source == source + stride * c
  {
    RowFitsFinal(x, source, stride, w);
    var row := RowTiles(x, y, source, stride, w);
    var rest := Tiles(x + SPRITE_SIDE * w, y + SPRITE_SIDE, source + stride * w, stride, w, h - 1);
    assert Tiles(x, y, source, stride, w, h) == row + rest;
    RowTilePosition(x, y, source, stride, w, c);
  }

  /** Past the first row come the tiles of the sprite that starts one row further on. */
  lemma LaterRowTile(x: Word, y: Word, source: Word, stride: nat, w: nat, h: nat, k: nat)
    requires Fits(x, y, source, stride, w, h) && 0 < h
    requires RowFits(x, source, stride, w) && x + SPRITE_SIDE * w < WORD_LIMIT && source + stride * w < WORD_LIMIT
    requires k < |Tiles(x + SPRITE_SIDE * w, y + SPRITE_SIDE, source + stride * w, stride, w, h - 1)|
    ensures w + k < |Tiles(x, y, source, stride, w, h)|
    ensures Tiles(x, y, source, stride, w, h)[w + k] == Tiles(x + SPRITE_SIDE * w, y + SPRITE_SIDE, source + stride * w, stride, w, h - 1)[k]
  {
    RowFitsFinal(x, source, stride, w);
    var row := RowTiles(x, y, source, stride, w);
    var rest := Tiles(x + SPRITE_SIDE * w, y + SPRITE_SIDE, source + stride * w, stride, w, h - 1);
    assert Tiles(x, y, source, stride, w, h) == row + rest;
    assert (row + rest)[w + k] == rest[k];
  }

  lemma {:induction false} DrawTilesAppend<S>(draw: TileDraw<S>, s: S, a: seq<Tile>, b: seq<Tile>)
    ensures DrawTiles(draw, s, a + b) ==
      match DrawTiles(draw, s, a)
      case None => None
      case Some(s1) => DrawTiles(draw, s1, b)
    decreases |a|
  {
    if a == [] {
      assert a + b == b;
    } else {
      assert (a + b)[0] == a[0];
      assert (a + b)[1..] == a[1..] + b;
      match draw(s, a[0])
      case None =>
      case Some(s1) =>
        DrawTilesAppend(draw, s1, a[1..], b);
    }
  }

  /** What the inner loop comes to: the row's tiles drawn in order, when no addition overflows. */
  function RowOutcome<S>(draw: TileDraw<S>, s: S, x: Word, y: Word, source: Word, stride: nat, n: nat): Option<Cursor<S>> {
    if RowFits(x, source, stride, n) then
      match DrawTiles(draw, s, RowTiles(x, y, source, stride, n))
      case None => None
      case Some(s1) => (RowFitsFinal(x, source, stride, n); Some(Cursor(s1, x + SPRITE_SIDE * n, source + stride * n)))
    else None
  }

  /** The inner loop draws the row's tiles in order, unless an addition overflows. */
  lemma {:induction false} TileRowDraws<S>(draw: TileDraw<S>, s: S, x: Word, y: Word, source: Word, stride: nat, n: nat)
    ensures TileRow(draw, s, x, y, source, stride, n) == RowOutcome(draw, s, x, y, source, stride, n)
    decreases n
  {
    if n == 0 {
      assert RowTiles(x, y, source, stride, n) == [];
    } else {
      match draw(s, Tile(x, y, source))
      case None =>
        if RowFits(x, source, stride, n) {
          assert RowTiles(x, y, source, stride, n)[0] == Tile(x, y, source);
        }
      case Some(s1) =>
        if x + SPRITE_SIDE < WORD_LIMIT && source + stride < WORD_LIMIT {
          TileRowDraws(draw, s1, x + SPRITE_SIDE, y, source + stride, stride, n - 1);
          RowStep(draw, s, s1, x, y, source, stride, n);
        }
    }
  }

  /** After a first tile that draws and does not overflow, the row's outcome is the rest's. */
  lemma RowStep<S>(draw: TileDraw<S>, s: S, s1: S, x: Word, y: Word, source: Word, stride: nat, n: nat)
    requires 1 <= n && draw(s, Tile(x, y, source)) == Some(s1)
    requires x + SPRITE_SIDE < WORD_LIMIT && source + stride < WORD_LIMIT
    ensures RowOutcome(draw, s, x, y, source, stride, n) ==
      RowOutcome(draw, s1, x + SPRITE_SIDE, y, source + stride, stride, n - 1)
  {
    assert RowFits(x, source, stride, n) == RowFits(x + SPRITE_SIDE, source + stride, stride, n - 1);
    if RowFits(x, source, stride, n) {
      var rest := RowTiles(x + SPRITE_SIDE, y, source + stride, stride, n - 1);
      assert RowTiles(x, y, source, stride, n) == [Tile(x, y, source)] + rest;
      assert DrawTiles(draw, s, RowTiles(x, y, source, stride, n)) == DrawTiles(draw, s1, rest) by {
        assert ([Tile(x, y, source)] + rest)[0] == Tile(x, y, source);
        assert ([Tile(x, y, source)] + rest)[1..] == rest;
      }
      assert x + SPRITE_SIDE * n == (x + SPRITE_SIDE) + SPRITE_SIDE * (n - 1);
      assert source + stride * n == (source + stride) + stride * (n - 1) by {
        MulAdd(1, n - 1, stride);
      }
    }
  }

  /**
   * The loops of a sprite command draw exactly the tiles of `Tiles`, in
   * order, when no addition overflows, and stop the program otherwise.
   */
  lemma {:induction false} TileRowsDraw<S>(draw: TileDraw<S>, s: S, x: Word, y: Word, source: Word, stride: nat, w: nat, h: nat)
    ensures TileRows(draw, s, x, y, source, stride, w, h) ==
      if Fits(x, y, source, stride, w, h) then DrawTiles(draw, s, Tiles(x, y, source, stride, w, h))
      else None
    decreases h
  {
    if h > 0 {
      TileRowDraws(draw, s, x, y, source, stride, w);
      RowFitsFinal(x, source, stride, w);
      if RowFits(x, source, stride, w) && y + SPRITE_SIDE < WORD_LIMIT {
        match DrawTiles(draw, s, RowTiles(x, y, source, stride, w))
        case None =>
          RowsFirstFails(draw, s, x, y, source, stride, w, h);
        case Some(s1) =>
          TileRowsDraw(draw, s1, x + SPRITE_SIDE * w, y + SPRITE_SIDE, source + stride * w, stride, w, h - 1);
          RowsContinue(draw, s, s1, x, y, source, stride, w, h);
      }
    }
  }

  /** When the first row fails to draw, so do the loops and the tiles. */
  lemma RowsFirstFails<S>(draw: TileDraw<S>, s: S, x: Word, y: Word, source: Word, stride: nat, w: nat, h: nat)
    requires 0 < h && RowFits(x, source, stride, w) && y + SPRITE_SIDE < WORD_LIMIT
    requires DrawTiles(draw, s, RowTiles(x, y, source, stride, w)).None?
    ensures TileRows(draw, s, x, y, source, stride, w, h) == None
    ensures Fits(x, y, source, stride, w, h) ==> DrawTiles(draw, s, Tiles(x, y, source, stride, w, h)) == None
  {
    TileRowDraws(draw, s, x, y, source, stride, w);
    RowFitsFinal(x, source, stride, w);
    if Fits(x, y, source, stride, w, h) {
      var row := RowTiles(x, y, source, stride, w);
      var rest := Tiles(x + SPRITE_SIDE * w, y + SPRITE_SIDE, source + stride * w, stride, w, h - 1);
      DrawTilesAppend(draw, s, row, rest);
    }
  }

  /** When the first row draws, the loops go on with the sprite one row down, and the tiles with its tiles. */
  lemma RowsContinue<S>(draw: TileDraw<S>, s: S, s1: S, x: Word, y: Word, source: Word, stride: nat, w: nat, h: nat)
    requires 0 < h && RowFits(x, source, stride, w) && y + SPRITE_SIDE < WORD_LIMIT
    requires x + SPRITE_SIDE * w < WORD_LIMIT && source + stride * w < WORD_LIMIT
    requires DrawTiles(draw, s, RowTiles(x, y, source, stride, w)) == Some(s1)
    requires TileRows(draw, s1, x + SPRITE_SIDE * w, y + SPRITE_SIDE, source + stride * w, stride, w, h - 1) ==
      if Fits(x + SPRITE_SIDE * w, y + SPRITE_SIDE, source + stride * w, stride, w, h - 1)
      then DrawTiles(draw, s1, Tiles(x + SPRITE_SIDE * w, y + SPRITE_SIDE, source + stride * w, stride, w, h - 1))
      else None
    ensures TileRows(draw, s, x, y, source, stride, w, h) ==
      if Fits(x, y, source, stride, w, h) then DrawTiles(draw, s, Tiles(x, y, source, stride, w, h))
      else None
  {
    TileRowDraws(draw, s, x, y, source, stride, w);
    if Fits(x, y, source, stride, w, h) {
      var row := RowTiles(x, y, source, stride, w);
      var rest := Tiles(x + SPRITE_SIDE * w, y + SPRITE_SIDE, source + stride * w, stride, w, h - 1);
      DrawTilesAppend(draw, s, row, rest);
    }
  }

  // ---------------------------------------------------------------------
  // Command entries
  // ---------------------------------------------------------------------

  /** The u32 field at offset off of the entry at addr; None when addr + off overflows or the read leaves memory. */
  function EntryWord(mem: Ram, addr: Word, off: Word): (r: Option<Word>)
    ensures r.Some? <==> addr + off + 4 <= MEM_SIZE
    ensures r.Some? ==> LeBytes(r.value) == mem[addr + off..addr + off + 4]
  {
    match AddU32(addr, off)
    case None => None
    case Some(a) => ReadU32(mem, a)
  }

  /** The byte field at offset off of the entry at addr; None when addr + off overflows or lies outside memory. */
  function EntryByte(mem: Ram, addr: Word, off: Word): (r: Option<Byte>)
    ensures r.Some? <==> addr + off < MEM_SIZE
    ensures r.Some? ==> r.value == mem[addr + off]
  {
    match AddU32(addr, off)
    case None => None
    case Some(a) => ReadU8(mem, a)
  }

  /** The low nibble of a little-endian word is the low nibble of its first byte. */
  lemma LowNibble(w: Word)
    ensures w % 16 == LeBytes(w)[0] % 16
  {
    var m := LeBytes(w)[0];
    assert m == w % 0x100;
    var q := w / 0x100;
    assert w == 0x100 * q + m;
    assert w == 16 * (16 * q + m / 16) + m % 16;
    ModUnique(w, 16, 16 * q + m / 16, m % 16);
  }

  /**
   * `cmd_clear`: the low nibble of the word at the command field names the
   * layer, and every byte of it becomes 0. None when the layer is not 0
   * or 1, or the word cannot be read.
   */
  function CmdClear(e: Entry, s: ValidScreen, mem: Ram, addr: Word): (r: Option<ValidScreen>)
    ensures r.Some? <==> addr + e.command + 4 <= MEM_SIZE && mem[addr + e.command] % 16 < LAYER_COUNT
    ensures r.Some? ==> SameRegisters(s, r.value)
    ensures r.Some? ==> var l := mem[addr + e.command] % 16;
      && (forall i :: 0 <= i < |r.value.layers[l]| ==> r.value.layers[l][i] == 0)
      && r.value.layers[1 - l] == s.layers[1 - l]
  {
    match EntryWord(mem, addr, e.command)
    case None => None
    case Some(w) =>
      LowNibble(w);
      var layer := w % 16;
      if layer >= LAYER_COUNT then None
      else Some(s.(layers := s.layers[layer := Zeros(|s.layers[layer]|)]))
  }

  /** The fields of a sprite command, decoded. */
  datatype SpriteCommand = SpriteCommand(x: Word, y: Word, source: Word, layer: Byte, format: Format, columns: nat, rows: nat)

  /**
   * Reads a sprite command's fields: x, y and source as u32 values; the
   * command, flags, colour (1 bit per pixel only) and repeat bytes. The
   * layer is the command's low nibble, the colours the two nibbles of the
   * colour byte (foreground high), and the tile grid is 1 + the high nibble
   * of repeat wide and 1 + its low nibble high. The flags byte is read and
   * ignored. None when any read panics.
   */
  function ReadSpriteCommand(e: Entry, mem: Ram, addr: Word, fourBit: bool): (r: Option<SpriteCommand>)
    ensures r.Some? <==>
      && addr + e.x + 4 <= MEM_SIZE && addr + e.y + 4 <= MEM_SIZE && addr + e.source + 4 <= MEM_SIZE
      && addr + e.command < MEM_SIZE && addr + e.flags < MEM_SIZE && addr + e.repeat < MEM_SIZE
      && (fourBit || addr + e.color < MEM_SIZE)
    ensures r.Some? ==> var c := r.value;
      && LeBytes(c.x) == mem[addr + e.x..addr + e.x + 4]
      && LeBytes(c.y) == mem[addr + e.y..addr + e.y + 4]
      && LeBytes(c.source) == mem[addr + e.source..addr + e.source + 4]
      && c.layer == mem[addr + e.command] % 16
      && c.format == (if fourBit then FourBit else OneBit(mem[addr + e.color] / 16, mem[addr + e.color] % 16))
      && c.columns == 1 + mem[addr + e.repeat] / 16 && 1 <= c.columns <= 16
      && c.rows == 1 + mem[addr + e.repeat] % 16 && 1 <= c.rows <= 16
  {
    var x :- EntryWord(mem, addr, e.x);
    var y :- EntryWord(mem, addr, e.y);
    var source :- EntryWord(mem, addr, e.source);
    var command :- EntryByte(mem, addr, e.command);
    var _ :- EntryByte(mem, addr, e.flags);
    var format :-
      if fourBit then Some(FourBit)
      else match EntryByte(mem, addr, e.color)
        case None => None
        case Some(color) => Some(OneBit(color / 16, color % 16));
    var repeat :- EntryByte(mem, addr, e.repeat);
    Some(SpriteCommand(x, y, source, command % 16, format, 1 + repeat / 16, 1 + repeat % 16))
  }

  /** Drawing one tile of the sprite command c. */
  function SpriteDraw(mem: Ram, c: SpriteCommand): TileDraw<ValidScreen> {
    (v: ValidScreen, t: Tile) => DrawTile(mem, c.format, c.layer, v, t)
  }

  /**
   * `cmd_sprite1` and `cmd_sprite4`: reads the command and draws its grid
   * of tiles, stopping the program where a read, a draw or a u32 addition
   * panics.
   */
  function CmdSprite(e: Entry, s: ValidScreen, mem: Ram, addr: Word, fourBit: bool): (r: Option<ValidScreen>)
  {
    match ReadSpriteCommand(e, mem, addr, fourBit)
    case None => None
    case Some(c) => TileRows(SpriteDraw(mem, c), s, c.x, c.y, c.source, Stride(c.format), c.columns, c.rows)
  }

  /**
   * A sprite command draws exactly its columns * rows tiles, row by row,
   * tile (r, c) at (x + 8 * (r * columns + c), y + 8 * r) and read from
   * source + stride * (r * columns + c); it stops the program when x, y
   * or source would pass u32::MAX on the way.
   */
  lemma CmdSpriteTiles(e: Entry, s: ValidScreen, mem: Ram, addr: Word, fourBit: bool)
    requires ReadSpriteCommand(e, mem, addr, fourBit).Some?
    ensures var c := ReadSpriteCommand(e, mem, addr, fourBit).value;
      var stride := Stride(c.format);
      var n := c.columns * c.rows;
      && (Fits(c.x, c.y, c.source, stride, c.columns, c.rows) <==>
           c.x + SPRITE_SIDE * n < WORD_LIMIT && c.y + SPRITE_SIDE * c.rows < WORD_LIMIT && c.source + stride * n < WORD_LIMIT)
      && CmdSprite(e, s, mem, addr, fourBit) ==
           if Fits(c.x, c.y, c.source, stride, c.columns, c.rows)
           then DrawTiles(SpriteDraw(mem, c), s, Tiles(c.x, c.y, c.source, stride, c.columns, c.rows))
           else None
  {
    var c := ReadSpriteCommand(e, mem, addr, fourBit).value;
    TileRowsDraw(SpriteDraw(mem, c), s, c.x, c.y, c.source, Stride(c.format), c.columns, c.rows);
    FitsFinal(c.x, c.y, c.source, Stride(c.format), c.columns, c.rows);
  }

  /** Drawing tiles changes the layers only. */
  lemma {:induction false} DrawTilesKeepsRegisters(mem: Ram, c: SpriteCommand, s: ValidScreen, tiles: seq<Tile>)
    requires DrawTiles(SpriteDraw(mem, c), s, tiles).Some?
    ensures SameRegisters(s, DrawTiles(SpriteDraw(mem, c), s, tiles).value)
    decreases |tiles|
  {
    if tiles != [] {
      var s1 := DrawTile(mem, c.format, c.layer, s, tiles[0]).value;
      DrawTilesKeepsRegisters(mem, c, s1, tiles[1..]);
    }
  }

  /** A sprite command changes the layers only. */
  lemma CmdSpriteKeepsRegisters(e: Entry, s: ValidScreen, mem: Ram, addr: Word, fourBit: bool)
    requires CmdSprite(e, s, mem, addr, fourBit).Some?
    ensures SameRegisters(s, CmdSprite(e, s, mem, addr, fourBit).value)
  {
    var c := ReadSpriteCommand(e, mem, addr, fourBit).value;
    CmdSpriteTiles(e, s, mem, addr, fourBit);
    DrawTilesKeepsRegisters(mem, c, s, Tiles(c.x, c.y, c.source, Stride(c.format), c.columns, c.rows));
  }

  // ---------------------------------------------------------------------
  // Command dispatch
  // ---------------------------------------------------------------------

  /** The command numbered cmd: 0 clears a layer, 1 and 2 draw sprites; any other number panics. */
  function RunCommand(e: Entry, s: ValidScreen, mem: Ram, addr: Word, cmd: nat): (r: Option<ValidScreen>)
    ensures r.Some? ==> cmd <= CMD_SPRITE4 && SameRegisters(s, r.value)
  {
    if cmd == CMD_CLEAR then CmdClear(e, s, mem, addr)
    else if cmd == CMD_SPRITE1 || cmd == CMD_SPRITE4 then
      match CmdSprite(e, s, mem, addr, cmd == CMD_SPRITE4)
      case None => None
      case Some(s1) => CmdSpriteKeepsRegisters(e, s, mem, addr, cmd == CMD_SPRITE4); Some(s1)
    else None
  }

  /**
   * `process_command` as written: the command number is the whole u32 at
   * the command field shifted right by four, so the flags, colour and
   * repeat bytes that follow the command byte become part of it.
   */
  function ProcessCommandAsWritten(e: Entry, s: ValidScreen, mem: Ram, addr: Word): (r: Option<ValidScreen>)
    ensures r.Some? ==> addr + e.command + 4 <= MEM_SIZE
  {
    match EntryWord(mem, addr, e.command)
    case None => None
    case Some(w) => RunCommand(e, s, mem, addr, w / 16)
  }

  /** `process_command` with the command number taken from the high nibble of the command byte alone. */
  function ProcessCommand(e: Entry, s: ValidScreen, mem: Ram, addr: Word): (r: Option<ValidScreen>)
    ensures r.Some? ==> addr + e.command < MEM_SIZE && mem[addr + e.command] / 16 <= CMD_SPRITE4
    ensures r.Some? ==> SameRegisters(s, r.value)
  {
    match EntryByte(mem, addr, e.command)
    case None => None
    case Some(b) => RunCommand(e, s, mem, addr, b / 16)
  }

  /**
   * The command byte selects the command: its high nibble 0 clears, 1
   * draws a 1-bit sprite, 2 a 4-bit one, whatever the other bytes hold.
   */
  lemma CommandByteSelects(e: Entry, s: ValidScreen, mem: Ram, addr: Word)
    requires addr + e.command < MEM_SIZE
    ensures mem[addr + e.command] / 16 == CMD_CLEAR ==> ProcessCommand(e, s, mem, addr) == CmdClear(e, s, mem, addr)
    ensures mem[addr + e.command] / 16 == CMD_SPRITE1 ==> ProcessCommand(e, s, mem, addr) == CmdSprite(e, s, mem, addr, false)
    ensures mem[addr + e.command] / 16 == CMD_SPRITE4 ==> ProcessCommand(e, s, mem, addr) == CmdSprite(e, s, mem, addr, true)
    ensures mem[addr + e.command] / 16 > CMD_SPRITE4 ==> ProcessCommand(e, s, mem, addr) == None
  {
    ProcessCommandByte(e, s, mem, addr);
    RunCommandSelects(e, s, mem, addr, mem[addr + e.command] / 16);
  }

  lemma ProcessCommandByte(e: Entry, s: ValidScreen, mem: Ram, addr: Word)
    requires addr + e.command < MEM_SIZE
    ensures ProcessCommand(e, s, mem, addr) == RunCommand(e, s, mem, addr, mem[addr + e.command] / 16)
  {
    match EntryByte(mem, addr, e.command)
    case None => assert false;
    case Some(b) => assert b == mem[addr + e.command];
  }

  lemma RunCommandSelects(e: Entry, s: ValidScreen, mem: Ram, addr: Word, cmd: nat)
    ensures RunCommand(e, s, mem, addr, cmd) ==
      if cmd == CMD_CLEAR then CmdClear(e, s, mem, addr)
      else if cmd == CMD_SPRITE1 then CmdSprite(e, s, mem, addr, false)
      else if cmd == CMD_SPRITE4 then CmdSprite(e, s, mem, addr, true)
      else None
  {
  }

  /**
   * With the entry layout of the flat memory map, the word read as written
   * holds the flags, colour and repeat bytes above the command byte: when
   * any of them is not zero the command number is at least 16, which panics,
   * so no sprite with a colour, a repeat or a flag can be drawn.
   */
  lemma AsWrittenRejectsAttributes(s: ValidScreen, mem: Ram, addr: Word)
    requires addr + ENTRY_SIZE <= MEM_SIZE
    requires mem[addr + ENTRY_LAYOUT.flags] != 0 || mem[addr + ENTRY_LAYOUT.color] != 0 || mem[addr + ENTRY_LAYOUT.repeat] != 0
    ensures ProcessCommandAsWritten(ENTRY_LAYOUT, s, mem, addr) == None
  {
    var a := addr + ENTRY_LAYOUT.command;
    var w := EntryWord(mem, addr, ENTRY_LAYOUT.command).value;
    var b := LeBytes(w);
    assert b[1] != 0 || b[2] != 0 || b[3] != 0 by {
      assert b == mem[a..a + 4];
      assert b[1] == mem[a + 1] && b[2] == mem[a + 2] && b[3] == mem[a + 3];
    }
    assert w >= 0x100;
  }

  /**
   * The same entry, a 1-bit sprite in white on black, four tiles wide:
   * the corrected dispatch draws it, the dispatch as written panics.
   */
  lemma ColouredSpriteDispatch(s: ValidScreen, mem: Ram, addr: Word)
    requires addr + ENTRY_SIZE <= MEM_SIZE
    requires mem[addr + ENTRY_LAYOUT.command] == 0x10
    requires mem[addr + ENTRY_LAYOUT.color] == 0xF0 && mem[addr + ENTRY_LAYOUT.repeat] == 0x30
    ensures ProcessCommand(ENTRY_LAYOUT, s, mem, addr) == CmdSprite(ENTRY_LAYOUT, s, mem, addr, false)
    ensures ProcessCommandAsWritten(ENTRY_LAYOUT, s, mem, addr) == None
  {
    AsWrittenRejectsAttributes(s, mem, addr);
  }

  /** What processing the entry at an address does to a screen of type S. */
  type CommandStep<!S> = (S, Word) -> Option<S>

  /** Processing entries with `ProcessCommand`. */
  function EntryStep(e: Entry, mem: Ram): CommandStep<ValidScreen> {
    (v: ValidScreen, a: Word) => ProcessCommand(e, v, mem, a)
  }

  /**
   * The loop of a write to CMD_ADDR, from entry i on: entry i is at
   * base + 16 * i, both computed with checked u32 arithmetic.
   */
  function Commands<S>(step: CommandStep<S>, s: S, base: Word, i: nat, count: Word): (r: Option<S>)
    decreases count - i
  {
    if i >= count then Some(s)
    else if i * ENTRY_SIZE >= WORD_LIMIT || base + i * ENTRY_SIZE >= WORD_LIMIT then None
    else
      match step(s, base + i * ENTRY_SIZE)
      case None => None
      case Some(s1) => Commands(step, s1, base, i + 1, count)
  }

  /** A command list whose every step changes the layers only changes the layers only. */
  lemma {:induction false} CommandsKeepRegisters(step: CommandStep<ValidScreen>, s: ValidScreen, base: Word, i: nat, count: Word)
    requires forall v: ValidScreen, a: Word :: step(v, a).Some? ==> SameRegisters(v, step(v, a).value)
    requires Commands(step, s, base, i, count).Some?
    ensures SameRegisters(s, Commands(step, s, base, i, count).value)
    decreases count - i
  {
    if i < count {
      var s1 := step(s, base + i * ENTRY_SIZE).value;
      CommandsKeepRegisters(step, s1, base, i + 1, count);
    }
  }

  /**
   * A command list that runs to the end processed every one of its
   * entries: entry k is at base + 16 * k, a u32, and so meets whatever a
   * step demands of the address it succeeds on.
   */
  lemma {:induction false} CommandsInBounds<S>(step: CommandStep<S>, accepts: Word -> bool, s: S, base: Word, i: nat, count: Word, k: nat)
    requires forall v: S, a: Word :: step(v, a).Some? ==> accepts(a)
    requires Commands(step, s, base, i, count).Some?
    requires i <= k < count
    ensures base + k * ENTRY_SIZE < WORD_LIMIT && accepts(base + k * ENTRY_SIZE)
    decreases count - i
  {
    var s1 := step(s, base + i * ENTRY_SIZE).value;
    if k > i {
      CommandsInBounds(step, accepts, s1, base, i + 1, count, k);
    }
  }

  /** The command byte of the entry at a is in memory and names command 0, 1 or 2. */
  predicate EntryValid(e: Entry, mem: Ram, a: Word) {
    a + e.command < MEM_SIZE && mem[a + e.command] / 16 <= CMD_SPRITE4
  }

  /** Each step of a command list changes the layers only. */
  lemma EntryStepKeepsRegisters(e: Entry, mem: Ram)
    ensures forall v: ValidScreen, a: Word :: EntryStep(e, mem)(v, a).Some? ==> SameRegisters(v, EntryStep(e, mem)(v, a).value)
  {
  }

  /** Each step of a command list succeeds only on an entry holding command 0, 1 or 2. */
  lemma EntryStepAccepts(e: Entry, mem: Ram)
    ensures forall v: ValidScreen, a: Word :: EntryStep(e, mem)(v, a).Some? ==> EntryValid(e, mem, a)
  {
  }

  /** A write to CMD_ADDR that runs to the end changes the layers only, and every entry it read holds command 0, 1 or 2. */
  lemma CommandListEffect(e: Entry, mem: Ram, s: ValidScreen, base: Word, count: Word)
    requires Commands(EntryStep(e, mem), s, base, 0, count).Some?
    ensures SameRegisters(s, Commands(EntryStep(e, mem), s, base, 0, count).value)
    ensures forall k: nat :: k < count ==> base + k * ENTRY_SIZE < WORD_LIMIT && EntryValid(e, mem, base + k * ENTRY_SIZE)
  {
    var step := EntryStep(e, mem);
    EntryStepKeepsRegisters(e, mem);
    EntryStepAccepts(e, mem);
    CommandsKeepRegisters(step, s, base, 0, count);
    forall k: nat | k < count
      ensures base + k * ENTRY_SIZE < WORD_LIMIT && EntryValid(e, mem, base + k * ENTRY_SIZE)
    {
      CommandsInBounds(step, (a: Word) => EntryValid(e, mem, a), s, base, 0, count, k);
    }
  }

  // ---------------------------------------------------------------------
  // Register file and layer windows
  // ---------------------------------------------------------------------

  /** The six registers that are not palette entries, in the order the program matches them. */
  function Plain(r: Registers): seq<Word> {
    [r.vector, r.width, r.height, r.cmdLength, r.cmdAddr, r.zoom]
  }

  /** The register a word access names. */
  datatype Register = Vector | Width | Height | CmdLength | CmdAddr | Zoom | Palette(slot: nat) | Unmapped

  /** The palette entry the register at addr names: one entry per 4-byte register. */
  function PaletteSlot(r: Registers, addr: Word): (i: nat)
    requires r.palette0 <= addr
  {
    (addr - r.palette0) / 4
  }

  /**
   * The register at addr, the first that matches in the order of the
   * program's `match`: the six plain registers, then the palette range.
   */
  function RegisterAt(r: Registers, addr: Word): (g: Register)
    ensures g.Palette? <==> addr !in Plain(r) && r.palette0 <= addr <= r.palette15
    ensures g.Palette? ==> g.slot == PaletteSlot(r, addr)
    ensures g == Unmapped <==> addr !in Plain(r) && !(r.palette0 <= addr <= r.palette15)
  {
    if addr == r.vector then Vector
    else if addr == r.width then Width
    else if addr == r.height then Height
    else if addr == r.cmdLength then CmdLength
    else if addr == r.cmdAddr then CmdAddr
    else if addr == r.zoom then Zoom
    else if r.palette0 <= addr <= r.palette15 then Palette(PaletteSlot(r, addr))
    else Unmapped
  }

  /**
   * The layout the register file assumes: six different plain registers
   * outside the palette range, sixteen palette registers four bytes apart,
   * and two layer windows, layer 0's below layer 1's.
   */
  predicate WellPlaced(r: Registers) {
    && RegisterAt(r, r.vector) == Vector && RegisterAt(r, r.width) == Width
    && RegisterAt(r, r.height) == Height && RegisterAt(r, r.cmdLength) == CmdLength
    && RegisterAt(r, r.cmdAddr) == CmdAddr && RegisterAt(r, r.zoom) == Zoom
    && (forall a :: a in Plain(r) ==> a < r.palette0 || r.palette15 < a)
    && r.palette15 == r.palette0 + 4 * (PALETTE_SIZE - 1)
    && r.layer0 <= r.layer0Top < r.layer1 <= r.layer1Top
  }

  /** The flat memory map's registers are well placed. */
  lemma FlatRegistersWellPlaced()
    ensures WellPlaced(FLAT_REGISTERS)
  {
  }

  /** In a well-placed register file, the register at PALETTE0 + 4 * i is palette entry i. */
  lemma PaletteRegister(r: Registers, i: nat)
    requires WellPlaced(r) && i < PALETTE_SIZE
    ensures RegisterAt(r, r.palette0 + 4 * i) == Palette(i)
  {
    assert r.palette0 + 4 * i !in Plain(r);
  }

  /** After a write to WIDTH, HEIGHT or ZOOM: the display's answer is taken and the layers refitted. */
  function Resized(t: Screen, mem: Ram): (r: Access<ValidScreen, ()>)
    requires |t.layers| == LAYER_COUNT && |t.palette| == PALETTE_SIZE
    ensures r.Done? <==> Resize(t).Some?
    ensures r.Done? ==> r.dev == Resize(t).value && r.mem == mem
  {
    match Resize(t)
    case None => Abort
    case Some(u) => Done(u, mem, ())
  }

  /** The command list of a CMD_ADDR write: CMD_LENGTH entries from base on. */
  function RunList(e: Entry, s: ValidScreen, mem: Ram, base: Word): (r: Option<ValidScreen>)
    ensures r.Some? ==> SameRegisters(s, r.value)
  {
    var r := Commands(EntryStep(e, mem), s, base, 0, s.cmdLength);
    if r.Some? then CommandListEffect(e, mem, s, base, s.cmdLength); r
    else r
  }

  /**
   * `write_u32`: VECTOR and CMD_LENGTH store the value; WIDTH, HEIGHT and
   * ZOOM store it and resize; CMD_ADDR runs the command list of
   * CMD_LENGTH entries that starts at the value; a palette register sets
   * its entry. Any other address panics. The screen never writes memory.
   */
  function WriteWord(cfg: Config, s: ValidScreen, mem: Ram, addr: Word, value: Word): (r: Access<ValidScreen, ()>)
    ensures r.Done? ==> r.mem == mem
    ensures RegisterAt(cfg.regs, addr) == Unmapped ==> r.Abort?
  {
    match RegisterAt(cfg.regs, addr)
    case Vector => Done(s.(vector := value), mem, ())
    case Width => Resized(s.(width := value), mem)
    case Height => Resized(s.(height := value), mem)
    case CmdLength => Done(s.(cmdLength := value), mem, ())
    case CmdAddr =>
      (match RunList(cfg.entry, s, mem, value)
       case None => Abort
       case Some(s1) => Done(s1, mem, ()))
    case Zoom => Resized(s.(zoom := value), mem)
    case Palette(i) => if i < PALETTE_SIZE then Done(s.(palette := s.palette[i := value]), mem, ()) else Abort
    case Unmapped => Abort
  }

  /** The value a read of the register gives; None where the program panics (CMD_ADDR is write-only). */
  function RegisterValue(s: ValidScreen, g: Register): (v: Option<Word>)
    ensures v.None? <==> g == CmdAddr || g == Unmapped || (g.Palette? && g.slot >= PALETTE_SIZE)
  {
    match g
    case Vector => Some(s.vector)
    case Width => Some(s.width)
    case Height => Some(s.height)
    case CmdLength => Some(s.cmdLength)
    case Zoom => Some(s.zoom)
    case Palette(i) => if i < PALETTE_SIZE then Some(s.palette[i]) else None
    case _ => None
  }

  /**
   * `read_u32`: VECTOR, WIDTH, HEIGHT, CMD_LENGTH, ZOOM and the palette
   * registers read back; CMD_ADDR and every other address panic. Reading
   * changes nothing.
   */
  function ReadWord(cfg: Config, s: ValidScreen, mem: Ram, addr: Word): (r: Access<ValidScreen, Word>)
    ensures r.Done? ==> r.dev == s && r.mem == mem
    ensures Observed(r) == RegisterValue(s, RegisterAt(cfg.regs, addr))
  {
    match RegisterValue(s, RegisterAt(cfg.regs, addr))
    case None => Abort
    case Some(v) => Done(s, mem, v)
  }

  /** What a program sees of an access: the value, or nothing when it panics. */
  function Observed<D, T>(a: Access<D, T>): Option<T> {
    match a
    case Done(_, _, v) => Some(v)
    case Abort => None
  }

  /** The index into layer l of the byte at addr, when addr is in that layer's window. */
  function WindowIndex(r: Registers, addr: Word): (w: Option<(nat, nat)>)
    ensures w.Some? ==> w.value.0 < LAYER_COUNT
    ensures w.Some? && w.value.0 == 0 ==> addr == r.layer0 + w.value.1 <= r.layer0Top
    ensures w.Some? && w.value.0 == 1 ==> addr == r.layer1 + w.value.1 <= r.layer1Top
    ensures w.None? <==> !(r.layer0 <= addr <= r.layer0Top) && !(r.layer1 <= addr <= r.layer1Top)
  {
    if r.layer0 <= addr <= r.layer0Top then Some((0, addr - r.layer0))
    else if r.layer1 <= addr <= r.layer1Top then Some((1, addr - r.layer1))
    else None
  }

  /**
   * `write_u8`: a byte in a layer window is stored into that layer. An
   * index past the layer's current size panics, as does any address
   * outside the windows.
   */
  function WriteByte(cfg: Config, s: ValidScreen, mem: Ram, addr: Word, value: Byte): (r: Access<ValidScreen, ()>)
    ensures r.Done? ==> r.mem == mem && SameRegisters(s, r.dev)
    ensures r.Done? <==> WindowIndex(cfg.regs, addr).Some? && WindowIndex(cfg.regs, addr).value.1 < |s.layers[0]|
  {
    match WindowIndex(cfg.regs, addr)
    case None => Abort
    case Some((l, i)) =>
      if i < |s.layers[l]| then
        var layer: seq<Byte> := s.layers[l][i := value];
        Done(s.(layers := s.layers[l := layer]), mem, ())
      else Abort
  }

  /** `read_u8`: a byte of a layer window reads the layer; the rest panics as for `write_u8`. */
  function ReadByte(cfg: Config, s: ValidScreen, mem: Ram, addr: Word): (r: Access<ValidScreen, Byte>)
    ensures r.Done? ==> r.dev == s && r.mem == mem
    ensures r.Done? <==> WindowIndex(cfg.regs, addr).Some? && WindowIndex(cfg.regs, addr).value.1 < |s.layers[0]|
  {
    match WindowIndex(cfg.regs, addr)
    case None => Abort
    case Some((l, i)) => if i < |s.layers[l]| then Done(s, mem, s.layers[l][i]) else Abort
  }

  /** Reads see the registers only: screens that differ in their layers read alike. */
  lemma ReadWordSeesRegisters(cfg: Config, s: ValidScreen, t: ValidScreen, mem: Ram, addr: Word)
    requires SameRegisters(s, t)
    ensures Observed(ReadWord(cfg, t, mem, addr)) == Observed(ReadWord(cfg, s, mem, addr))
  {
    assert t.vector == s.vector && t.width == s.width && t.height == s.height;
    assert t.cmdLength == s.cmdLength && t.zoom == s.zoom && t.palette == s.palette;
  }

  /**
   * VECTOR, CMD_LENGTH and each of the sixteen palette registers read
   * back the value last written to them, and a write to one of them
   * changes no other register.
   */
  lemma StoredRegisterReadBack(cfg: Config, s: ValidScreen, mem: Ram, addr: Word, value: Word, other: Word)
    requires var g := RegisterAt(cfg.regs, addr); g == Vector || g == CmdLength || (g.Palette? && g.slot < PALETTE_SIZE)
    ensures WriteWord(cfg, s, mem, addr, value).Done?
    ensures var t := WriteWord(cfg, s, mem, addr, value).dev;
      && Observed(ReadWord(cfg, t, mem, addr)) == Some(value)
      && (RegisterAt(cfg.regs, other) != RegisterAt(cfg.regs, addr) ==>
            Observed(ReadWord(cfg, t, mem, other)) == Observed(ReadWord(cfg, s, mem, other)))
  {
  }

  /** Palette register i, at PALETTE0 + 4 * i, sets palette entry i and nothing else. */
  lemma PaletteWrite(cfg: Config, s: ValidScreen, mem: Ram, i: nat, value: Word)
    requires WellPlaced(cfg.regs) && i < PALETTE_SIZE
    ensures var w := WriteWord(cfg, s, mem, cfg.regs.palette0 + 4 * i, value);
      w.Done? && w.dev.palette == s.palette[i := value] && w.dev.(palette := s.palette) == s
  {
    PaletteRegister(cfg.regs, i);
  }

  /**
   * WIDTH, HEIGHT and ZOOM: the write takes effect through the display, so
   * the register reads back the clamped value (at least 8 for a side, at
   * least 1 for the zoom). The write panics exactly when the host's window
   * size (width * zoom or height * zoom) or the new width * height overflows
   * a u32, and the layers keep their leading bytes.
   */
  lemma ResizeWrite(cfg: Config, s: ValidScreen, mem: Ram, addr: Word, value: Word)
    requires var g := RegisterAt(cfg.regs, addr); g == Width || g == Height || g == Zoom
    ensures var g := RegisterAt(cfg.regs, addr);
      var d := Clamp(if g == Width then value else s.width,
                     if g == Height then value else s.height,
                     if g == Zoom then value else s.zoom);
      var w := WriteWord(cfg, s, mem, addr, value);
      && (w.Done? <==> WindowFits(d) && d.width * d.height < WORD_LIMIT)
      && (w.Done? ==>
            && Observed(ReadWord(cfg, w.dev, mem, addr)) == Some(if g == Width then d.width else if g == Height then d.height else d.zoom)
            && w.dev.width == d.width && w.dev.height == d.height && w.dev.zoom == d.zoom
            && w.dev.vector == s.vector && w.dev.cmdLength == s.cmdLength && w.dev.palette == s.palette
            && forall l, i :: 0 <= l < LAYER_COUNT && 0 <= i < |w.dev.layers[l]| && i < |s.layers[l]| ==>
                 w.dev.layers[l][i] == s.layers[l][i])
  {
  }

  /**
   * A ZOOM of 2^24 on a 512-pixel-wide screen asks the host for a window
   * 2^33 pixels wide: the write panics although width * height still fits.
   */
  lemma ZoomOverflowPanics(cfg: Config, s: ValidScreen, mem: Ram)
    requires RegisterAt(cfg.regs, cfg.regs.zoom) == Zoom
    requires s.width == 512 && s.height == 8
    ensures s.width * s.height < WORD_LIMIT
    ensures WriteWord(cfg, s, mem, cfg.regs.zoom, 0x0100_0000).Abort?
  {
    ResizeWrite(cfg, s, mem, cfg.regs.zoom, 0x0100_0000);
  }

  /**
   * CMD_ADDR: the write runs the command list and panics exactly when a
   * command does; it changes no register, and every entry of a list that
   * runs to the end holds command 0, 1 or 2.
   */
  lemma CmdAddrWrite(cfg: Config, s: ValidScreen, mem: Ram, base: Word, other: Word)
    requires RegisterAt(cfg.regs, cfg.regs.cmdAddr) == CmdAddr
    ensures var w := WriteWord(cfg, s, mem, cfg.regs.cmdAddr, base);
      var list := Commands(EntryStep(cfg.entry, mem), s, base, 0, s.cmdLength);
      && (w.Done? <==> list.Some?)
      && (w.Done? ==> w.dev == list.value)
      && (w.Done? ==> Observed(ReadWord(cfg, w.dev, mem, other)) == Observed(ReadWord(cfg, s, mem, other)))
      && (w.Done? ==> forall k: nat :: k < s.cmdLength ==>
            base + k * ENTRY_SIZE < WORD_LIMIT && EntryValid(cfg.entry, mem, base + k * ENTRY_SIZE))
  {
    var w := WriteWord(cfg, s, mem, cfg.regs.cmdAddr, base);
    if w.Done? {
      CommandListEffect(cfg.entry, mem, s, base, s.cmdLength);
      ReadWordSeesRegisters(cfg, s, w.dev, mem, other);
    }
  }

  /** The palette arm of `write_u32` as written: the entry index is addr - PALETTE0, a byte offset. */
  function WritePaletteAsWritten(r: Registers, s: ValidScreen, addr: Word, value: Word): (res: Option<ValidScreen>)
    requires r.palette0 <= addr <= r.palette15
    ensures res.Some? <==> addr - r.palette0 < PALETTE_SIZE
    ensures res.Some? ==> res.value.palette[addr - r.palette0] == value
  {
    var i := addr - r.palette0;
    if i < PALETTE_SIZE then Some(s.(palette := s.palette[i := value])) else None
  }

  /** The palette arm of `read_u32` as written, with the same index. */
  function ReadPaletteAsWritten(r: Registers, s: ValidScreen, addr: Word): (res: Option<Word>)
    requires r.palette0 <= addr <= r.palette15
    ensures res.Some? <==> addr - r.palette0 < PALETTE_SIZE
    ensures res.Some? ==> res.value == s.palette[addr - r.palette0]
  {
    var i := addr - r.palette0;
    if i < PALETTE_SIZE then Some(s.palette[i]) else None
  }

  /**
   * With the registers four bytes apart, the index as written is four
   * times the register number: PALETTE1 writes entry 4, and PALETTE4 to
   * PALETTE15 panic on an index past the sixteen entries, on write and on
   * read.
   */
  lemma PaletteAsWrittenMisplaced(s: ValidScreen, value: Word, j: nat)
    requires 4 <= j < PALETTE_SIZE
    ensures var r := FLAT_REGISTERS;
      && WritePaletteAsWritten(r, s, r.palette0 + 4, value) == Some(s.(palette := s.palette[4 := value]))
      && WritePaletteAsWritten(r, s, r.palette0 + 4 * j, value) == None
      && ReadPaletteAsWritten(r, s, r.palette0 + 4 * j) == None
  {
  }

  // Layer windows

  /** A byte written into a layer window reads back, and no other byte of either window changes. */
  lemma LayerByteReadBack(cfg: Config, s: ValidScreen, mem: Ram, addr: Word, value: Byte, other: Word)
    requires WellPlaced(cfg.regs)
    requires WriteByte(cfg, s, mem, addr, value).Done?
    ensures var t := WriteByte(cfg, s, mem, addr, value).dev;
      && Observed(ReadByte(cfg, t, mem, addr)) == Some(value)
      && (other != addr ==> Observed(ReadByte(cfg, t, mem, other)) == Observed(ReadByte(cfg, s, mem, other)))
  {
  }

  /**
   * The layer windows show the pixels: the byte at the window address of
   * pixel (x, y) holds the pixel's colour in its nibble, high for an even
   * column and low for an odd one.
   */
  lemma WindowShowsPixel(cfg: Config, s: ValidScreen, mem: Ram, l: nat, x: Word, y: Word)
    requires WellPlaced(cfg.regs) && l < LAYER_COUNT && x < s.width && y < s.height
    requires var base := if l == 0 then cfg.regs.layer0 else cfg.regs.layer1;
      var top := if l == 0 then cfg.regs.layer0Top else cfg.regs.layer1Top;
      base + PixelIndex(s.width, x, y) <= top
    ensures var base := if l == 0 then cfg.regs.layer0 else cfg.regs.layer1;
      var b := ReadByte(cfg, s, mem, base + PixelIndex(s.width, x, y));
      b.Done? && Nibble(b.value, x % 2 == 1) == Pixel(s, l, x, y)
  {
    PixelIndexInLayer(s.width, s.height, x, y);
  }
}

=== FILE: screen_sprite.dfy ===
/**
 * Sprites: 8 by 8 pixel tiles read from memory, either 1 bit per pixel (a
 * foreground and a background colour) or 4 bits per pixel, and drawn onto a
 * layer one pixel at a time.
 */
module ScreenSprite {
  import opened Wrappers
  import opened Bytes
  import opened Alu
  import opened Dma
  import opened ScreenState

  /** A sprite is 8 rows of 8 pixels, row by row. */
  const SPRITE_SIDE: nat := 8
  const SPRITE_PIXELS: nat := 64

  /** Bytes of memory a sprite occupies in each format. */
  const BYTES_1BPP: nat := 8
  const BYTES_4BPP: nat := 32

  /**
   * `read_1bpp`: pixel i takes bit 7 - (i % 8) of byte i / 8 (the leftmost
   * pixel of a row is the most significant bit) and is fg where that bit is
   * set and bg where it is clear. None when the 8 bytes run past memory.
   */
  function Read1bpp(mem: Ram, addr: Word, fg: Byte, bg: Byte): (r: Option<seq<Byte>>)
    ensures r.Some? <==> addr + BYTES_1BPP <= MEM_SIZE
    ensures r.Some? ==> |r.value| == SPRITE_PIXELS
    ensures r.Some? ==> forall i :: 0 <= i < SPRITE_PIXELS ==>
      && (Bit(mem[addr + i / 8], 7 - i % 8) ==> r.value[i] == fg)
      && (!Bit(mem[addr + i / 8], 7 - i % 8) ==> r.value[i] == bg)
  {
    match Read(mem, addr, BYTES_1BPP)
    case None => None
    case Some(data) =>
      Some(seq(SPRITE_PIXELS, i requires 0 <= i < SPRITE_PIXELS =>
        if Bit(data[i / 8], 7 - i % 8) then fg else bg))
  }

  /**
   * `read_4bpp`: byte k holds pixel 2k in its high nibble and pixel 2k + 1
   * in its low nibble. None when the 32 bytes run past memory.
   */
  function Read4bpp(mem: Ram, addr: Word): (r: Option<seq<Byte>>)
    ensures r.Some? <==> addr + BYTES_4BPP <= MEM_SIZE
    ensures r.Some? ==> |r.value| == SPRITE_PIXELS
    ensures r.Some? ==> forall i :: 0 <= i < SPRITE_PIXELS ==> r.value[i] < 16
  {
    match Read(mem, addr, BYTES_4BPP)
    case None => None
    case Some(data) =>
      Some(seq(SPRITE_PIXELS, i requires 0 <= i < SPRITE_PIXELS =>
        if i % 2 == 0 then data[i / 2] / 16 else data[i / 2] % 16))
  }

  /** The number whose binary digits, most significant first, are bits. */
  function PackBits(bits: seq<bool>): (r: nat)
    ensures r < Pow2(|bits|)
  {
    if bits == [] then 0
    else 2 * PackBits(bits[..|bits| - 1]) + (if bits[|bits| - 1] then 1 else 0)
  }

  /** Digit c of PackBits(bits), counted from the most significant, is bits[c]. */
  lemma {:induction false} PackBitsDigit(bits: seq<bool>, c: nat)
    requires c < |bits|
    ensures Bit(PackBits(bits), |bits| - 1 - c) == bits[c]
  {
    var n := |bits|;
    var u := PackBits(bits[..n - 1]);
    var v := PackBits(bits);
    assert v / 2 == u;
    if c == n - 1 {
      assert Pow2(0) == 1;
    } else {
      BitHalf(v, n - 2 - c);
      PackBitsDigit(bits[..n - 1], c);
    }
  }

  /** The 8 bytes of a 1-bit-per-pixel sprite whose set pixels are those of mask. */
  function Pack1bpp(mask: seq<bool>): (r: seq<Byte>)
    requires |mask| == SPRITE_PIXELS
    ensures |r| == BYTES_1BPP
  {
    assert Pow2(8) == 256;
    seq(BYTES_1BPP, k requires 0 <= k < BYTES_1BPP => PackBits(mask[8 * k..8 * k + 8]))
  }

  /** Reading packed 1-bit pixels gives fg exactly where the mask is set. */
  lemma Read1bppOfPack(mem: Ram, addr: Word, mask: seq<bool>, fg: Byte, bg: Byte)
    requires |mask| == SPRITE_PIXELS && addr + BYTES_1BPP <= MEM_SIZE
    requires HoldsAt(mem, addr, Pack1bpp(mask))
    ensures Read1bpp(mem, addr, fg, bg) == Some(seq(SPRITE_PIXELS, i requires 0 <= i < SPRITE_PIXELS => if mask[i] then fg else bg))
  {
    var packed := Pack1bpp(mask);
    var r := Read1bpp(mem, addr, fg, bg).value;
    var expected := seq(SPRITE_PIXELS, i requires 0 <= i < SPRITE_PIXELS => if mask[i] then fg else bg);
    forall i | 0 <= i < SPRITE_PIXELS
      ensures r[i] == if mask[i] then fg else bg
    {
      var k := i / 8;
      var row := mask[8 * k..8 * k + 8];
      assert mem[addr + k] == packed[k] == PackBits(row);
      PackBitsDigit(row, i % 8);
      assert row[i % 8] == mask[i];
    }
    assert r == expected;
  }

  /**
   * With distinct colours the pixels read determine the bytes: packing the
   * mask of fg pixels gives back the 8 bytes in memory.
   */
  lemma Pack1bppOfRead(mem: Ram, addr: Word, fg: Byte, bg: Byte)
    requires addr + BYTES_1BPP <= MEM_SIZE && fg != bg
    ensures Read1bpp(mem, addr, fg, bg).Some?
    ensures var p := Read1bpp(mem, addr, fg, bg).value;
      Pack1bpp(seq(SPRITE_PIXELS, i requires 0 <= i < SPRITE_PIXELS => p[i] == fg)) == mem[addr..addr + BYTES_1BPP]
  {
    var p := Read1bpp(mem, addr, fg, bg).value;
    var mask := seq(SPRITE_PIXELS, i requires 0 <= i < SPRITE_PIXELS => p[i] == fg);
    var packed := Pack1bpp(mask);
    forall k | 0 <= k < BYTES_1BPP
      ensures packed[k] == mem[addr + k]
    {
      PackedByte(mem, addr, fg, bg, mask, k);
    }
    assert packed == mem[addr..addr + BYTES_1BPP];
  }

  /** Byte k of the packed mask of fg pixels is byte k of the sprite. */
  lemma PackedByte(mem: Ram, addr: Word, fg: Byte, bg: Byte, mask: seq<bool>, k: nat)
    requires addr + BYTES_1BPP <= MEM_SIZE && fg != bg && k < BYTES_1BPP
    requires Read1bpp(mem, addr, fg, bg).Some?
    requires mask == seq(SPRITE_PIXELS, i requires 0 <= i < SPRITE_PIXELS => Read1bpp(mem, addr, fg, bg).value[i] == fg)
    ensures Pack1bpp(mask)[k] == mem[addr + k]
  {
    var row := mask[8 * k..8 * k + 8];
    var b := mem[addr + k];
    forall j | 0 <= j < 8
      ensures Bit(PackBits(row), j) == Bit(b, j)
    {
      PackedBit(mem, addr, fg, bg, mask, k, j);
    }
    assert Pow2(8) == 256;
    BitsDetermine(PackBits(row), b, 8);
  }

  /** Bit j of that packed byte is bit j of the byte in memory. */
  lemma PackedBit(mem: Ram, addr: Word, fg: Byte, bg: Byte, mask: seq<bool>, k: nat, j: nat)
    requires addr + BYTES_1BPP <= MEM_SIZE && fg != bg && k < BYTES_1BPP && j < 8
    requires Read1bpp(mem, addr, fg, bg).Some?
    requires mask == seq(SPRITE_PIXELS, i requires 0 <= i < SPRITE_PIXELS => Read1bpp(mem, addr, fg, bg).value[i] == fg)
    ensures Bit(PackBits(mask[8 * k..8 * k + 8]), j) == Bit(mem[addr + k], j)
  {
    var row := mask[8 * k..8 * k + 8];
    var p := Read1bpp(mem, addr, fg, bg).value;
    var c := 7 - j;
    var i := 8 * k + c;
    PackBitsDigit(row, c);
    assert row[c] == mask[i] == (p[i] == fg);
    assert i / 8 == k && i % 8 == c;
  }

  /** The 32 bytes of a 4-bit-per-pixel sprite: two pixels per byte, the even one high. */
  function Pack4bpp(pixels: seq<Byte>): (r: seq<Byte>)
    requires |pixels| == SPRITE_PIXELS && forall i :: 0 <= i < SPRITE_PIXELS ==> pixels[i] < 16
    ensures |r| == BYTES_4BPP
  {
    seq(BYTES_4BPP, k requires 0 <= k < BYTES_4BPP => 16 * pixels[2 * k] + pixels[2 * k + 1])
  }

  /** Reading packed 4-bit pixels gives the pixels back. */
  lemma Read4bppOfPack(mem: Ram, addr: Word, pixels: seq<Byte>)
    requires |pixels| == SPRITE_PIXELS && forall i :: 0 <= i < SPRITE_PIXELS ==> pixels[i] < 16
    requires addr + BYTES_4BPP <= MEM_SIZE && HoldsAt(mem, addr, Pack4bpp(pixels))
    ensures Read4bpp(mem, addr) == Some(pixels)
  {
    var packed := Pack4bpp(pixels);
    var r := Read4bpp(mem, addr).value;
    forall i | 0 <= i < SPRITE_PIXELS
      ensures r[i] == pixels[i]
    {
      var k := i / 2;
      assert mem[addr + k] == packed[k];
      assert 2 * k == i || 2 * k + 1 == i;
    }
    assert r == pixels;
  }

  /** Packing the pixels read from 32 bytes gives the bytes back. */
  lemma Pack4bppOfRead(mem: Ram, addr: Word)
    requires addr + BYTES_4BPP <= MEM_SIZE
    ensures Read4bpp(mem, addr).Some?
    ensures Pack4bpp(Read4bpp(mem, addr).value) == mem[addr..addr + BYTES_4BPP]
  {
  }

  /** Target pixel k of a sprite drawn at (x, y): column k % 8 and row k / 8 of the tile. */
  predicate Overflows(x: Word, y: Word, k: nat) {
    x + k % SPRITE_SIDE >= WORD_LIMIT || y + k / SPRITE_SIDE >= WORD_LIMIT
  }

  /**
   * Drawing pixel k stops the program: its u32 coordinates overflow, or it
   * lies on the display and the layer is not 0 or 1.
   */
  predicate Stops(w: Word, h: Word, layer: Byte, x: Word, y: Word, k: nat) {
    || Overflows(x, y, k)
    || (layer >= LAYER_COUNT && x + k % SPRITE_SIDE < w && y + k / SPRITE_SIDE < h)
  }

  /** The pixels k.. of `draw`, in the order of its two loops: row by row, left to right. */
  function DrawFrom(s: Screen, layer: Byte, x: Word, y: Word, pixels: seq<Byte>, k: nat): (r: Option<Screen>)
    requires Valid(s) && |pixels| == SPRITE_PIXELS && k <= SPRITE_PIXELS
    ensures r.Some? ==> Valid(r.value) && SameRegisters(s, r.value)
    ensures r.None? <==> exists j :: k <= j < SPRITE_PIXELS && Stops(s.width, s.height, layer, x, y, j)
    decreases SPRITE_PIXELS - k
  {
    if k == SPRITE_PIXELS then Some(s)
    else if Overflows(x, y, k) then
      assert Stops(s.width, s.height, layer, x, y, k);
      None
    else
      match SetPixel(s, layer, x + k % SPRITE_SIDE, y + k / SPRITE_SIDE, pixels[k])
      case None =>
        assert Stops(s.width, s.height, layer, x, y, k);
        None
      case Some(s1) =>
        assert !Stops(s.width, s.height, layer, x, y, k);
        DrawFrom(s1, layer, x, y, pixels, k + 1)
  }

  /** `draw`: sets the 64 pixels of the tile whose top-left corner is (x, y). */
  function Draw(s: Screen, layer: Byte, x: Word, y: Word, pixels: seq<Byte>): (r: Option<Screen>)
    requires Valid(s) && |pixels| == SPRITE_PIXELS
    ensures r.Some? ==> Valid(r.value) && SameRegisters(s, r.value)
  {
    DrawFrom(s, layer, x, y, pixels, 0)
  }

  /**
   * Drawing stops the program exactly when the tile's last column or last
   * row overflows a u32, or when the layer is not 0 or 1 and the tile's
   * corner is on the display.
   */
  lemma DrawFails(s: Screen, layer: Byte, x: Word, y: Word, pixels: seq<Byte>)
    requires Valid(s) && |pixels| == SPRITE_PIXELS
    ensures Draw(s, layer, x, y, pixels).None? <==>
      x + 7 >= WORD_LIMIT || y + 7 >= WORD_LIMIT || (layer >= LAYER_COUNT && x < s.width && y < s.height)
  {
    var w, h := s.width, s.height;
    if x + 7 >= WORD_LIMIT {
      assert Stops(w, h, layer, x, y, 7);
    } else if y + 7 >= WORD_LIMIT {
      assert Stops(w, h, layer, x, y, 56);
    } else if layer >= LAYER_COUNT && x < w && y < h {
      assert Stops(w, h, layer, x, y, 0);
    }
  }

  /** The colour a drawn tile gives pixel (qx, qy) of layer l, once pixels 0..k-1 are drawn. */
  function Expected(s0: Screen, layer: Byte, x: Word, y: Word, pixels: seq<Byte>, k: nat, l: nat, qx: nat, qy: nat): Byte
    requires Valid(s0) && |pixels| == SPRITE_PIXELS
    requires l < LAYER_COUNT && qx < s0.width && qy < s0.height
  {
    if l == layer && x <= qx < x + SPRITE_SIDE && y <= qy < y + SPRITE_SIDE && (qy - y) * SPRITE_SIDE + (qx - x) < k
    then pixels[(qy - y) * SPRITE_SIDE + (qx - x)] % 16
    else Pixel(s0, l, qx, qy)
  }

  /** s is s0 with the first k pixels of the tile drawn. */
  ghost predicate Painted(s0: Screen, s: Screen, layer: Byte, x: Word, y: Word, pixels: seq<Byte>, k: nat)
    requires Valid(s0) && |pixels| == SPRITE_PIXELS
  {
    && Valid(s) && SameRegisters(s0, s)
    && forall l: nat, qx: nat, qy: nat :: l < LAYER_COUNT && qx < s0.width && qy < s0.height ==>
         Pixel(s, l, qx, qy) == Expected(s0, layer, x, y, pixels, k, l, qx, qy)
  }

  /** Tile pixel k is the one in column k % 8 and row k / 8; no other tile pixel has index k. */
  lemma TileCoordinates(x: Word, y: Word, k: nat, qx: nat, qy: nat)
    requires k < SPRITE_PIXELS
    requires x <= qx < x + SPRITE_SIDE && y <= qy < y + SPRITE_SIDE
    ensures (qy - y) * SPRITE_SIDE + (qx - x) == k <==> qx == x + k % SPRITE_SIDE && qy == y + k / SPRITE_SIDE
  {
    if (qy - y) * SPRITE_SIDE + (qx - x) == k {
      FloorDivUnique(k, SPRITE_SIDE, qy - y, qx - x);
    }
  }

  /** Drawing pixel k of the tile onto a display of even width extends Painted from k to k + 1. */
  lemma PaintStep(s0: Screen, s: Screen, s1: Screen, layer: Byte, x: Word, y: Word, pixels: seq<Byte>, k: nat)
    requires Valid(s0) && s0.width % 2 == 0 && |pixels| == SPRITE_PIXELS && k < SPRITE_PIXELS
    requires Painted(s0, s, layer, x, y, pixels, k)
    requires !Overflows(x, y, k)
    requires SetPixel(s, layer, x + k % SPRITE_SIDE, y + k / SPRITE_SIDE, pixels[k]) == Some(s1)
    ensures Painted(s0, s1, layer, x, y, pixels, k + 1)
  {
    forall l: nat, qx: nat, qy: nat | l < LAYER_COUNT && qx < s0.width && qy < s0.height
      ensures Pixel(s1, l, qx, qy) == Expected(s0, layer, x, y, pixels, k + 1, l, qx, qy)
    {
      assert Pixel(s, l, qx, qy) == Expected(s0, layer, x, y, pixels, k, l, qx, qy);
      PaintPoint(s0, s, s1, layer, x, y, pixels, k, l, qx, qy);
    }
  }

  /** PaintStep at one pixel (qx, qy) of layer l. */
  lemma PaintPoint(s0: Screen, s: Screen, s1: Screen, layer: Byte, x: Word, y: Word, pixels: seq<Byte>, k: nat,
                   l: nat, qx: nat, qy: nat)
    requires Valid(s0) && s0.width % 2 == 0 && |pixels| == SPRITE_PIXELS && k < SPRITE_PIXELS
    requires Valid(s) && SameRegisters(s0, s)
    requires l < LAYER_COUNT && qx < s0.width && qy < s0.height
    requires Pixel(s, l, qx, qy) == Expected(s0, layer, x, y, pixels, k, l, qx, qy)
    requires !Overflows(x, y, k)
    requires SetPixel(s, layer, x + k % SPRITE_SIDE, y + k / SPRITE_SIDE, pixels[k]) == Some(s1)
    ensures Pixel(s1, l, qx, qy) == Expected(s0, layer, x, y, pixels, k + 1, l, qx, qy)
  {
    var tx, ty := x + k % SPRITE_SIDE, y + k / SPRITE_SIDE;
    if x <= qx < x + SPRITE_SIDE && y <= qy < y + SPRITE_SIDE {
      TileCoordinates(x, y, k, qx, qy);
    }
    if l == layer && qx == tx && qy == ty {
    } else if tx < s.width && ty < s.height {
      if l == layer && PixelIndex(s.width, qx, qy) == PixelIndex(s.width, tx, ty) && qx % 2 == tx % 2 {
        EvenWidthNoSharing(s.width, s.height, qx, qy, tx, ty);
      }
      SetPixelOthers(s, layer, tx, ty, pixels[k], l, qx, qy);
    }
  }

  lemma {:induction false} DrawFromPaints(s0: Screen, s: Screen, layer: Byte, x: Word, y: Word, pixels: seq<Byte>, k: nat)
    requires Valid(s0) && s0.width % 2 == 0 && |pixels| == SPRITE_PIXELS && k <= SPRITE_PIXELS
    requires Painted(s0, s, layer, x, y, pixels, k)
    requires DrawFrom(s, layer, x, y, pixels, k).Some?
    ensures Painted(s0, DrawFrom(s, layer, x, y, pixels, k).value, layer, x, y, pixels, SPRITE_PIXELS)
    decreases SPRITE_PIXELS - k
  {
    if k < SPRITE_PIXELS {
      var s1 := SetPixel(s, layer, x + k % SPRITE_SIDE, y + k / SPRITE_SIDE, pixels[k]).value;
      PaintStep(s0, s, s1, layer, x, y, pixels, k);
      DrawFromPaints(s0, s1, layer, x, y, pixels, k + 1);
    }
  }

  /**
   * On a display of even width, drawing a tile gives every pixel of the
   * tile that lies on the display the low four bits of its sprite pixel,
   * and leaves every other pixel, of both layers, as it was.
   */
  lemma DrawEffect(s: Screen, layer: Byte, x: Word, y: Word, pixels: seq<Byte>, l: nat, qx: nat, qy: nat)
    requires Valid(s) && s.width % 2 == 0 && |pixels| == SPRITE_PIXELS
    requires Draw(s, layer, x, y, pixels).Some?
    requires l < LAYER_COUNT && qx < s.width && qy < s.height
    ensures var r := Draw(s, layer, x, y, pixels).value;
      Pixel(r, l, qx, qy) ==
        if l == layer && x <= qx < x + SPRITE_SIDE && y <= qy < y + SPRITE_SIDE
        then pixels[(qy - y) * SPRITE_SIDE + (qx - x)] % 16
        else Pixel(s, l, qx, qy)
  {
    DrawFromPaints(s, s, layer, x, y, pixels, 0);
  }
}

=== FILE: screen_state.dfy ===
/**
 * The screen device's state: two layers of 4-bit pixels packed two to a
 * byte (the even column in the high nibble), the composited layer handed to
 * the display, a 16-entry palette, and the registers a program sets.
 */
module ScreenState {
  import opened Wrappers
  import opened Bytes
  import opened Alu

  const LAYER_COUNT: nat := 2
  const PALETTE_SIZE: nat := 16

  /** The display a screen starts with: 64 by 40 tiles of 8 by 8 pixels, zoom 1. */
  const DEFAULT_WIDTH: Word := 64 * 8
  const DEFAULT_HEIGHT: Word := 40 * 8

  /** The palette a screen starts with. */
  const DEFAULT_PALETTE: seq<Word> := [
    0x1a1c2c, 0x5d275d, 0xb13e53, 0xef7d57, 0xffcd75, 0xa7f070, 0x38b764, 0x257179,
    0x29366f, 0x3b5dc9, 0x41a6f6, 0x73eff7, 0xf4f4f4, 0x94b0c2, 0x566c86, 0x333c57]

  /** The smallest width and height and the smallest zoom the display accepts. */
  const MIN_SIDE: Word := 8
  const MIN_ZOOM: Word := 1

  datatype Screen = Screen(
    vector: Word,
    width: Word,
    height: Word,
    composited: seq<Byte>,
    layers: seq<seq<Byte>>,
    palette: seq<Word>,
    cmdLength: Word,
    zoom: Word)

  /**
   * The invariant every screen keeps: two layers and a composited layer of
   * (width * height) / 2 bytes each, a 16-entry palette, a width * height
   * that is a u32, and a display no smaller than MIN_SIDE on either side.
   */
  predicate Valid(s: Screen) {
    && |s.layers| == LAYER_COUNT
    && |s.palette| == PALETTE_SIZE
    && MIN_SIDE <= s.width && MIN_SIDE <= s.height
    && s.width * s.height < WORD_LIMIT
    && |s.composited| == (s.width * s.height) / 2
    && forall l :: 0 <= l < |s.layers| ==> |s.layers[l]| == (s.width * s.height) / 2
  }

  /** `Vec::resize(n, 0)`: cut to n bytes, or pad with zero bytes up to n. */
  function Fit(v: seq<Byte>, n: nat): (r: seq<Byte>)
    ensures |r| == n
    ensures forall i :: 0 <= i < n && i < |v| ==> r[i] == v[i]
    ensures forall i :: |v| <= i < n ==> r[i] == 0
  {
    if n <= |v| then v[..n] else v + Zeros(n - |v|)
  }

  /**
   * Bytes per layer for a w by h display, two pixels per byte. None when
   * the u32 product w * h overflows, which panics.
   */
  function LayerSize(w: Word, h: Word): (r: Option<nat>)
    ensures r.Some? <==> w * h < WORD_LIMIT
    ensures r.Some? ==> 2 * r.value <= w * h <= 2 * r.value + 1
  {
    var p: nat := w * h;
    if p < WORD_LIMIT then Some(p / 2) else None
  }

  /** A new screen: default size and palette, all layers cleared. */
  function New(): (s: Screen)
    ensures Valid(s)
    ensures s.width == DEFAULT_WIDTH && s.height == DEFAULT_HEIGHT && s.zoom == 1
    ensures s.palette == DEFAULT_PALETTE && s.vector == 0 && s.cmdLength == 0
    ensures forall l, i :: 0 <= l < LAYER_COUNT && 0 <= i < |s.layers[l]| ==> s.layers[l][i] == 0
  {
    var size := (DEFAULT_WIDTH * DEFAULT_HEIGHT) / 2;
    Screen(0, DEFAULT_WIDTH, DEFAULT_HEIGHT, Zeros(size), [Zeros(size), Zeros(size)], DEFAULT_PALETTE, 0, 1)
  }

  /** What a display reports back from a resize request. */
  datatype Dims = Dims(width: Word, height: Word, zoom: Word)

  /**
   * The clamp both host programs apply to a resize request: the requested
   * size and zoom, raised to at least 8 by 8 pixels and zoom 1.
   */
  function Clamp(w: Word, h: Word, z: Word): (d: Dims)
    ensures d.width >= MIN_SIDE && d.height >= MIN_SIDE && d.zoom >= MIN_ZOOM
    ensures w >= MIN_SIDE ==> d.width == w
    ensures h >= MIN_SIDE ==> d.height == h
    ensures z >= MIN_ZOOM ==> d.zoom == z
    ensures d.width <= if w < MIN_SIDE then MIN_SIDE else w
    ensures d.height <= if h < MIN_SIDE then MIN_SIDE else h
  {
    Dims(if w < MIN_SIDE then MIN_SIDE else w, if h < MIN_SIDE then MIN_SIDE else h, if z < MIN_ZOOM then MIN_ZOOM else z)
  }

  /** The host window is (width * zoom) by (height * zoom), both products in u32. */
  predicate WindowFits(d: Dims) {
    d.width * d.zoom < WORD_LIMIT && d.height * d.zoom < WORD_LIMIT
  }

  /**
   * The display's answer to a resize request: the clamped size and zoom.
   * None when the host's window size, width * zoom or height * zoom, overflows
   * a u32, which panics in a debug build of either host.
   */
  function HostResize(w: Word, h: Word, z: Word): (r: Option<Dims>)
    ensures r.Some? <==> WindowFits(Clamp(w, h, z))
    ensures r.Some? ==> r.value.width >= MIN_SIDE && r.value.height >= MIN_SIDE && r.value.zoom >= MIN_ZOOM
    ensures r.Some? ==> (w >= MIN_SIDE <==> r.value.width == w) && (h >= MIN_SIDE <==> r.value.height == h)
    ensures r.Some? ==> (z >= MIN_ZOOM <==> r.value.zoom == z)
  {
    var d := Clamp(w, h, z);
    if WindowFits(d) then Some(d) else None
  }

  /**
   * `resize`: the size and zoom become what the display reports, and every
   * layer is cut or zero-padded to the new layer size, keeping its leading
   * bytes. None when the display panics or the new width * height overflows
   * a u32.
   */
  function Resize(s: Screen): (r: Option<Screen>)
    requires |s.layers| == LAYER_COUNT && |s.palette| == PALETTE_SIZE
    ensures var d := Clamp(s.width, s.height, s.zoom);
      r.Some? <==> WindowFits(d) && d.width * d.height < WORD_LIMIT
    ensures r.Some? ==> Valid(r.value)
    ensures r.Some? ==> HostResize(s.width, s.height, s.zoom) == Some(Dims(r.value.width, r.value.height, r.value.zoom))
    ensures r.Some? ==> r.value.vector == s.vector && r.value.palette == s.palette && r.value.cmdLength == s.cmdLength
    ensures r.Some? ==> forall l, i :: 0 <= l < LAYER_COUNT && 0 <= i < |r.value.layers[l]| && i < |s.layers[l]| ==>
      r.value.layers[l][i] == s.layers[l][i]
  {
    match HostResize(s.width, s.height, s.zoom)
    case None => None
    case Some(d) =>
      match LayerSize(d.width, d.height)
      case None => None
      case Some(n) =>
        Some(s.(width := d.width, height := d.height, zoom := d.zoom,
                layers := [Fit(s.layers[0], n), Fit(s.layers[1], n)],
                composited := Fit(s.composited, n)))
  }

  /** The byte of a layer holding pixel (x, y): row y starts at y * (width / 2). */
  function PixelIndex(w: Word, x: nat, y: nat): nat {
    y * (w / 2) + x / 2
  }

  /** The pixel an odd column keeps in the low nibble, an even column in the high one. */
  function Nibble(b: Byte, odd: bool): (r: Byte)
    ensures r < 16
  {
    if odd then b % 16 else b / 16
  }

  /** The byte b with the nibble of one column replaced by the low four bits of c. */
  function SetNibble(b: Byte, odd: bool, c: Byte): (r: Byte)
    ensures Nibble(r, odd) == c % 16
    ensures Nibble(r, !odd) == Nibble(b, !odd)
  {
    if odd then (b / 16) * 16 + c % 16 else (c % 16) * 16 + b % 16
  }

  /** Every pixel of the display has its byte inside the layer. */
  lemma PixelIndexInLayer(w: Word, h: Word, x: nat, y: nat)
    requires 1 <= w && 2 <= h && x < w && y < h
    ensures PixelIndex(w, x, y) < (w * h) / 2
  {
    var m := w / 2;
    var q := w % 2;
    RowsBelow(y, h, m);
    HalfProduct(w, h, m, q);
    if q == 0 {
      assert x / 2 <= m - 1;
    } else {
      assert x / 2 <= m;
    }
  }

  /** The rows above row y take at most h * m - m bytes. */
  lemma RowsBelow(y: nat, h: nat, m: nat)
    requires y < h
    ensures y * m <= h * m - m
  {
    var d: nat := h - 1 - y;
    MulAdd(y, d + 1, m);
    MulAdd(d, 1, m);
  }

  lemma MulAdd(a: nat, b: nat, m: nat)
    ensures (a + b) * m == a * m + b * m
  {
  }

  /** Half of w * h, for w = 2 * m + q. */
  lemma HalfProduct(w: nat, h: nat, m: nat, q: nat)
    requires w == 2 * m + q && q < 2 && 2 <= h
    ensures q == 0 ==> (w * h) / 2 == h * m
    ensures q == 1 ==> (w * h) / 2 >= h * m + 1
  {
    assert w * h == 2 * (h * m) + q * h;
    if q == 1 {
      assert (w * h) / 2 == h * m + h / 2;
    }
  }

  /** The colour (a palette index) of pixel (x, y) of a layer. */
  function Pixel(s: Screen, layer: nat, x: nat, y: nat): (r: Byte)
    requires Valid(s) && layer < LAYER_COUNT && x < s.width && y < s.height
    ensures r < 16
  {
    PixelIndexInLayer(s.width, s.height, x, y);
    Nibble(s.layers[layer][PixelIndex(s.width, x, y)], x % 2 == 1)
  }

  /** The other pixel kept in the byte that holds pixel (x, y). */
  function Neighbour(s: Screen, layer: nat, x: nat, y: nat): (r: Byte)
    requires Valid(s) && layer < LAYER_COUNT && x < s.width && y < s.height
    ensures r < 16
  {
    PixelIndexInLayer(s.width, s.height, x, y);
    Nibble(s.layers[layer][PixelIndex(s.width, x, y)], x % 2 == 0)
  }

  /** The two screens differ at most in their layers. */
  predicate SameRegisters(s: Screen, r: Screen) {
    r.(layers := s.layers) == s
  }

  /**
   * `set_pixel`: a pixel outside the display is ignored; otherwise the
   * pixel's nibble becomes the low four bits of color. None when the pixel
   * is on the display and the layer number is not 0 or 1 (an index panic).
   */
  function SetPixel(s: Screen, layer: Byte, x: Word, y: Word, color: Byte): (r: Option<Screen>)
    requires Valid(s)
    ensures x >= s.width || y >= s.height ==> r == Some(s)
    ensures r.None? <==> x < s.width && y < s.height && layer >= LAYER_COUNT
    ensures r.Some? ==> Valid(r.value) && SameRegisters(s, r.value)
    ensures r.Some? && x < s.width && y < s.height ==>
      && Pixel(r.value, layer, x, y) == color % 16
      && Neighbour(r.value, layer, x, y) == Neighbour(s, layer, x, y)
    ensures r.Some? ==> forall l, i ::
      0 <= l < LAYER_COUNT && 0 <= i < |s.layers[l]| && (l != layer || i != PixelIndex(s.width, x, y)) ==>
        r.value.layers[l][i] == s.layers[l][i]
  {
    if x >= s.width || y >= s.height then Some(s)
    else if layer >= LAYER_COUNT then None
    else
      PixelIndexInLayer(s.width, s.height, x, y);
      var i := PixelIndex(s.width, x, y);
      var row: seq<Byte> := s.layers[layer][i := SetNibble(s.layers[layer][i], x % 2 == 1, color)];
      Some(s.(layers := s.layers[layer := row]))
  }

  /**
   * Setting a pixel leaves every other pixel alone, except the one that
   * shares both its byte and its nibble.
   */
  lemma SetPixelOthers(s: Screen, layer: Byte, x: Word, y: Word, color: Byte, l: nat, px: nat, py: nat)
    requires Valid(s) && SetPixel(s, layer, x, y, color).Some?
    requires l < LAYER_COUNT && px < s.width && py < s.height
    requires l != layer || PixelIndex(s.width, px, py) != PixelIndex(s.width, x, y) || px % 2 != x % 2
    ensures Pixel(SetPixel(s, layer, x, y, color).value, l, px, py) == Pixel(s, l, px, py)
  {
    PixelIndexInLayer(s.width, s.height, px, py);
  }

  /**
   * On a display of even width no two pixels share a nibble, so setting a
   * pixel changes that pixel only.
   */
  lemma EvenWidthNoSharing(w: Word, h: Word, x1: nat, y1: nat, x2: nat, y2: nat)
    requires w % 2 == 0 && 2 <= w
    requires x1 < w && x2 < w
    requires PixelIndex(w, x1, y1) == PixelIndex(w, x2, y2) && x1 % 2 == x2 % 2
    ensures x1 == x2 && y1 == y2
  {
    var m := w / 2;
    var i := PixelIndex(w, x1, y1);
    FloorDivUnique(i, m, y1, x1 / 2);
    FloorDivUnique(i, m, y2, x2 / 2);
  }

  /**
   * On a display of odd width the last pixel of a row shares its byte and
   * its nibble with the first pixel of the next row.
   */
  lemma OddWidthSharing(w: Word, y: nat)
    requires w % 2 == 1
    ensures PixelIndex(w, w - 1, y) == PixelIndex(w, 0, y + 1) && (w - 1) % 2 == 0
  {
    assert (w - 1) / 2 == w / 2;
  }

  /**
   * `render`: each composited byte is the layer-1 byte where that byte is
   * not zero, and the layer-0 byte otherwise. The choice is made per byte,
   * not per pixel.
   */
  function Render(s: Screen): (r: Screen)
    requires Valid(s)
    ensures Valid(r) && r.(composited := s.composited) == s
    ensures forall i :: 0 <= i < |r.composited| ==>
      r.composited[i] == if s.layers[1][i] > 0 then s.layers[1][i] else s.layers[0][i]
  {
    s.(composited := seq(|s.composited|, i requires 0 <= i < |s.composited| =>
      if s.layers[1][i] > 0 then s.layers[1][i] else s.layers[0][i]))
  }

  /** Rendering depends on the layers only: rendering twice is rendering once. */
  lemma RenderIdempotent(s: Screen)
    requires Valid(s)
    ensures Render(Render(s)) == Render(s)
  {
  }

  /** With layer 1 blank, the composited layer is layer 0. */
  lemma RenderBlankForeground(s: Screen)
    requires Valid(s)
    requires forall i :: 0 <= i < |s.layers[1]| ==> s.layers[1][i] == 0
    ensures Render(s).composited == s.layers[0]
  {
  }

  /**
   * Because compositing is per byte, a transparent (zero) layer-1 pixel
   * hides the layer-0 pixel beside it whenever its neighbour in the same
   * byte is not transparent.
   */
  lemma RenderHidesTransparentPixel(s: Screen, x: Word, y: Word)
    requires Valid(s) && x < s.width && y < s.height
    requires Pixel(s, 1, x, y) == 0 && Neighbour(s, 1, x, y) != 0
    ensures var r := Render(s); var i := PixelIndex(s.width, x, y);
      i < |r.composited| && Nibble(r.composited[i], x % 2 == 1) == 0
  {
    PixelIndexInLayer(s.width, s.height, x, y);
  }
}

=== FILE: system.dfy ===
/**
 * The system device: a program reads the command-line arguments one byte
 * at a time through READ, each argument followed by a NUL, and asks the
 * host to stop by writing an exit code to EXIT.
 */
module System {
  import opened Wrappers
  import opened Bytes
  import opened Dma
  import opened Device
  import opened MemoryMap

  /** `exit`, and the bytes of the argument stream not yet read. */
  datatype System = System(exit: Option<Word>, stream: seq<Byte>)

  /** Each argument's bytes followed by one NUL. */
  function Join(args: seq<seq<Byte>>): (r: seq<Byte>)
    ensures |args| > 0 ==> |r| > |args[0]| && r[..|args[0]|] == args[0] && r[|args[0]|] == 0
  {
    if args == [] then [] else args[0] + [0] + Join(args[1..])
  }

  /**
   * `SystemDevice::new`: the stream joins the process arguments after the
   * first two, the program name of the VM and the ROM path.
   */
  function New(argv: seq<seq<Byte>>): (s: System)
    ensures s.exit == None
    ensures |argv| <= 2 ==> s.stream == []
    ensures |argv| > 2 ==> |s.stream| > |argv[2]| && s.stream[..|argv[2]|] == argv[2] && s.stream[|argv[2]|] == 0
  {
    var rest := if |argv| <= 2 then [] else argv[2..];
    assert |argv| > 2 ==> rest[0] == argv[2];
    System(None, Join(rest))
  }

  /** The position of the first NUL, or the length when there is none. */
  function NulIndex(s: seq<Byte>): (k: nat)
    ensures k <= |s|
    ensures k < |s| ==> s[k] == 0
    ensures forall j :: 0 <= j < k ==> s[j] != 0
  {
    if s == [] then 0
    else if s[0] == 0 then 0
    else 1 + NulIndex(s[1..])
  }

  /** The NUL-terminated strings of a stream, as a program reading it sees them; a trailing part without a NUL counts as one more. */
  function Split(s: seq<Byte>): seq<seq<Byte>>
    decreases |s|
  {
    if s == [] then []
    else
      var k := NulIndex(s);
      if k < |s| then [s[..k]] + Split(s[k + 1..]) else [s]
  }

  /** An argument without a NUL is found again, up to its terminator. */
  lemma {:induction false} NulIndexOfTerminated(a: seq<Byte>, rest: seq<Byte>)
    requires forall j :: 0 <= j < |a| ==> a[j] != 0
    ensures NulIndex(a + [0] + rest) == |a|
    decreases |a|
  {
    if a != [] {
      assert (a + [0] + rest)[1..] == a[1..] + [0] + rest;
      NulIndexOfTerminated(a[1..], rest);
    }
  }

  predicate NoNul(args: seq<seq<Byte>>) {
    forall i, j :: 0 <= i < |args| && 0 <= j < |args[i]| ==> args[i][j] != 0
  }

  /** Splitting the stream at its NULs gives back the arguments, as long as none contains a NUL. */
  lemma {:induction false} SplitJoin(args: seq<seq<Byte>>)
    requires NoNul(args)
    ensures Split(Join(args)) == args
    decreases |args|
  {
    if args != [] {
      var s := Join(args);
      var a := args[0];
      var tail := Join(args[1..]);
      NoNulParts(args);
      NulIndexOfTerminated(a, tail);
      SplitJoin(args[1..]);
      SplitAtNul(s, |a|);
      assert s[..|a|] == a;
      assert s[|a| + 1..] == tail;
      assert [a] + args[1..] == args;
    }
  }

  /** The first argument and the remaining ones are NUL-free when all are. */
  lemma NoNulParts(args: seq<seq<Byte>>)
    requires NoNul(args) && args != []
    ensures forall j :: 0 <= j < |args[0]| ==> args[0][j] != 0
    ensures NoNul(args[1..])
  {
    forall i, j | 0 <= i < |args[1..]| && 0 <= j < |args[1..][i]| ensures args[1..][i][j] != 0 {
      assert args[1..][i] == args[i + 1];
    }
  }

  /** Split takes the part before the first NUL and carries on after it. */
  lemma SplitAtNul(s: seq<Byte>, k: nat)
    requires k < |s| && NulIndex(s) == k
    ensures Split(s) == [s[..k]] + Split(s[k + 1..])
  {
  }

  /** The next byte of the stream, or 0 once it is used up (`next().unwrap_or(0)`). */
  function Next(s: System): (r: (System, Byte))
    ensures r.1 == if s.stream == [] then 0 else s.stream[0]
    ensures r.0.exit == s.exit
    ensures s.stream != [] ==> [r.1] + r.0.stream == s.stream
    ensures s.stream == [] ==> r.0.stream == []
  {
    if s.stream == [] then (s, 0) else (s.(stream := s.stream[1..]), s.stream[0])
  }

  // The `Device` implementation. Every access subtracts SYSTEM_BASE first,
  // which panics below it.

  /** `read_u8`: READ yields the next byte of the stream; anything else panics. */
  function ReadByte(s: System, mem: Ram, addr: Word): (r: Access<System, Byte>)
    ensures r.Done? <==> addr == SYSTEM_BASE + SYSTEM_READ
    ensures r.Done? ==> r.mem == mem && (r.dev, r.value) == Next(s)
  {
    if addr < SYSTEM_BASE then Abort
    else if addr - SYSTEM_BASE == SYSTEM_READ then
      var (s1, b) := Next(s);
      Done(s1, mem, b)
    else Abort
  }

  /** `read_u32`: READ yields the next byte of the stream, zero-extended; anything else panics. */
  function ReadWord(s: System, mem: Ram, addr: Word): (r: Access<System, Word>)
    ensures r.Done? <==> addr == SYSTEM_BASE + SYSTEM_READ
    ensures r.Done? ==> r.mem == mem && r.dev == Next(s).0 && r.value == Next(s).1 as int
  {
    if addr < SYSTEM_BASE then Abort
    else if addr - SYSTEM_BASE == SYSTEM_READ then
      var (s1, b) := Next(s);
      Done(s1, mem, b as Word)
    else Abort
  }

  /** `write_u8`: the device has no byte register to write; every byte write panics. */
  function WriteByte(s: System, mem: Ram, addr: Word, value: Byte): (r: Access<System, ()>)
    ensures r.Abort?
  {
    Abort
  }

  /** `write_u32`: EXIT records the exit code; anything else panics. */
  function WriteWord(s: System, mem: Ram, addr: Word, value: Word): (r: Access<System, ()>)
    ensures r.Done? <==> addr == SYSTEM_BASE + SYSTEM_EXIT
    ensures r.Done? ==> r.mem == mem && r.dev == s.(exit := Some(value))
  {
    if addr < SYSTEM_BASE then Abort
    else if addr - SYSTEM_BASE == SYSTEM_EXIT then Done(s.(exit := Some(value)), mem, ())
    else Abort
  }

  /** The bytes a program gets from n successive byte reads of READ. */
  function ReadBytes(s: System, mem: Ram, n: nat): (r: (System, seq<Byte>))
    ensures |r.1| == n
    decreases n
  {
    if n == 0 then (s, [])
    else
      match ReadByte(s, mem, SYSTEM_BASE + SYSTEM_READ)
      case Done(s1, _, b) =>
        var (s2, bs) := ReadBytes(s1, mem, n - 1);
        (s2, [b] + bs)
      case Abort => assert false; (s, [])
  }

  /**
   * Reading n bytes returns the stream's bytes in order and then zeros,
   * leaves the stream's remainder behind, and never touches the exit code.
   */
  lemma {:induction false} ReadBytesStream(s: System, mem: Ram, n: nat)
    ensures var (s1, bs) := ReadBytes(s, mem, n);
      && s1.exit == s.exit
      && (forall k :: 0 <= k < n ==> bs[k] == if k < |s.stream| then s.stream[k] else 0)
      && s1.stream == if n <= |s.stream| then s.stream[n..] else []
    decreases n
  {
    if n > 0 {
      var a := ReadByte(s, mem, SYSTEM_BASE + SYSTEM_READ);
      var (s2, bs) := ReadBytes(a.dev, mem, n - 1);
      ReadBytesStream(a.dev, mem, n - 1);
      assert ReadBytes(s, mem, n).1 == [a.value] + bs;
      if s.stream != [] {
        assert a.dev.stream == s.stream[1..];
      }
    }
  }

  /**
   * A program that reads the whole stream, NUL by NUL, gets back every
   * argument after the ROM path; reads past the end give zeros.
   */
  lemma ReadArguments(argv: seq<seq<Byte>>, mem: Ram)
    requires |argv| > 2 && NoNul(argv[2..])
    ensures var s := New(argv);
      var (s1, bs) := ReadBytes(s, mem, |s.stream|);
      Split(bs) == argv[2..] && s1.stream == []
  {
    var s := New(argv);
    ReadBytesStream(s, mem, |s.stream|);
    var bs := ReadBytes(s, mem, |s.stream|).1;
    assert bs == s.stream;
    SplitJoin(argv[2..]);
  }

  /** Word and byte reads of READ share one cursor: a word read and a byte read take successive bytes. */
  lemma SharedCursor(s: System, mem: Ram)
    requires |s.stream| >= 2
    ensures var w := ReadWord(s, mem, SYSTEM_BASE + SYSTEM_READ);
      w.Done? && w.value == s.stream[0] as int
      && ReadByte(w.dev, mem, SYSTEM_BASE + SYSTEM_READ).value == s.stream[1]
  {
  }

  /** The last write to EXIT decides the exit code. */
  lemma ExitLastWriteWins(s: System, mem: Ram, a: Word, b: Word)
    ensures var w1 := WriteWord(s, mem, SYSTEM_BASE + SYSTEM_EXIT, a);
      w1.Done? && WriteWord(w1.dev, mem, SYSTEM_BASE + SYSTEM_EXIT, b).dev == s.(exit := Some(b))
  {
  }
}

=== FILE: vm_decode.dfy ===
/**
 * Instruction decoding: the interpreter's dispatch on the fetched byte.
 *
 * The dispatch is a chain of byte patterns tried in order; the first one
 * equal to the byte selects the instruction, and a byte matching none is
 * unimplemented. Fourteen of the instructions (ROT, LITB, PICK, DEC, SAR,
 * NOT, GTE, LTE, RPEEK, RDROP, BEGIN, END, GET, SET) use opcode constants
 * that the bytecode crate does not define; their bytes are a parameter.
 */
module VmDecode {
  import opened Wrappers
  import opened Alu
  import Bytecode
  import opened Bytes

  /** HALT, DBG and the data-stack instructions. */
  datatype StackInstr = Halt | Dbg | LitW | Dup | Drop | Swap | Over | Rot | LitB | Pick
  /** Word and byte loads and stores. */
  datatype MemInstr = Lw | Sw | Sb | Lb
  /** Jumps, calls and returns. */
  datatype ControlInstr = Jmp | Jz | Jnz | Call | Ret
  /** The return stack and the locals frame. */
  datatype FrameInstr = RPush | RPop | RPeek | RDrop | Begin | End | Get | Set

  /** An instruction the interpreter implements, grouped as the dispatch groups its arms. */
  datatype Instr =
    | Data(s: StackInstr)
    | Bin(op: BinOp)
    | Un(uop: UnOp)
    | Mem(m: MemInstr)
    | Control(c: ControlInstr)
    | Frame(f: FrameInstr)

  /** The opcode bytes (u8, like every OP_ constant) that the bytecode crate leaves undefined. */
  datatype ExtOpcodes = ExtOpcodes(
    rot: Byte, litb: Byte, pick: Byte, dec: Byte, sar: Byte, not: Byte,
    gte: Byte, lte: Byte, rpeek: Byte, rdrop: Byte,
    lbegin: Byte, lend: Byte, lget: Byte, lset: Byte)

  /**
   * The dispatch: the arms are tried in the interpreter's order and the
   * first whose byte equals b selects the instruction; None is the
   * unimplemented!() arm. The arms are grouped as the interpreter's source
   * groups them, and a later group is consulted only when every earlier one
   * failed to match.
   */
  function Decode(x: ExtOpcodes, b: int): Option<Instr> {
    OrElse(DecodeStack(x, b),
    OrElse(DecodeArith(x, b),
    OrElse(DecodeMemory(x, b),
    OrElse(DecodeCompare(x, b),
    OrElse(DecodeControl(x, b),
    DecodeFrames(x, b))))))
  }

  function OrElse(first: Option<Instr>, second: Option<Instr>): Option<Instr> {
    if first.Some? then first else second
  }

  /** The arms HALT to PICK: control of the machine and the data stack. */
  function DecodeStack(x: ExtOpcodes, b: int): Option<Instr> {
    if b == Bytecode.OP_HALT then Some(Data(Halt))
    else if b == Bytecode.OP_DBG then Some(Data(Dbg))
    else if b == Bytecode.OP_LITW then Some(Data(LitW))
    else if b == Bytecode.OP_DUP then Some(Data(Dup))
    else if b == Bytecode.OP_DROP then Some(Data(Drop))
    else if b == Bytecode.OP_SWAP then Some(Data(Swap))
    else if b == Bytecode.OP_OVER then Some(Data(Over))
    else if b == x.rot then Some(Data(Rot))
    else if b == x.litb then Some(Data(LitB))
    else if b == x.pick then Some(Data(Pick))
    else None
  }

  function BytesStack(x: ExtOpcodes): set<int> {
    {Bytecode.OP_HALT, Bytecode.OP_DBG, Bytecode.OP_LITW, Bytecode.OP_DUP, Bytecode.OP_DROP, Bytecode.OP_SWAP, Bytecode.OP_OVER, x.rot, x.litb, x.pick}
  }

  /** The arms ADD to NOT: arithmetic, bitwise and shift operations. */
  function DecodeArith(x: ExtOpcodes, b: int): Option<Instr> {
    if b == Bytecode.OP_ADD then Some(Bin(Arith(Add)))
    else if b == Bytecode.OP_SUB then Some(Bin(Arith(Sub)))
    else if b == Bytecode.OP_MUL then Some(Bin(Arith(Mul)))
    else if b == Bytecode.OP_DIV then Some(Bin(Arith(Div)))
    else if b == Bytecode.OP_AND then Some(Bin(Arith(And)))
    else if b == Bytecode.OP_OR then Some(Bin(Arith(Or)))
    else if b == Bytecode.OP_XOR then Some(Bin(Arith(Xor)))
    else if b == Bytecode.OP_SHL then Some(Bin(Arith(Shl)))
    else if b == Bytecode.OP_SHR then Some(Bin(Arith(Shr)))
    else if b == Bytecode.OP_INC then Some(Un(Inc))
    else if b == x.dec then Some(Un(Dec))
    else if b == x.sar then Some(Bin(Arith(Sar)))
    else if b == x.not then Some(Un(Not))
    else None
  }

  function BytesArith(x: ExtOpcodes): set<int> {
    {Bytecode.OP_ADD, Bytecode.OP_SUB, Bytecode.OP_MUL, Bytecode.OP_DIV, Bytecode.OP_AND, Bytecode.OP_OR, Bytecode.OP_XOR, Bytecode.OP_SHL, Bytecode.OP_SHR, Bytecode.OP_INC, x.dec, x.sar, x.not}
  }

  /** The arms LW, SW, SB and LB. */
  function DecodeMemory(x: ExtOpcodes, b: int): Option<Instr> {
    if b == Bytecode.OP_LW then Some(Mem(Lw))
    else if b == Bytecode.OP_SW then Some(Mem(Sw))
    else if b == Bytecode.OP_SB then Some(Mem(Sb))
    else if b == Bytecode.OP_LB then Some(Mem(Lb))
    else None
  }

  function BytesMemory(x: ExtOpcodes): set<int> {
    {Bytecode.OP_LW, Bytecode.OP_SW, Bytecode.OP_SB, Bytecode.OP_LB}
  }

  /** The arms EQU to NEQ: comparisons. */
  function DecodeCompare(x: ExtOpcodes, b: int): Option<Instr> {
    if b == Bytecode.OP_EQU then Some(Bin(Cmp(Equ)))
    else if b == Bytecode.OP_GT then Some(Bin(Cmp(Gt)))
    else if b == Bytecode.OP_LT then Some(Bin(Cmp(Lt)))
    else if b == x.gte then Some(Bin(Cmp(Gte)))
    else if b == x.lte then Some(Bin(Cmp(Lte)))
    else if b == Bytecode.OP_NEQ then Some(Bin(Cmp(Neq)))
    else None
  }

  function BytesCompare(x: ExtOpcodes): set<int> {
    {Bytecode.OP_EQU, Bytecode.OP_GT, Bytecode.OP_LT, x.gte, x.lte, Bytecode.OP_NEQ}
  }

  /** The arms JMP to RET: jumps and calls. */
  function DecodeControl(x: ExtOpcodes, b: int): Option<Instr> {
    if b == Bytecode.OP_JMP then Some(Control(Jmp))
    else if b == Bytecode.OP_JZ then Some(Control(Jz))
    else if b == Bytecode.OP_JNZ then Some(Control(Jnz))
    else if b == Bytecode.OP_CALL then Some(Control(Call))
    else if b == Bytecode.OP_RET then Some(Control(Ret))
    else None
  }

  function BytesControl(x: ExtOpcodes): set<int> {
    {Bytecode.OP_JMP, Bytecode.OP_JZ, Bytecode.OP_JNZ, Bytecode.OP_CALL, Bytecode.OP_RET}
  }

  /** The arms RPUSH to SET: the return stack and local frames. */
  function DecodeFrames(x: ExtOpcodes, b: int): Option<Instr> {
    if b == Bytecode.OP_RPUSH then Some(Frame(RPush))
    else if b == Bytecode.OP_RPOP then Some(Frame(RPop))
    else if b == x.rpeek then Some(Frame(RPeek))
    else if b == x.rdrop then Some(Frame(RDrop))
    else if b == x.lbegin then Some(Frame(Begin))
    else if b == x.lend then Some(Frame(End))
    else if b == x.lget then Some(Frame(Get))
    else if b == x.lset then Some(Frame(Set))
    else None
  }

  function BytesFrames(x: ExtOpcodes): set<int> {
    {Bytecode.OP_RPUSH, Bytecode.OP_RPOP, x.rpeek, x.rdrop, x.lbegin, x.lend, x.lget, x.lset}
  }

  /** The byte that selects an instruction. */
  function OpcodeByte(x: ExtOpcodes, i: Instr): int {
    match i
    case Data(s) => OpcodeByteStack(x, s)
    case Bin(op) => OpcodeByteBin(x, op)
    case Un(op) => OpcodeByteUn(x, op)
    case Mem(m) => OpcodeByteMem(m)
    case Control(c) => OpcodeByteControl(c)
    case Frame(f) => OpcodeByteFrame(x, f)
  }

  function OpcodeByteStack(x: ExtOpcodes, op: StackInstr): int {
    match op
    case Halt => Bytecode.OP_HALT
    case Dbg => Bytecode.OP_DBG
    case LitW => Bytecode.OP_LITW
    case Dup => Bytecode.OP_DUP
    case Drop => Bytecode.OP_DROP
    case Swap => Bytecode.OP_SWAP
    case Over => Bytecode.OP_OVER
    case Rot => x.rot
    case LitB => x.litb
    case Pick => x.pick
  }

  function OpcodeByteMem(op: MemInstr): int {
    match op
    case Lw => Bytecode.OP_LW
    case Sw => Bytecode.OP_SW
    case Sb => Bytecode.OP_SB
    case Lb => Bytecode.OP_LB
  }

  function OpcodeByteControl(op: ControlInstr): int {
    match op
    case Jmp => Bytecode.OP_JMP
    case Jz => Bytecode.OP_JZ
    case Jnz => Bytecode.OP_JNZ
    case Call => Bytecode.OP_CALL
    case Ret => Bytecode.OP_RET
  }

  function OpcodeByteFrame(x: ExtOpcodes, op: FrameInstr): int {
    match op
    case RPush => Bytecode.OP_RPUSH
    case RPop => Bytecode.OP_RPOP
    case RPeek => x.rpeek
    case RDrop => x.rdrop
    case Begin => x.lbegin
    case End => x.lend
    case Get => x.lget
    case Set => x.lset
  }

  function OpcodeByteBin(x: ExtOpcodes, op: BinOp): int {
    match op
    case Arith(a) => OpcodeByteArith(x, a)
    case Cmp(c) => OpcodeByteCmp(x, c)
  }

  function OpcodeByteArith(x: ExtOpcodes, op: ArithOp): int {
    match op
    case Add => Bytecode.OP_ADD
    case Sub => Bytecode.OP_SUB
    case Mul => Bytecode.OP_MUL
    case Div => Bytecode.OP_DIV
    case And => Bytecode.OP_AND
    case Or => Bytecode.OP_OR
    case Xor => Bytecode.OP_XOR
    case Shl => Bytecode.OP_SHL
    case Shr => Bytecode.OP_SHR
    case Sar => x.sar
  }

  function OpcodeByteCmp(x: ExtOpcodes, op: CmpOp): int {
    match op
    case Equ => Bytecode.OP_EQU
    case Gt => Bytecode.OP_GT
    case Lt => Bytecode.OP_LT
    case Gte => x.gte
    case Lte => x.lte
    case Neq => Bytecode.OP_NEQ
  }

  function OpcodeByteUn(x: ExtOpcodes, op: UnOp): int {
    match op
    case Inc => Bytecode.OP_INC
    case Dec => x.dec
    case Not => x.not
  }


  /**
   * The extra opcodes are distinct from each other and from the 32 defined
   * constants; otherwise a later arm of the dispatch would be unreachable.
   */
  predicate ValidExt(x: ExtOpcodes) {
    && Bytecode.OpcodeOf(x.rot).None?
    && Bytecode.OpcodeOf(x.litb).None?
    && Bytecode.OpcodeOf(x.pick).None?
    && Bytecode.OpcodeOf(x.dec).None?
    && Bytecode.OpcodeOf(x.sar).None?
    && Bytecode.OpcodeOf(x.not).None?
    && Bytecode.OpcodeOf(x.gte).None?
    && Bytecode.OpcodeOf(x.lte).None?
    && Bytecode.OpcodeOf(x.rpeek).None?
    && Bytecode.OpcodeOf(x.rdrop).None?
    && Bytecode.OpcodeOf(x.lbegin).None?
    && Bytecode.OpcodeOf(x.lend).None?
    && Bytecode.OpcodeOf(x.lget).None?
    && Bytecode.OpcodeOf(x.lset).None?
    && x.rot != x.litb && x.rot != x.pick && x.rot != x.dec && x.rot != x.sar && x.rot != x.not && x.rot != x.gte && x.rot != x.lte && x.rot != x.rpeek && x.rot != x.rdrop && x.rot != x.lbegin && x.rot != x.lend && x.rot != x.lget && x.rot != x.lset
    && x.litb != x.pick && x.litb != x.dec && x.litb != x.sar && x.litb != x.not && x.litb != x.gte && x.litb != x.lte && x.litb != x.rpeek && x.litb != x.rdrop && x.litb != x.lbegin && x.litb != x.lend && x.litb != x.lget && x.litb != x.lset
    && x.pick != x.dec && x.pick != x.sar && x.pick != x.not && x.pick != x.gte && x.pick != x.lte && x.pick != x.rpeek && x.pick != x.rdrop && x.pick != x.lbegin && x.pick != x.lend && x.pick != x.lget && x.pick != x.lset
    && x.dec != x.sar && x.dec != x.not && x.dec != x.gte && x.dec != x.lte && x.dec != x.rpeek && x.dec != x.rdrop && x.dec != x.lbegin && x.dec != x.lend && x.dec != x.lget && x.dec != x.lset
    && x.sar != x.not && x.sar != x.gte && x.sar != x.lte && x.sar != x.rpeek && x.sar != x.rdrop && x.sar != x.lbegin && x.sar != x.lend && x.sar != x.lget && x.sar != x.lset
    && x.not != x.gte && x.not != x.lte && x.not != x.rpeek && x.not != x.rdrop && x.not != x.lbegin && x.not != x.lend && x.not != x.lget && x.not != x.lset
    && x.gte != x.lte && x.gte != x.rpeek && x.gte != x.rdrop && x.gte != x.lbegin && x.gte != x.lend && x.gte != x.lget && x.gte != x.lset
    && x.lte != x.rpeek && x.lte != x.rdrop && x.lte != x.lbegin && x.lte != x.lend && x.lte != x.lget && x.lte != x.lset
    && x.rpeek != x.rdrop && x.rpeek != x.lbegin && x.rpeek != x.lend && x.rpeek != x.lget && x.rpeek != x.lset
    && x.rdrop != x.lbegin && x.rdrop != x.lend && x.rdrop != x.lget && x.rdrop != x.lset
    && x.lbegin != x.lend && x.lbegin != x.lget && x.lbegin != x.lset
    && x.lend != x.lget && x.lend != x.lset
    && x.lget != x.lset
  }

  /** The group of arms, numbered in dispatch order from 0, that holds an instruction. */
  function GroupOf(i: Instr): nat {
    match i
    case Data(_) => 0
    case Bin(op) => if op.Arith? then 1 else 3
    case Un(_) => 1
    case Mem(_) => 2
    case Control(_) => 4
    case Frame(_) => 5
  }

  /** Every byte some arm of the dispatch selects. */
  function Assigned(x: ExtOpcodes): set<int> {
    BytesStack(x) + BytesArith(x) + BytesMemory(x) + BytesCompare(x) + BytesControl(x) + BytesFrames(x)
  }

  /** A byte no OP_ constant of the bytecode crate names. */
  predicate Undefined(b: int) {
    && b != Bytecode.OP_HALT
    && b != Bytecode.OP_DBG
    && b != Bytecode.OP_LITW
    && b != Bytecode.OP_DUP
    && b != Bytecode.OP_DROP
    && b != Bytecode.OP_SWAP
    && b != Bytecode.OP_OVER
    && b != Bytecode.OP_ADD
    && b != Bytecode.OP_SUB
    && b != Bytecode.OP_MUL
    && b != Bytecode.OP_DIV
    && b != Bytecode.OP_AND
    && b != Bytecode.OP_OR
    && b != Bytecode.OP_XOR
    && b != Bytecode.OP_SHL
    && b != Bytecode.OP_SHR
    && b != Bytecode.OP_INC
    && b != Bytecode.OP_SW
    && b != Bytecode.OP_LW
    && b != Bytecode.OP_SB
    && b != Bytecode.OP_LB
    && b != Bytecode.OP_EQU
    && b != Bytecode.OP_NEQ
    && b != Bytecode.OP_LT
    && b != Bytecode.OP_GT
    && b != Bytecode.OP_JMP
    && b != Bytecode.OP_JZ
    && b != Bytecode.OP_CALL
    && b != Bytecode.OP_RET
    && b != Bytecode.OP_JNZ
    && b != Bytecode.OP_RPUSH
    && b != Bytecode.OP_RPOP
  }

  /** OpcodeOf finds no opcode exactly for a byte that no OP_ constant names. */
  lemma UndefinedOf(b: int)
    ensures Bytecode.OpcodeOf(b).None? <==> Undefined(b)
  {
  }

  /** Every extra opcode byte of a valid assignment differs from all 32 OP_ constants. */
  lemma ExtUndefined(x: ExtOpcodes)
    requires ValidExt(x)
    ensures Undefined(x.rot) && Undefined(x.litb) && Undefined(x.pick) && Undefined(x.dec) && Undefined(x.sar) && Undefined(x.not) && Undefined(x.gte) && Undefined(x.lte) && Undefined(x.rpeek) && Undefined(x.rdrop) && Undefined(x.lbegin) && Undefined(x.lend) && Undefined(x.lget) && Undefined(x.lset)
  {
    UndefinedOf(x.rot);
    UndefinedOf(x.litb);
    UndefinedOf(x.pick);
    UndefinedOf(x.dec);
    UndefinedOf(x.sar);
    UndefinedOf(x.not);
    UndefinedOf(x.gte);
    UndefinedOf(x.lte);
    UndefinedOf(x.rpeek);
    UndefinedOf(x.rdrop);
    UndefinedOf(x.lbegin);
    UndefinedOf(x.lend);
    UndefinedOf(x.lget);
    UndefinedOf(x.lset);
  }

  /** A byte this group decodes is the byte of the instruction it yields. */
  lemma DecodeStackSound(x: ExtOpcodes, b: int, i: Instr)
    ensures DecodeStack(x, b) == Some(i) ==> OpcodeByte(x, i) == b && GroupOf(i) == 0
    ensures DecodeStack(x, b).None? <==> b !in BytesStack(x)
  {
  }

  /** An instruction of this group is found by it, and by no earlier group. */
  lemma DecodeStackComplete(x: ExtOpcodes, i: Instr)
    requires ValidExt(x) && GroupOf(i) == 0
    ensures DecodeStack(x, OpcodeByte(x, i)) == Some(i)
  {
  }

  /** A byte this group decodes is the byte of the instruction it yields. */
  lemma DecodeArithSound(x: ExtOpcodes, b: int, i: Instr)
    ensures DecodeArith(x, b) == Some(i) ==> OpcodeByte(x, i) == b && GroupOf(i) == 1
    ensures DecodeArith(x, b).None? <==> b !in BytesArith(x)
  {
  }

  /** An instruction of this group is found by it, and by no earlier group. */
  lemma DecodeArithComplete(x: ExtOpcodes, i: Instr)
    requires ValidExt(x) && GroupOf(i) == 1
    ensures DecodeArith(x, OpcodeByte(x, i)) == Some(i)
    ensures DecodeStack(x, OpcodeByte(x, i)).None?
  {
    ExtUndefined(x);
  }

  /** A byte this group decodes is the byte of the instruction it yields. */
  lemma DecodeMemorySound(x: ExtOpcodes, b: int, i: Instr)
    ensures DecodeMemory(x, b) == Some(i) ==> OpcodeByte(x, i) == b && GroupOf(i) == 2
    ensures DecodeMemory(x, b).None? <==> b !in BytesMemory(x)
  {
  }

  /** An instruction of this group is found by it, and by no earlier group. */
  lemma DecodeMemoryComplete(x: ExtOpcodes, i: Instr)
    requires ValidExt(x) && GroupOf(i) == 2
    ensures DecodeMemory(x, OpcodeByte(x, i)) == Some(i)
    ensures DecodeStack(x, OpcodeByte(x, i)).None?
    ensures DecodeArith(x, OpcodeByte(x, i)).None?
  {
    ExtUndefined(x);
  }

  /** A byte this group decodes is the byte of the instruction it yields. */
  lemma DecodeCompareSound(x: ExtOpcodes, b: int, i: Instr)
    ensures DecodeCompare(x, b) == Some(i) ==> OpcodeByte(x, i) == b && GroupOf(i) == 3
    ensures DecodeCompare(x, b).None? <==> b !in BytesCompare(x)
  {
  }

  /** An instruction of this group is found by it, and by no earlier group. */
  lemma DecodeCompareComplete(x: ExtOpcodes, i: Instr)
    requires ValidExt(x) && GroupOf(i) == 3
    ensures DecodeCompare(x, OpcodeByte(x, i)) == Some(i)
    ensures DecodeStack(x, OpcodeByte(x, i)).None?
    ensures DecodeArith(x, OpcodeByte(x, i)).None?
    ensures DecodeMemory(x, OpcodeByte(x, i)).None?
  {
    ExtUndefined(x);
  }

  /** A byte this group decodes is the byte of the instruction it yields. */
  lemma DecodeControlSound(x: ExtOpcodes, b: int, i: Instr)
    ensures DecodeControl(x, b) == Some(i) ==> OpcodeByte(x, i) == b && GroupOf(i) == 4
    ensures DecodeControl(x, b).None? <==> b !in BytesControl(x)
  {
  }

  /** An instruction of this group is found by it, and by no earlier group. */
  lemma DecodeControlComplete(x: ExtOpcodes, i: Instr)
    requires ValidExt(x) && GroupOf(i) == 4
    ensures DecodeControl(x, OpcodeByte(x, i)) == Some(i)
    ensures DecodeStack(x, OpcodeByte(x, i)).None?
    ensures DecodeArith(x, OpcodeByte(x, i)).None?
    ensures DecodeMemory(x, OpcodeByte(x, i)).None?
    ensures DecodeCompare(x, OpcodeByte(x, i)).None?
  {
    ExtUndefined(x);
  }

  /** A byte this group decodes is the byte of the instruction it yields. */
  lemma DecodeFramesSound(x: ExtOpcodes, b: int, i: Instr)
    ensures DecodeFrames(x, b) == Some(i) ==> OpcodeByte(x, i) == b && GroupOf(i) == 5
    ensures DecodeFrames(x, b).None? <==> b !in BytesFrames(x)
  {
  }

  /** An instruction of this group is found by it, and by no earlier group. */
  lemma DecodeFramesComplete(x: ExtOpcodes, i: Instr)
    requires ValidExt(x) && GroupOf(i) == 5
    ensures DecodeFrames(x, OpcodeByte(x, i)) == Some(i)
    ensures DecodeStack(x, OpcodeByte(x, i)).None?
    ensures DecodeArith(x, OpcodeByte(x, i)).None?
    ensures DecodeMemory(x, OpcodeByte(x, i)).None?
    ensures DecodeCompare(x, OpcodeByte(x, i)).None?
    ensures DecodeControl(x, OpcodeByte(x, i)).None?
  {
    ExtUndefined(x);
  }

  /** Only assigned bytes decode, and every assigned byte does. */
  lemma DecodeNoneIffUnassigned(x: ExtOpcodes, b: int)
    ensures Decode(x, b).None? <==> b !in Assigned(x)
  {
    var i := Data(Halt);
    DecodeStackSound(x, b, i);
    DecodeArithSound(x, b, i);
    DecodeMemorySound(x, b, i);
    DecodeCompareSound(x, b, i);
    DecodeControlSound(x, b, i);
    DecodeFramesSound(x, b, i);
  }

  /** A byte decodes only to the instruction whose byte it is. */
  lemma DecodeSound(x: ExtOpcodes, b: int, i: Instr)
    ensures Decode(x, b) == Some(i) ==> OpcodeByte(x, i) == b
  {
    DecodeStackSound(x, b, i);
    DecodeArithSound(x, b, i);
    DecodeMemorySound(x, b, i);
    DecodeCompareSound(x, b, i);
    DecodeControlSound(x, b, i);
    DecodeFramesSound(x, b, i);
  }

  /** With valid extra opcodes, every instruction's byte decodes to that instruction. */
  lemma DecodeComplete(x: ExtOpcodes, i: Instr)
    requires ValidExt(x)
    ensures Decode(x, OpcodeByte(x, i)) == Some(i)
  {
    match GroupOf(i)
    case 0 => DecodeStackComplete(x, i);
    case 1 => DecodeArithComplete(x, i);
    case 2 => DecodeMemoryComplete(x, i);
    case 3 => DecodeCompareComplete(x, i);
    case 4 => DecodeControlComplete(x, i);
    case 5 => DecodeFramesComplete(x, i);
    case _ => assert false;
  }

  /** With valid extra opcodes, distinct instructions have distinct bytes. */
  lemma OpcodeByteInjective(x: ExtOpcodes, i: Instr, j: Instr)
    requires ValidExt(x)
    ensures OpcodeByte(x, i) == OpcodeByte(x, j) <==> i == j
  {
    DecodeComplete(x, i);
    DecodeComplete(x, j);
  }

  /** The instruction an assembler opcode stands for. */
  function InstrOf(op: Bytecode.Opcode): Instr {
    match op
    case Halt => Data(Halt)
    case Dbg => Data(Dbg)
    case LitW => Data(LitW)
    case Dup => Data(Dup)
    case Drop => Data(Drop)
    case Swap => Data(Swap)
    case Over => Data(Over)
    case Add => Bin(Arith(Add))
    case Sub => Bin(Arith(Sub))
    case Mul => Bin(Arith(Mul))
    case Div => Bin(Arith(Div))
    case And => Bin(Arith(And))
    case Or => Bin(Arith(Or))
    case Xor => Bin(Arith(Xor))
    case Shl => Bin(Arith(Shl))
    case Shr => Bin(Arith(Shr))
    case Inc => Un(Inc)
    case Sw => Mem(Sw)
    case Lw => Mem(Lw)
    case Sb => Mem(Sb)
    case Lb => Mem(Lb)
    case Equ => Bin(Cmp(Equ))
    case Neq => Bin(Cmp(Neq))
    case Lt => Bin(Cmp(Lt))
    case Gt => Bin(Cmp(Gt))
    case Jmp => Control(Jmp)
    case Jz => Control(Jz)
    case Call => Control(Call)
    case Ret => Control(Ret)
    case Jnz => Control(Jnz)
    case Rpush => Frame(RPush)
    case Rpop => Frame(RPop)
  }

  /** The interpreter's arm for an assembler opcode matches that opcode's discriminant. */
  lemma OpcodeByteOfInstrOf(x: ExtOpcodes, op: Bytecode.Opcode)
    ensures OpcodeByte(x, InstrOf(op)) == Bytecode.Discriminant(op)
  {
    match op
    case Halt =>
    case Dbg =>
    case LitW =>
    case Dup =>
    case Drop =>
    case Swap =>
    case Over =>
    case Add =>
    case Sub =>
    case Mul =>
    case Div =>
    case And =>
    case Or =>
    case Xor =>
    case Shl =>
    case Shr =>
    case Inc =>
    case Sw =>
    case Lw =>
    case Sb =>
    case Lb =>
    case Equ =>
    case Neq =>
    case Lt =>
    case Gt =>
    case Jmp =>
    case Jz =>
    case Call =>
    case Ret =>
    case Jnz =>
    case Rpush =>
    case Rpop =>
  }

  /**
   * The byte the assembler writes for an opcode is decoded by the
   * interpreter as that opcode's instruction.
   */
  lemma DecodeAssembled(x: ExtOpcodes, op: Bytecode.Opcode)
    requires ValidExt(x)
    ensures Decode(x, Bytecode.Discriminant(op)) == Some(InstrOf(op))
  {
    OpcodeByteOfInstrOf(x, op);
    DecodeComplete(x, InstrOf(op));
  }
}

=== FILE: vm_exec.dfy ===
/**
 * The interpreter loop: fetching, the RAM/MMIO routers, one step of each
 * instruction, and `run`.
 *
 * Memory-mapped I/O goes through a `Machine`: four functions over an opaque
 * device state D that may also change memory through direct memory access.
 * A device access that panics or never returns is `Abort`.
 */
module VmExec {
  import opened Wrappers
  import opened Bytes
  import opened Dma
  import opened Alu
  import opened VmState
  import opened VmDecode
  import opened Device

  /** The `Machine` trait: word and byte reads and writes at addresses outside RAM. */
  datatype Machine<!D> = Machine(
    readWord: (D, Ram, Word) -> Access<D, Word>,
    writeWord: (D, Ram, Word, Word) -> Access<D, ()>,
    readByte: (D, Ram, Word) -> Access<D, Byte>,
    writeByte: (D, Ram, Word, Byte) -> Access<D, ()>)

  /**
   * A machine that keeps the trait's default byte methods: a byte write is
   * a word write of the zero-extended byte, and a byte read is the low byte
   * of a word read.
   */
  function WithDefaultBytes<D>(
    readWord: (D, Ram, Word) -> Access<D, Word>,
    writeWord: (D, Ram, Word, Word) -> Access<D, ()>): (mc: Machine<D>)
    ensures mc.readWord == readWord && mc.writeWord == writeWord
  {
    Machine(
      readWord,
      writeWord,
      (d, m, a) =>
        match readWord(d, m, a)
        case Done(d1, m1, w) => Done(d1, m1, LowByte(w))
        case Abort => Abort,
      (d, m, a, b) => writeWord(d, m, a, ZeroExtend(b)))
  }

  /**
   * Through the default byte methods, a byte write stores the zero-extended
   * byte as a word and a byte read yields the low byte of the word read, with
   * the same device effect.
   */
  lemma DefaultByteAccess<D>(
    readWord: (D, Ram, Word) -> Access<D, Word>,
    writeWord: (D, Ram, Word, Word) -> Access<D, ()>,
    d: D, m: Ram, a: Word, b: Byte)
    ensures WithDefaultBytes(readWord, writeWord).writeByte(d, m, a, b) == writeWord(d, m, a, ZeroExtend(b))
    ensures var w := readWord(d, m, a); var r := WithDefaultBytes(readWord, writeWord).readByte(d, m, a);
      && (r.Abort? <==> w.Abort?)
      && (r.Done? ==> r.dev == w.dev && r.mem == w.mem && r.value == LowByte(w.value))
  {
  }

  /** The interpreter together with the state of the devices behind its machine. */
  datatype Sys<D> = Sys(vm: VM, dev: D)

  /** A value read, together with the state after reading it. */
  datatype Got<D, T> = Got(sys: Sys<D>, value: T)

  /**
   * `read_u32`: an address below MEM_SIZE reads RAM little-endian (and
   * panics when the word runs past the end); any other goes to the machine.
   */
  function LoadWord<D>(mc: Machine<D>, s: Sys<D>, addr: Word): (r: Result<Got<D, Word>, Fault>)
    ensures addr < MEM_SIZE ==> (r.Success? <==> ReadU32(s.vm.mem, addr).Some?)
    ensures addr < MEM_SIZE && r.Success? ==> r.value == Got(s, ReadU32(s.vm.mem, addr).value)
    ensures addr < MEM_SIZE && r.Failure? ==> r.error == RamOutOfBounds(addr)
    ensures addr >= MEM_SIZE ==> (r.Success? <==> mc.readWord(s.dev, s.vm.mem, addr).Done?)
    ensures addr >= MEM_SIZE && r.Success? ==>
      var a := mc.readWord(s.dev, s.vm.mem, addr);
      r.value == Got(Sys(s.vm.(mem := a.mem), a.dev), a.value)
    ensures addr >= MEM_SIZE && r.Failure? ==> r.error == DeviceAbort
  {
    if addr < MEM_SIZE then
      match ReadU32(s.vm.mem, addr)
      case Some(w) => Success(Got(s, w))
      case None => Failure(RamOutOfBounds(addr))
    else
      match mc.readWord(s.dev, s.vm.mem, addr)
      case Done(d, m, w) => Success(Got(Sys(s.vm.(mem := m), d), w))
      case Abort => Failure(DeviceAbort)
  }

  /** `write_u32`: RAM little-endian below MEM_SIZE, the machine above. */
  function StoreWord<D>(mc: Machine<D>, s: Sys<D>, addr: Word, v: Word): (r: Result<Sys<D>, Fault>)
    ensures addr < MEM_SIZE ==> (r.Success? <==> WriteU32(s.vm.mem, addr, v).Some?)
    ensures addr < MEM_SIZE && r.Success? ==> r.value == Sys(s.vm.(mem := WriteU32(s.vm.mem, addr, v).value), s.dev)
    ensures addr < MEM_SIZE && r.Failure? ==> r.error == RamOutOfBounds(addr)
    ensures addr >= MEM_SIZE ==> (r.Success? <==> mc.writeWord(s.dev, s.vm.mem, addr, v).Done?)
    ensures addr >= MEM_SIZE && r.Success? ==>
      var a := mc.writeWord(s.dev, s.vm.mem, addr, v);
      r.value == Sys(s.vm.(mem := a.mem), a.dev)
    ensures addr >= MEM_SIZE && r.Failure? ==> r.error == DeviceAbort
  {
    if addr < MEM_SIZE then
      match WriteU32(s.vm.mem, addr, v)
      case Some(m) => Success(Sys(s.vm.(mem := m), s.dev))
      case None => Failure(RamOutOfBounds(addr))
    else
      match mc.writeWord(s.dev, s.vm.mem, addr, v)
      case Done(d, m, _) => Success(Sys(s.vm.(mem := m), d))
      case Abort => Failure(DeviceAbort)
  }

  /** `read_u8`: one RAM byte below MEM_SIZE, the machine above. */
  function LoadByte<D>(mc: Machine<D>, s: Sys<D>, addr: Word): (r: Result<Got<D, Byte>, Fault>)
    ensures addr < MEM_SIZE ==> r == Success(Got(s, s.vm.mem[addr]))
    ensures addr >= MEM_SIZE ==> (r.Success? <==> mc.readByte(s.dev, s.vm.mem, addr).Done?)
    ensures addr >= MEM_SIZE && r.Success? ==>
      var a := mc.readByte(s.dev, s.vm.mem, addr);
      r.value == Got(Sys(s.vm.(mem := a.mem), a.dev), a.value)
    ensures r.Failure? ==> r.error == DeviceAbort
  {
    if addr < MEM_SIZE then Success(Got(s, s.vm.mem[addr]))
    else
      match mc.readByte(s.dev, s.vm.mem, addr)
      case Done(d, m, b) => Success(Got(Sys(s.vm.(mem := m), d), b))
      case Abort => Failure(DeviceAbort)
  }

  /** `write_u8`: one RAM byte below MEM_SIZE, the machine above. */
  function StoreByte<D>(mc: Machine<D>, s: Sys<D>, addr: Word, v: Byte): (r: Result<Sys<D>, Fault>)
    ensures addr < MEM_SIZE ==> r == Success(Sys(s.vm.(mem := SetByte(s.vm.mem, addr, v)), s.dev))
    ensures addr >= MEM_SIZE ==> (r.Success? <==> mc.writeByte(s.dev, s.vm.mem, addr, v).Done?)
    ensures addr >= MEM_SIZE && r.Success? ==>
      var a := mc.writeByte(s.dev, s.vm.mem, addr, v);
      r.value == Sys(s.vm.(mem := a.mem), a.dev)
    ensures r.Failure? ==> r.error == DeviceAbort
  {
    if addr < MEM_SIZE then Success(Sys(s.vm.(mem := SetByte(s.vm.mem, addr, v)), s.dev))
    else
      match mc.writeByte(s.dev, s.vm.mem, addr, v)
      case Done(d, m, _) => Success(Sys(s.vm.(mem := m), d))
      case Abort => Failure(DeviceAbort)
  }

  /** A value fetched from the instruction stream, with the state after fetching it. */
  datatype Fetched<T> = Fetched(vm: VM, value: T)

  /**
   * `next_u8`: the byte at ip, and ip moves past it. The program reads
   * through a raw pointer; the model stops when ip has left memory.
   */
  function FetchByte(vm: VM): (r: Result<Fetched<Byte>, Fault>)
    ensures r.Success? <==> vm.ip < MEM_SIZE
    ensures r.Success? ==> r.value == Fetched(vm.(ip := vm.ip + 1), vm.mem[vm.ip])
    ensures r.Failure? ==> r.error == IpOutsideMemory(vm.ip)
  {
    if vm.ip < MEM_SIZE then Success(Fetched(vm.(ip := vm.ip + 1), vm.mem[vm.ip]))
    else Failure(IpOutsideMemory(vm.ip))
  }

  /** `next_u32`: four fetched bytes, little-endian; ip moves past all four. */
  function FetchWord(vm: VM): (r: Result<Fetched<Word>, Fault>)
    ensures r.Success? <==> vm.ip + 4 <= MEM_SIZE
    ensures r.Success? ==> r.value.vm == vm.(ip := vm.ip + 4)
    ensures r.Success? ==> LeBytes(r.value.value) == vm.mem[vm.ip..vm.ip + 4]
    ensures r.Failure? ==> r.error == IpOutsideMemory(if vm.ip < MEM_SIZE then MEM_SIZE else vm.ip)
  {
    if vm.ip + 4 <= MEM_SIZE then
      LeBytesOfFromLe(vm.mem[vm.ip..vm.ip + 4]);
      Success(Fetched(vm.(ip := vm.ip + 4), ReadWord(vm.mem, vm.ip)))
    else
      Failure(IpOutsideMemory(if vm.ip < MEM_SIZE then MEM_SIZE else vm.ip))
  }

  /** LITW: the next four bytes of the instruction stream, pushed as one word. */
  function ExecLitW(vm: VM): (r: Result<VM, Fault>)
    requires Valid(vm)
    ensures r.Success? ==> Valid(r.value) && r.value.ip == vm.ip + 4
    ensures r.Success? ==> r.value.rp == vm.rp && r.value.local == vm.local
  {
    var w :- FetchWord(vm);
    Push(w.vm, w.value)
  }

  /** LITB: the next byte of the instruction stream, zero-extended and pushed. */
  function ExecLitB(vm: VM): (r: Result<VM, Fault>)
    requires Valid(vm)
    ensures r.Success? ==> Valid(r.value) && r.value.ip == vm.ip + 1
    ensures r.Success? ==> r.value.rp == vm.rp && r.value.local == vm.local
  {
    var n :- FetchByte(vm);
    Push(n.vm, ZeroExtend(n.value))
  }

  /** SWAP: pop b, pop a, push b, push a. */
  function ExecSwap(vm: VM): (r: Result<VM, Fault>)
    requires Valid(vm)
    ensures r.Success? ==> Valid(r.value)
    ensures r.Success? ==> r.value.ip == vm.ip && r.value.rp == vm.rp && r.value.local == vm.local
  {
    var b :- Pop(vm);
    var a :- Pop(b.vm);
    var v1 :- Push(a.vm, b.value);
    Push(v1, a.value)
  }

  /** DUP: peek the top, push it. */
  function ExecDup(vm: VM): (r: Result<VM, Fault>)
    requires Valid(vm)
    ensures r.Success? ==> Valid(r.value)
    ensures r.Success? ==> r.value.ip == vm.ip && r.value.rp == vm.rp && r.value.local == vm.local
  {
    var v :- Peek(vm);
    Push(vm, v)
  }

  /** DROP: pop and discard. */
  function ExecDrop(vm: VM): (r: Result<VM, Fault>)
    requires Valid(vm)
    ensures r.Success? ==> Valid(r.value)
    ensures r.Success? ==> r.value.ip == vm.ip && r.value.rp == vm.rp && r.value.local == vm.local
  {
    var b :- Pop(vm);
    Success(b.vm)
  }

  /** OVER: pop b, peek a, push b, push a. */
  function ExecOver(vm: VM): (r: Result<VM, Fault>)
    requires Valid(vm)
    ensures r.Success? ==> Valid(r.value)
    ensures r.Success? ==> r.value.ip == vm.ip && r.value.rp == vm.rp && r.value.local == vm.local
  {
    var b :- Pop(vm);
    var a :- Peek(b.vm);
    var v1 :- Push(b.vm, b.value);
    Push(v1, a)
  }

  /** ROT: pop c, pop b, pop a, push b, push c, push a. */
  function ExecRot(vm: VM): (r: Result<VM, Fault>)
    requires Valid(vm)
    ensures r.Success? ==> Valid(r.value)
    ensures r.Success? ==> r.value.ip == vm.ip && r.value.rp == vm.rp && r.value.local == vm.local
  {
    var c :- Pop(vm);
    var b :- Pop(c.vm);
    var a :- Pop(b.vm);
    var v1 :- Push(a.vm, b.value);
    var v2 :- Push(v1, c.value);
    Push(v2, a.value)
  }

  /** PICK: pop n, then push a copy of the word n places below the new top. */
  function ExecPick(vm: VM): (r: Result<VM, Fault>)
    requires Valid(vm)
    ensures r.Success? ==> Valid(r.value)
    ensures r.Success? ==> r.value.ip == vm.ip && r.value.rp == vm.rp && r.value.local == vm.local
  {
    var n :- Pop(vm);
    var v :- PeekN(n.vm, n.value as nat);
    Push(n.vm, v)
  }

  /**
   * HALT, DBG and the data-stack instructions, with ip already past the
   * opcode. HALT itself stops the loop in `Step`; here it, like DBG (which
   * only prints), changes nothing.
   */
  function ExecStack(vm: VM, i: StackInstr): (r: Result<VM, Fault>)
    requires Valid(vm)
    ensures r.Success? ==> Valid(r.value)
    ensures r.Success? ==> r.value.rp == vm.rp && r.value.local == vm.local
  {
    match i
    case Halt => Success(vm)
    case Dbg => Success(vm)
    case LitW => ExecLitW(vm)
    case Dup => ExecDup(vm)
    case Drop => ExecDrop(vm)
    case Swap => ExecSwap(vm)
    case Over => ExecOver(vm)
    case Rot => ExecRot(vm)
    case LitB => ExecLitB(vm)
    case Pick => ExecPick(vm)
  }

  /** The ALU's panics as interpreter faults. */
  function AluFault(e: AluError): Fault {
    match e
    case DivideByZero => Fault.DivideByZero
    case ShiftOverflow => Fault.ShiftOverflow
  }

  /** A binary ALU or comparison instruction: pop b, pop a, push `a op b`. */
  function ExecBin(vm: VM, op: BinOp): (r: Result<VM, Fault>)
    requires Valid(vm)
    ensures r.Success? ==> Valid(r.value)
    ensures r.Success? ==> r.value.ip == vm.ip && r.value.rp == vm.rp && r.value.local == vm.local
  {
    var b :- Pop(vm);
    var a :- Pop(b.vm);
    match ApplyBin(op, a.value, b.value)
    case Failure(e) => Failure(AluFault(e))
    case Success(v) => Push(a.vm, v)
  }

  /** INC, DEC and NOT: pop a, push the result. */
  function ExecUn(vm: VM, op: UnOp): (r: Result<VM, Fault>)
    requires Valid(vm)
    ensures r.Success? ==> Valid(r.value)
    ensures r.Success? ==> r.value.ip == vm.ip && r.value.rp == vm.rp && r.value.local == vm.local
  {
    var a :- Pop(vm);
    Push(a.vm, ApplyUn(op, a.value))
  }

  /** LW: pop the address, push the word read there. */
  function ExecLw<D>(mc: Machine<D>, s: Sys<D>): (r: Result<Sys<D>, Fault>)
    requires Valid(s.vm)
    ensures r.Success? ==> Valid(r.value.vm)
    ensures r.Success? ==> r.value.vm.ip == s.vm.ip && r.value.vm.rp == s.vm.rp && r.value.vm.local == s.vm.local
  {
    var a :- Pop(s.vm);
    var g :- LoadWord(mc, s.(vm := a.vm), a.value);
    var vm :- Push(g.sys.vm, g.value);
    Success(g.sys.(vm := vm))
  }

  /** LB: pop the address, push the byte read there, zero-extended. */
  function ExecLb<D>(mc: Machine<D>, s: Sys<D>): (r: Result<Sys<D>, Fault>)
    requires Valid(s.vm)
    ensures r.Success? ==> Valid(r.value.vm)
    ensures r.Success? ==> r.value.vm.ip == s.vm.ip && r.value.vm.rp == s.vm.rp && r.value.vm.local == s.vm.local
  {
    var a :- Pop(s.vm);
    var g :- LoadByte(mc, s.(vm := a.vm), a.value);
    var vm :- Push(g.sys.vm, ZeroExtend(g.value));
    Success(g.sys.(vm := vm))
  }

  /** SW: pop the address, pop the value, store the word. */
  function ExecSw<D>(mc: Machine<D>, s: Sys<D>): (r: Result<Sys<D>, Fault>)
    requires Valid(s.vm)
    ensures r.Success? ==> Valid(r.value.vm)
    ensures r.Success? ==> r.value.vm.ip == s.vm.ip && r.value.vm.rp == s.vm.rp && r.value.vm.local == s.vm.local
  {
    var a :- Pop(s.vm);
    var v :- Pop(a.vm);
    StoreWord(mc, s.(vm := v.vm), a.value, v.value)
  }

  /** SB: pop the address, pop the value, store its low byte. */
  function ExecSb<D>(mc: Machine<D>, s: Sys<D>): (r: Result<Sys<D>, Fault>)
    requires Valid(s.vm)
    ensures r.Success? ==> Valid(r.value.vm)
    ensures r.Success? ==> r.value.vm.ip == s.vm.ip && r.value.vm.rp == s.vm.rp && r.value.vm.local == s.vm.local
  {
    var a :- Pop(s.vm);
    var v :- Pop(a.vm);
    StoreByte(mc, s.(vm := v.vm), a.value, LowByte(v.value))
  }

  /** LW, SW, SB and LB: the address is popped first, then (for stores) the value. */
  function ExecMem<D>(mc: Machine<D>, s: Sys<D>, i: MemInstr): (r: Result<Sys<D>, Fault>)
    requires Valid(s.vm)
    ensures r.Success? ==> Valid(r.value.vm)
    ensures r.Success? ==> r.value.vm.ip == s.vm.ip && r.value.vm.rp == s.vm.rp && r.value.vm.local == s.vm.local
  {
    match i
    case Lw => ExecLw(mc, s)
    case Sw => ExecSw(mc, s)
    case Sb => ExecSb(mc, s)
    case Lb => ExecLb(mc, s)
  }

  /** The return address CALL saves: ip as a u32 (`ip as _` truncates). */
  function ReturnAddress(ip: nat): (r: Word)
    ensures ip < WORD_LIMIT ==> r as nat == ip
  {
    (ip % WORD_LIMIT) as Word
  }

  /** JZ and JNZ: pop the target, pop the condition, jump when the condition matches onZero. */
  function ExecBranch(vm: VM, onZero: bool): (r: Result<VM, Fault>)
    requires Valid(vm)
    ensures r.Success? ==> Valid(r.value)
    ensures r.Success? ==> r.value.rp == vm.rp && r.value.local == vm.local
  {
    var a :- Pop(vm);
    var c :- Pop(a.vm);
    Success(if (c.value == 0) == onZero then c.vm.(ip := a.value as nat) else c.vm)
  }

  /** CALL: pop the target, push the address after CALL on the return stack, jump. */
  function ExecCall(vm: VM): (r: Result<VM, Fault>)
    requires Valid(vm)
    ensures r.Success? ==> Valid(r.value)
    ensures r.Success? ==> r.value.local == vm.local
  {
    var a :- Pop(vm);
    var v :- VmState.RPush(a.vm, ReturnAddress(vm.ip));
    Success(v.(ip := a.value as nat))
  }

  /** Jumps, calls and returns: the target address is popped first. */
  function ExecControl(vm: VM, i: ControlInstr): (r: Result<VM, Fault>)
    requires Valid(vm)
    ensures r.Success? ==> Valid(r.value)
    ensures r.Success? ==> r.value.local == vm.local
  {
    match i
    case Jmp =>
      var a :- Pop(vm);
      Success(a.vm.(ip := a.value as nat))
    case Jz => ExecBranch(vm, true)
    case Jnz => ExecBranch(vm, false)
    case Call => ExecCall(vm)
    case Ret =>
      var a :- VmState.RPop(vm);
      Success(a.vm.(ip := a.value as nat))
  }

  /** RPUSH: pop a word, push it on the return stack. */
  function ExecRPush(vm: VM): (r: Result<VM, Fault>)
    requires Valid(vm)
    ensures r.Success? ==> Valid(r.value) && r.value.ip == vm.ip && r.value.local == vm.local
  {
    var v :- Pop(vm);
    VmState.RPush(v.vm, v.value)
  }

  /** RPOP: pop the return stack, push the word. */
  function ExecRPop(vm: VM): (r: Result<VM, Fault>)
    requires Valid(vm)
    ensures r.Success? ==> Valid(r.value) && r.value.ip == vm.ip && r.value.local == vm.local
  {
    var v :- VmState.RPop(vm);
    Push(v.vm, v.value)
  }

  /** RPEEK: push a copy of the top of the return stack. */
  function ExecRPeek(vm: VM): (r: Result<VM, Fault>)
    requires Valid(vm)
    ensures r.Success? ==> Valid(r.value) && r.value.ip == vm.ip && r.value.local == vm.local
  {
    var v :- VmState.RPeek(vm);
    Push(vm, v)
  }

  /** RDROP: discard the top of the return stack. */
  function ExecRDrop(vm: VM): (r: Result<VM, Fault>)
    requires Valid(vm)
    ensures r.Success? ==> Valid(r.value) && r.value.ip == vm.ip && r.value.local == vm.local
  {
    var v :- VmState.RPop(vm);
    Success(v.vm)
  }

  /** BEGIN: pop n, open n more locals. */
  function ExecBegin(vm: VM): (r: Result<VM, Fault>)
    requires Valid(vm)
    ensures r.Success? ==> Valid(r.value) && r.value.ip == vm.ip
  {
    var n :- Pop(vm);
    LBegin(n.vm, n.value as nat)
  }

  /** END: pop n, close n locals. */
  function ExecEnd(vm: VM): (r: Result<VM, Fault>)
    requires Valid(vm)
    ensures r.Success? ==> Valid(r.value) && r.value.ip == vm.ip
  {
    var n :- Pop(vm);
    LEnd(n.vm, n.value as nat)
  }

  /** GET: pop the index, push that local. */
  function ExecGet(vm: VM): (r: Result<VM, Fault>)
    requires Valid(vm)
    ensures r.Success? ==> Valid(r.value)
    ensures r.Success? ==> r.value.ip == vm.ip && r.value.rp == vm.rp && r.value.local == vm.local
  {
    var n :- Pop(vm);
    var v :- LGet(n.vm, n.value as nat);
    Push(n.vm, v)
  }

  /** SET: pop the index, pop the value, store it in that local. */
  function ExecSet(vm: VM): (r: Result<VM, Fault>)
    requires Valid(vm)
    ensures r.Success? ==> Valid(r.value)
    ensures r.Success? ==> r.value.ip == vm.ip && r.value.rp == vm.rp && r.value.local == vm.local
  {
    var n :- Pop(vm);
    var v :- Pop(n.vm);
    LSet(v.vm, n.value as nat, v.value)
  }

  /** The return-stack and locals instructions. */
  function ExecFrame(vm: VM, i: FrameInstr): (r: Result<VM, Fault>)
    requires Valid(vm)
    ensures r.Success? ==> Valid(r.value)
    ensures r.Success? ==> r.value.ip == vm.ip
  {
    match i
    case Begin => ExecBegin(vm)
    case End => ExecEnd(vm)
    case Get => ExecGet(vm)
    case Set => ExecSet(vm)
    case RPush => ExecRPush(vm)
    case RPop => ExecRPop(vm)
    case RPeek => ExecRPeek(vm)
    case RDrop => ExecRDrop(vm)
  }

  /** One decoded instruction, with ip already past its opcode byte. */
  function Execute<D>(mc: Machine<D>, s: Sys<D>, i: Instr): (r: Result<Sys<D>, Fault>)
    requires Valid(s.vm)
    ensures r.Success? ==> Valid(r.value.vm)
    ensures r.Success? && !i.Mem? ==> r.value.dev == s.dev
  {
    match i
    case Data(si) =>
      var vm :- ExecStack(s.vm, si);
      Success(s.(vm := vm))
    case Bin(op) =>
      var vm :- ExecBin(s.vm, op);
      Success(s.(vm := vm))
    case Un(op) =>
      var vm :- ExecUn(s.vm, op);
      Success(s.(vm := vm))
    case Mem(mi) => ExecMem(mc, s, mi)
    case Control(ci) =>
      var vm :- ExecControl(s.vm, ci);
      Success(s.(vm := vm))
    case Frame(fi) =>
      var vm :- ExecFrame(s.vm, fi);
      Success(s.(vm := vm))
  }

  /** What one pass of the loop body did. */
  datatype StepResult<D> = Next(sys: Sys<D>) | Halted(sys: Sys<D>) | Crashed(fault: Fault)

  /**
   * One pass of the loop: fetch the opcode, dispatch on it, execute. HALT
   * leaves the loop with ip just past it; an unassigned byte is the
   * `unimplemented!()` panic.
   */
  function Step<D>(mc: Machine<D>, x: ExtOpcodes, s: Sys<D>): (r: StepResult<D>)
    requires Valid(s.vm)
    ensures r.Next? || r.Halted? ==> Valid(r.sys.vm)
    ensures r.Halted? ==> r.sys == s.(vm := s.vm.(ip := s.vm.ip + 1))
    ensures r.Crashed? && s.vm.ip >= MEM_SIZE ==> r.fault == IpOutsideMemory(s.vm.ip)
    ensures s.vm.ip < MEM_SIZE && Decode(x, s.vm.mem[s.vm.ip] as int).None? ==> r == Crashed(UnknownOpcode(s.vm.mem[s.vm.ip]))
  {
    match FetchByte(s.vm)
    case Failure(f) => Crashed(f)
    case Success(op) =>
      var s1 := s.(vm := op.vm);
      match Decode(x, op.value as int)
      case None => Crashed(UnknownOpcode(op.value))
      case Some(i) =>
        if i == Data(Halt) then Halted(s1)
        else
          match Execute(mc, s1, i)
          case Success(s2) => Next(s2)
          case Failure(f) => Crashed(f)
  }

  /** How a run ended: HALT, a fault, or the step budget ran out first. */
  datatype RunResult<D> = Returned(sys: Sys<D>) | Aborted(fault: Fault) | Exhausted(sys: Sys<D>)

  /**
   * One pass of the loop as a total function. A state whose cursors have
   * left their regions never arises from a valid one (LoopKeepsValid);
   * such a state ends the loop with InvalidState, so that the loop needs no
   * precondition.
   */
  function Turn<D>(mc: Machine<D>, x: ExtOpcodes): Sys<D> -> StepResult<D> {
    (s: Sys<D>) => if Valid(s.vm) then Step(mc, x, s) else Crashed(InvalidState)
  }

  /**
   * The loop of `run`, for at most fuel passes of its body step: it ends
   * at HALT, at a fault, or when the budget runs out.
   */
  function Loop<D>(step: Sys<D> -> StepResult<D>, s: Sys<D>, fuel: nat): RunResult<D>
    decreases fuel
  {
    if fuel == 0 then Exhausted(s)
    else
      match step(s)
      case Next(s1) => Loop(step, s1, fuel - 1)
      case Halted(s1) => Returned(s1)
      case Crashed(f) => Aborted(f)
  }

  /** A property every pass keeps holds of the state the loop ends in. */
  lemma {:induction false} LoopInvariant<D>(step: Sys<D> -> StepResult<D>, p: Sys<D> -> bool, s: Sys<D>, fuel: nat)
    requires p(s)
    requires forall t :: p(t) && (step(t).Next? || step(t).Halted?) ==> p(step(t).sys)
    ensures var r := Loop(step, s, fuel); r.Returned? || r.Exhausted? ==> p(r.sys)
    decreases fuel
  {
    if 0 < fuel && step(s).Next? {
      LoopInvariant(step, p, step(s).sys, fuel - 1);
    }
  }

  /** The interpreter's loop keeps every cursor inside its region. */
  lemma LoopKeepsValid<D>(mc: Machine<D>, x: ExtOpcodes, s: Sys<D>, fuel: nat)
    requires Valid(s.vm)
    ensures var r := Loop(Turn(mc, x), s, fuel); r.Returned? || r.Exhausted? ==> Valid(r.sys.vm)
  {
    var p := (t: Sys<D>) => Valid(t.vm);
    forall t | p(t) && (Turn(mc, x)(t).Next? || Turn(mc, x)(t).Halted?)
      ensures p(Turn(mc, x)(t).sys)
    {
      assert Turn(mc, x)(t) == Step(mc, x, t);
    }
    LoopInvariant(Turn(mc, x), p, s, fuel);
  }

  /**
   * `run(machine, ip)`: an entry of 0 returns at once; otherwise execution
   * starts at entry and continues until HALT. The stacks are left as they
   * are, so a later run sees them.
   */
  function Run<D>(mc: Machine<D>, x: ExtOpcodes, s: Sys<D>, entry: Word, fuel: nat): (r: RunResult<D>)
    requires Valid(s.vm)
    ensures entry == 0 ==> r == Returned(s)
    ensures r.Returned? || r.Exhausted? ==> Valid(r.sys.vm)
  {
    if entry == 0 then Returned(s)
    else
      var start := s.(vm := s.vm.(ip := entry as nat));
      LoopKeepsValid(mc, x, start, fuel);
      Loop(Turn(mc, x), start, fuel)
  }
}

=== FILE: vm_flow_props.dfy ===
/**
 * Control flow, the return stack and the locals: what jumps, calls,
 * returns and frame instructions do, that a call returns to the
 * instruction after it, that BEGIN/END and RPUSH/RPOP undo each other, how
 * a step of the run loop stops, and that the loop's step budget only cuts a
 * run short (a run that ends within a budget ends the same way with a
 * larger one, and a run cut short can be resumed).
 */
module VmFlowProps {
  import opened Wrappers
  import opened Bytes
  import opened Dma
  import opened Alu
  import opened VmState
  import opened VmDecode
  import opened VmExec

  /** JMP pops the target and continues there; nothing else changes. */
  lemma JmpEffect(vm: VM)
    requires Valid(vm)
    ensures var r := ExecControl(vm, Jmp); var t := Stack(vm);
      && (r.Success? <==> 1 <= |t|)
      && (r.Failure? ==> r.error == StackUnderflow)
      && (r.Success? ==> r.value.ip == t[|t| - 1] && Stack(r.value) == t[..|t| - 1])
      && (r.Success? ==> Returns(r.value) == Returns(vm) && Locals(r.value) == Locals(vm))
  {
  }

  /**
   * JZ and JNZ pop the target and then the condition; they jump when the
   * condition is zero (JZ) or nonzero (JNZ) and otherwise fall through.
   */
  lemma BranchEffect(vm: VM, onZero: bool)
    requires Valid(vm)
    ensures var r := ExecBranch(vm, onZero); var t := Stack(vm);
      && (r.Success? <==> 2 <= |t|)
      && (r.Failure? ==> r.error == StackUnderflow)
      && (r.Success? ==> Stack(r.value) == t[..|t| - 2])
      && (r.Success? ==> r.value.ip == if (t[|t| - 2] == 0) == onZero then t[|t| - 1] else vm.ip)
      && (r.Success? ==> Returns(r.value) == Returns(vm) && Locals(r.value) == Locals(vm))
  {
    var t := Stack(vm);
    if 2 <= |t| {
      var a := Pop(vm).value;
      var c := Pop(a.vm).value;
      assert Stack(c.vm) == t[..|t| - 2];
    }
  }

  /**
   * CALL pops the target, pushes the address of the next instruction on the
   * return stack and jumps; it fails on an empty operand stack or a full
   * return stack.
   */
  lemma CallEffect(vm: VM)
    requires Valid(vm)
    ensures var r := ExecControl(vm, Call); var t := Stack(vm);
      && (r.Success? <==> 1 <= |t| && |Returns(vm)| < STACK_WORDS)
      && (r.Failure? ==> r.error == if |t| == 0 then StackUnderflow else ReturnStackOverflow)
      && (r.Success? ==> r.value.ip == t[|t| - 1] && Stack(r.value) == t[..|t| - 1])
      && (r.Success? ==> Returns(r.value) == Returns(vm) + [ReturnAddress(vm.ip)] && Locals(r.value) == Locals(vm))
  {
    if 1 <= |Stack(vm)| {
      var a := Pop(vm).value;
      assert Returns(a.vm) == Returns(vm);
    }
  }

  /** RET pops the return stack and continues at the address popped. */
  lemma RetEffect(vm: VM)
    requires Valid(vm)
    ensures var r := ExecControl(vm, Ret); var rs := Returns(vm);
      && (r.Success? <==> 1 <= |rs|)
      && (r.Failure? ==> r.error == ReturnStackUnderflow)
      && (r.Success? ==> r.value.ip == rs[|rs| - 1] && Returns(r.value) == rs[..|rs| - 1])
      && (r.Success? ==> Stack(r.value) == Stack(vm) && Locals(r.value) == Locals(vm))
  {
  }

  /**
   * A RET right after a CALL comes back to the instruction after the CALL
   * with the return stack as it was: ip is the address CALL saved, which is
   * ip itself while ip fits in a u32.
   */
  lemma CallThenRet(vm: VM)
    requires Valid(vm) && vm.ip < WORD_LIMIT
    requires ExecControl(vm, Call).Success?
    ensures var c := ExecControl(vm, Call).value; var r := ExecControl(c, Ret);
      && r.Success?
      && r.value.ip == vm.ip
      && Returns(r.value) == Returns(vm)
      && Stack(r.value) == Stack(vm)[..|Stack(vm)| - 1]
      && Locals(r.value) == Locals(vm)
  {
    var c := ExecControl(vm, Call).value;
    CallEffect(vm);
    RetEffect(c);
    var rs := Returns(c);
    assert rs == Returns(vm) + [ReturnAddress(vm.ip)];
    assert rs[..|rs| - 1] == Returns(vm);
    assert ReturnAddress(vm.ip) as nat == vm.ip;
  }

  /** RPUSH moves the top word from the operand stack to the return stack. */
  lemma RPushEffect(vm: VM)
    requires Valid(vm)
    ensures var r := ExecRPush(vm); var t := Stack(vm);
      && (r.Success? <==> 1 <= |t| && |Returns(vm)| < STACK_WORDS)
      && (r.Failure? ==> r.error == if |t| == 0 then StackUnderflow else ReturnStackOverflow)
      && (r.Success? ==> Stack(r.value) == t[..|t| - 1] && Returns(r.value) == Returns(vm) + [t[|t| - 1]])
      && (r.Success? ==> Locals(r.value) == Locals(vm))
  {
    if 1 <= |Stack(vm)| {
      var v := Pop(vm).value;
      assert Returns(v.vm) == Returns(vm);
    }
  }

  /** RPOP moves the top word from the return stack to the operand stack. */
  lemma RPopEffect(vm: VM)
    requires Valid(vm)
    ensures var r := ExecRPop(vm); var rs := Returns(vm);
      && (r.Success? <==> 1 <= |rs| && |Stack(vm)| < STACK_WORDS)
      && (r.Failure? ==> r.error == if |rs| == 0 then ReturnStackUnderflow else StackOverflow)
      && (r.Success? ==> Returns(r.value) == rs[..|rs| - 1] && Stack(r.value) == Stack(vm) + [rs[|rs| - 1]])
      && (r.Success? ==> Locals(r.value) == Locals(vm))
  {
    if 1 <= |Returns(vm)| {
      var v := VmState.RPop(vm).value;
      assert Stack(v.vm) == Stack(vm);
    }
  }

  /** RPEEK copies the top of the return stack onto the operand stack. */
  lemma RPeekEffect(vm: VM)
    requires Valid(vm)
    ensures var r := ExecRPeek(vm); var rs := Returns(vm);
      && (r.Success? <==> 1 <= |rs| && |Stack(vm)| < STACK_WORDS)
      && (r.Failure? ==> r.error == if |rs| == 0 then ReturnStackUnderflow else StackOverflow)
      && (r.Success? ==> Returns(r.value) == rs && Stack(r.value) == Stack(vm) + [rs[|rs| - 1]])
  {
    var p := VmState.RPeek(vm);
    if p.Success? {
      assert ExecRPeek(vm) == Push(vm, p.value);
    } else {
      assert ExecRPeek(vm) == Failure(ReturnStackUnderflow);
    }
  }

  /** RDROP discards the top of the return stack. */
  lemma RDropEffect(vm: VM)
    requires Valid(vm)
    ensures var r := ExecRDrop(vm); var rs := Returns(vm);
      && (r.Success? <==> 1 <= |rs|)
      && (r.Failure? ==> r.error == ReturnStackUnderflow)
      && (r.Success? ==> Returns(r.value) == rs[..|rs| - 1] && Stack(r.value) == Stack(vm))
  {
  }

  /** RPUSH followed by RPOP leaves both stacks as they were. */
  lemma RPushThenRPop(vm: VM)
    requires Valid(vm) && ExecRPush(vm).Success?
    ensures var p := ExecRPush(vm).value; var r := ExecRPop(p);
      && r.Success? && Stack(r.value) == Stack(vm) && Returns(r.value) == Returns(vm)
  {
    var p := ExecRPush(vm).value;
    RPushEffect(vm);
    RPopEffect(p);
    var t := Stack(vm);
    PopPush(t);
    PushPop(Returns(vm), t[|t| - 1]);
  }

  /** BEGIN pops n and reserves n more locals; they keep whatever their slots held. */
  lemma BeginEffect(vm: VM)
    requires Valid(vm)
    ensures var r := ExecBegin(vm); var t := Stack(vm);
      && (r.Success? <==> 1 <= |t| && |Locals(vm)| + t[|t| - 1] <= STACK_WORDS)
      && (r.Failure? ==> r.error == if |t| == 0 then StackUnderflow else LocalsOutOfRange)
      && (r.Success? ==> Stack(r.value) == t[..|t| - 1] && Returns(r.value) == Returns(vm))
      && (r.Success? ==> |Locals(r.value)| == |Locals(vm)| + t[|t| - 1])
      && (r.Success? ==> Locals(r.value)[..|Locals(vm)|] == Locals(vm))
  {
    if 1 <= |Stack(vm)| {
      var n := Pop(vm).value;
      assert Locals(n.vm) == Locals(vm);
    }
  }

  /** END pops n and releases the last n locals. */
  lemma EndEffect(vm: VM)
    requires Valid(vm)
    ensures var r := ExecEnd(vm); var t := Stack(vm);
      && (r.Success? <==> 1 <= |t| && t[|t| - 1] <= |Locals(vm)|)
      && (r.Failure? ==> r.error == if |t| == 0 then StackUnderflow else LocalsOutOfRange)
      && (r.Success? ==> Stack(r.value) == t[..|t| - 1] && Returns(r.value) == Returns(vm))
      && (r.Success? ==> Locals(r.value) == Locals(vm)[..|Locals(vm)| - t[|t| - 1]])
  {
    if 1 <= |Stack(vm)| {
      var n := Pop(vm).value;
      assert Locals(n.vm) == Locals(vm);
    }
  }

  /** Releasing the n locals just reserved gives back the same machine. */
  lemma BeginThenEnd(vm: VM, n: nat)
    requires Valid(vm) && LBegin(vm, n).Success?
    ensures LEnd(LBegin(vm, n).value, n) == Success(vm)
  {
  }

  /** GET pops an index i and pushes local i. */
  lemma GetEffect(vm: VM)
    requires Valid(vm)
    ensures var r := ExecGet(vm); var t := Stack(vm); var l := Locals(vm);
      && (r.Success? <==> 1 <= |t| && t[|t| - 1] < |l|)
      && (r.Failure? ==> r.error == if |t| == 0 then StackUnderflow else LocalsOutOfRange)
      && (1 <= |t| && t[|t| - 1] < |l| ==>
            && r.Success?
            && Stack(r.value) == t[..|t| - 1] + [l[|l| - 1 - t[|t| - 1]]]
            && Locals(r.value) == l && Returns(r.value) == Returns(vm))
  {
    var t := Stack(vm);
    if 1 <= |t| && t[|t| - 1] < |Locals(vm)| {
      GetHit(vm, t);
    } else if 1 <= |t| {
      GetDeep(vm, t);
    } else {
      assert Pop(vm) == Failure(StackUnderflow);
    }
  }

  /** GET with an index below the number of locals. */
  lemma GetHit(vm: VM, t: seq<Word>)
    requires Valid(vm) && t == Stack(vm) && 1 <= |t| && t[|t| - 1] < |Locals(vm)|
    ensures var r := ExecGet(vm); var l := Locals(vm);
      && r.Success?
      && Stack(r.value) == t[..|t| - 1] + [l[|l| - 1 - t[|t| - 1]]]
      && Locals(r.value) == l && Returns(r.value) == Returns(vm)
  {
    GetDeep(vm, t);
    var n := vm.(sp := vm.sp - 1);
    assert ExecGet(vm) == Push(n, LGet(n, t[|t| - 1] as nat).value);
  }

  /** GET on a nonempty stack t is LGet, pushed where the index was. */
  lemma GetDeep(vm: VM, t: seq<Word>)
    requires Valid(vm) && t == Stack(vm) && 1 <= |t|
    ensures var n := vm.(sp := vm.sp - 1);
      && Valid(n) && Stack(n) == t[..|t| - 1] && Locals(n) == Locals(vm) && Returns(n) == Returns(vm)
      && ExecGet(vm) == (match LGet(n, t[|t| - 1] as nat)
                         case Success(w) => Push(n, w)
                         case Failure(e) => Failure(e))
  {
    var n := Pop(vm).value;
    assert Stack(n.vm) == t[..|t| - 1];
  }

  /** SET pops an index i, then a value, and stores the value in local i. */
  lemma SetEffect(vm: VM)
    requires Valid(vm)
    ensures var r := ExecSet(vm); var t := Stack(vm); var l := Locals(vm);
      && (r.Success? <==> 2 <= |t| && t[|t| - 1] < |l|)
      && (r.Failure? ==> r.error == if |t| < 2 then StackUnderflow else LocalsOutOfRange)
      && (r.Success? ==> Stack(r.value) == t[..|t| - 2] && Returns(r.value) == Returns(vm))
      && (r.Success? ==> Locals(r.value) == l[|l| - 1 - t[|t| - 1] := t[|t| - 2]])
  {
    var t := Stack(vm);
    if 2 <= |t| {
      SetDeep(vm, t);
    }
  }

  /** SET on a stack t of two words or more is LSet below them. */
  lemma SetDeep(vm: VM, t: seq<Word>)
    requires Valid(vm) && t == Stack(vm) && 2 <= |t|
    ensures var v := vm.(sp := vm.sp - 2);
      && Valid(v) && ExecSet(vm) == LSet(v, t[|t| - 1] as nat, t[|t| - 2])
      && Stack(v) == t[..|t| - 2] && Locals(v) == Locals(vm) && Returns(v) == Returns(vm)
  {
    var n := Pop(vm).value;
    var v := Pop(n.vm).value;
    assert Stack(v.vm) == t[..|t| - 2];
  }

  /** A local reads back the word last stored in it, and storing leaves the other locals alone. */
  lemma SetThenGet(vm: VM, i: nat, v: Word, j: nat)
    requires Valid(vm) && LSet(vm, i, v).Success?
    ensures LGet(LSet(vm, i, v).value, i) == Success(v)
    ensures j != i ==> LGet(LSet(vm, i, v).value, j) == LGet(vm, j)
  {
  }

  /** The HALT byte stops the loop, with ip just past it and nothing else changed. */
  lemma StepHalts<D>(mc: Machine<D>, x: ExtOpcodes, s: Sys<D>)
    requires Valid(s.vm) && s.vm.ip < MEM_SIZE && s.vm.mem[s.vm.ip] == Bytecode.OP_HALT
    ensures Step(mc, x, s) == Halted(s.(vm := s.vm.(ip := s.vm.ip + 1)))
  {
    assert DecodeStack(x, Bytecode.OP_HALT) == Some(Data(Halt));
  }

  /** An unassigned byte at ip is the `unimplemented!()` crash. */
  lemma StepUnknown<D>(mc: Machine<D>, x: ExtOpcodes, s: Sys<D>)
    requires Valid(s.vm) && s.vm.ip < MEM_SIZE && s.vm.mem[s.vm.ip] !in Assigned(x)
    ensures Step(mc, x, s) == Crashed(UnknownOpcode(s.vm.mem[s.vm.ip]))
  {
    DecodeNoneIffUnassigned(x, s.vm.mem[s.vm.ip]);
  }

  /**
   * The step budget only cuts a run short: whatever the body step, a loop
   * that ends (HALT or a fault) within f passes ends the same way with any
   * larger budget.
   */
  lemma {:induction false} LoopMonotone<D>(step: Sys<D> -> StepResult<D>, s: Sys<D>, f: nat, g: nat)
    requires f <= g && !Loop(step, s, f).Exhausted?
    ensures Loop(step, s, g) == Loop(step, s, f)
    decreases f
  {
    if step(s).Next? {
      LoopMonotone(step, step(s).sys, f - 1, g - 1);
    }
  }

  /**
   * Whatever the body step, f passes and then g more from where the budget
   * ran out are f + g passes.
   */
  lemma {:induction false} LoopCompose<D>(step: Sys<D> -> StepResult<D>, s: Sys<D>, f: nat, g: nat)
    requires Loop(step, s, f).Exhausted?
    ensures Loop(step, s, f + g) == Loop(step, Loop(step, s, f).sys, g)
    decreases f
  {
    if f > 0 {
      LoopCompose(step, step(s).sys, f - 1, g);
    }
  }

  /** A run ends the same way with any budget larger than one it ends within. */
  lemma RunMonotone<D>(mc: Machine<D>, x: ExtOpcodes, s: Sys<D>, entry: Word, f: nat, g: nat)
    requires Valid(s.vm) && f <= g
    requires !Run(mc, x, s, entry, f).Exhausted?
    ensures Run(mc, x, s, entry, g) == Run(mc, x, s, entry, f)
  {
    if entry != 0 {
      LoopMonotone(Turn(mc, x), s.(vm := s.vm.(ip := entry as nat)), f, g);
    }
  }

  /**
   * A run whose budget ran out can be resumed: continuing the loop from
   * where it stopped for g more passes is the run with budget f + g.
   */
  lemma RunResume<D>(mc: Machine<D>, x: ExtOpcodes, s: Sys<D>, entry: Word, f: nat, g: nat)
    requires Valid(s.vm) && Run(mc, x, s, entry, f).Exhausted?
    ensures Run(mc, x, s, entry, f + g) == Loop(Turn(mc, x), Run(mc, x, s, entry, f).sys, g)
  {
    LoopCompose(Turn(mc, x), s.(vm := s.vm.(ip := entry as nat)), f, g);
  }

  /**
   * A run from a nonzero entry that holds HALT returns after one step, with
   * ip just past it and nothing else changed.
   */
  lemma RunHaltsAtEntry<D>(mc: Machine<D>, x: ExtOpcodes, s: Sys<D>, entry: Word, fuel: nat)
    requires Valid(s.vm) && entry != 0 && entry as nat < MEM_SIZE && 1 <= fuel
    requires s.vm.mem[entry] == Bytecode.OP_HALT
    ensures Run(mc, x, s, entry, fuel) == Returned(s.(vm := s.vm.(ip := entry as nat + 1)))
  {
    var start := s.(vm := s.vm.(ip := entry as nat));
    StepHalts(mc, x, start);
    assert Turn(mc, x)(start) == Step(mc, x, start);
  }
}

=== FILE: vm_memory_props.dfy ===
/**
 * What LW and SW do when the address is in RAM, that a stored word reads
 * back, and that the stacks live in the same RAM: a store into a stack
 * slot changes the stack.
 */
module VmMemoryProps {
  import opened Wrappers
  import opened Bytes
  import opened Dma
  import opened VmState
  import opened VmExec

  /**
   * LW with a RAM address replaces it with the little-endian word stored
   * there; memory changes only in the stack slot the result is pushed to.
   */
  lemma LwRamEffect<D>(mc: Machine<D>, s: Sys<D>)
    requires Valid(s.vm)
    requires var t := Stack(s.vm); 1 <= |t| && t[|t| - 1] as nat + 4 <= MEM_SIZE
    ensures var r := ExecLw(mc, s); var t := Stack(s.vm); var a := t[|t| - 1] as nat;
      && r.Success?
      && r.value.dev == s.dev
      && Stack(r.value.vm) == t[..|t| - 1] + [Stack(r.value.vm)[|t| - 1]]
      && LeBytes(Stack(r.value.vm)[|t| - 1]) == s.vm.mem[a..a + 4]
      && Returns(r.value.vm) == Returns(s.vm) && Locals(r.value.vm) == Locals(s.vm)
      && ChangedOnly(s.vm.mem, r.value.vm.mem, SP_OFFSET + 4 * (|t| - 1), SP_OFFSET + 4 * |t|)
  {
    var t := Stack(s.vm);
    var p := Pop(s.vm).value;
    var g := LoadWord(mc, s.(vm := p.vm), p.value).value;
    assert g.sys.vm == p.vm;
    var vm := Push(g.sys.vm, g.value).value;
    assert ExecLw(mc, s) == Success(g.sys.(vm := vm));
  }

  /**
   * SW with a RAM address stores the word below it there, little-endian,
   * and touches no other byte. A stack whose words lie clear of the four
   * bytes written is as it was (the operand stack less its top two).
   */
  lemma SwRamEffect<D>(mc: Machine<D>, s: Sys<D>)
    requires Valid(s.vm)
    requires var t := Stack(s.vm); 2 <= |t| && t[|t| - 1] as nat + 4 <= MEM_SIZE
    ensures var r := ExecSw(mc, s); var t := Stack(s.vm); var a := t[|t| - 1] as nat;
      && r.Success?
      && r.value.dev == s.dev
      && r.value.vm == s.vm.(mem := r.value.vm.mem, sp := s.vm.sp - 2)
      && r.value.vm.mem[a..a + 4] == LeBytes(t[|t| - 2])
      && ChangedOnly(s.vm.mem, r.value.vm.mem, a, a + 4)
      && (a + 4 <= SP_OFFSET || SP_OFFSET + 4 * (|t| - 2) <= a ==> Stack(r.value.vm) == t[..|t| - 2])
      && (a + 4 <= RP_OFFSET || RP_OFFSET + 4 * s.vm.rp <= a ==> Returns(r.value.vm) == Returns(s.vm))
      && (a + 4 <= LOCAL_OFFSET || LOCAL_OFFSET + 4 * s.vm.local <= a ==> Locals(r.value.vm) == Locals(s.vm))
  {
    var t := Stack(s.vm);
    var a := t[|t| - 1] as nat;
    SwRamStore(mc, s, a, t[|t| - 2]);
    SwFrames(s.vm, t, a, t[|t| - 2]);
  }

  /**
   * After a word store at a that also drops two words, each stack reads as
   * before (less the two words) when the store missed its live slots.
   */
  lemma SwFrames(vm: VM, t: seq<Word>, a: nat, v: Word)
    requires Valid(vm) && t == Stack(vm) && 2 <= |t| && a + 4 <= MEM_SIZE
    ensures var r := vm.(mem := WriteWord(vm.mem, a, v), sp := vm.sp - 2);
      && Valid(r)
      && (a + 4 <= SP_OFFSET || SP_OFFSET + 4 * (|t| - 2) <= a ==> Stack(r) == t[..|t| - 2])
      && (a + 4 <= RP_OFFSET || RP_OFFSET + 4 * vm.rp <= a ==> Returns(r) == Returns(vm))
      && (a + 4 <= LOCAL_OFFSET || LOCAL_OFFSET + 4 * vm.local <= a ==> Locals(r) == Locals(vm))
  {
    var m := WriteWord(vm.mem, a, v);
    WordsPrefix(vm.mem, SP_OFFSET, |t|, |t| - 2);
    if a + 4 <= SP_OFFSET || SP_OFFSET + 4 * (|t| - 2) <= a {
      WordsFrame(vm.mem, m, SP_OFFSET, |t| - 2, a, a + 4);
    }
    if a + 4 <= RP_OFFSET || RP_OFFSET + 4 * vm.rp <= a {
      WordsFrame(vm.mem, m, RP_OFFSET, vm.rp, a, a + 4);
    }
    if a + 4 <= LOCAL_OFFSET || LOCAL_OFFSET + 4 * vm.local <= a {
      WordsFrame(vm.mem, m, LOCAL_OFFSET, vm.local, a, a + 4);
    }
  }

  /** SW on a RAM address a with v below it: the machine with v written at a and both words popped. */
  lemma SwRamStore<D>(mc: Machine<D>, s: Sys<D>, a: nat, v: Word)
    requires Valid(s.vm)
    requires var t := Stack(s.vm); 2 <= |t| && t[|t| - 1] as nat == a && t[|t| - 2] == v && a + 4 <= MEM_SIZE
    ensures ExecSw(mc, s) == Success(Sys(s.vm.(mem := WriteWord(s.vm.mem, a, v), sp := s.vm.sp - 2), s.dev))
  {
    var p := Pop(s.vm).value;
    var q := Pop(p.vm).value;
    assert q.vm == s.vm.(sp := s.vm.sp - 2);
  }

  /**
   * The stacks share RAM with the program: SW to the address of operand
   * stack slot j, below the two words it pops, overwrites stack word j.
   */
  lemma SwIntoStack<D>(mc: Machine<D>, s: Sys<D>, j: nat)
    requires Valid(s.vm)
    requires var t := Stack(s.vm); 2 <= |t| && j < |t| - 2 && t[|t| - 1] as nat == SP_OFFSET + 4 * j
    ensures var r := ExecSw(mc, s); var t := Stack(s.vm);
      && r.Success?
      && Stack(r.value.vm) == t[..|t| - 2][j := t[|t| - 2]]
  {
    var t := Stack(s.vm);
    var a := t[|t| - 1] as nat;
    SwRamEffect(mc, s);
    var r := ExecSw(mc, s).value;
    WordsWrite(s.vm.mem, r.vm.mem, SP_OFFSET, |t| - 2, j, t[|t| - 2]);
    WordsPrefix(s.vm.mem, SP_OFFSET, |t|, |t| - 2);
  }

  /**
   * Storing v at a RAM address below the stack regions, then pushing the
   * address again and loading from it, gives v back: `v a SW a LW` leaves
   * v on the stack.
   */
  lemma StoreThenLoad<D>(mc: Machine<D>, s: Sys<D>)
    requires Valid(s.vm)
    requires var t := Stack(s.vm); 2 <= |t| && t[|t| - 1] as nat + 4 <= LOCAL_OFFSET
    ensures var t := Stack(s.vm);
      && ExecSw(mc, s).Success?
      && Valid(ExecSw(mc, s).value.vm)
      && Push(ExecSw(mc, s).value.vm, t[|t| - 1]).Success?
      && var s2 := ExecSw(mc, s).value.(vm := Push(ExecSw(mc, s).value.vm, t[|t| - 1]).value);
      && ExecLw(mc, s2).Success?
      && Stack(ExecLw(mc, s2).value.vm) == t[..|t| - 2] + [t[|t| - 2]]
  {
    var t := Stack(s.vm);
    var a := t[|t| - 1] as nat;
    SwRamEffect(mc, s);
    var s1 := ExecSw(mc, s).value;
    assert Stack(s1.vm) == t[..|t| - 2];
    var s2 := s1.(vm := Push(s1.vm, t[|t| - 1]).value);
    assert Stack(s2.vm) == t[..|t| - 2] + [t[|t| - 1]];
    LwRamEffect(mc, s2);
    var w := Stack(ExecLw(mc, s2).value.vm)[|t| - 2];
    assert LeBytes(w) == LeBytes(t[|t| - 2]) by {
      assert s2.vm.mem[a..a + 4] == s1.vm.mem[a..a + 4];
    }
    FromLeOfLeBytes(w);
    FromLeOfLeBytes(t[|t| - 2]);
  }
}

=== FILE: vm_props.dfy ===
/**
 * What each instruction does to the stacks, stated on the stack contents
 * (bottom first) rather than on memory: the data-stack instructions, the
 * literals, and the binary and unary operators, with their underflow and
 * overflow faults.
 */
module VmProps {
  import opened Wrappers
  import opened Bytes
  import opened Dma
  import opened Alu
  import opened VmState
  import D = VmDecode
  import opened VmExec

  /** Everything but the operand stack and ip is as before. */
  predicate OtherStacksKept(vm: VM, r: VM)
    requires Valid(vm) && Valid(r)
  {
    Returns(r) == Returns(vm) && Locals(r) == Locals(vm) && r.rp == vm.rp && r.local == vm.local
  }

  /** DUP copies the top word; it needs one word and one free slot. */
  lemma DupEffect(vm: VM)
    requires Valid(vm)
    ensures var r := ExecDup(vm); var t := Stack(vm);
      && (r.Success? <==> 1 <= |t| < STACK_WORDS)
      && (r.Failure? ==> r.error == if |t| == 0 then StackUnderflow else StackOverflow)
      && (r.Success? ==> Stack(r.value) == t + [t[|t| - 1]] && r.value.ip == vm.ip && OtherStacksKept(vm, r.value))
  {
  }

  /** DROP discards the top word. */
  lemma DropEffect(vm: VM)
    requires Valid(vm)
    ensures var r := ExecDrop(vm); var t := Stack(vm);
      && (r.Success? <==> 1 <= |t|)
      && (r.Failure? ==> r.error == StackUnderflow)
      && (r.Success? ==> Stack(r.value) == t[..|t| - 1] && r.value.ip == vm.ip && OtherStacksKept(vm, r.value))
  {
  }

  /** SWAP exchanges the top two words. */
  lemma SwapEffect(vm: VM)
    requires Valid(vm)
    ensures var r := ExecSwap(vm); var t := Stack(vm);
      && (r.Success? <==> 2 <= |t|)
      && (r.Failure? ==> r.error == StackUnderflow)
      && (r.Success? ==> Stack(r.value) == t[..|t| - 2] + [t[|t| - 1], t[|t| - 2]])
      && (r.Success? ==> r.value.ip == vm.ip && OtherStacksKept(vm, r.value))
  {
    var t := Stack(vm);
    if 2 <= |t| {
      SwapDeep(vm, t);
    }
  }

  /** SWAP on a stack t of two words or more. */
  lemma SwapDeep(vm: VM, t: seq<Word>)
    requires Valid(vm) && t == Stack(vm) && 2 <= |t|
    ensures ExecSwap(vm).Success?
    ensures Stack(ExecSwap(vm).value) == t[..|t| - 2] + [t[|t| - 1], t[|t| - 2]]
    ensures ExecSwap(vm).value.ip == vm.ip && OtherStacksKept(vm, ExecSwap(vm).value)
  {
    var b := Pop(vm).value;
    var a := Pop(b.vm).value;
    assert b.value == t[|t| - 1] && a.value == t[|t| - 2];
    assert Stack(a.vm) == t[..|t| - 2];
    var v1 := Push(a.vm, b.value).value;
    var v2 := Push(v1, a.value).value;
    Append2(t[..|t| - 2], b.value, a.value);
    assert ExecSwap(vm) == Success(v2);
  }

  /** Two one-word pushes onto s give s followed by the two words. */
  lemma Append2(s: seq<Word>, x: Word, y: Word)
    ensures s + [x] + [y] == s + [x, y]
  {
  }

  /** OVER pushes a copy of the second word. */
  lemma OverEffect(vm: VM)
    requires Valid(vm)
    ensures var r := ExecOver(vm); var t := Stack(vm);
      && (r.Success? <==> 2 <= |t| < STACK_WORDS)
      && (r.Failure? ==> r.error == if |t| < 2 then StackUnderflow else StackOverflow)
      && (r.Success? ==> Stack(r.value) == t + [t[|t| - 2]])
      && (r.Success? ==> r.value.ip == vm.ip && OtherStacksKept(vm, r.value))
  {
    var t := Stack(vm);
    if 2 <= |t| < STACK_WORDS {
      OverDeep(vm, t);
    } else if 2 <= |t| {
      OverFull(vm);
    }
  }

  /** OVER on a full stack of two words or more overflows. */
  lemma OverFull(vm: VM)
    requires Valid(vm) && 2 <= vm.sp == STACK_WORDS
    ensures ExecOver(vm) == Failure(StackOverflow)
  {
    var b := Pop(vm).value;
    var v1 := Push(b.vm, b.value).value;
    assert v1.sp == STACK_WORDS;
  }

  /** OVER on a stack t of two words or more with a free slot. */
  lemma OverDeep(vm: VM, t: seq<Word>)
    requires Valid(vm) && t == Stack(vm) && 2 <= |t| < STACK_WORDS
    ensures ExecOver(vm).Success?
    ensures Stack(ExecOver(vm).value) == t + [t[|t| - 2]]
    ensures ExecOver(vm).value.ip == vm.ip && OtherStacksKept(vm, ExecOver(vm).value)
  {
    var b := Pop(vm).value;
    assert Stack(b.vm) == t[..|t| - 1] && b.value == t[|t| - 1];
    var a := Peek(b.vm).value;
    assert a == t[|t| - 2];
    var v1 := Push(b.vm, b.value).value;
    PopPush(t);
    var v2 := Push(v1, a).value;
    assert ExecOver(vm) == Success(v2);
  }

  /** ROT turns a b c into b c a: the third word comes to the top. */
  lemma RotEffect(vm: VM)
    requires Valid(vm)
    ensures var r := ExecRot(vm); var t := Stack(vm);
      && (r.Success? <==> 3 <= |t|)
      && (r.Failure? ==> r.error == StackUnderflow)
      && (r.Success? ==> Stack(r.value) == t[..|t| - 3] + [t[|t| - 2], t[|t| - 1], t[|t| - 3]])
      && (r.Success? ==> r.value.ip == vm.ip && OtherStacksKept(vm, r.value))
  {
    var t := Stack(vm);
    if 3 <= |t| {
      RotDeep(vm, t);
    } else if 2 <= |t| {
      var c := Pop(vm).value;
      var b := Pop(c.vm).value;
      assert ExecRot(vm) == Failure(StackUnderflow) by {
        assert Pop(b.vm).Failure?;
      }
    }
  }

  /** ROT on a stack t of three words or more. */
  lemma RotDeep(vm: VM, t: seq<Word>)
    requires Valid(vm) && t == Stack(vm) && 3 <= |t|
    ensures ExecRot(vm).Success?
    ensures Stack(ExecRot(vm).value) == t[..|t| - 3] + [t[|t| - 2], t[|t| - 1], t[|t| - 3]]
    ensures ExecRot(vm).value.ip == vm.ip && OtherStacksKept(vm, ExecRot(vm).value)
  {
    var c := Pop(vm).value;
    var b := Pop(c.vm).value;
    var a := Pop(b.vm).value;
    assert c.value == t[|t| - 1] && b.value == t[|t| - 2] && a.value == t[|t| - 3];
    assert Stack(a.vm) == t[..|t| - 3];
    var v1 := Push(a.vm, b.value).value;
    var v2 := Push(v1, c.value).value;
    var v3 := Push(v2, a.value).value;
    Append3(t[..|t| - 3], b.value, c.value, a.value);
    assert ExecRot(vm) == Success(v3);
  }

  /** Three one-word pushes onto s give s followed by the three words. */
  lemma Append3(s: seq<Word>, x: Word, y: Word, z: Word)
    ensures s + [x] + [y] + [z] == s + [x, y, z]
  {
  }

  /** PICK fails exactly when the stack is empty or the index reaches past its bottom. */
  lemma PickFails(vm: VM)
    requires Valid(vm)
    ensures var r := ExecPick(vm); var t := Stack(vm);
      && (r.Success? <==> 1 <= |t| && t[|t| - 1] as nat < |t| - 1)
      && (r.Failure? ==> r.error == StackUnderflow)
  {
    var t := Stack(vm);
    if 1 <= |t| {
      var n := Pop(vm).value;
      assert Stack(n.vm) == t[..|t| - 1];
      if n.value as nat >= |t| - 1 {
        assert ExecPick(vm) == Failure(StackUnderflow);
      }
    }
  }

  /** PICK replaces the index k on top with a copy of the word k places below it. */
  lemma PickEffect(vm: VM, k: nat)
    requires Valid(vm)
    requires var t := Stack(vm); 1 <= |t| && t[|t| - 1] as nat == k && k < |t| - 1
    ensures var r := ExecPick(vm); var t := Stack(vm);
      && r.Success?
      && Stack(r.value) == t[..|t| - 1] + [t[|t| - 2 - k]]
      && r.value.ip == vm.ip && OtherStacksKept(vm, r.value)
  {
    PickPushes(vm, k, Stack(vm));
  }

  /** PICK with index k on a stack t is a push of t's word k places below the index. */
  lemma PickPushes(vm: VM, k: nat, t: seq<Word>)
    requires Valid(vm) && t == Stack(vm)
    requires 1 <= |t| && t[|t| - 1] as nat == k && k < |t| - 1
    ensures var n := vm.(sp := vm.sp - 1);
      Valid(n) && Stack(n) == t[..|t| - 1] && OtherStacksKept(vm, n)
      && ExecPick(vm) == Push(n, t[|t| - 2 - k])
  {
    var n := vm.(sp := vm.sp - 1);
    assert Pop(vm) == Success(Took(n, t[|t| - 1]));
    assert Stack(n) == t[..|t| - 1];
    assert PeekN(n, k) == Success(t[|t| - 2 - k]);
  }

  /** LITW pushes the little-endian word that follows the opcode and skips it. */
  lemma LitWEffect(vm: VM)
    requires Valid(vm)
    ensures var r := ExecLitW(vm); var t := Stack(vm);
      && (r.Success? <==> vm.ip + 4 <= MEM_SIZE && |t| < STACK_WORDS)
      && (r.Failure? && vm.ip + 4 <= MEM_SIZE ==> r.error == StackOverflow)
      && (r.Success? ==> LeBytes(Stack(r.value)[|t|]) == vm.mem[vm.ip..vm.ip + 4] && Stack(r.value) == t + [Stack(r.value)[|t|]])
      && (r.Success? ==> r.value.ip == vm.ip + 4 && OtherStacksKept(vm, r.value))
  {
    if vm.ip + 4 <= MEM_SIZE {
      var w := FetchWord(vm).value;
      assert Stack(w.vm) == Stack(vm);
      assert ExecLitW(vm) == Push(w.vm, w.value);
    }
  }

  /** LITB pushes the byte that follows the opcode, zero-extended, and skips it. */
  lemma LitBEffect(vm: VM)
    requires Valid(vm)
    ensures var r := ExecLitB(vm); var t := Stack(vm);
      && (r.Success? <==> vm.ip < MEM_SIZE && |t| < STACK_WORDS)
      && (r.Failure? && vm.ip < MEM_SIZE ==> r.error == StackOverflow)
      && (r.Success? ==> Stack(r.value) == t + [ZeroExtend(vm.mem[vm.ip])])
      && (r.Success? ==> r.value.ip == vm.ip + 1 && OtherStacksKept(vm, r.value))
  {
    if vm.ip < MEM_SIZE {
      var b := FetchByte(vm).value;
      assert Stack(b.vm) == Stack(vm);
      assert ExecLitB(vm) == Push(b.vm, ZeroExtend(b.value));
    }
  }

  /** PICK with index 0 behaves as DUP on the stack below the index. */
  lemma PickZeroIsDup(vm: VM)
    requires Valid(vm)
    requires |Stack(vm)| >= 2 && Stack(vm)[|Stack(vm)| - 1] == 0
    ensures ExecPick(vm).Success?
    ensures Pop(vm).Success? && ExecDup(Pop(vm).value.vm).Success?
    ensures Stack(ExecPick(vm).value) == Stack(ExecDup(Pop(vm).value.vm).value)
  {
    var t := Stack(vm);
    var n := Pop(vm).value.vm;
    PickEffect(vm, 0);
    DupEffect(n);
    assert Stack(n) == t[..|t| - 1];
  }

  /**
   * A binary instruction fails on a short stack, or when the top word b is
   * an operand the operation panics on.
   */
  lemma BinFails(vm: VM, op: BinOp)
    requires Valid(vm)
    ensures var r := ExecBin(vm, op); var t := Stack(vm);
      && (r.Success? <==> 2 <= |t| && !Faults(op, t[|t| - 1]))
      && (r.Failure? && |t| < 2 ==> r.error == StackUnderflow)
      && (r.Failure? && 2 <= |t| ==> r.error == AluFault(ApplyBin(op, t[|t| - 2], t[|t| - 1]).error))
  {
  }

  /** Otherwise it replaces the top two words a (below) and b (top) with `a op b`. */
  lemma BinEffect(vm: VM, op: BinOp)
    requires Valid(vm)
    requires var t := Stack(vm); 2 <= |t| && !Faults(op, t[|t| - 1])
    ensures var r := ExecBin(vm, op); var t := Stack(vm);
      && r.Success?
      && Stack(r.value) == t[..|t| - 2] + [ApplyBin(op, t[|t| - 2], t[|t| - 1]).value]
      && r.value.ip == vm.ip && OtherStacksKept(vm, r.value)
  {
  }

  /** DIV with a zero divisor on top faults with DivideByZero. */
  lemma DivByZeroFaults(vm: VM)
    requires Valid(vm) && |Stack(vm)| >= 2 && Stack(vm)[|Stack(vm)| - 1] == 0
    ensures ExecBin(vm, Arith(Div)) == Failure(Fault.DivideByZero)
  {
    BinFails(vm, Arith(Div));
  }

  /** A comparison replaces the top two words with 1 when it holds and 0 when it does not. */
  lemma CompareEffect(vm: VM, op: CmpOp)
    requires Valid(vm) && |Stack(vm)| >= 2
    ensures var r := ExecBin(vm, Cmp(op)); var t := Stack(vm);
      && r.Success?
      && Stack(r.value) == t[..|t| - 2] + [if Compare(op, t[|t| - 2], t[|t| - 1]) then 1 else 0]
  {
    BinEffect(vm, Cmp(op));
  }

  /** INC, DEC and NOT replace the top word with its image. */
  lemma UnEffect(vm: VM, op: UnOp)
    requires Valid(vm)
    ensures var r := ExecUn(vm, op); var t := Stack(vm);
      && (r.Success? <==> 1 <= |t|)
      && (r.Failure? ==> r.error == StackUnderflow)
      && (r.Success? ==> Stack(r.value) == t[..|t| - 1] + [ApplyUn(op, t[|t| - 1])])
      && (r.Success? ==> r.value.ip == vm.ip && OtherStacksKept(vm, r.value))
  {
  }
}

=== FILE: vm_state.dfy ===
/**
 * The interpreter's state and its stack primitives.
 *
 * The program keeps three stacks at the top of its memory block, 1 KiB
 * (256 words) each: locals below the return stack below the operand stack.
 * Each stack pointer is a word cursor into that same memory, so a stack
 * word is the little-endian word stored at its slot, and a store through
 * LW/SW addresses into a stack region is seen by the stack. Words above a
 * cursor keep whatever was stored there last (BEGIN exposes them again).
 * The program keeps raw pointers and performs no bounds check; the model
 * stops with a Fault where a cursor would leave its region.
 */
module VmState {
  import opened Wrappers
  import opened Bytes
  import opened Dma
  import MemoryMap

  const SP_SIZE: nat := 1024
  const RP_SIZE: nat := 1024
  const LOCAL_SIZE: nat := 1024

  const SP_OFFSET: nat := MEM_SIZE - SP_SIZE
  const RP_OFFSET: nat := MEM_SIZE - SP_SIZE - RP_SIZE
  const LOCAL_OFFSET: nat := MEM_SIZE - SP_SIZE - RP_SIZE - LOCAL_SIZE

  /** Capacity of each stack in words. */
  const STACK_WORDS: nat := 256

  datatype Fault =
    | UnknownOpcode(op: Byte)         // unimplemented!() on an unassigned byte
    | IpOutsideMemory(ip: nat)        // the instruction pointer reads past the block
    | StackOverflow
    | StackUnderflow
    | ReturnStackOverflow
    | ReturnStackUnderflow
    | LocalsOutOfRange
    | DivideByZero                    // wrapping_div by zero panics
    | ShiftOverflow                   // a shift by 32 or more panics in a debug build
    | RamOutOfBounds(addr: nat)       // a word access that starts in RAM but runs past its end
    | DeviceAbort                     // the machine's device handler did not return
    | InvalidState                    // a cursor outside its region; no run from a valid state reaches one

  /**
   * The machine state. Each cursor counts words: the program's pointer sp
   * is the byte address SP_OFFSET + 4 * sp, and likewise for rp and local.
   */
  datatype VM = VM(mem: Ram, ip: nat, sp: nat, rp: nat, local: nat)

  /** A value together with the state after producing it. */
  datatype Took = Took(vm: VM, value: Word)

  /** Each cursor lies inside its own region. */
  predicate Valid(vm: VM) {
    vm.sp <= STACK_WORDS && vm.rp <= STACK_WORDS && vm.local <= STACK_WORDS
  }

  /** The n words stored little-endian from byte address base upward, bottom first. */
  function Words(m: Ram, base: nat, n: nat): (r: seq<Word>)
    requires base + 4 * n <= MEM_SIZE
    ensures |r| == n
  {
    seq(n, k requires 0 <= k < n => ReadWord(m, base + 4 * k))
  }

  /** The operand stack, bottom first. */
  function Stack(vm: VM): seq<Word>
    requires Valid(vm)
  {
    Words(vm.mem, SP_OFFSET, vm.sp)
  }

  /** The return stack, bottom first. */
  function Returns(vm: VM): seq<Word>
    requires Valid(vm)
  {
    Words(vm.mem, RP_OFFSET, vm.rp)
  }

  /** The reserved local slots, bottom first; local 0 is the last one. */
  function Locals(vm: VM): seq<Word>
    requires Valid(vm)
  {
    Words(vm.mem, LOCAL_OFFSET, vm.local)
  }

  /** Memory that agrees outside lo..hi-1 holds the same words in a range that avoids it. */
  lemma WordsFrame(m1: Ram, m2: Ram, base: nat, n: nat, lo: int, hi: int)
    requires base + 4 * n <= MEM_SIZE
    requires ChangedOnly(m1, m2, lo, hi)
    requires hi <= base || base + 4 * n <= lo
    ensures Words(m2, base, n) == Words(m1, base, n)
  {
    forall k | 0 <= k < n
      ensures Words(m2, base, n)[k] == Words(m1, base, n)[k]
    {
      ReadWordFrame(m1, m2, base + 4 * k);
    }
  }

  /** Writing the slot just above n words extends them by that word. */
  lemma WordsPush(m: Ram, base: nat, n: nat, v: Word)
    requires base + 4 * (n + 1) <= MEM_SIZE
    ensures Words(WriteWord(m, base + 4 * n, v), base, n + 1) == Words(m, base, n) + [v]
  {
    var m2 := WriteWord(m, base + 4 * n, v);
    forall k | 0 <= k < n
      ensures Words(m2, base, n + 1)[k] == Words(m, base, n)[k]
    {
      ReadWriteOther(m, base + 4 * n, v, base + 4 * k);
    }
    ReadWriteSame(m, base + 4 * n, v);
  }

  /** Memory that differs from m1 only in slot i, which holds v, holds word i replaced by v. */
  lemma WordsWrite(m1: Ram, m2: Ram, base: nat, n: nat, i: nat, v: Word)
    requires base + 4 * n <= MEM_SIZE && i < n
    requires ChangedOnly(m1, m2, base + 4 * i, base + 4 * i + 4)
    requires m2[base + 4 * i..base + 4 * i + 4] == LeBytes(v)
    ensures Words(m2, base, n) == Words(m1, base, n)[i := v]
  {
    forall k | 0 <= k < n && k != i
      ensures Words(m2, base, n)[k] == Words(m1, base, n)[k]
    {
      ReadWordFrame(m1, m2, base + 4 * k);
    }
    FromLeOfLeBytes(v);
  }

  /** Writing slot i of n words replaces word i and no other. */
  lemma WordsUpdate(m: Ram, base: nat, n: nat, i: nat, v: Word)
    requires base + 4 * n <= MEM_SIZE && i < n
    ensures Words(WriteWord(m, base + 4 * i, v), base, n) == Words(m, base, n)[i := v]
  {
    WordsWrite(m, WriteWord(m, base + 4 * i, v), base, n, i, v);
  }

  /** n + k words are the first n followed by the k after them. */
  lemma WordsAppend(m: Ram, base: nat, n: nat, k: nat)
    requires base + 4 * (n + k) <= MEM_SIZE
    ensures Words(m, base, n + k) == Words(m, base, n) + Words(m, base + 4 * n, k)
  {
  }

  /** Putting back the top word of s gives s. */
  lemma PopPush(s: seq<Word>)
    requires 1 <= |s|
    ensures s[..|s| - 1] + [s[|s| - 1]] == s
  {
  }

  /** Taking off a word just pushed gives it and the stack below. */
  lemma PushPop(s: seq<Word>, x: Word)
    ensures (s + [x])[..|s|] == s && (s + [x])[|s|] == x
  {
  }

  /** The first k of n words are the k words at the same base. */
  lemma WordsPrefix(m: Ram, base: nat, n: nat, k: nat)
    requires base + 4 * n <= MEM_SIZE && k <= n
    ensures Words(m, base, n)[..k] == Words(m, base, k)
  {
  }

  /** A fresh machine: zeroed memory, empty stacks, ip at the reset vector. */
  function New(): (vm: VM)
    ensures Valid(vm)
    ensures Stack(vm) == [] && Returns(vm) == [] && Locals(vm) == []
    ensures vm.ip == MemoryMap.RESET_VECTOR
    ensures forall i :: 0 <= i < MEM_SIZE ==> vm.mem[i] == 0
  {
    VM(seq(MEM_SIZE, _ => 0 as Byte), MemoryMap.RESET_VECTOR, 0, 0, 0)
  }

  /**
   * Copies a program image to the reset vector. None when the image does
   * not fit (the slice index panics).
   */
  function Load(vm: VM, data: seq<Byte>): (r: Option<VM>)
    ensures r.Some? <==> MemoryMap.RESET_VECTOR + |data| <= MEM_SIZE
    ensures r.Some? ==> HoldsAt(r.value.mem, MemoryMap.RESET_VECTOR, data)
    ensures r.Some? ==> ChangedOnly(vm.mem, r.value.mem, MemoryMap.RESET_VECTOR, MemoryMap.RESET_VECTOR + |data|)
    ensures r.Some? ==> r.value.(mem := vm.mem) == vm
  {
    match Write(vm.mem, MemoryMap.RESET_VECTOR, data)
    case Some(m) => Some(vm.(mem := m))
    case None => None
  }

  /**
   * Stores v in the slot above the operand stack and moves sp past it; only
   * that slot's four bytes change, so the other stacks are as before.
   */
  function Push(vm: VM, v: Word): (r: Result<VM, Fault>)
    requires Valid(vm)
    ensures r.Success? <==> |Stack(vm)| < STACK_WORDS
    ensures r.Failure? ==> r.error == StackOverflow
    ensures r.Success? ==> Valid(r.value) && Stack(r.value) == Stack(vm) + [v]
    ensures r.Success? ==> Returns(r.value) == Returns(vm) && Locals(r.value) == Locals(vm)
    ensures r.Success? ==> r.value == vm.(mem := r.value.mem, sp := vm.sp + 1)
    ensures r.Success? ==> ChangedOnly(vm.mem, r.value.mem, SP_OFFSET + 4 * vm.sp, SP_OFFSET + 4 * vm.sp + 4)
  {
    if vm.sp < STACK_WORDS then
      var slot := SP_OFFSET + 4 * vm.sp;
      var m := WriteWord(vm.mem, slot, v);
      WordsPush(vm.mem, SP_OFFSET, vm.sp, v);
      WordsFrame(vm.mem, m, RP_OFFSET, vm.rp, slot, slot + 4);
      WordsFrame(vm.mem, m, LOCAL_OFFSET, vm.local, slot, slot + 4);
      Success(vm.(mem := m, sp := vm.sp + 1))
    else
      Failure(StackOverflow)
  }

  /** Removes and yields the top of the operand stack; the slot keeps its word. */
  function Pop(vm: VM): (r: Result<Took, Fault>)
    requires Valid(vm)
    ensures r.Success? <==> |Stack(vm)| >= 1
    ensures r.Failure? ==> r.error == StackUnderflow
    ensures r.Success? ==> r.value.vm == vm.(sp := vm.sp - 1) && Valid(r.value.vm)
    ensures r.Success? ==> r.value.value == Stack(vm)[|Stack(vm)| - 1]
    ensures r.Success? ==> Stack(r.value.vm) == Stack(vm)[..|Stack(vm)| - 1]
  {
    if vm.sp >= 1 then
      WordsPrefix(vm.mem, SP_OFFSET, vm.sp, vm.sp - 1);
      Success(Took(vm.(sp := vm.sp - 1), ReadWord(vm.mem, SP_OFFSET + 4 * (vm.sp - 1))))
    else
      Failure(StackUnderflow)
  }

  /** The top word, without removing it. */
  function Peek(vm: VM): (r: Result<Word, Fault>)
    requires Valid(vm)
    ensures r.Success? <==> |Stack(vm)| >= 1
    ensures r.Failure? ==> r.error == StackUnderflow
    ensures r.Success? ==> r.value == Stack(vm)[|Stack(vm)| - 1]
  {
    if vm.sp >= 1 then
      Success(ReadWord(vm.mem, SP_OFFSET + 4 * (vm.sp - 1)))
    else
      Failure(StackUnderflow)
  }

  /** The word n places below the top (0 is the top). */
  function PeekN(vm: VM, n: nat): (r: Result<Word, Fault>)
    requires Valid(vm)
    ensures r.Success? <==> n < |Stack(vm)|
    ensures r.Failure? ==> r.error == StackUnderflow
    ensures r.Success? ==> r.value == Stack(vm)[|Stack(vm)| - 1 - n]
  {
    if n < vm.sp then
      Success(ReadWord(vm.mem, SP_OFFSET + 4 * (vm.sp - 1 - n)))
    else
      Failure(StackUnderflow)
  }

  /** Stores v in the slot above the return stack and moves rp past it; the other stacks are as before. */
  function RPush(vm: VM, v: Word): (r: Result<VM, Fault>)
    requires Valid(vm)
    ensures r.Success? <==> |Returns(vm)| < STACK_WORDS
    ensures r.Failure? ==> r.error == ReturnStackOverflow
    ensures r.Success? ==> Valid(r.value) && Returns(r.value) == Returns(vm) + [v]
    ensures r.Success? ==> Stack(r.value) == Stack(vm) && Locals(r.value) == Locals(vm)
    ensures r.Success? ==> r.value == vm.(mem := r.value.mem, rp := vm.rp + 1)
    ensures r.Success? ==> ChangedOnly(vm.mem, r.value.mem, RP_OFFSET + 4 * vm.rp, RP_OFFSET + 4 * vm.rp + 4)
  {
    if vm.rp < STACK_WORDS then
      var slot := RP_OFFSET + 4 * vm.rp;
      var m := WriteWord(vm.mem, slot, v);
      WordsPush(vm.mem, RP_OFFSET, vm.rp, v);
      WordsFrame(vm.mem, m, SP_OFFSET, vm.sp, slot, slot + 4);
      WordsFrame(vm.mem, m, LOCAL_OFFSET, vm.local, slot, slot + 4);
      Success(vm.(mem := m, rp := vm.rp + 1))
    else
      Failure(ReturnStackOverflow)
  }

  /** Removes and yields the top of the return stack. */
  function RPop(vm: VM): (r: Result<Took, Fault>)
    requires Valid(vm)
    ensures r.Success? <==> |Returns(vm)| >= 1
    ensures r.Failure? ==> r.error == ReturnStackUnderflow
    ensures r.Success? ==> r.value.vm == vm.(rp := vm.rp - 1) && Valid(r.value.vm)
    ensures r.Success? ==> r.value.value == Returns(vm)[|Returns(vm)| - 1]
    ensures r.Success? ==> Returns(r.value.vm) == Returns(vm)[..|Returns(vm)| - 1]
  {
    if vm.rp >= 1 then
      WordsPrefix(vm.mem, RP_OFFSET, vm.rp, vm.rp - 1);
      Success(Took(vm.(rp := vm.rp - 1), ReadWord(vm.mem, RP_OFFSET + 4 * (vm.rp - 1))))
    else
      Failure(ReturnStackUnderflow)
  }

  /** The top of the return stack, without removing it. */
  function RPeek(vm: VM): (r: Result<Word, Fault>)
    requires Valid(vm)
    ensures r.Success? <==> |Returns(vm)| >= 1
    ensures r.Failure? ==> r.error == ReturnStackUnderflow
    ensures r.Success? ==> r.value == Returns(vm)[|Returns(vm)| - 1]
  {
    if vm.rp >= 1 then
      Success(ReadWord(vm.mem, RP_OFFSET + 4 * (vm.rp - 1)))
    else
      Failure(ReturnStackUnderflow)
  }

  /**
   * Reserves n more local slots. The slots are not cleared: they hold
   * whatever words were stored there before.
   */
  function LBegin(vm: VM, n: nat): (r: Result<VM, Fault>)
    requires Valid(vm)
    ensures r.Success? <==> |Locals(vm)| + n <= STACK_WORDS
    ensures r.Failure? ==> r.error == LocalsOutOfRange
    ensures r.Success? ==> r.value == vm.(local := vm.local + n) && Valid(r.value)
    ensures r.Success? ==> Locals(r.value) == Locals(vm) + Words(vm.mem, LOCAL_OFFSET + 4 * vm.local, n)
  {
    if vm.local + n <= STACK_WORDS then
      WordsAppend(vm.mem, LOCAL_OFFSET, vm.local, n);
      Success(vm.(local := vm.local + n))
    else
      Failure(LocalsOutOfRange)
  }

  /** Releases the last n local slots. */
  function LEnd(vm: VM, n: nat): (r: Result<VM, Fault>)
    requires Valid(vm)
    ensures r.Success? <==> n <= |Locals(vm)|
    ensures r.Failure? ==> r.error == LocalsOutOfRange
    ensures r.Success? ==> r.value == vm.(local := vm.local - n) && Valid(r.value)
    ensures r.Success? ==> Locals(r.value) == Locals(vm)[..|Locals(vm)| - n]
  {
    if n <= vm.local then
      WordsPrefix(vm.mem, LOCAL_OFFSET, vm.local, vm.local - n);
      Success(vm.(local := vm.local - n))
    else
      Failure(LocalsOutOfRange)
  }

  /** Local i, counted down from the most recently reserved slot. */
  function LGet(vm: VM, i: nat): (r: Result<Word, Fault>)
    requires Valid(vm)
    ensures r.Success? <==> i < |Locals(vm)|
    ensures r.Failure? ==> r.error == LocalsOutOfRange
    ensures r.Success? ==> r.value == Locals(vm)[|Locals(vm)| - 1 - i]
  {
    if i < vm.local then
      Success(ReadWord(vm.mem, LOCAL_OFFSET + 4 * (vm.local - 1 - i)))
    else
      Failure(LocalsOutOfRange)
  }

  /** Overwrites local i in memory; the other stacks are as before. */
  function LSet(vm: VM, i: nat, v: Word): (r: Result<VM, Fault>)
    requires Valid(vm)
    ensures r.Success? <==> i < |Locals(vm)|
    ensures r.Failure? ==> r.error == LocalsOutOfRange
    ensures r.Success? ==> Valid(r.value) && Locals(r.value) == Locals(vm)[|Locals(vm)| - 1 - i := v]
    ensures r.Success? ==> Stack(r.value) == Stack(vm) && Returns(r.value) == Returns(vm)
    ensures r.Success? ==> r.value == vm.(mem := r.value.mem)
    ensures r.Success? ==> var slot := LOCAL_OFFSET + 4 * (vm.local - 1 - i);
      ChangedOnly(vm.mem, r.value.mem, slot, slot + 4)
  {
    if i < vm.local then
      var slot := LOCAL_OFFSET + 4 * (vm.local - 1 - i);
      LocalWrite(vm, vm.local - 1 - i, v);
      Success(vm.(mem := WriteWord(vm.mem, slot, v)))
    else
      Failure(LocalsOutOfRange)
  }

  /** Writing local slot j replaces that local and leaves the other stacks alone. */
  lemma LocalWrite(vm: VM, j: nat, v: Word)
    requires Valid(vm) && j < vm.local
    ensures var slot := LOCAL_OFFSET + 4 * j; var r := vm.(mem := WriteWord(vm.mem, slot, v));
      && Valid(r)
      && Locals(r) == Locals(vm)[j := v]
      && Stack(r) == Stack(vm) && Returns(r) == Returns(vm)
      && ChangedOnly(vm.mem, r.mem, slot, slot + 4)
  {
    var slot := LOCAL_OFFSET + 4 * j;
    var m := WriteWord(vm.mem, slot, v);
    WordsUpdate(vm.mem, LOCAL_OFFSET, vm.local, j, v);
    WordsFrame(vm.mem, m, SP_OFFSET, vm.sp, slot, slot + 4);
    WordsFrame(vm.mem, m, RP_OFFSET, vm.rp, slot, slot + 4);
  }
}

=== FILE: wrappers.dfy ===
/** Failure-compatible Option and Result types used throughout the model. */
module Wrappers {

  datatype Option<+T> = None | Some(value: T) {
    predicate IsFailure() {
      None?
    }

    function PropagateFailure<U>(): Option<U>
      requires None?
    {
      None
    }

    function Extract(): T
      requires Some?
    {
      value
    }

    function GetOr(default: T): T {
      match this
      case Some(v) => v
      case None => default
    }
  }

  datatype Result<+R, +E> = Success(value: R) | Failure(error: E) {
    predicate IsFailure() {
      Failure?
    }

    function PropagateFailure<U>(): Result<U, E>
      requires Failure?
    {
      Failure(error)
    }

    function Extract(): R
      requires Success?
    {
      value
    }
  }
}
